=== FILE: README.md ===
# FOIA / RTI automation — a Dafny model of its core

This project models the core of a toolkit that drafts, files, tracks and analyses public-records requests. It covers five regimes: the United States Freedom of Information Act (federal and selected states), India's Right to Information Act 2005, the United Kingdom's Freedom of Information Act 2000, and EU Regulation 1049/2001. The model is written in Dafny, and every property listed below is proved.

One module stands for each source file of the core:

- **Deadlines** (`deadlines.dfy`). Business-day and calendar-day arithmetic over the US federal and UK bank-holiday calendars, the jurisdiction rule table, initial and extended deadlines.
- **Tracker** (`tracker.dfy`). The request lifecycle, the overdue and days-remaining rules, and the request store with its create, get, list, update, note, response and delete operations.
- **Alerts** (`alerts.dfy`). Severity buckets by days left, the recommended action, and the sorted and filtered alert views.
- **Appeals** (`appeals.dfy`). The choice of determination, details, grounds, non-response grounds and fee-waiver argument that an appeal letter is assembled from. Only the US template prints the fee-waiver argument.
- **ResponseParser** (`response_parser.dfy`). What an agency's reply says: the determination, the cited exemptions per jurisdiction, page counts, the tracking number and the fee-waiver outcome. The source's regular expressions become scanners that follow Python's leftmost, ordered-alternative matching.
- **RedactionDetector** (`redaction_detector.dfy`). The rule-based flags, the capped additive risk score (kept in integer tenths), and the appeal recommendation.
- **GeneratorBase** and the five generators (`generator_base.dfy`, `us_federal.dfy`, `us_state.dfy`, `india_rti.dfy`, `uk_foi.dfy`, `eu_requests.dfy`). The date-range phrase, template lookup and merge, agency-name resolution through keys, aliases and substrings, and the fields and metadata of a generated request.
- **EmailFiler** and **BatchFiler** (`email_filer.dfy`, `batch_filer.dfy`). The subject line, the HTML alternative, message formatting and the branches of `send`, the portal form, the generator cache, and batch filing with tracking and previews.
- **DispatchConfig** and **DispatchRunner** (`dispatch_config.dfy`, `dispatch_runner.dfy`). Persona eligibility and round-robin choice, priority order, configuration loading, and the campaign run under daily and weekly limits.

Four helper modules support them:

- `outcomes.dfy`: `Option` and `Result`.
- `text.dfy`: Python string operations on ASCII case and Python's whitespace set.
- `dates.dfy`: the proleptic Gregorian calendar as day numbers, with its round trip.
- `patterns.dfy` and `sorting.dfy`: scanning and stable sorting.

Some inputs come in as parameters rather than being modelled:

- **Clock.** "Today" and "now" are parameters.
- **New row ids.** The id of a new tracker row is chosen by the storage engine, given as a function that never returns an id in use.
- **Rendered letters.** Each letter's text is an input of its generator.
- **Other oracles.** The mail server's reply, `strptime`, and each generator's output as seen by the filers are parameters of a `World` value.
- **Mail envelopes.** The batch filer's server receives the recipients `send` builds as written (`EmailFiler.RecipientsAsWritten`), which drop the blind copy without TLS. The dispatch runner's server receives the corrected recipients (`EmailFiler.Recipients`). Every persona sends over TLS with no blind copy, so there the two agree (`EmailFiler.RecipientsAgreeWithTls`).

## Model

| member | source | states |
|---|---|---|
| Deadlines.AddBusinessDays | foia_rti/tracker/deadlines.py:80-95 | zero or fewer days give the start date back unchanged; otherwise the result is a later day that is neither a weekend day nor a holiday, with exactly `days` such days after the start up to and including it |
| Deadlines.NthBusinessDayUnique | foia_rti/tracker/deadlines.py:86-95 | two days that both close a count of `n` business days from the same start are the same day, so the counted-off deadline is determined by its count |
| Deadlines.AddBusinessDaysLoop | foia_rti/tracker/deadlines.py:86-95 | the day-by-day loop, which skips weekends and holidays, stops on the same day as the counting definition |
| Deadlines.NextBusinessDay | foia_rti/tracker/deadlines.py:88-94 | one loop round's worth of days: the first business day after `d`, with no business day in between |
| Deadlines.AddBusinessDaysMonotone | foia_rti/tracker/deadlines.py:80-95 | a later start or more days never gives an earlier deadline |
| Deadlines.AddBusinessDaysCompose | foia_rti/tracker/deadlines.py:80-95 | counting off `m` business days and then `n` more lands on the same day as counting off `m + n` at once |
| Deadlines.UsLeavesMidweekDay | foia_rti/tracker/deadlines.py:19-50 | the simplified US federal calendar never makes the Tuesday, Wednesday and Thursday of one week all holidays, so the counting loop always finds another business day |
| Deadlines.UsMidweek | foia_rti/tracker/deadlines.py:28-50 | a US federal holiday on a Tuesday is never followed by another on the Wednesday |
| Deadlines.UkLeavesMidweekDay | foia_rti/tracker/deadlines.py:54-73 | the same for the England and Wales bank holidays |
| Deadlines.UkTuesdayPair | foia_rti/tracker/deadlines.py:54-73 | UK bank holidays on a Tuesday and on the Wednesday after it can only be Christmas Day and Boxing Day |
| Deadlines.AddCalendarDays | foia_rti/tracker/deadlines.py:98-100 | the result lies exactly `days` days after the start |
| Deadlines.Put | foia_rti/tracker/deadlines.py:170-173 | storing a rule under a key keeps the other keys and their rules; an existing key keeps its place and a new key goes last |
| Deadlines.UpdateRules | foia_rti/tracker/deadlines.py:170-173 | after merging custom rules the keys are the old keys plus the custom ones, the last custom entry for a key wins, and keys no entry names keep their rule |
| Deadlines.UpdateOrder | foia_rti/tracker/deadlines.py:170-173 | merging custom rules keeps the existing keys first, in their order |
| Deadlines.NewCalculator | foia_rti/tracker/deadlines.py:170-173 | the calculator holds the four built-in jurisdictions first and in order, overridden or extended by the custom rules |
| Deadlines.DefaultCalculator | foia_rti/tracker/deadlines.py:107-173 | with no custom rules the table is exactly the four built-in rules |
| Deadlines.GetRule | foia_rti/tracker/deadlines.py:215-233 | an exact key gives its rule; otherwise a name starting "US-State" gives the generic ten-business-day rule; otherwise the error names the jurisdiction and lists the known keys in insertion order |
| Deadlines.StateJurisdictionsUseFallback | foia_rti/tracker/deadlines.py:220-229 | every "US-State..." name gets the generic rule, whatever the state's own response period |
| Deadlines.UnknownJurisdiction | foia_rti/tracker/deadlines.py:230-233 | an unknown jurisdiction is refused with the message listing "US-Federal, India, UK, EU" |
| Deadlines.Calculate | foia_rti/tracker/deadlines.py:175-185 | fails exactly when the rule lookup fails, with its message; otherwise the deadline is the rule's initial period counted off from the filing date in the rule's kind of day |
| Deadlines.CalculateExtension | foia_rti/tracker/deadlines.py:187-199 | fails exactly when the rule lookup fails; gives no date exactly when the rule grants no extension; otherwise counts the extension off from the original deadline |
| Deadlines.ExtensionCountsFromFiling | foia_rti/tracker/deadlines.py:175-199 | for rules counted in business days, the extended deadline is the sum of both periods counted off from the filing date |
| Deadlines.GetJurisdictionInfo | foia_rti/tracker/deadlines.py:201-210 | fails exactly when the rule lookup fails; otherwise reports the rule's periods, day kind and notes for the name asked about |
| Deadlines.DefaultJurisdictionList | foia_rti/tracker/deadlines.py:212-213 | the built-in jurisdictions are listed in declaration order |
| Deadlines.IndiaExample | foia_rti/tracker/deadlines.py:119-131 | India's 30 calendar days take a request filed on 1 February 2025 to 3 March 2025 |
| Deadlines.FridayPlusOneBusinessDay | foia_rti/tracker/deadlines.py:86-95 | one business day after Friday 7 February 2025 is Monday 10 February 2025 |
| Tracker.AllStatusesListed | foia_rti/tracker/tracker.py:33-49 | every status appears in the declaration-order list that the statistics walk |
| Tracker.EffectiveDeadline | foia_rti/tracker/tracker.py:110-116 | a set extended deadline takes precedence over the original deadline |
| Tracker.DaysUntilDeadline | foia_rti/tracker/tracker.py:115-119 | no count exactly when there is no effective deadline; otherwise today plus the count is the effective deadline, whatever the status |
| Tracker.TerminalNeverOverdue | foia_rti/tracker/tracker.py:102-109 | complete, denied, withdrawn and no-records requests are never overdue, whatever their dates |
| Tracker.OverdueIffPastDeadline | foia_rti/tracker/tracker.py:110-119 | for a non-terminal request, overdue exactly when the days-until count is negative; with no deadline at all it is neither overdue nor counted |
| Tracker.ApplyColumn | foia_rti/tracker/tracker.py:240-243 | one keyword assignment stores its value in its own column and leaves every other column alone; an unknown keyword changes nothing |
| Tracker.ApplyAllColumn | foia_rti/tracker/tracker.py:241-243 | after the keyword loop each column holds the last value assigned to it, or its old value |
| Tracker.StatusUnassigned | foia_rti/tracker/tracker.py:240-243 | without a `status` keyword the status set before the loop survives it |
| Tracker.NamedUnassigned | foia_rti/tracker/tracker.py:143-158 | when no keyword repeats a named parameter, the agency, jurisdiction, topic and request text are the ones passed |
| Tracker.EmptyStoreValid | foia_rti/tracker/tracker.py:133-136 | the empty table satisfies the store invariant: order and table agree, ids are their keys, stamps rise, reference ids are unique |
| Tracker.FirstUnknown | foia_rti/tracker/tracker.py:152-158 | finds a keyword naming no column exactly when there is one, and it is one of the arguments |
| Tracker.FirstRepeated | foia_rti/tracker/tracker.py:143-158 | finds a keyword repeating a named parameter exactly when there is one |
| Tracker.Create | foia_rti/tracker/tracker.py:143-162 | succeeds exactly when every keyword names a column other than the named parameters and the resulting reference id is unused; the new row is stored under a fresh id, appended to the order, holds the named values, defaults to draft, and every column is the last keyword value or the default |
| Tracker.CreatedRecord | foia_rti/tracker/tracker.py:152-158 | the keyword arguments keep the fresh row's id, stamp and named parameters and set every other column to its last value |
| Tracker.CreatedIsApplied | foia_rti/tracker/tracker.py:143-162 | a created row is the default row with the keyword arguments applied in order, and the store stays valid |
| Tracker.AppendValid | foia_rti/tracker/tracker.py:159-161 | appending a row with a fresh id, the current stamp and an unused reference id keeps the store invariant |
| Tracker.Get | foia_rti/tracker/tracker.py:166-168 | finds a row exactly when the id is stored, and it is that row |
| Tracker.GetByReference | foia_rti/tracker/tracker.py:170-176 | finds nothing exactly when no row holds the reference id; otherwise a stored row holding it |
| Tracker.GetByReferenceExact | foia_rti/tracker/tracker.py:170-176 | since reference ids are unique, the lookup returns the one row holding it |
| Tracker.LikeSubstring | foia_rti/tracker/tracker.py:193 | the pattern `%q%`, with no wildcard in `q`, matches exactly the texts containing `q` |
| Tracker.AgencyFilterLiteral | foia_rti/tracker/tracker.py:192-193 | an agency filter holding neither `%` nor `_` is the case-insensitive substring test |
| Tracker.UnderscoreMatchesAnyAgency | foia_rti/tracker/tracker.py:192-193 | the agency text is used as a pattern, unescaped: a filter of `_` matches every non-empty agency name |
| Tracker.ListingUnique | foia_rti/tracker/tracker.py:194 | at most one sequence lists exactly the stored rows matching the filters, newest first |
| Tracker.AllMatching | foia_rti/tracker/tracker.py:186-194 | reading the creation order yields that listing: every stored matching row, nothing else, newest first |
| Tracker.ListRequests | foia_rti/tracker/tracker.py:178-195 | the `offset`/`limit` window of the newest-first listing of the rows matching the jurisdiction, status and `ILIKE '%agency%'` filters; hence at most `limit` rows, each stored and matching, newest first |
| Tracker.ListRequestsComplete | foia_rti/tracker/tracker.py:186-195 | with a large enough limit and no offset, a stored row is listed exactly when it matches the filters |
| Tracker.NewestMatchingOrdered | foia_rti/tracker/tracker.py:194 | rows listed from the creation order come out newest first |
| Tracker.Window | foia_rti/tracker/tracker.py:195 | the offset-and-limit slice: its length and its elements |
| Tracker.OverdueRowIsOverdue | foia_rti/tracker/tracker.py:197-218 | the query's filter and the per-request overdue rule agree on every row and every day |
| Tracker.GetOverdue | foia_rti/tracker/tracker.py:197-218 | returns every stored row that is overdue on the given day, only those, and each once |
| Tracker.OverdueRowsOrdered | foia_rti/tracker/tracker.py:206-218 | the query reads the table in creation order, so the rows it returns have rising creation stamps and hence distinct ids |
| Tracker.OverdueCount | foia_rti/tracker/tracker.py:197-218 | the query returns as many rows as there are stored overdue requests |
| Tracker.GetStats | foia_rti/tracker/tracker.py:220-229 | the total is the number of rows, the overdue count is the overdue query's length, which is the number of stored overdue requests, and a status has an entry exactly when some row has it, with that row count |
| Tracker.StatsAddUp | foia_rti/tracker/tracker.py:220-229 | the per-status counts add up to the total, since every row has exactly one status |
| Tracker.UpdateStatus | foia_rti/tracker/tracker.py:233-246 | a missing id gives nothing and changes nothing; otherwise the row gets the new status and every other column holds its last keyword value or its old one; a `status` keyword repeated, or a reference id clash, is refused |
| Tracker.UpdatedRecord | foia_rti/tracker/tracker.py:240-243 | the updated row keeps its id and stamp, has the new status, and has every other column from the keywords or as before |
| Tracker.AppendedNotes | foia_rti/tracker/tracker.py:255 | empty or missing notes become the entry; otherwise the old notes, a newline, then the entry |
| Tracker.AddNote | foia_rti/tracker/tracker.py:248-258 | a missing id gives nothing; otherwise only the notes column changes, to the old notes with the timestamped entry appended, and the store stays valid |
| Tracker.AppendedNotesGrow | foia_rti/tracker/tracker.py:253-255 | the notes always end with the new entry and keep the old notes as a prefix |
| Tracker.AddNoteKeepsLog | foia_rti/tracker/tracker.py:248-258 | the note log only grows: old notes are a prefix, the entry is the end, and no other column changes |
| Tracker.RecordResponse | foia_rti/tracker/tracker.py:260-286 | a missing id gives nothing; otherwise the row gets the counts, exemptions and summary, the response date or today, and status partial response exactly when pages were withheld, else complete, whatever the status before |
| Tracker.RecordResponseKeepsOthers | foia_rti/tracker/tracker.py:274-283 | recording a response leaves every column it does not write unchanged |
| Tracker.RecordedResponseNotOverdue | foia_rti/tracker/tracker.py:260-286 | a request whose response was recorded with nothing withheld is never overdue afterwards |
| Tracker.Delete | foia_rti/tracker/tracker.py:290-297 | returns true exactly when the id was stored; afterwards the id is gone, every other row is as it was, and the store stays valid |
| Alerts.Bucket | foia_rti/tracker/alerts.py:131-162 | overdue exactly when days left are negative; urgent for 0 to 2; warning for 3 to 5; info for 6 to 10; no alert beyond 10 |
| Alerts.UrgencyMonotone | foia_rti/tracker/alerts.py:138-162 | fewer days left never gives a less urgent bucket |
| Alerts.OverdueAction | foia_rti/tracker/alerts.py:176-203 | the overdue advice is chosen by exact equality with "US-Federal", "India", "UK" or "EU", and is the generic follow-up exactly for any other name |
| Alerts.StateOverdueActionGeneric | foia_rti/tracker/alerts.py:176-203 | a "US-State..." request gets the generic follow-up advice |
| Alerts.UpcomingAction | foia_rti/tracker/alerts.py:205-211 | prepare an appeal at 2 days or fewer, send a courtesy follow-up at 3 to 5, otherwise monitor |
| Alerts.CheckRequest | foia_rti/tracker/alerts.py:131-174 | no alert exactly when there is no effective deadline or it is more than 10 days away; otherwise the alert carries the request's id, agency, jurisdiction and topic, the effective deadline, the days left to it, the matching bucket and the overdue or upcoming advice |
| Alerts.OverdueAlertIffOverdue | foia_rti/tracker/alerts.py:131-153 | for a request in a scanned status, an overdue alert is made exactly when the tracker calls the request overdue |
| Alerts.AlertsFor | foia_rti/tracker/alerts.py:105-108 | every alert comes from one of the listed rows, and every row that yields an alert contributes it |
| Alerts.Scan | foia_rti/tracker/alerts.py:95-108 | every scanned alert is the alert of a stored request in one of the five active statuses |
| Alerts.CheckAll | foia_rti/tracker/alerts.py:91-118 | a permutation of the scanned alerts, sorted by severity rank (overdue, urgent, warning, info) and then by days remaining |
| Alerts.CheckAllStable | foia_rti/tracker/alerts.py:117 | alerts with equal sort keys keep the scan order, as Python's sort is stable |
| Alerts.CheckAllOverdueFirst | foia_rti/tracker/alerts.py:110-117 | no alert before an overdue one is anything but overdue |
| Alerts.CheckAllComplete | foia_rti/tracker/alerts.py:103-108 | every stored active request that yields an alert has it in the result, given at most 10000 rows per status |
| Alerts.CheckOverdue | foia_rti/tracker/alerts.py:120-122 | exactly the overdue alerts of the full list, most overdue first |
| Alerts.CheckOverdueSound | foia_rti/tracker/alerts.py:120-122 | each reported alert is for a stored active request the tracker calls overdue |
| Alerts.CheckOverdueComplete | foia_rti/tracker/alerts.py:120-122 | every stored overdue request in an active status is reported |
| Alerts.CheckUpcoming | foia_rti/tracker/alerts.py:124-129 | exactly the alerts of the full list due in 1 to `within` days, still sorted |
| Alerts.CheckUpcomingBounds | foia_rti/tracker/alerts.py:124-129 | an upcoming alert is never due today, never overdue and never more than 10 days away |
| ResponseParser.DetectDetermination | foia_rti/analysis/response_parser.py:165-190 | the result is the first category, in the order full grant, partial grant, denial, no records, with a phrase occurring in the lower-cased text; "unknown" when none does |
| ResponseParser.DeterminationIgnoresCase | foia_rti/analysis/response_parser.py:166-168 | lower-casing the letter first changes nothing |
| ResponseParser.RedactedBeatsDenied | foia_rti/analysis/response_parser.py:170-190 | a letter mentioning both "redacted" and "denied", and no full-grant phrase, reads as a partial grant |
| ResponseParser.CitationFound | foia_rti/analysis/response_parser.py:198-199 | every `(b)(N)` citation, with its optional `(A)`-`(F)` suffix, occurring in the text is found |
| ResponseParser.CitationSound | foia_rti/analysis/response_parser.py:198-199 | every citation found occurs in the text at some position |
| ResponseParser.CitationNoStraddle | foia_rti/analysis/response_parser.py:198-199 | no citation can start inside another, so the left-to-right scan misses none |
| ResponseParser.ExemptionWordFound | foia_rti/analysis/response_parser.py:203-204 | the group of every "Exemption N" mention, in any letter case, is found |
| ResponseParser.ExemptionWordSound | foia_rti/analysis/response_parser.py:203-204 | every group found is the group of some mention in the text |
| ResponseParser.AppendAbsent | foia_rti/analysis/response_parser.py:204-207 | appending only absent strings keeps the list as a prefix, adds exactly the new strings and keeps the list free of duplicates |
| ResponseParser.USExemptions | foia_rti/analysis/response_parser.py:196-207 | no duplicates; the sorted distinct citations come first, then the `(b)(N)` forms of the "Exemption N" groups not already cited, in order of first mention; the entries are exactly those two kinds |
| ResponseParser.AppendAbsentOrder | foia_rti/analysis/response_parser.py:204-207 | the appended strings are new to the list, and they come in the order of their first mention |
| ResponseParser.ExemptionLetterStaysInside | foia_rti/analysis/response_parser.py:203-207 | "Exemption 7(C)" is listed as `(b)(7(C))`, the letter inside the inner parentheses |
| ResponseParser.UKSectionNumberDigits | foia_rti/analysis/response_parser.py:210-211 | every United Kingdom section number found is one or two digits |
| ResponseParser.UKSectionSound | foia_rti/analysis/response_parser.py:210-211 | every section number found is the group of some match in the text |
| ResponseParser.UKSectionNoStraddle | foia_rti/analysis/response_parser.py:210-211 | no "Section N" match can start inside another |
| ResponseParser.UKExemptions | foia_rti/analysis/response_parser.py:209-212 | the list is strictly sorted as strings, and "Section N" is listed exactly when N was cited |
| ResponseParser.IndiaClauseLetter | foia_rti/analysis/response_parser.py:215-216 | every clause found is one letter from a to j |
| ResponseParser.IndiaSectionSound | foia_rti/analysis/response_parser.py:215-216 | every clause found is the group of some match in the text |
| ResponseParser.IndiaExemptions | foia_rti/analysis/response_parser.py:214-217 | the list is strictly sorted, and "Section 8(1)(x)" is listed exactly when clause x was cited |
| ResponseParser.ExtractExemptions | foia_rti/analysis/response_parser.py:193-219 | "US-Federal" and "US-State..." names use the United States list, "UK" and "India" their own, and every other jurisdiction gets an empty list |
| ResponseParser.ExtractedDistinct | foia_rti/analysis/response_parser.py:193-219 | whatever the jurisdiction, no exemption is listed twice |
| ResponseParser.CitationListed | foia_rti/analysis/response_parser.py:196-200 | every citation in a United States letter is listed |
| ResponseParser.ExemptionWordListed | foia_rti/analysis/response_parser.py:202-207 | every "Exemption N" mention in a United States letter is listed as `(b)(N)` |
| ResponseParser.UKSectionListed | foia_rti/analysis/response_parser.py:209-212 | every section cited in a United Kingdom letter is listed |
| ResponseParser.IndiaClauseListed | foia_rti/analysis/response_parser.py:214-217 | every clause of section 8(1) cited in an Indian letter is listed |
| ResponseParser.SchemeOf | foia_rti/analysis/response_parser.py:227-234 | the United States table for "US-Federal" and "US-State..." names, the United Kingdom and Indian tables for "UK" and "India", none otherwise |
| ResponseParser.FirstEntry | foia_rti/analysis/response_parser.py:237-240 | the table entry found is the first, in table order, whose pattern occurs in the exemption |
| ResponseParser.MapExemptionDetails | foia_rti/analysis/response_parser.py:222-242 | every key is a listed exemption; an exemption has an entry exactly when some table pattern occurs in it, and gets the first such description; no table means no details |
| ResponseParser.BareSevenHasNoDetails | foia_rti/analysis/response_parser.py:222-242 | a bare `(b)(7)` matches no table entry, since every seventh-exemption key names a subsection |
| ResponseParser.CountGroupDigits | foia_rti/analysis/response_parser.py:248-273 | every page count captured is one to six digits |
| ResponseParser.CountGroupsEmpty | foia_rti/analysis/response_parser.py:248-273 | nothing is captured exactly when the pattern matches nowhere |
| ResponseParser.SumCountsBound | foia_rti/analysis/response_parser.py:254-279 | each match adds at most 999999 pages |
| ResponseParser.PageCount | foia_rti/analysis/response_parser.py:245-281 | zero when the pattern matches nowhere, and at most 999999 per match |
| ResponseParser.PrefixedText | foia_rti/analysis/response_parser.py:287-294 | the first pattern's text is missing exactly when it matches nowhere; otherwise the non-empty leftmost match |
| ResponseParser.YearFirstText | foia_rti/analysis/response_parser.py:288-294 | the same for the year-first pattern |
| ResponseParser.LabelledText | foia_rti/analysis/response_parser.py:289-294 | the same for the labelled pattern |
| ResponseParser.LabelledKeepsLabel | foia_rti/analysis/response_parser.py:289-294 | a labelled match starts with its label word, so the reported number keeps a prefix such as "Case No:" |
| ResponseParser.TrackingNumber | foia_rti/analysis/response_parser.py:284-295 | the whole match of the first pattern, in priority order, that matches anywhere |
| ResponseParser.TrackingNumberEmpty | foia_rti/analysis/response_parser.py:291-295 | the result is empty exactly when none of the three patterns matches anywhere |
| ResponseParser.FeeWaiver | foia_rti/analysis/response_parser.py:313-323 | granted exactly when "fee waiver" and a granting word occur; refused exactly when "fee waiver" and a refusing word but no granting word occur; unknown otherwise |
| ResponseParser.NotGrantedReadsAsGranted | foia_rti/analysis/response_parser.py:315-318 | "fee waiver ... not granted" reads as granted, since "granted" is checked first |
| ResponseParser.Parse | foia_rti/analysis/response_parser.py:136-161 | the raw text is kept, withheld-in-part pages are always 0, every detail key is a listed exemption, exemptions are distinct, and no "fee waiver" means no waiver outcome |
| ResponseParser.ParseJurisdictionOnlyExemptions | foia_rti/analysis/response_parser.py:136-161 | the jurisdiction affects only the exemptions and their details |
| RedactionDetector.Weight | foia_rti/analysis/redaction_detector.py:44-45 | a high flag weighs 4 tenths, a medium one 2, and a low one or any other severity 1 |
| RedactionDetector.Recalculate | foia_rti/analysis/redaction_detector.py:40-47 | with flags the score is between 1 and 10 tenths and an appeal is recommended exactly at 3 tenths or more; with none the score is 0 and the recommendation is left as it was |
| RedactionDetector.AddFlag | foia_rti/analysis/redaction_detector.py:36-38 | the flag is appended, the score is 1 to 10 tenths, and an appeal is recommended exactly at 3 tenths or more |
| RedactionDetector.AddFlagIncremental | foia_rti/analysis/redaction_detector.py:36-47 | recomputing from scratch agrees with adding the new flag's weight to the old score and capping at 10 tenths |
| RedactionDetector.AddFlagMonotone | foia_rti/analysis/redaction_detector.py:36-47 | the score never decreases as flags are added, and a recommended appeal stays recommended |
| RedactionDetector.AddAllConsistent | foia_rti/analysis/redaction_detector.py:36-47 | adding flags one by one keeps the score equal to the capped sum of weights and never lowers it |
| RedactionDetector.FromEmpty | foia_rti/analysis/redaction_detector.py:31-47 | starting from an empty report, the score is the capped weight sum; with no flags it is 0 and no appeal is recommended |
| RedactionDetector.Excessive | foia_rti/analysis/redaction_detector.py:181-219 | no flag when no more is withheld than released (including nothing at all); otherwise one flag, high exactly when more than four fifths of the pages were withheld, else medium |
| RedactionDetector.ExcessiveMonotone | foia_rti/analysis/redaction_detector.py:181-219 | withholding more of the same release never lowers this rule's weight |
| RedactionDetector.MultipleExemptions | foia_rti/analysis/redaction_detector.py:222-241 | one medium flag exactly when four or more exemptions are cited |
| RedactionDetector.BlanketDenial | foia_rti/analysis/redaction_detector.py:243-263 | one high flag exactly when the determination is a denial and no pages were released |
| RedactionDetector.Segregability | foia_rti/analysis/redaction_detector.py:265-285 | one medium flag exactly when pages were withheld in full and none in part |
| RedactionDetector.CitedContains | foia_rti/analysis/redaction_detector.py:287-363 | the `(b)` form of the test adds nothing: an exemption is picked up exactly when it contains the number |
| RedactionDetector.B4Overuse | foia_rti/analysis/redaction_detector.py:287-310 | one low flag for `(b)(4)` exactly when some exemption contains "(4)" |
| RedactionDetector.B5Overuse | foia_rti/analysis/redaction_detector.py:312-336 | one medium flag for `(b)(5)` exactly when some exemption contains "(5)" |
| RedactionDetector.B7Misapplication | foia_rti/analysis/redaction_detector.py:338-363 | one medium flag for `(b)(7)` exactly when some exemption contains "(7)" |
| RedactionDetector.NoVaughnIndex | foia_rti/analysis/redaction_detector.py:365-392 | one low flag exactly when more than 10 pages were withheld in a denial or partial grant that never mentions a Vaughn index |
| RedactionDetector.USFlags | foia_rti/analysis/redaction_detector.py:159-167 | the eight United States rules raise at most eight flags |
| RedactionDetector.UKExemptionFlags | foia_rti/analysis/redaction_detector.py:394-436 | every flag is medium and names one of the exemptions, at most two per exemption |
| RedactionDetector.UKFlagCount | foia_rti/analysis/redaction_detector.py:394-436 | one flag per exemption mentioning 43 and one per exemption mentioning 35 or 36 |
| RedactionDetector.IndiaExemptionFlags | foia_rti/analysis/redaction_detector.py:438-480 | every flag is medium or low and names one of the exemptions, at most two per exemption |
| RedactionDetector.IndiaFlagCount | foia_rti/analysis/redaction_detector.py:438-480 | one flag per exemption mentioning 8(1)(d) and one per exemption mentioning 8(1)(j) |
| RedactionDetector.FlagsGraded | foia_rti/analysis/redaction_detector.py:159-173 | every rule grades its flag high, medium or low |
| RedactionDetector.CountsAddUp | foia_rti/analysis/redaction_detector.py:40-47 | the three severity counts add up to the number of flags, and their weighted sum is the uncapped score |
| RedactionDetector.Summary | foia_rti/analysis/redaction_detector.py:482-499 | the fixed no-patterns sentence exactly when there are no flags; otherwise "Detected ..." ending with the appeal or monitoring advice |
| RedactionDetector.Analyze | foia_rti/analysis/redaction_detector.py:151-176 | the flags are the United States checks for a US jurisdiction, the excessive-redaction flag and the UK or India exemption flags for those two, and none for any other; the score is the capped weight sum of the flags raised, the recommendation holds exactly at 3 tenths or more, the summary is the no-patterns sentence exactly when nothing was flagged, and the United States path raises at most eight flags |
| RedactionDetector.PerExemptionCounts | foia_rti/analysis/redaction_detector.py:168-173 | the United Kingdom and Indian paths raise the withholding flag plus one flag per matching exemption |
| RedactionDetector.OtherJurisdictionClean | foia_rti/analysis/redaction_detector.py:159-176 | any other jurisdiction gets an empty report with score 0 and the no-patterns summary |
| Appeals.DeniedNeverOverdue | foia_rti/tracker/appeals.py:350-357 | a denied request is never overdue, so the denial branch comes first without hiding a constructive denial |
| Appeals.DeterminationType | foia_rti/tracker/appeals.py:350-357 | denial exactly for denied requests, partial denial exactly for partial responses, constructive denial exactly for other overdue requests, adverse determination otherwise |
| Appeals.BuildDenialDetails | foia_rti/tracker/appeals.py:328-347 | cited exemptions for a denial that has them; the page counts and exemptions, or "not specified", for a partial response; the missed deadline for other overdue requests; the inadequate-response text otherwise |
| Appeals.DetailsMatchDetermination | foia_rti/tracker/appeals.py:328-357 | the details paragraph and the determination name the same case, and a denial citing nothing gets the inadequate-response text |
| Appeals.DefaultGrounds | foia_rti/tracker/appeals.py:360-379 | improper exemptions when any are cited, else the missed deadline when overdue, else the inadequate search |
| Appeals.NonResponseFor | foia_rti/tracker/appeals.py:381-413 | the federal, Indian, United Kingdom and European grounds by exact jurisdiction name, the generic text for any other |
| Appeals.StateNonResponseGeneric | foia_rti/tracker/appeals.py:381-413 | a "US-State..." request gets the generic non-response grounds |
| Appeals.FeeWaiverArgument | foia_rti/tracker/appeals.py:416-425 | the fee-waiver argument is added exactly for a requested waiver that was refused: never when the outcome is unknown or granted |
| Appeals.Reference | foia_rti/tracker/appeals.py:269 | the agency's reference id when set and non-empty, else "Tracker #" and the tracker id |
| Appeals.Address | foia_rti/tracker/appeals.py:289-306 | "US-Federal" and "US-State..." letters go to the FOIA Appeals Officer with the determination type; India, UK and EU use their own letter; anything else falls back to the US letter addressed to the Appeals Officer as a denial |
| Appeals.GenerateAppeal | foia_rti/tracker/appeals.py:251-306 | the template, appeal body and determination are the ones the addressing step picks; the filing date is today and the agency and topic are the request's; supplied grounds are used as given and empty grounds fall back to the defaults; the fee-waiver paragraph appears exactly on a US-template letter for a requested waiver that was refused, since only the US template has a place for it; details and reference follow the helpers |
| Appeals.NonResponseIsOrdinaryAppeal | foia_rti/tracker/appeals.py:308-323 | the non-response appeal is the ordinary appeal with the jurisdiction's non-response grounds |
| Appeals.GenerateNonResponseAppeal | foia_rti/tracker/appeals.py:308-323 | its grounds are the jurisdiction's non-response grounds; it keeps the addressing step's template, and with it the US-only fee-waiver paragraph for a refused requested waiver |
| Appeals.FeeWaiverUSOnly | foia_rti/tracker/appeals.py:289-306 | an India, UK or EU appeal, whether for a denial or a non-response, never carries the fee-waiver paragraph |
| Appeals.OverdueAppeal | foia_rti/tracker/appeals.py:328-379 | an overdue request with no cited exemptions is argued as a missed deadline throughout, and a US letter calls it a constructive denial |
| GeneratorBase.DateRangeRoundTrip | foia_rti/generators/generator_base.py:44-55 | the date-range phrase loses nothing: both dates, either one, or neither read back from it, for every date Python can represent |
| GeneratorBase.LongFormatParses | foia_rti/generators/generator_base.py:48-54 | a `%B %d, %Y` date reads back from the front of any text, with its exact length |
| GeneratorBase.GetTemplate | foia_rti/generators/generator_base.py:140-146 | the first template whose id is the one asked for, and nothing exactly when no template has that id |
| GeneratorBase.ListTemplates | foia_rti/generators/generator_base.py:148-153 | one summary per template, in order, with the description defaulting to empty; a template without an id or a name fails the whole listing |
| GeneratorBase.ListedTemplatesFound | foia_rti/generators/generator_base.py:140-153 | an id is found by the lookup exactly when it appears in the listing |
| GeneratorBase.MergeTemplate | foia_rti/generators/us_federal.py:228-238 | a given, known template puts its records before the caller's, supplies keywords only when the caller gave none, and supplies its description; an absent, empty or unknown id changes nothing; no other field changes |
| GeneratorBase.MergeTwice | foia_rti/generators/us_federal.py:228-238 | the merge is not idempotent: a second merge of the same context prepends the template's records again and leaves keywords as they were |
| GeneratorBase.Lookup | foia_rti/generators/us_federal.py:221 | a registry lookup finds nothing exactly when the key is not in the registry, and otherwise returns that key's entry |
| GeneratorBase.ResolveByAlias | foia_rti/generators/india_rti.py:358-375 | the result is a registry key or the raw input unchanged, and an input that normalises to a key resolves to that key |
| GeneratorBase.AliasStage | foia_rti/generators/india_rti.py:362-375 | the first alias, in table order, that occurs in the normalised input decides the key; when none occurs the raw input comes back |
| GeneratorBase.ShadowedAlias | foia_rti/generators/india_rti.py:372-374 | an alias that contains an earlier alias can never be the one that decides |
| GeneratorBase.FirstAliasIs | foia_rti/generators/india_rti.py:372-374 | an alias that occurs, with no earlier alias occurring, is the one that decides |
| GeneratorBase.NormalisedUpper | foia_rti/generators/india_rti.py:359 | the normalised input holds no lower-case letter, so a mixed-case key can never match it directly |
| GeneratorBase.CanonicalKey | foia_rti/generators/india_rti.py:359-361 | a key in upper case without surrounding spaces is its own normal form |
| GeneratorBase.EmptyOverlaps | foia_rti/generators/us_federal.py:331-333 | a blank input occurs in every key, so the substring search matches the first key |
| USFederal.RegistryComplete | foia_rti/generators/us_federal.py:24-102 | every registered federal agency has an email address and a portal |
| USFederal.ResolveAgencyKey | foia_rti/generators/us_federal.py:313-334 | the result is a registry key or the raw input; a normalised key is taken as is, and otherwise an exact alias decides |
| USFederal.SubstringStage | foia_rti/generators/us_federal.py:330-334 | failing key and alias, the first registry key that overlaps the input either way decides, and with none the raw input comes back |
| USFederal.BlankResolvesToFirst | foia_rti/generators/us_federal.py:330-333 | a blank agency name resolves to the first registry key, the plant-health service |
| USFederal.KeysResolveToThemselves | foia_rti/generators/us_federal.py:315-318 | every registry key resolves to itself, so resolving twice changes nothing |
| USFederal.Generate | foia_rti/generators/us_federal.py:219-270 | an error exactly when the resolved key is not registered; otherwise the federal jurisdiction, 20 days, the agency's full name, the stripped text, the template-merged context, the portal filing method exactly when the agency has a portal, and the three metadata entries |
| USFederal.GeneratedFederalRequests | foia_rti/generators/us_federal.py:219-270 | every generated federal request prefers the portal and carries a non-empty agency email; an unknown agency is one the resolver handed back unchanged |
| USState.NoStatutoryPeriod | foia_rti/generators/us_state.py:41-330 | exactly North Carolina, Minnesota and Wisconsin have no statutory response period |
| USState.RegistryEmailable | foia_rti/generators/us_state.py:41-330 | every state lists at least one agency and every listed agency has an email address |
| USState.ResolveState | foia_rti/generators/us_state.py:496-505 | the result is a state key or the normalised input with every "US-STATE-" removed; a key is taken as is, and an input matching no key and no state name comes back normalised |
| USState.KeysResolveToThemselves | foia_rti/generators/us_state.py:498-500 | every state key resolves to itself |
| USState.PrefixedKeysResolve | foia_rti/generators/us_state.py:498-500 | "US-State-" followed by a state key resolves to that key |
| USState.FullNameResolves | foia_rti/generators/us_state.py:501-504 | a state's full name, in any letter case, resolves to its key |
| USState.ResolveStateAgency | foia_rti/generators/us_state.py:508-517 | the first listed agency whose name overlaps the input either way; else the state's first agency; a state without agencies gives the raw name with no email |
| USState.BlankAgencyIsFirst | foia_rti/generators/us_state.py:509-512 | a blank agency name selects the state's first agency |
| USState.Generate | foia_rti/generators/us_state.py:421-460 | an error exactly when the resolved state is not registered; otherwise "US-State-" and the key, the statute name and citation, email filing, the statutory period or 10 days when there is none, the resolved agency and its email in the metadata |
| USState.GeneratedEmailable | foia_rti/generators/us_state.py:421-460 | with a registry in which every agency has an email, every generated state request carries a non-empty agency email |
| USState.JurisdictionRoundTrip | foia_rti/generators/us_state.py:446-460 | the generated jurisdiction resolves back to the same state |
| USState.SupportedStates | foia_rti/generators/us_state.py:490-491 | the state keys, each once, in increasing order |
| USState.AgencyListing | foia_rti/generators/us_state.py:462-467 | one entry "key — agency" for every agency of every state, and nothing else, in registry order: state by state, each state's agencies in its own order |
| IndiaRTI.ResolveAgency | foia_rti/generators/india_rti.py:358-375 | the result is a registry key or the raw input, through the normalised key or the first alias that occurs |
| IndiaRTI.StateBoardShadowed | foia_rti/generators/india_rti.py:362-374 | a name containing "STATE POLLUTION CONTROL" never reaches the state-board key: "POLLUTION CONTROL" is tried first and leads to the central board |
| IndiaRTI.MinistryOnlyByAlias | foia_rti/generators/india_rti.py:359-374 | the mixed-case ministry key is reached only through "ENVIRONMENT" or "MOEF" |
| IndiaRTI.MinistryKeyResolves | foia_rti/generators/india_rti.py:359-374 | the ministry key itself resolves to itself, through the alias "MOEF" |
| IndiaRTI.KeysResolveToThemselves | foia_rti/generators/india_rti.py:359-374 | every registry key resolves to itself |
| IndiaRTI.LetterFor | foia_rti/generators/india_rti.py:273 | the Hindi letter exactly when the language, lower-cased, is "hindi" |
| IndiaRTI.LetterIgnoresCase | foia_rti/generators/india_rti.py:273 | the choice of letter ignores letter case |
| IndiaRTI.Generate | foia_rti/generators/india_rti.py:247-309 | an error exactly when the resolved key is not registered; otherwise "India", 30 days, the authority's full name, the stripped text, the template-merged context, and key, language and parent ministry as metadata |
| IndiaRTI.IndianRequestsHaveNoEmail | foia_rti/generators/india_rti.py:304-308 | an Indian request carries no agency email, so it cannot be sent by email; an unknown authority is one the resolver handed back unchanged |
| UKFOI.RegistryEmails | foia_rti/generators/uk_foi.py:20-80 | every registered authority has an FOI email address |
| UKFOI.ResolveAgency | foia_rti/generators/uk_foi.py:255-270 | the result is a registry key or the raw input; a normalised key is taken as is |
| UKFOI.LongFoodAliasShadowed | foia_rti/generators/uk_foi.py:259-269 | "FOOD STANDARDS AGENCY" never decides, since "FOOD STANDARDS" comes first |
| UKFOI.OnlyByKey | foia_rti/generators/uk_foi.py:255-270 | DEFRA and SEPA have no alias: a name reaches them only by normalising to the key |
| UKFOI.KeysResolveToThemselves | foia_rti/generators/uk_foi.py:256-258 | every registry key resolves to itself |
| UKFOI.Generate | foia_rti/generators/uk_foi.py:165-208 | an error exactly when the resolved key is not registered; otherwise "UK", 20 days, email filing, the authority's full name, the stripped text, the context unchanged, and key, FOI email and the EIR flag as metadata |
| UKFOI.UKRequestsEmailable | foia_rti/generators/uk_foi.py:165-208 | every generated UK request carries a non-empty agency email |
| EURequests.ResolveInstitution | foia_rti/generators/eu_requests.py:270-290 | the result is a registry key or the raw input; a normalised key is taken as is |
| EURequests.AgricultureFirst | foia_rti/generators/eu_requests.py:274-289 | a name that is not a key and mentions "AGRI" but not "SANTE" resolves to DG AGRI, even when it also mentions the environment, the council or the parliament |
| EURequests.KeysResolveToThemselves | foia_rti/generators/eu_requests.py:271-273 | every registry key resolves to itself |
| EURequests.Generate | foia_rti/generators/eu_requests.py:185-225 | an error exactly when the resolved key is not registered; otherwise "EU", 15 days, email or portal filing, the institution's full name, the stripped text, the context unchanged, and the four metadata entries |
| EURequests.EURequestsHaveNoAgencyEmail | foia_rti/generators/eu_requests.py:219-224 | an EU request has no "agency_email" entry, so it cannot be sent by email |
| EmailFiler.SubjectKey | foia_rti/filers/email_filer.py:215-218 | a "US-State..." jurisdiction uses the federal template; any other jurisdiction is looked up as it is |
| EmailFiler.BuildSubject | foia_rti/filers/email_filer.py:214-224 | the subject opens with its template's fixed text and adds at most 80 characters of topic after it |
| EmailFiler.StateSubjectsAreFederal | foia_rti/filers/email_filer.py:217-218 | a state request's subject is the one it would get as a federal request |
| EmailFiler.OnlyFederalTemplateNamesAgency | foia_rti/filers/email_filer.py:98-103 | of the four templates and the fallback, only the federal one names the agency |
| EmailFiler.FallbackSubjectLine | foia_rti/filers/email_filer.py:220-224 | a jurisdiction with no template of its own gets "Public Records Request — " and the cut topic |
| EmailFiler.SubjectTopicRoundTrip | foia_rti/filers/email_filer.py:220-224 | without the agency, the first 80 characters of the topic read back from the subject |
| EmailFiler.FederalSubjectParts | foia_rti/filers/email_filer.py:214-224 | in the federal subject the cut topic and the agency name cut to 60 characters sit either side of the last dash |
| EmailFiler.Escape | foia_rti/filers/email_filer.py:230 | no `<`, `>` or quote survives escaping |
| EmailFiler.UnescapeEscape | foia_rti/filers/email_filer.py:230 | escaping loses nothing: unescaping gives the text back |
| EmailFiler.UnmarkupMarkup | foia_rti/filers/email_filer.py:231-236 | the paragraph and line-break markup of escaped text reads back exactly |
| EmailFiler.LinesAreMarkup | foia_rti/filers/email_filer.py:234-235 | joining a paragraph's lines with `<br>` is the markup of that paragraph |
| EmailFiler.ParagraphsAreMarkup | foia_rti/filers/email_filer.py:231-236 | splitting at blank lines and wrapping each paragraph is the markup of the whole text between one `<p>` and `</p>` |
| EmailFiler.TextToHtml | foia_rti/filers/email_filer.py:226-243 | the page is the fixed head, the markup of the escaped text as paragraphs, and the fixed tail |
| EmailFiler.TextToHtmlRoundTrip | foia_rti/filers/email_filer.py:226-243 | the HTML alternative carries exactly the plain-text letter |
| EmailFiler.FormatRequest | foia_rti/filers/email_filer.py:108-139 | refused exactly when the metadata gives no agency email; otherwise addressed to it, with the letter as text, its HTML form, the built subject, the reply-to address or the sender when there is none, and the two X-FOIA headers |
| EmailFiler.MissingEmailRefused | foia_rti/filers/email_filer.py:116-121 | a request without an agency email entry is refused |
| EmailFiler.PresentEmailAccepted | foia_rti/filers/email_filer.py:116-128 | a request with a non-empty agency email is formatted for that address |
| EmailFiler.IndianRequestsRefused | foia_rti/filers/email_filer.py:116-121 | every Indian application is refused by the email filer |
| EmailFiler.EURequestsRefused | foia_rti/filers/email_filer.py:116-121 | every EU application is refused by the email filer |
| EmailFiler.FederalRequestsAccepted | foia_rti/filers/email_filer.py:116-139 | every federal request that generates can be emailed |
| EmailFiler.UKRequestsAccepted | foia_rti/filers/email_filer.py:116-139 | every UK request that generates can be emailed |
| EmailFiler.StateRequestsAccepted | foia_rti/filers/email_filer.py:116-139 | every state request generated from a registry whose agencies all have email can be emailed |
| EmailFiler.MetaGet | foia_rti/filers/email_filer.py:204-206 | the default for a missing key, the stored text for a present one |
| EmailFiler.InstructionsRoundTrip | foia_rti/filers/email_filer.py:205-211 | the destination written into the portal instructions reads back from them |
| EmailFiler.FormatForPortal | foia_rti/filers/email_filer.py:195-212 | the built subject, the letter as body, the portal or empty, and instructions that send the reader to the portal or to "the agency portal" |
| EmailFiler.FederalPortalInstructions | foia_rti/filers/email_filer.py:195-212 | the instructions of a federal request send the reader to the agency's own portal |
| EmailFiler.DryRunReport | foia_rti/filers/email_filer.py:148-156 | a dry run reports the addressee, the subject and at most the first 200 characters of the text |
| EmailFiler.Send | foia_rti/filers/email_filer.py:141-193 | a dry run always reports "dry_run"; otherwise missing credentials fail, an accepted message reports "sent" with addressee and subject, a refused one reports "error" with the server's message, and any other failure of the connection leaves `send` as an error carrying its message |
| EmailFiler.DryRunIgnoresServer | foia_rti/filers/email_filer.py:148-156 | a dry run depends neither on the configuration nor on the server |
| EmailFiler.BlindCopyDroppedWithoutTls | foia_rti/filers/email_filer.py:181-188 | as written, the non-TLS path never sends to the blind-copy address |
| EmailFiler.Recipients | foia_rti/filers/email_filer.py:173-175 | the addressee first, then the blind copy exactly when one is configured |
| EmailFiler.RecipientsAgreeWithTls | foia_rti/filers/email_filer.py:165-188 | with TLS the code as written sends to the intended recipients; the two differ exactly when TLS is off and a blind copy is configured |
| BatchFiler.GeneratorKey | foia_rti/filers/batch_filer.py:210-213 | every "US-State..." jurisdiction shares the key "US-State"; any other jurisdiction is its own key |
| BatchFiler.GetGenerator | foia_rti/filers/batch_filer.py:208-223 | an error naming the jurisdiction exactly when its key is neither cached nor creatable; otherwise the generator, cached under its key, and a cached one is returned without change |
| BatchFiler.CachingIsTransparent | foia_rti/filers/batch_filer.py:208-223 | with a cache holding what each key creates, the result is the generator the key creates, and the cache stays that way |
| BatchFiler.StatesShareGenerator | foia_rti/filers/batch_filer.py:212-217 | any two state jurisdictions get the same generator, the second from the cache |
| BatchFiler.GeneratorFamilies | foia_rti/filers/batch_filer.py:208-223 | a generator exists exactly for "US-State..." jurisdictions and the four exact names |
| BatchFiler.NewFiler | foia_rti/filers/batch_filer.py:76-86 | a new filer keeps the tracker and email configuration it is given and starts with a valid, empty cache |
| BatchFiler.FiledRow | foia_rti/filers/batch_filer.py:144-154 | the filed columns set the status to filed, the filing date, the deadline, the filing method and the fee-waiver flag, and nothing else |
| BatchFiler.CreatedFiled | foia_rti/filers/batch_filer.py:139-155 | a row created for a generated request records it as filed today with the calculated deadline, its agency, jurisdiction, topic, text and filing method |
| BatchFiler.Record | foia_rti/filers/batch_filer.py:140-155 | a new valid row under a fresh id, every other row unchanged, recording the request as filed; a jurisdiction the calculator refuses makes it fail |
| BatchFiler.RecordKeeps | foia_rti/filers/batch_filer.py:144-155 | creating a row under a fresh id keeps every other row |
| BatchFiler.Track | foia_rti/filers/batch_filer.py:139-155 | nothing is tracked in a dry run or without a tracker; otherwise a fresh id whose row records the request, with every earlier row kept |
| BatchFiler.Skipped | foia_rti/filers/batch_filer.py:163-164 | the report of a refused email is "skipped" with the reason |
| BatchFiler.EmailStep | foia_rti/filers/batch_filer.py:157-164 | a report exactly when email is configured and nothing escapes; a request without agency email or, outside a dry run, missing credentials are reported as skipped; a formattable request in a dry run reports "dry_run"; otherwise the report is the server's answer for the envelope `send` builds, and a connection failure that is not an SMTP error escapes with its message |
| BatchFiler.TrackedStays | foia_rti/filers/batch_filer.py:139-155 | a tracked result stays tracked while rows are only added |
| BatchFiler.FileOne | foia_rti/filers/batch_filer.py:113-175 | the result belongs to its target, is a success with its request or a failure with only its message, carries a tracker id exactly when a successful non-dry run has a tracker, and an email report exactly when email is configured; the tracker only grows, and a failure leaves a new row only when it came from the email step of a live run |
| BatchFiler.FileBatch | foia_rti/filers/batch_filer.py:88-177 | one result per target, in order, each filed as above against the final tracker; nothing is tracked in a dry run |
| BatchFiler.TextPreview | foia_rti/filers/batch_filer.py:199 | the first 500 characters of the letter, or all of it, then "..." |
| BatchFiler.ShortTextPreviewed | foia_rti/filers/batch_filer.py:199 | a letter of at most 500 characters reads back whole from its preview |
| BatchFiler.PreviewOf | foia_rti/filers/batch_filer.py:191-205 | the target's agency, jurisdiction and topic and the success flag; the request fields exactly when there is a request; the error exactly when it is non-empty |
| BatchFiler.PreviewBatch | foia_rti/filers/batch_filer.py:179-206 | one preview per target, in order, each naming its target; a success carries its request and no error, a failure no request; the tracker is left untouched |
| DispatchConfig.CanFileMeans | foia_rti/dispatch/config.py:46-55 | a persona can file exactly when it is active, under its weekly cap, and lists the jurisdiction or lists none |
| DispatchConfig.RecordFiling | foia_rti/dispatch/config.py:57-60 | a filing raises the weekly count |
| DispatchConfig.FilingKeepsPersona | foia_rti/dispatch/config.py:57-60 | a filing adds exactly one to the weekly count and changes nothing else |
| DispatchConfig.FilingWithinCap | foia_rti/dispatch/config.py:46-60 | a filing by an eligible persona never takes it past its weekly cap |
| DispatchConfig.FilingsCount | foia_rti/dispatch/config.py:57-60 | `n` filings add exactly `n` to the weekly count |
| DispatchConfig.FilingsExhaust | foia_rti/dispatch/config.py:46-60 | a persona still eligible after `n` filings was eligible before them and had more than `n` filings left |
| DispatchConfig.AvailablePersona | foia_rti/dispatch/config.py:106-116 | nobody exactly when no persona can file; otherwise an eligible persona with the fewest filings this week, the first such in configured order |
| DispatchConfig.AvailableIsFirstFewest | foia_rti/dispatch/config.py:112-116 | the first eligible persona with the fewest filings is the one chosen |
| DispatchConfig.TargetsByPriority | foia_rti/dispatch/config.py:118-120 | the same targets, as a permutation, by non-decreasing priority |
| DispatchConfig.TargetsByPriorityStable | foia_rti/dispatch/config.py:118-120 | targets of equal priority keep their configured order |
| DispatchConfig.ActivePersonaCount | foia_rti/dispatch/config.py:122-124 | the count never exceeds the number of personas |
| DispatchConfig.ActiveCountIsActiveIndices | foia_rti/dispatch/config.py:122-124 | the count is the number of positions holding an active persona |
| DispatchConfig.NoActiveNoneAvailable | foia_rti/dispatch/config.py:106-124 | with no active persona, nobody can be chosen |
| DispatchConfig.LoadPersona | foia_rti/dispatch/config.py:153-172 | the password comes from the named environment variable; the persona is active exactly when it has a password and the file does not deactivate it; it starts the week with no filings; the display name defaults to the address, the organization to "Open Paws" and the weekly cap to 5; with no jurisdiction list it may file anywhere, as far as being active with a positive cap allows |
| DispatchConfig.LoadTarget | foia_rti/dispatch/config.py:176-187 | the template, agency, jurisdiction and date range as given; priority 2, no topic override ("") and no facilities when the file gives none |
| DispatchConfig.LoadConfig | foia_rti/dispatch/config.py:127-196 | one persona per persona entry and one target per target entry, in order, each loaded as above; at most 20 a day, 15 minutes apart and weekdays only unless the file says otherwise |
| DispatchConfig.LoadedEligibleHavePasswords | foia_rti/dispatch/config.py:153-172 | every persona a loaded configuration can choose has a password |
| DispatchRunner.Registered | foia_rti/dispatch/runner.py:114-117 | only "US-Federal" and "India" have a generator |
| DispatchRunner.GetGenerator | foia_rti/dispatch/runner.py:326-336 | an error naming the jurisdiction and the supported ones exactly when it is neither cached nor registered; a cached generator is returned with the cache unchanged, a new one is cached |
| DispatchRunner.CachingIsTransparent | foia_rti/dispatch/runner.py:326-336 | with a cache holding only registered generators, the lookup succeeds exactly for the two registered jurisdictions, and the cache stays that way |
| DispatchRunner.CachedOnce | foia_rti/dispatch/runner.py:326-336 | asking again for the same jurisdiction returns the same generator from the cache |
| DispatchRunner.GenerateRequest | foia_rti/dispatch/runner.py:293-324 | an unregistered jurisdiction or an unparsable date bound fails; a request is the cached generator's output for the target's agency, jurisdiction, template and parsed date bounds, with the override as topic, else the template's name (its id when it has no name), else ""; the cache only grows |
| DispatchRunner.PersonaMail | foia_rti/dispatch/runner.py:242-251 | the persona's address logs in, sends and receives replies over TLS, under its display name |
| DispatchRunner.EmailPhase | foia_rti/dispatch/runner.py:254-257 | no agency email or, outside a dry run, a persona without address or password fails with the filer's message; a dry run with an agency email always succeeds; a report is "dry_run", "sent" or "error", and "dry_run" exactly in a dry run; a live send reports the server's answer, and a connection failure that is not an SMTP error fails with its message |
| DispatchRunner.DispatchRow | foia_rti/dispatch/runner.py:274-285 | the dispatch columns set status filed, the filing date, the deadline, email filing, the fee-waiver flag and the persona note, and nothing else |
| DispatchRunner.CreatedDispatched | foia_rti/dispatch/runner.py:266-286 | a row created for a dispatch records it as filed today by email through that persona, with the calculated deadline, under the generated request's agency, jurisdiction and text and the given topic |
| DispatchRunner.TrackPhase | foia_rti/dispatch/runner.py:266-286 | a jurisdiction the calculator refuses fails; otherwise a fresh row that records the dispatch, every other row unchanged; the row's topic is the target's override when there is one, else the generated topic, and its jurisdiction and request text are the generated request's |
| DispatchRunner.DispatchOne | foia_rti/dispatch/runner.py:221-291 | success exactly when the email went out or would have; a failure carries an error, the server's when there is one, and no tracker row; a live success without later error has a row recording it; at most 300 characters of preview; the tracker changes only by that row |
| DispatchRunner.NewRunner | foia_rti/dispatch/runner.py:119-127 | a new runner has nothing cached and has sent nothing today |
| DispatchRunner.CountsAddUp | foia_rti/dispatch/runner.py:205-212 | every result is counted as exactly one of sent, skipped or failed |
| DispatchRunner.FilingAddsOne | foia_rti/dispatch/runner.py:208 | recording a filing on one persona adds one to the week's total |
| DispatchRunner.FilingKeepsCaps | foia_rti/dispatch/runner.py:185-208 | a filing by the chosen persona keeps every persona within its weekly cap |
| DispatchRunner.Dispatch | foia_rti/dispatch/runner.py:202-212 | a dispatch through an eligible persona under the day's limit counts one send exactly on success, records the filing on that persona only then, and leaves the tracker alone in a dry run |
| DispatchRunner.Step | foia_rti/dispatch/runner.py:170-212 | at the day's limit the target is skipped with that reason and nothing changes; with no eligible persona it is skipped with that reason; otherwise it goes through the persona the configuration chooses |
| DispatchRunner.WeekendReport | foia_rti/dispatch/runner.py:149-164 | on a weekend every configured target is skipped, in configured order, and counted as skipped |
| DispatchRunner.Campaign | foia_rti/dispatch/runner.py:166-219 | one result per target in priority order, tallied by kind; sends never exceed the day's limit; each send is one more filing on some persona, within its cap; the tracker only grows, and not at all in a dry run |
| DispatchRunner.Run | foia_rti/dispatch/runner.py:129-219 | the limit is `max_today` when given, zero included; a live weekend run with staggering skips everything; otherwise one result per target; the counts add up; sends, filings and tracker rows agree; nothing in the configuration changes but the personas |

## Left out

- Letter wording: the Jinja templates, the request and appeal letter texts, `get_legal_basis`, `get_fee_waiver_language` and `get_appeal_info`. A generated request carries its rendered text as an input, and an appeal is modelled by the choices its text is built from. Letter text includes the appeal's response-date field (appeals.py:275-279). A trailing comma there makes its value a one-element tuple, so the letter would print the tuple; that is outside the model.
- Fee notes of a generated request: fixed text, not modelled.
- Report formatting: `DispatchReport.summary` (runner.py:58), `ParsedResponse.summary` (response_parser.py:56-70) and the alert and stats text formatting. The counts they print are modelled. `RedactionReport.summary`, set by `_generate_summary`, is modelled as `RedactionDetector.Summary`.
- MIME and SMTP: building the MIME message, attachments and the SMTP conversation. The MIME size and the server's reply are parameters. `Send` models every branch that does not depend on the server. The reply is one of three: accepted, an SMTP error, or any other exception.
- Tracker.Create: the keyword arguments `id` and `date_created` are not modelled. A row's id is always the storage engine's, and its creation stamp is always the store's clock, so stamps rise in creation order. That order is what makes the newest-first listing well defined. Neither filer passes these keywords.
- Tracker.UpdateStatus: the keywords `id` and `date_created` are not modelled either. Nor is `None` for the integer columns (`docs_received`, `pages_received`, `pages_withheld`) and the boolean columns (`fee_waiver_requested`, `appeal_filed`), which the database allows; in the model they always hold a number or a truth value.
- `html.unescape`: modelled only on the five entities `html.escape` produces, which is all the round trip needs.
- Sleeps between filings and dispatches (batch_filer.py:168-170, runner.py:214-216): they have no effect on results.
- Timestamps (`last_filed`, `created_at` and `completed_at` as clock values): creation order in the tracker is a counter.
- File and environment reading: the dispatch configuration arrives as an already-decoded JSON value of the expected shape, with the environment as a map. A missing required key (`email`, `template_id`, `agency`, `jurisdiction`) and a value of the wrong type are not modelled.
- `_extract_fee` (response_parser.py:298-310): works on floating-point amounts, not modelled.
- `_extract_analyst` (response_parser.py:326-335): free-text name extraction, not modelled.
- Case and whitespace: upper- and lower-casing act on ASCII letters only; `\d` and `\w` are ASCII. Unicode case mapping is not modelled.
- Custom deadline rules: limited to the three holiday calendars the source defines (none, US federal, UK bank holidays). An arbitrary `holiday_fn` is not modelled.
- DispatchRunner.TrackPhase: uses the runner's calculator, built once from the default table. The source builds a fresh default calculator for each dispatch, which is the same table.
- Deadlines.GetRule: gives every "US-State..." jurisdiction the source's generic 10-business-day rule. It does not use the per-state periods of `us_state.py`; the source itself does not connect the two.
- RedactionDetector.Excessive: compares the withholding ratio exactly (`5 * withheld > 4 * total`, `2 * withheld > total`), where the source compares the float `withheld / total` with 0.8 and 0.5 (redaction_detector.py:187-205). The two agree for every total below 2 * 10^15 pages. Above that, a ratio just over 4/5 can round to 0.8, and the source then raises the medium flag where the model raises the high one. Likewise, from about 9 * 10^15 pages a ratio just over 1/2 can round to 0.5, where the source raises no flag and the model the medium one.
- Deadlines.Calculate: days are unbounded integers. Python's `date + timedelta(...)` raises `OverflowError` for a date past 9999-12-31, so `calculate` fails there. The model returns a day in year 10000 or later instead. `GeneratorBase.InPythonRange` names the range but the deadline code does not use it.
- Deadlines.CalculateExtension: returns the unbounded day where Python raises `OverflowError`, for an extended deadline past 9999-12-31.
- Deadlines.AddCalendarDays: returns the unbounded day where Python raises `OverflowError`, for a result past 9999-12-31 or before year 1.
- Deadlines.AddBusinessDays: returns the unbounded day where the source's day-by-day loop raises `OverflowError` on stepping past 9999-12-31.
- ResponseParser.PageCount: states that the count is zero without a match and at most 999999 times the number of matches. It does not state the exact sum.
- Tests that contradict the code (tests/test_generators.py:479-482, 506-510, 548-553): ignored. The model follows the code.
- Findings on the agency-name resolvers: the India resolver sends "State Pollution Control Board" to the central board (IndiaRTI.StateBoardShadowed), and the UK alias "FOOD STANDARDS AGENCY" is never the deciding one (UKFOI.LongFoodAliasShadowed). Both are kept as written, because the intended mapping cannot be told from the code.

## Findings

| source | as written | input that shows it | evidently intended | confidence | as-written member | corrected member |
|---|---|---|---|---|---|---|
| foia_rti/filers/email_filer.py:181-188 | without TLS, the envelope holds only the addressee, although the message carries a `Bcc` header | `EmailConfig(use_tls=False, bcc="archive@example.org")`, a non-dry send: the archive address never receives the message | the blind copy is an envelope recipient on both paths, as on the TLS path (lines 173-175) | not executed | EmailFiler.BlindCopyDroppedWithoutTls | EmailFiler.RecipientsAgreeWithTls |

=== FILE: alerts.dfy ===
// The alert engine: it scans the active requests of the tracker, puts each into a severity bucket
// by the days left before its effective deadline, and returns the alerts sorted most urgent first,
// with filtered views for the overdue and the upcoming ones.

module Alerts {
  import opened Outcomes
  import opened Text
  import opened Dates
  import opened Tracker
  import opened Sorting

  datatype Severity = Info | Warning | Urgent | Overdue

  /** The enum values of `AlertSeverity`. */
  function SeverityValue(s: Severity): string {
    match s
    case Info => "info"
    case Warning => "warning"
    case Urgent => "urgent"
    case Overdue => "overdue"
  }

  /** Days before the deadline at which each severity starts (`THRESHOLDS`). */
  const InfoDays := 10
  const WarningDays := 5
  const UrgentDays := 2

  /** An alert about one tracked request. The source declares `days_remaining` and `deadline`
      optional, but the only producer always sets both. The message text is `Message` of the
      alert, a function of its severity, days remaining and deadline. */
  datatype Alert = Alert(
    requestId: int,
    agency: string,
    jurisdiction: string,
    topic: string,
    severity: Severity,
    daysRemaining: int,
    deadline: Day,
    suggestedAction: Advice)

  /** The statuses `check_all` scans, in the order it scans them. */
  const ActiveStatuses: seq<RequestStatus> := [Filed, Acknowledged, Processing, Extended, Appealed]

  /** How many rows `check_all` asks the tracker for, per status. */
  const ScanLimit: nat := 10000

  // ---------------------------------------------------------------- buckets

  /** The bucket for a number of days left: overdue below zero, then urgent, warning and info up to
      the thresholds, and no alert beyond ten days. */
  function Bucket(daysLeft: int): (sev: Option<Severity>)
    ensures sev == Some(Overdue) <==> daysLeft < 0
    ensures sev == Some(Urgent) <==> 0 <= daysLeft <= UrgentDays
    ensures sev == Some(Warning) <==> UrgentDays < daysLeft <= WarningDays
    ensures sev == Some(Info) <==> WarningDays < daysLeft <= InfoDays
    ensures sev.None? <==> daysLeft > InfoDays
  {
    if daysLeft < 0 then Some(Overdue)
    else if daysLeft <= UrgentDays then Some(Urgent)
    else if daysLeft <= WarningDays then Some(Warning)
    else if daysLeft <= InfoDays then Some(Info)
    else None
  }

  /** The sort position of a severity in `check_all`. */
  function Rank(s: Severity): (n: nat)
    ensures n <= 3
  {
    match s
    case Overdue => 0
    case Urgent => 1
    case Warning => 2
    case Info => 3
  }

  /** A bucket's urgency as a rank; no alert ranks last. */
  function BucketRank(sev: Option<Severity>): nat {
    match sev
    case None => 4
    case Some(s) => Rank(s)
  }

  /** Fewer days left never means a less urgent bucket. */
  lemma UrgencyMonotone(d1: int, d2: int)
    requires d1 <= d2
    ensures BucketRank(Bucket(d1)) <= BucketRank(Bucket(d2))
  {
  }

  // ---------------------------------------------------------------- actions

  /** The fixed pieces of advice an alert can carry; `AdviceText` gives their wording. */
  datatype Advice =
    | FederalFollowUp | IndiaFirstAppeal | UKInternalReview | EUConfirmatoryApplication | GenericFollowUp
    | PrepareAppeal | CourtesyFollowUp | Monitor

  function AdviceText(a: Advice): string {
    match a
    case FederalFollowUp =>
      "Send a follow-up letter citing 5 U.S.C. Section 552(a)(6)(A). "
      + "Consider filing an administrative appeal or contacting OGIS "
      + "(ogis@nara.gov). Constructive denial of request may entitle "
      + "you to immediate appeal."
    case IndiaFirstAppeal =>
      "File a first appeal under Section 19(1) of the RTI Act with "
      + "the First Appellate Authority. The PIO's failure to respond "
      + "within 30 days is deemed a refusal."
    case UKInternalReview =>
      "Send a follow-up citing Section 10(1) of FOIA 2000. "
      + "Request an internal review. If no response within a reasonable "
      + "time, complain to the ICO."
    case EUConfirmatoryApplication =>
      "The institution's silence after 15 working days constitutes "
      + "an implied refusal. File a confirmatory application under "
      + "Article 7(2) of Regulation 1049/2001."
    case GenericFollowUp => "Send a follow-up letter and prepare an appeal."
    case PrepareAppeal => "Prepare appeal materials. Follow up with the agency immediately."
    case CourtesyFollowUp => "Send a courtesy follow-up to the FOIA officer inquiring about status."
    case Monitor => "Monitor. No action required yet."
  }

  /** `_overdue_action`: chosen by exact equality of the jurisdiction. */
  function OverdueAction(r: Request): (a: Advice)
    ensures r.jurisdiction == "US-Federal" <==> a == FederalFollowUp
    ensures r.jurisdiction == "India" <==> a == IndiaFirstAppeal
    ensures r.jurisdiction == "UK" <==> a == UKInternalReview
    ensures r.jurisdiction == "EU" <==> a == EUConfirmatoryApplication
    ensures a == GenericFollowUp <==> r.jurisdiction !in {"US-Federal", "India", "UK", "EU"}
  {
    if r.jurisdiction == "US-Federal" then FederalFollowUp
    else if r.jurisdiction == "India" then IndiaFirstAppeal
    else if r.jurisdiction == "UK" then UKInternalReview
    else if r.jurisdiction == "EU" then EUConfirmatoryApplication
    else GenericFollowUp
  }

  /** A state jurisdiction is not one of the four named ones, so it gets the generic advice. */
  lemma StateOverdueActionGeneric(r: Request)
    requires StartsWith(r.jurisdiction, "US-State")
    ensures OverdueAction(r) == GenericFollowUp
  {
    var j := r.jurisdiction;
    assert j[..8] == "US-State";
    assert j[3] == 'S';
    assert "US-Federal"[3] == 'F' && "India"[0] == 'I' && "UK"[0] == 'U' && "EU"[0] == 'E';
    assert j[0] == 'U' && |j| >= 8;
  }

  /** `_upcoming_action`: switches at two and at five days left. */
  function UpcomingAction(daysLeft: int): (a: Advice)
    ensures a == PrepareAppeal <==> daysLeft <= 2
    ensures a == CourtesyFollowUp <==> 2 < daysLeft <= 5
    ensures a == Monitor <==> daysLeft > 5
  {
    if daysLeft <= 2 then PrepareAppeal
    else if daysLeft <= 5 then CourtesyFollowUp
    else Monitor
  }

  // ---------------------------------------------------------------- one request

  /** The alert's message: days overdue and the missed deadline, or days left and the deadline. */
  function Message(a: Alert): string {
    if a.severity == Overdue then
      "Response is " + IntToString(if a.daysRemaining < 0 then -a.daysRemaining else a.daysRemaining)
      + " day(s) overdue. Deadline was " + IsoFormat(a.deadline) + "."
    else
      "Deadline in " + IntToString(a.daysRemaining) + " day(s) (" + IsoFormat(a.deadline) + ")."
  }

  /** `_check_request` on the given day: no alert without an effective deadline or with more than
      ten days left; otherwise an alert about the request, in the bucket of its days left, carrying
      the effective deadline and the advice for that bucket. */
  function CheckRequest(r: Request, today: Day): (res: Option<Alert>)
    ensures res.None? <==> EffectiveDeadline(r).None? || EffectiveDeadline(r).value - today > InfoDays
    ensures res.Some? ==>
      var a := res.value;
      a.requestId == r.id && a.agency == r.agency && a.jurisdiction == r.jurisdiction && a.topic == r.topic
      && Some(a.deadline) == EffectiveDeadline(r) && today + a.daysRemaining == a.deadline
      && Bucket(a.daysRemaining) == Some(a.severity)
      && a.suggestedAction == (if a.daysRemaining < 0 then OverdueAction(r) else UpcomingAction(a.daysRemaining))
  {
    match DaysUntilDeadline(r, today)
    case None => None
    case Some(daysLeft) =>
      var deadline := EffectiveDeadline(r).value;
      if daysLeft < 0 then
        Some(Alert(r.id, r.agency, r.jurisdiction, r.topic, Overdue, daysLeft, deadline, OverdueAction(r)))
      else
        match Bucket(daysLeft)
        case None => None
        case Some(severity) =>
          Some(Alert(r.id, r.agency, r.jurisdiction, r.topic, severity, daysLeft, deadline, UpcomingAction(daysLeft)))
  }

  /** For a request `check_all` scans, an overdue alert is exactly the tracker's overdue rule. */
  lemma OverdueAlertIffOverdue(r: Request, today: Day)
    requires r.status in ActiveStatuses
    ensures (CheckRequest(r, today).Some? && CheckRequest(r, today).value.severity == Overdue) <==> IsOverdue(r, today)
  {
  }

  // ---------------------------------------------------------------- the scan

  /** The request is stored, in an active status, and the alert is the one `_check_request` makes. */
  ghost predicate FromStore(s: Store, today: Day, a: Alert) {
    a.requestId in s.records
    && s.records[a.requestId].status in ActiveStatuses
    && CheckRequest(s.records[a.requestId], today) == Some(a)
  }

  /** The alerts for a list of stored rows of one active status, in list order. */
  function AlertsFor(s: Store, status: RequestStatus, rs: seq<Request>, today: Day): (alerts: seq<Alert>)
    requires status in ActiveStatuses
    requires forall k :: 0 <= k < |rs| ==> rs[k].status == status && rs[k].id in s.records && s.records[rs[k].id] == rs[k]
    ensures |alerts| <= |rs|
    ensures forall k :: 0 <= k < |alerts| ==> FromStore(s, today, alerts[k])
    ensures forall k :: 0 <= k < |rs| && CheckRequest(rs[k], today).Some? ==> CheckRequest(rs[k], today).value in alerts
  {
    if rs == [] then []
    else
      var rest := AlertsFor(s, status, rs[1..], today);
      assert forall k :: 1 <= k < |rs| ==> rs[k] == rs[1..][k - 1];
      match CheckRequest(rs[0], today)
      case None => rest
      case Some(a) => [a] + rest
  }

  /** The tracker rows of one status, newest first, as `check_all` asks for them. */
  function RowsWithStatus(s: Store, status: RequestStatus): (rs: seq<Request>)
    requires Valid(s)
    ensures forall k :: 0 <= k < |rs| ==> rs[k].status == status && rs[k].id in s.records && s.records[rs[k].id] == rs[k]
  {
    ListRequests(s, Filter("", Some(status), ""), ScanLimit, 0)
  }

  /** The alerts of the given statuses' rows, status by status, before sorting. */
  function Scan(s: Store, statuses: seq<RequestStatus>, today: Day): (alerts: seq<Alert>)
    requires Valid(s)
    requires forall k :: 0 <= k < |statuses| ==> statuses[k] in ActiveStatuses
    ensures forall k :: 0 <= k < |alerts| ==> FromStore(s, today, alerts[k])
  {
    if statuses == [] then []
    else AlertsFor(s, statuses[0], RowsWithStatus(s, statuses[0]), today) + Scan(s, statuses[1..], today)
  }

  /** The sort key of `check_all`: severity rank, then days remaining. */
  function AlertKey(a: Alert): Key {
    (Rank(a.severity), a.daysRemaining)
  }

  /** `check_all` on the given day: every alert the active requests produce, most urgent first,
      scan order kept among equal keys. */
  function CheckAll(s: Store, today: Day): (alerts: seq<Alert>)
    requires Valid(s)
    ensures multiset(alerts) == multiset(Scan(s, ActiveStatuses, today))
    ensures SortedBy(alerts, AlertKey)
  {
    SortBy(Scan(s, ActiveStatuses, today), AlertKey)
  }

  /** Among alerts with the same key, `check_all` keeps the scan order. */
  lemma CheckAllStable(s: Store, today: Day, k: Key)
    requires Valid(s)
    ensures WithKey(CheckAll(s, today), AlertKey, k) == WithKey(Scan(s, ActiveStatuses, today), AlertKey, k)
  {
    SortByStable(Scan(s, ActiveStatuses, today), AlertKey, k);
  }

  /** Overdue alerts come first: nothing after an overdue alert is less urgent. */
  lemma CheckAllOverdueFirst(s: Store, today: Day)
    requires Valid(s)
    ensures var alerts := CheckAll(s, today);
      forall i, j :: 0 <= i < j < |alerts| && alerts[j].severity == Overdue ==> alerts[i].severity == Overdue
  {
    OverdueFirst(CheckAll(s, today));
  }

  lemma OverdueFirst(alerts: seq<Alert>)
    requires SortedBy(alerts, AlertKey)
    ensures forall i, j :: 0 <= i < j < |alerts| && alerts[j].severity == Overdue ==> alerts[i].severity == Overdue
  {
    forall i, j | 0 <= i < j < |alerts| && alerts[j].severity == Overdue
      ensures alerts[i].severity == Overdue
    {
      assert KeyLe(AlertKey(alerts[i]), AlertKey(alerts[j]));
    }
  }

  /** With at most `ScanLimit` rows stored, every stored active request that warrants an alert
      has its alert in `check_all`. */
  lemma CheckAllComplete(s: Store, today: Day, id: int)
    requires Valid(s) && |s.records| <= ScanLimit
    requires id in s.records && s.records[id].status in ActiveStatuses
    requires CheckRequest(s.records[id], today).Some?
    ensures CheckRequest(s.records[id], today).value in CheckAll(s, today)
  {
    var r := s.records[id];
    var a := CheckRequest(r, today).value;
    ScanComplete(s, ActiveStatuses, today, id);
    assert a in multiset(Scan(s, ActiveStatuses, today));
  }

  lemma {:induction false} ScanComplete(s: Store, statuses: seq<RequestStatus>, today: Day, id: int)
    requires Valid(s) && |s.records| <= ScanLimit
    requires forall k :: 0 <= k < |statuses| ==> statuses[k] in ActiveStatuses
    requires id in s.records && s.records[id].status in statuses
    requires CheckRequest(s.records[id], today).Some?
    ensures CheckRequest(s.records[id], today).value in Scan(s, statuses, today)
    decreases |statuses|
  {
    var r := s.records[id];
    if r.status == statuses[0] {
      var f := Filter("", Some(statuses[0]), "");
      ListRequestsComplete(s, f, ScanLimit);
      var rs := RowsWithStatus(s, statuses[0]);
      assert r in rs;
      var k :| 0 <= k < |rs| && rs[k] == r;
      assert CheckRequest(rs[k], today).value in AlertsFor(s, statuses[0], rs, today);
    } else {
      ScanComplete(s, statuses[1..], today, id);
    }
  }

  // ---------------------------------------------------------------- filtered views

  predicate IsOverdueAlert(a: Alert) { a.severity == Overdue }

  /** `check_overdue`: the overdue alerts of `check_all`, in its order, so most overdue first. */
  function CheckOverdue(s: Store, today: Day): (alerts: seq<Alert>)
    requires Valid(s)
    ensures forall k :: 0 <= k < |alerts| ==> alerts[k] in CheckAll(s, today) && alerts[k].severity == Overdue
    ensures var all := CheckAll(s, today);
      forall k :: 0 <= k < |all| && all[k].severity == Overdue ==> all[k] in alerts
    ensures forall i, j :: 0 <= i < j < |alerts| ==> alerts[i].daysRemaining <= alerts[j].daysRemaining
  {
    var all := CheckAll(s, today);
    var alerts := Keep(all, IsOverdueAlert);
    KeepSorted(all, IsOverdueAlert, AlertKey);
    assert forall k :: 0 <= k < |alerts| ==> alerts[k].severity == Overdue;
    SameRankByDays(alerts);
    alerts
  }

  /** Sorted alerts that share a severity are in ascending order of days remaining. */
  lemma SameRankByDays(alerts: seq<Alert>)
    requires SortedBy(alerts, AlertKey)
    requires forall k :: 0 <= k < |alerts| ==> alerts[k].severity == Overdue
    ensures forall i, j :: 0 <= i < j < |alerts| ==> alerts[i].daysRemaining <= alerts[j].daysRemaining
  {
    forall i, j | 0 <= i < j < |alerts|
      ensures alerts[i].daysRemaining <= alerts[j].daysRemaining
    {
      assert KeyLe(AlertKey(alerts[i]), AlertKey(alerts[j]));
    }
  }

  /** Every alert of `check_all` is about a stored active request: only the five active statuses
      produce alerts. */
  lemma CheckAllFromStore(s: Store, today: Day, a: Alert)
    requires Valid(s) && a in CheckAll(s, today)
    ensures FromStore(s, today, a)
  {
    var scanned := Scan(s, ActiveStatuses, today);
    SortByMember(scanned, AlertKey, a);
    InScanFromStore(scanned, s, today, a);
  }

  lemma InScanFromStore(scanned: seq<Alert>, s: Store, today: Day, a: Alert)
    requires forall k :: 0 <= k < |scanned| ==> FromStore(s, today, scanned[k])
    requires a in scanned
    ensures FromStore(s, today, a)
  {
    var k :| 0 <= k < |scanned| && scanned[k] == a;
  }

  /** `check_overdue` reports only stored active requests the tracker calls overdue. */
  lemma CheckOverdueSound(s: Store, today: Day, a: Alert)
    requires Valid(s) && a in CheckOverdue(s, today)
    ensures FromStore(s, today, a) && IsOverdue(s.records[a.requestId], today) && a.daysRemaining < 0
  {
    CheckAllFromStore(s, today, a);
    OverdueAlertIffOverdue(s.records[a.requestId], today);
  }

  /** With at most `ScanLimit` rows stored, `check_overdue` reports exactly the stored active
      requests the tracker calls overdue. */
  lemma CheckOverdueComplete(s: Store, today: Day, id: int)
    requires Valid(s) && |s.records| <= ScanLimit
    requires id in s.records && s.records[id].status in ActiveStatuses && IsOverdue(s.records[id], today)
    ensures CheckRequest(s.records[id], today).Some?
    ensures CheckRequest(s.records[id], today).value in CheckOverdue(s, today)
  {
    OverdueAlertIffOverdue(s.records[id], today);
    CheckAllComplete(s, today, id);
  }

  /** `check_upcoming(within_days)`: the alerts of `check_all` due in one to `within` days, in its order. */
  function CheckUpcoming(s: Store, today: Day, within: int): (alerts: seq<Alert>)
    requires Valid(s)
    ensures forall k :: 0 <= k < |alerts| ==>
      alerts[k] in CheckAll(s, today) && 0 < alerts[k].daysRemaining <= within
    ensures var all := CheckAll(s, today);
      forall k :: 0 <= k < |all| && 0 < all[k].daysRemaining <= within ==> all[k] in alerts
    ensures SortedBy(alerts, AlertKey)
  {
    var all := CheckAll(s, today);
    var alerts := Keep(all, (a: Alert) => 0 < a.daysRemaining <= within);
    KeepSorted(all, (a: Alert) => 0 < a.daysRemaining <= within, AlertKey);
    alerts
  }

  /** `check_upcoming` never reports an overdue alert, one due today, or one more than ten days out,
      whatever the window. */
  lemma CheckUpcomingBounds(s: Store, today: Day, within: int, a: Alert)
    requires Valid(s) && a in CheckUpcoming(s, today, within)
    ensures FromStore(s, today, a)
    ensures 0 < a.daysRemaining <= within && a.daysRemaining <= InfoDays && a.severity != Overdue
  {
    CheckAllFromStore(s, today, a);
  }
}

=== FILE: appeals.dfy ===
/** The decisions behind an appeal letter: which jurisdiction's letter is written, who it is addressed to,
    how the determination and the denial are described, which grounds are argued and whether the fee-waiver
    argument is added. The letter wording itself is not modelled; each choice is a constructor standing for
    the sentence the letter would carry.
 */
module Appeals {
  import opened Outcomes
  import opened Text
  import opened Dates
  import opened Tracker

  datatype Template = USTemplate | IndiaTemplate | UKTemplate | EUTemplate

  /** How the letter names the agency's determination (US letters only). */
  datatype DeterminationKind = DenialDetermination | PartialDenial | ConstructiveDenial | AdverseDetermination

  /** The paragraph describing what the agency did. */
  datatype DenialDetails =
    | CitedDenial(exemptions: string)
    | PartialRelease(received: int, withheld: int, exemptions: string)
    | NoTimelyResponse
    | Inadequate

  /** The non-response grounds, one per jurisdiction with a statutory deadline plus a generic one. */
  datatype NonResponse = FederalDeadline | IndiaDeemedRefusal | UKTimeLimit | EUConfirmatory | GenericTimeframe

  /** The grounds argued: the caller's own text, one of the three default arguments, or non-response. */
  datatype Grounds =
    | Supplied(text: string)
    | ImproperExemptions(exemptions: string)
    | PastDeadline
    | InadequateSearch
    | NonResponseGrounds(kind: NonResponse)

  /** Everything the letter is rendered from, apart from the requester's own details.
      `feeWaiverArgument` says whether the letter prints the fee-waiver paragraph: only the US
      template has a place for it, and the others drop the text unused. */
  datatype Appeal = Appeal(
    template: Template,
    appealTo: Option<string>,
    determination: Option<DeterminationKind>,
    reference: string,
    details: DenialDetails,
    grounds: Grounds,
    feeWaiverArgument: bool,
    filingDate: Day,
    agency: string,
    topic: string)

  /** Python truthiness of a nullable text column. */
  predicate Given(s: Option<string>) {
    s.Some? && s.value != ""
  }

  predicate IsUSJurisdiction(jurisdiction: string) {
    jurisdiction == "US-Federal" || StartsWith(jurisdiction, "US-State")
  }

  lemma DeniedNeverOverdue(req: Request, today: Day)
    ensures req.status == Denied ==> !IsOverdue(req, today)
  {
    if req.status == Denied {
      TerminalNeverOverdue(req, today);
    }
  }

  /** `_determination_type`. */
  function DeterminationType(req: Request, today: Day): (d: DeterminationKind)
    ensures d == DenialDetermination <==> req.status == Denied
    ensures d == PartialDenial <==> req.status == PartialResponse
    ensures d == ConstructiveDenial <==> req.status != PartialResponse && IsOverdue(req, today)
    ensures d == AdverseDetermination <==> req.status != Denied && req.status != PartialResponse && !IsOverdue(req, today)
  {
    DeniedNeverOverdue(req, today);
    if req.status == Denied then DenialDetermination
    else if req.status == PartialResponse then PartialDenial
    else if IsOverdue(req, today) then ConstructiveDenial
    else AdverseDetermination
  }

  /** `_build_denial_details`: missing page counts read as 0 and missing exemptions as "not specified". */
  function BuildDenialDetails(req: Request, today: Day): (d: DenialDetails)
    ensures d.CitedDenial? <==> req.status == Denied && Given(req.exemptionsCited)
    ensures d.CitedDenial? ==> d.exemptions == req.exemptionsCited.value
    ensures d.PartialRelease? <==> req.status == PartialResponse
    ensures d.PartialRelease? ==> d.received == req.pagesReceived && d.withheld == req.pagesWithheld
    ensures d.PartialRelease? ==> d.exemptions == if Given(req.exemptionsCited) then req.exemptionsCited.value else "not specified"
    ensures d.NoTimelyResponse? <==> req.status != PartialResponse && IsOverdue(req, today)
  {
    DeniedNeverOverdue(req, today);
    if req.status == Denied && Given(req.exemptionsCited) then CitedDenial(req.exemptionsCited.value)
    else if req.status == PartialResponse then
      PartialRelease(req.pagesReceived, req.pagesWithheld,
                     if Given(req.exemptionsCited) then req.exemptionsCited.value else "not specified")
    else if IsOverdue(req, today) then NoTimelyResponse
    else Inadequate
  }

  /** The two descriptions agree: a constructive denial is described as a missed deadline and a partial
      denial as a partial release. A denial without cited exemptions is described as inadequate, because a
      denied request is never overdue. */
  lemma DetailsMatchDetermination(req: Request, today: Day)
    ensures BuildDenialDetails(req, today).NoTimelyResponse? <==> DeterminationType(req, today) == ConstructiveDenial
    ensures BuildDenialDetails(req, today).PartialRelease? <==> DeterminationType(req, today) == PartialDenial
    ensures req.status == Denied && !Given(req.exemptionsCited) ==> BuildDenialDetails(req, today) == Inadequate
  {
    if req.status == Denied {
      TerminalNeverOverdue(req, today);
    }
  }

  /** `_default_grounds`: cited exemptions first, then a missed deadline, then the generic argument. */
  function DefaultGrounds(req: Request, today: Day): (g: Grounds)
    ensures g.ImproperExemptions? <==> Given(req.exemptionsCited)
    ensures g.ImproperExemptions? ==> g.exemptions == req.exemptionsCited.value
    ensures g == PastDeadline <==> !Given(req.exemptionsCited) && IsOverdue(req, today)
    ensures g == InadequateSearch <==> !Given(req.exemptionsCited) && !IsOverdue(req, today)
  {
    if Given(req.exemptionsCited) then ImproperExemptions(req.exemptionsCited.value)
    else if IsOverdue(req, today) then PastDeadline
    else InadequateSearch
  }

  /** `_nonresponse_grounds`: an exact jurisdiction match, so state jurisdictions get the generic text. */
  function NonResponseFor(jurisdiction: string): (k: NonResponse)
    ensures k == FederalDeadline <==> jurisdiction == "US-Federal"
    ensures k == IndiaDeemedRefusal <==> jurisdiction == "India"
    ensures k == UKTimeLimit <==> jurisdiction == "UK"
    ensures k == EUConfirmatory <==> jurisdiction == "EU"
  {
    if jurisdiction == "US-Federal" then FederalDeadline
    else if jurisdiction == "India" then IndiaDeemedRefusal
    else if jurisdiction == "UK" then UKTimeLimit
    else if jurisdiction == "EU" then EUConfirmatory
    else GenericTimeframe
  }

  /** State jurisdictions fall through to the generic non-response grounds. */
  lemma StateNonResponseGeneric(jurisdiction: string)
    requires StartsWith(jurisdiction, "US-State")
    ensures NonResponseFor(jurisdiction) == GenericTimeframe
  {
    assert jurisdiction[3] == "US-State"[3] == 'S';
    assert "US-Federal"[3] == 'F';
  }

  /** `_additional_arguments`: the fee-waiver argument is added only when a waiver was requested and
      explicitly refused; an undecided waiver does not count. */
  function FeeWaiverArgument(req: Request): (add: bool)
    ensures add <==> req.feeWaiverRequested && req.feeWaiverGranted.Some? && !req.feeWaiverGranted.value
    ensures req.feeWaiverGranted.None? || req.feeWaiverGranted == Some(true) ==> !add
  {
    req.feeWaiverRequested && req.feeWaiverGranted == Some(false)
  }

  /** The reference line: the agency's reference when set and non-empty, else the tracker id. */
  function Reference(req: Request): (r: string)
    ensures Given(req.referenceId) ==> r == req.referenceId.value
    ensures !Given(req.referenceId) ==> StartsWith(r, "Tracker #") && r[9..] == IntToString(req.id)
  {
    var fallback := "Tracker #" + IntToString(req.id);
    assert fallback[..9] == "Tracker #";
    if Given(req.referenceId) then req.referenceId.value else fallback
  }

  /** Letters are addressed by jurisdiction, falling back to a US-style denial letter. */
  function Address(req: Request, today: Day): (t: (Template, Option<string>, Option<DeterminationKind>))
    ensures IsUSJurisdiction(req.jurisdiction) ==> t == (USTemplate, Some("FOIA Appeals Officer"), Some(DeterminationType(req, today)))
    ensures !IsUSJurisdiction(req.jurisdiction) && req.jurisdiction in {"India", "UK", "EU"} ==> t.1.None? && t.2.None?
    ensures req.jurisdiction == "India" ==> t.0 == IndiaTemplate
    ensures req.jurisdiction == "UK" ==> t.0 == UKTemplate
    ensures req.jurisdiction == "EU" ==> t.0 == EUTemplate
    ensures !IsUSJurisdiction(req.jurisdiction) && req.jurisdiction !in {"India", "UK", "EU"} ==> t == (USTemplate, Some("Appeals Officer"), Some(DenialDetermination))
  {
    if IsUSJurisdiction(req.jurisdiction) then (USTemplate, Some("FOIA Appeals Officer"), Some(DeterminationType(req, today)))
    else if req.jurisdiction == "India" then (IndiaTemplate, None, None)
    else if req.jurisdiction == "UK" then (UKTemplate, None, None)
    else if req.jurisdiction == "EU" then (EUTemplate, None, None)
    else (USTemplate, Some("Appeals Officer"), Some(DenialDetermination))
  }

  /** `generate_appeal` with the given grounds text, on the given day. */
  function GenerateAppeal(req: Request, grounds: string, today: Day): (a: Appeal)
    ensures grounds != "" ==> a.grounds == Supplied(grounds)
    ensures grounds == "" ==> a.grounds == DefaultGrounds(req, today)
    ensures a.feeWaiverArgument <==> a.template == USTemplate && req.feeWaiverRequested && req.feeWaiverGranted == Some(false)
    ensures a.details == BuildDenialDetails(req, today) && a.reference == Reference(req)
    ensures (a.template, a.appealTo, a.determination) == Address(req, today)
    ensures a.filingDate == today && a.agency == req.agency && a.topic == req.topic
  {
    var address := Address(req, today);
    Appeal(address.0, address.1, address.2, Reference(req), BuildDenialDetails(req, today),
           if grounds != "" then Supplied(grounds) else DefaultGrounds(req, today),
           address.0 == USTemplate && FeeWaiverArgument(req), today, req.agency, req.topic)
  }

  /** `generate_appeal_for_nonresponse`: the ordinary letter argued on the jurisdiction's non-response grounds. */
  function GenerateNonResponseAppeal(req: Request, today: Day): (a: Appeal)
    ensures a.grounds == NonResponseGrounds(NonResponseFor(req.jurisdiction))
    ensures a.template == Address(req, today).0
    ensures a.feeWaiverArgument <==> a.template == USTemplate && req.feeWaiverRequested && req.feeWaiverGranted == Some(false)
  {
    GenerateAppeal(req, "", today).(grounds := NonResponseGrounds(NonResponseFor(req.jurisdiction)))
  }

  /** Caller grounds are used verbatim, so any non-empty grounds give the same letter apart from the grounds
      themselves; the non-response letter is that letter with the non-response grounds. */
  lemma NonResponseIsOrdinaryAppeal(req: Request, grounds: string, today: Day)
    requires grounds != ""
    ensures GenerateNonResponseAppeal(req, today)
            == GenerateAppeal(req, grounds, today).(grounds := NonResponseGrounds(NonResponseFor(req.jurisdiction)))
  {
  }

  /** The fee-waiver paragraph never reaches an India, UK or EU letter, whatever became of the waiver. */
  lemma FeeWaiverUSOnly(req: Request, grounds: string, today: Day)
    requires req.jurisdiction in {"India", "UK", "EU"}
    ensures !GenerateAppeal(req, grounds, today).feeWaiverArgument
    ensures !GenerateNonResponseAppeal(req, today).feeWaiverArgument
  {
  }

  /** An overdue request without cited exemptions is appealed as a missed deadline throughout. */
  lemma OverdueAppeal(req: Request, today: Day)
    requires IsOverdue(req, today) && !Given(req.exemptionsCited) && req.status != PartialResponse
    ensures GenerateAppeal(req, "", today).details == NoTimelyResponse
    ensures GenerateAppeal(req, "", today).grounds == PastDeadline
    ensures IsUSJurisdiction(req.jurisdiction) ==> GenerateAppeal(req, "", today).determination == Some(ConstructiveDenial)
  {
    if req.status == Denied {
      TerminalNeverOverdue(req, today);
    }
  }
}

=== FILE: batch_filer.dfy ===
/** Filing requests with many agencies in one operation: choosing and caching a generator per
    jurisdiction, recording each filed request in the tracker, emailing it when an email
    configuration is present, and the dry-run preview. Generation, the database engine's choice
    of row id and the mail server are outside the filer's control and come in as a `World`. */
module BatchFiler {
  import opened Outcomes
  import opened Text
  import opened GeneratorBase
  import Dates
  import Deadlines
  import Tracker
  import EmailFiler

  /** `BatchTarget`: one agency to file with. */
  datatype Target = Target(
    agency: string,
    jurisdiction: string,
    topic: string,
    specificRecords: seq<string>,
    keywords: seq<string>,
    facilities: seq<string>,
    templateId: Option<string>,
    dateRangeStart: Option<Dates.Day>,
    dateRangeEnd: Option<Dates.Day>)

  // ---- choosing a generator ----

  /** The generator classes a batch can use. */
  datatype Generator = FederalGenerator | StateGenerator | IndiaGenerator | UKGenerator | EUGenerator

  /** `GENERATORS`: the generators chosen by exact jurisdiction name. */
  const Generators: seq<(string, Generator)> :=
    [("US-Federal", FederalGenerator), ("India", IndiaGenerator), ("UK", UKGenerator), ("EU", EUGenerator)]

  const StateKey := "US-State"

  /** Every state jurisdiction shares the key "US-State"; any other jurisdiction is its own key. */
  function GeneratorKey(jurisdiction: string): (key: string)
    ensures StartsWith(jurisdiction, StateKey) ==> key == StateKey
    ensures !StartsWith(jurisdiction, StateKey) ==> key == jurisdiction
  {
    if StartsWith(jurisdiction, StateKey) then StateKey else jurisdiction
  }

  /** The generator a key creates, if any. */
  function NewGenerator(key: string): Option<Generator> {
    if key == StateKey then Some(StateGenerator) else Lookup(Generators, key)
  }

  /** The keys with a generator, and the generator each creates. */
  lemma GeneratorTable(key: string)
    ensures NewGenerator(key) ==
      if key == StateKey then Some(StateGenerator)
      else if key == "US-Federal" then Some(FederalGenerator)
      else if key == "India" then Some(IndiaGenerator)
      else if key == "UK" then Some(UKGenerator)
      else if key == "EU" then Some(EUGenerator)
      else None
  {
    assert KeysOf(Generators) == ["US-Federal", "India", "UK", "EU"];
    var r := Lookup(Generators, key);
    if r.Some? {
      var i :| 0 <= i < |Generators| && Generators[i] == (key, r.value);
    }
  }

  /** The generator cache holds, per key, the generator that key creates. */
  predicate CacheValid(cache: map<string, Generator>) {
    forall key :: key in cache ==> NewGenerator(key) == Some(cache[key])
  }

  /** `_get_generator`: the cached generator for the jurisdiction's key, else a new one, which is
      then cached; a key without a generator is an error. */
  function GetGenerator(cache: map<string, Generator>, jurisdiction: string)
    : (res: Result<(Generator, map<string, Generator>)>)
    ensures res.Err? <==> GeneratorKey(jurisdiction) !in cache && NewGenerator(GeneratorKey(jurisdiction)).None?
    ensures res.Err? ==> res.message == "No generator for jurisdiction '" + jurisdiction + "'"
    ensures res.Ok? ==> res.value.1 == cache[GeneratorKey(jurisdiction) := res.value.0]
    ensures res.Ok? && GeneratorKey(jurisdiction) in cache ==> res.value == (cache[GeneratorKey(jurisdiction)], cache)
  {
    var key := GeneratorKey(jurisdiction);
    if key in cache then Ok((cache[key], cache))
    else
      match NewGenerator(key)
      case Some(g) => Ok((g, cache[key := g]))
      case None => Err("No generator for jurisdiction '" + jurisdiction + "'")
  }

  /** Over a valid cache, caching changes no answer: the generator served is the one the key
      creates, and the cache stays valid. */
  lemma CachingIsTransparent(cache: map<string, Generator>, jurisdiction: string)
    requires CacheValid(cache)
    ensures GetGenerator(cache, jurisdiction).Ok? <==> NewGenerator(GeneratorKey(jurisdiction)).Some?
    ensures GetGenerator(cache, jurisdiction).Ok? ==>
      GetGenerator(cache, jurisdiction).value.0 == NewGenerator(GeneratorKey(jurisdiction)).value
      && CacheValid(GetGenerator(cache, jurisdiction).value.1)
  {
  }

  /** All state jurisdictions share one cached generator: after one has been served, the next is
      served the same generator and the cache does not change. */
  lemma StatesShareGenerator(cache: map<string, Generator>, j1: string, j2: string)
    requires StartsWith(j1, StateKey) && StartsWith(j2, StateKey)
    ensures GetGenerator(cache, j1).Ok?
    ensures var (g, cache1) := GetGenerator(cache, j1).value;
      GetGenerator(cache1, j2) == Ok((g, cache1))
  {
  }

  /** Only the five known jurisdiction families have a generator. */
  lemma GeneratorFamilies(cache: map<string, Generator>, jurisdiction: string)
    requires CacheValid(cache)
    ensures GetGenerator(cache, jurisdiction).Ok? <==>
      StartsWith(jurisdiction, StateKey) || jurisdiction in ["US-Federal", "India", "UK", "EU"]
  {
    GeneratorTable(GeneratorKey(jurisdiction));
    if jurisdiction == StateKey {
      assert StartsWith(jurisdiction, StateKey);
    }
  }

  // ---- the filer and its world ----

  /** What the filer does not decide: a generator's output on a context (an error stands for any
      exception it raises), the id the database engine gives a new row, and the mail server's
      handling of the message for the target at a given position, sent to the given envelope
      recipients (the MIME size and the reply). */
  datatype World = World(
    generate: (Generator, RequestContext) -> Result<GeneratedRequest>,
    rowId: Tracker.Store -> int,
    server: (nat, seq<string>, EmailFiler.EmailMessage) -> (nat, EmailFiler.ServerReply))

  /** The engine never hands out an id that is in use. */
  ghost predicate FreshIds(world: World) {
    forall s: Tracker.Store :: world.rowId(s) !in s.records
  }

  /** `BatchFiler(db, email_config)`: the optional tracker, the optional email configuration, the
      deadline calculator and the generator cache. */
  datatype Filer = Filer(
    db: Option<Tracker.Store>,
    emailConfig: Option<EmailFiler.EmailConfig>,
    calculator: Deadlines.Calculator,
    cache: map<string, Generator>)

  /** A new filer: the default deadline rules and an empty cache. */
  function NewFiler(db: Option<Tracker.Store>, emailConfig: Option<EmailFiler.EmailConfig>): (f: Filer)
    ensures f.db == db && f.emailConfig == emailConfig && CacheValid(f.cache)
  {
    Filer(db, emailConfig, Deadlines.NewCalculator([]), map[])
  }

  /** The tracker, when present, satisfies its table invariant. */
  ghost predicate DbValid(db: Option<Tracker.Store>) {
    db.Some? ==> Tracker.Valid(db.value)
  }

  /** `BatchResult`. */
  datatype BatchResult = BatchResult(
    target: Target,
    success: bool,
    request: Option<GeneratedRequest>,
    trackerId: Option<int>,
    emailResult: Option<map<string, string>>,
    error: Option<string>)

  /** The result for a target whose filing raised. */
  function Failure(target: Target, message: string): BatchResult {
    BatchResult(target, false, None, None, None, Some(message))
  }

  /** The context a target is generated from. The requester fields only reach the letter text. */
  function ContextOf(target: Target): RequestContext {
    RequestContext(target.agency, target.topic, target.jurisdiction, target.dateRangeStart, target.dateRangeEnd,
                   target.specificRecords, target.keywords, true, target.templateId)
  }

  // ---- tracking ----

  /** The keyword arguments of the row a filed request gets. */
  function FiledColumns(today: Dates.Day, deadline: Dates.Day, via: string): seq<Tracker.Assign> {
    [Tracker.SetDateFiled(Some(today)), Tracker.SetDeadline(Some(deadline)), Tracker.SetStatus(Tracker.Filed),
     Tracker.SetFilingMethod(Some(via)), Tracker.SetFeeWaiverRequested(true)]
  }

  /** A row records a request filed today: status FILED, filed today, with the calculator's
      deadline for the target's jurisdiction, the generated agency, jurisdiction, text and filing
      via, the target's topic, and a fee waiver requested. */
  ghost predicate FiledAs(r: Tracker.Request, calculator: Deadlines.Calculator, target: Target,
                          generated: GeneratedRequest, today: Dates.Day) {
    r.status == Tracker.Filed && r.dateFiled == Some(today)
    && r.deadline.Some? && Deadlines.Calculate(calculator, target.jurisdiction, today) == Ok(r.deadline.value)
    && r.agency == generated.agency && r.jurisdiction == generated.jurisdiction && r.topic == target.topic
    && r.requestText == Some(generated.text) && r.filingMethod == Some(generated.filingMethod)
    && r.feeWaiverRequested
  }

  /** Every row of `before` is still in `after`, unchanged. */
  predicate Kept(before: map<int, Tracker.Request>, after: map<int, Tracker.Request>) {
    forall id :: id in before ==> id in after && after[id] == before[id]
  }

  /** The filed columns land in their own columns of the row. */
  lemma FiledRow(r0: Tracker.Request, today: Dates.Day, deadline: Dates.Day, via: string)
    ensures var r := Tracker.ApplyAll(r0, FiledColumns(today, deadline, via));
      r.status == Tracker.Filed && r.dateFiled == Some(today) && r.deadline == Some(deadline)
      && r.filingMethod == Some(via) && r.feeWaiverRequested
  {
    var a0, a1, a2, a3, a4 := Tracker.SetDateFiled(Some(today)), Tracker.SetDeadline(Some(deadline)),
      Tracker.SetStatus(Tracker.Filed), Tracker.SetFilingMethod(Some(via)), Tracker.SetFeeWaiverRequested(true);
    assert FiledColumns(today, deadline, via) == [a0, a1, a2, a3, a4];
    Tracker.ApplyFive(r0, a0, a1, a2, a3, a4);
    Tracker.StepDateFiled(r0, Some(today));
    var r1 := Tracker.Apply(r0, a0);
    Tracker.StepDeadline(r1, Some(deadline));
    var r2 := Tracker.Apply(r1, a1);
    Tracker.StepStatus(r2, Tracker.Filed);
    var r3 := Tracker.Apply(r2, a2);
    Tracker.StepFilingMethod(r3, Some(via));
    var r4 := Tracker.Apply(r3, a3);
    Tracker.StepFeeWaiver(r4);
  }

  /** A row created with the filed columns records the request as filed today. */
  lemma CreatedFiled(s: Tracker.Store, id: int, calculator: Deadlines.Calculator, target: Target,
                     generated: GeneratedRequest, today: Dates.Day, deadline: Dates.Day)
    requires Tracker.Valid(s) && id !in s.records
    requires Deadlines.Calculate(calculator, target.jurisdiction, today) == Ok(deadline)
    requires Tracker.Create(s, id, generated.agency, generated.jurisdiction, target.topic, generated.text,
                            FiledColumns(today, deadline, generated.filingMethod)).Ok?
    ensures var s' := Tracker.Create(s, id, generated.agency, generated.jurisdiction, target.topic, generated.text,
                                     FiledColumns(today, deadline, generated.filingMethod)).value.0;
      Tracker.Valid(s') && id in s'.records && s'.records == s.records[id := s'.records[id]]
      && FiledAs(s'.records[id], calculator, target, generated, today)
  {
    Tracker.CreatedIsApplied(s, id, generated.agency, generated.jurisdiction, target.topic, generated.text,
                             FiledColumns(today, deadline, generated.filingMethod));
    FiledRow(Tracker.NewRecord(id, s.clock, generated.agency, generated.jurisdiction, target.topic, generated.text),
             today, deadline, generated.filingMethod);
  }

  /** `create_request` for a filed request, under the id `id`: the deadline comes from the
      calculator, and a jurisdiction without deadline rules is an error. */
  method Record(s: Tracker.Store, id: int, calculator: Deadlines.Calculator, target: Target,
                generated: GeneratedRequest, today: Dates.Day) returns (res: Result<Tracker.Store>)
    requires Tracker.Valid(s) && id !in s.records
    ensures res.Ok? ==> Tracker.Valid(res.value) && id in res.value.records
    ensures res.Ok? ==> res.value.records == s.records[id := res.value.records[id]]
    ensures res.Ok? ==> FiledAs(res.value.records[id], calculator, target, generated, today)
    ensures Deadlines.Calculate(calculator, target.jurisdiction, today).Err? ==> res.Err?
  {
    var deadline := Deadlines.Calculate(calculator, target.jurisdiction, today);
    if deadline.Err? {
      return Err(deadline.message);
    }
    var created := Tracker.Create(s, id, generated.agency, generated.jurisdiction, target.topic, generated.text,
                                  FiledColumns(today, deadline.value, generated.filingMethod));
    if created.Err? {
      return Err(created.message);
    }
    CreatedFiled(s, id, calculator, target, generated, today, deadline.value);
    return Ok(created.value.0);
  }



  /** Recording a row under a fresh id keeps every other row. */
  lemma RecordKeeps(s: Tracker.Store, s': Tracker.Store, id: int)
    requires id !in s.records && id in s'.records && s'.records == s.records[id := s'.records[id]]
    ensures Kept(s.records, s'.records)
  {
  }

  /** The tracking step. Outside a dry run and with a tracker, the request is recorded as filed
      today under the id the engine picks; a jurisdiction without deadline rules or a rejected row
      is an error. Otherwise nothing is recorded. */
  method Track(filer: Filer, dryRun: bool, target: Target, generated: GeneratedRequest,
               today: Dates.Day, world: World) returns (res: Result<(Option<Tracker.Store>, Option<int>)>)
    requires DbValid(filer.db) && FreshIds(world)
    ensures dryRun || filer.db.None? ==> res == Ok((filer.db, None))
    ensures res.Err? ==> !dryRun && filer.db.Some?
    ensures res.Ok? ==> res.value.0.Some? == filer.db.Some? && DbValid(res.value.0)
    ensures res.Ok? && res.value.0.Some? ==> Kept(filer.db.value.records, res.value.0.value.records)
    ensures res.Ok? && !dryRun && filer.db.Some? ==> res.value.1.Some?
    ensures res.Ok? && res.value.1.Some? ==> res.value.1.value !in filer.db.value.records
    ensures res.Ok? && res.value.1.Some? ==>
      TrackedIn(res.value.1.value, res.value.0, filer.calculator, target, generated, today)
  {
    if filer.db.None? || dryRun {
      return Ok((filer.db, None));
    }
    var s := filer.db.value;
    var id := world.rowId(s);
    var recorded := Record(s, id, filer.calculator, target, generated, today);
    if recorded.Err? {
      return Err(recorded.message);
    }
    RecordKeeps(s, recorded.value, id);
    return Ok((Some(recorded.value), Some(id)));
  }


  /** Row `id` of the tracker records the request as filed today. */
  ghost predicate TrackedIn(id: int, db: Option<Tracker.Store>, calculator: Deadlines.Calculator, target: Target,
                            generated: GeneratedRequest, today: Dates.Day) {
    db.Some? && id in db.value.records && FiledAs(db.value.records[id], calculator, target, generated, today)
  }

  // ---- emailing ----

  /** The report for a request the email filer refused. */
  function Skipped(reason: string): (m: map<string, string>)
    ensures "status" in m && m["status"] == "skipped" && "reason" in m && m["reason"] == reason
  {
    map["status" := "skipped", "reason" := reason]
  }

  /** The server's handling of the formatted message for the target at `position`, sent to the
      envelope `send` builds from `config`. */
  function Delivery(world: World, position: nat, config: EmailFiler.EmailConfig, message: EmailFiler.EmailMessage)
    : (nat, EmailFiler.ServerReply)
  {
    world.server(position, EmailFiler.RecipientsAsWritten(config, message), message)
  }

  /** The email step: with a configuration, the request is formatted and sent (in a dry run, only
      reported); a `ValueError` from either becomes a "skipped" report. Without one, nothing is
      sent. Any other exception from the connection leaves the step as an `Err`. */
  method EmailStep(config: Option<EmailFiler.EmailConfig>, generated: GeneratedRequest, dryRun: bool,
                   position: nat, world: World) returns (res: Result<Option<map<string, string>>>)
    ensures config.None? ==> res == Ok(None)
    ensures res.Ok? ==> (res.value.Some? <==> config.Some?)
    ensures config.Some? && EmailFiler.FormatRequest(config.value, generated, []).Err? ==>
      res == Ok(Some(Skipped(EmailFiler.FormatRequest(config.value, generated, []).message)))
    ensures config.Some? && !dryRun && (config.value.username == "" || config.value.password == "") ==>
      res.Ok? && "status" in res.value.value && res.value.value["status"] == "skipped"
    ensures config.Some? && dryRun && EmailFiler.FormatRequest(config.value, generated, []).Ok? ==>
      res.Ok? && "status" in res.value.value && res.value.value["status"] == "dry_run"
    ensures config.Some? && EmailFiler.FormatRequest(config.value, generated, []).Ok? ==>
      var message := EmailFiler.FormatRequest(config.value, generated, []).value;
      var reply := Delivery(world, position, config.value, message).1;
      (res.Err? <==> EmailFiler.Raises(config.value, dryRun, reply))
      && (res.Err? ==> res.message == reply.error)
      && (!dryRun && config.value.username != "" && config.value.password != "" ==>
            (reply.Accepted? ==> res == Ok(Some(EmailFiler.SentReport(message))))
            && (reply.Refused? ==> res == Ok(Some(EmailFiler.ErrorReport(reply.error)))))
  {
    if config.None? {
      return Ok(None);
    }
    var formatted := EmailFiler.FormatRequest(config.value, generated, []);
    if formatted.Err? {
      return Ok(Some(Skipped(formatted.message)));
    }
    var (size, reply) := Delivery(world, position, config.value, formatted.value);
    var sent := EmailFiler.Send(config.value, formatted.value, dryRun, size, reply);
    if sent.Err? {
      if EmailFiler.Raises(config.value, dryRun, reply) {
        return Err(sent.message);
      }
      return Ok(Some(Skipped(sent.message)));
    }
    return Ok(Some(sent.value));
  }


  // ---- one target, then the batch ----

  /** A result is a success with its request, or a failure with its message and nothing else. */
  predicate WellFormed(r: BatchResult) {
    (r.success <==> r.error.None?)
    && (r.success ==> r.request.Some?)
    && (!r.success ==> r.request.None? && r.trackerId.None? && r.emailResult.None?)
  }

  /** A result's tracker id, if any, names the row recording its request. */
  ghost predicate ResultTracked(r: BatchResult, db: Option<Tracker.Store>, calculator: Deadlines.Calculator,
                                today: Dates.Day) {
    r.trackerId.Some? ==> r.request.Some? && TrackedIn(r.trackerId.value, db, calculator, r.target, r.request.value, today)
  }

  /** Rows that are kept stay tracked. */
  lemma TrackedStays(r: BatchResult, db: Option<Tracker.Store>, db': Option<Tracker.Store>,
                     calculator: Deadlines.Calculator, today: Dates.Day)
    requires ResultTracked(r, db, calculator, today)
    requires db.Some? ==> db'.Some? && Kept(db.value.records, db'.value.records)
    ensures ResultTracked(r, db', calculator, today)
  {
  }

  /** What `file_batch` promises of the result for `target`: it is well formed; a dry run or a
      filer without a tracker records nothing, and otherwise every success is recorded, under an
      id naming its row in `db`; a success carries an email report exactly when email is set up. */
  ghost predicate Filed(r: BatchResult, target: Target, filer: Filer, db: Option<Tracker.Store>, dryRun: bool,
                        today: Dates.Day) {
    r.target == target && WellFormed(r)
    && (dryRun || filer.db.None? ==> r.trackerId.None?)
    && (!dryRun && filer.db.Some? && r.success ==> r.trackerId.Some?)
    && ResultTracked(r, db, filer.calculator, today)
    && (r.success ==> (r.emailResult.Some? <==> filer.emailConfig.Some?))
  }

  /** The filer after a step: same configuration, a valid tracker that kept every row. */
  ghost predicate Advanced(filer: Filer, after: Filer) {
    after.emailConfig == filer.emailConfig && after.calculator == filer.calculator
    && after.db.Some? == filer.db.Some? && DbValid(after.db)
    && (after.db.Some? ==> Kept(filer.db.value.records, after.db.value.records))
    && (CacheValid(filer.cache) ==> CacheValid(after.cache))
  }

  /** A later step keeps what an earlier one promised. */
  lemma FiledStays(r: BatchResult, target: Target, filer: Filer, mid: Filer, after: Filer, dryRun: bool,
                   today: Dates.Day)
    requires Filed(r, target, filer, mid.db, dryRun, today) && Advanced(filer, mid) && Advanced(mid, after)
    ensures Filed(r, target, filer, after.db, dryRun, today)
  {
    TrackedStays(r, mid.db, after.db, filer.calculator, today);
  }

  /** What a step promised relative to the filer it started from holds relative to any earlier one. */
  lemma FiledRebased(r: BatchResult, target: Target, filer: Filer, mid: Filer, db: Option<Tracker.Store>,
                     dryRun: bool, today: Dates.Day)
    requires Filed(r, target, mid, db, dryRun, today) && Advanced(filer, mid)
    ensures Filed(r, target, filer, db, dryRun, today)
  {
  }

  /** Steps compose. */
  lemma AdvancedTwice(filer: Filer, mid: Filer, after: Filer)
    requires Advanced(filer, mid) && Advanced(mid, after)
    ensures Advanced(filer, after)
  {
  }

  /** A failure is filed under any later tracker: it carries nothing to track. */
  lemma FailureFiled(target: Target, filer: Filer, after: Filer, dryRun: bool, today: Dates.Day, message: string)
    ensures Filed(Failure(target, message), target, filer, after.db, dryRun, today)
  {
  }

  /** A success is filed when its tracker id is there exactly when a live run has a tracker, names
      a row recording the request, and its email report is there exactly when email is set up. */
  lemma SuccessFiled(target: Target, filer: Filer, db: Option<Tracker.Store>, dryRun: bool, today: Dates.Day,
                     generated: GeneratedRequest, id: Option<int>, email: Option<map<string, string>>)
    requires id.Some? <==> !dryRun && filer.db.Some?
    requires id.Some? ==> TrackedIn(id.value, db, filer.calculator, target, generated, today)
    requires email.Some? <==> filer.emailConfig.Some?
    ensures Filed(BatchResult(target, true, Some(generated), id, email, None), target, filer, db, dryRun, today)
  {
  }

  /** One iteration of `file_batch`: choose the generator, generate, track, email. Anything that
      raises before the result is recorded turns into a failed result carrying the message; when
      that is the connection failing after the row was committed, the row stays. */
  method FileOne(filer: Filer, position: nat, target: Target, dryRun: bool, today: Dates.Day, world: World)
    returns (r: BatchResult, after: Filer)
    requires DbValid(filer.db) && FreshIds(world)
    ensures Filed(r, target, filer, after.db, dryRun, today) && Advanced(filer, after)
    ensures dryRun || filer.db.None? ==> after.db == filer.db
    ensures r.trackerId.Some? ==> r.trackerId.value !in filer.db.value.records
    ensures !r.success && after.db != filer.db ==> !dryRun && filer.db.Some? && filer.emailConfig.Some?
  {
    var chosen := GetGenerator(filer.cache, target.jurisdiction);
    if chosen.Err? {
      return Failure(target, chosen.message), filer;
    }
    if CacheValid(filer.cache) {
      CachingIsTransparent(filer.cache, target.jurisdiction);
    }
    var (generator, cache) := chosen.value;
    after := filer.(cache := cache);
    var generated := world.generate(generator, ContextOf(target));
    if generated.Err? {
      FailureFiled(target, filer, after, dryRun, today, generated.message);
      return Failure(target, generated.message), after;
    }
    var tracked := Track(after, dryRun, target, generated.value, today, world);
    if tracked.Err? {
      FailureFiled(target, filer, after, dryRun, today, tracked.message);
      return Failure(target, tracked.message), after;
    }
    after := after.(db := tracked.value.0);
    var email := EmailStep(filer.emailConfig, generated.value, dryRun, position, world);
    if email.Err? {
      FailureFiled(target, filer, after, dryRun, today, email.message);
      return Failure(target, email.message), after;
    }
    SuccessFiled(target, filer, after.db, dryRun, today, generated.value, tracked.value.1, email.value);
    r := BatchResult(target, true, Some(generated.value), tracked.value.1, email.value, None);
  }

  /** `file_batch`: one result per target, in target order. A target that fails does not stop the
      batch; a dry run or a filer without a tracker records nothing; every tracker id names a row
      of the final tracker recording its request as filed today. */
  method FileBatch(filer: Filer, targets: seq<Target>, dryRun: bool, today: Dates.Day, world: World)
    returns (results: seq<BatchResult>, after: Filer)
    requires DbValid(filer.db) && FreshIds(world)
    ensures |results| == |targets|
    ensures forall k :: 0 <= k < |targets| ==> Filed(results[k], targets[k], filer, after.db, dryRun, today)
    ensures Advanced(filer, after)
    ensures dryRun || filer.db.None? ==> after.db == filer.db
  {
    results := [];
    after := filer;
    var i := 0;
    while i < |targets|
      invariant 0 <= i <= |targets| && |results| == i
      invariant forall k :: 0 <= k < i ==> Filed(results[k], targets[k], filer, after.db, dryRun, today)
      invariant Advanced(filer, after)
      invariant dryRun || filer.db.None? ==> after.db == filer.db
    {
      var r, next := FileOne(after, i, targets[i], dryRun, today, world);
      forall k | 0 <= k < i
        ensures Filed(results[k], targets[k], filer, next.db, dryRun, today)
      {
        FiledStays(results[k], targets[k], filer, after, next, dryRun, today);
      }
      FiledRebased(r, targets[i], filer, after, next.db, dryRun, today);
      AdvancedTwice(filer, after, next);
      results := results + [r];
      after := next;
      i := i + 1;
    }
  }

  // ---- the preview ----

  /** The request part of a preview. */
  datatype RequestPreview = RequestPreview(textPreview: string, legalBasis: string, deadlineDays: int,
                                           filingMethod: string)

  /** One entry of `preview_batch`. */
  datatype Preview = Preview(agency: string, jurisdiction: string, topic: string, success: bool,
                             request: Option<RequestPreview>, error: Option<string>)

  /** The first 500 characters of the letter, always followed by "...". */
  function TextPreview(text: string): (t: string)
    ensures |t| == (if |text| <= 500 then |text| else 500) + 3
    ensures StartsWith(text, t[..|t| - 3]) && EndsWith(t, "...")
  {
    var head := Take(text, 500);
    assert (head + "...")[..|head|] == head;
    assert (head + "...")[|head|..] == "...";
    head + "..."
  }

  /** A letter of at most 500 characters can be read back whole from its preview. */
  lemma ShortTextPreviewed(text: string)
    requires |text| <= 500
    ensures TextPreview(text)[..|TextPreview(text)| - 3] == text
  {
  }

  /** The preview entry of one result: the target's fields, the request's when there is one, and
      the error when it is non-empty. */
  function PreviewOf(r: BatchResult): (p: Preview)
    ensures p.agency == r.target.agency && p.jurisdiction == r.target.jurisdiction && p.topic == r.target.topic
    ensures p.success == r.success
    ensures p.request.Some? <==> r.request.Some?
    ensures p.request.Some? ==>
      p.request.value.legalBasis == r.request.value.legalBasis
      && p.request.value.deadlineDays == r.request.value.deadlineDays
      && p.request.value.filingMethod == r.request.value.filingMethod
      && p.request.value.textPreview == TextPreview(r.request.value.text)
    ensures p.error.Some? <==> r.error.Some? && r.error.value != ""
    ensures p.error.Some? ==> p.error == r.error
  {
    Preview(r.target.agency, r.target.jurisdiction, r.target.topic, r.success,
            match r.request
            case Some(g) => Some(RequestPreview(TextPreview(g.text), g.legalBasis, g.deadlineDays, g.filingMethod))
            case None => None,
            if r.error.Some? && r.error.value != "" then r.error else None)
  }

  /** `preview_batch`: a dry run of the batch, one entry per target in order; a successful entry
      carries its request and no error, a failed one no request. Nothing is recorded. */
  method PreviewBatch(filer: Filer, targets: seq<Target>, today: Dates.Day, world: World)
    returns (previews: seq<Preview>, after: Filer)
    requires DbValid(filer.db) && FreshIds(world)
    ensures |previews| == |targets|
    ensures forall k :: 0 <= k < |targets| ==>
      previews[k].agency == targets[k].agency && previews[k].jurisdiction == targets[k].jurisdiction
      && previews[k].topic == targets[k].topic
    ensures forall k :: 0 <= k < |targets| ==>
      (previews[k].success ==> previews[k].request.Some? && previews[k].error.None?)
    ensures forall k :: 0 <= k < |targets| ==> (!previews[k].success ==> previews[k].request.None?)
    ensures after.db == filer.db
  {
    var results;
    results, after := FileBatch(filer, targets, true, today, world);
    previews := seq(|results|, k requires 0 <= k < |results| => PreviewOf(results[k]));
  }
}

=== FILE: dates.dfy ===
/** Calendar dates as day numbers.

    Python's `datetime.date` is modelled by the number of days since 1970-01-01 in
    the proleptic Gregorian calendar. `ToDate` and `FromDate` convert between day
    numbers and (year, month, day) with H. Hinnant's era-based formulas, and both
    round trips are proved. `Weekday` follows `date.weekday()`: Monday is 0.
 */
module Dates {

  import opened Text

  /** A date: days since 1970-01-01 (negative before it). */
  type Day = int

  datatype Date = Date(year: int, month: int, day: int)

  predicate IsLeapYear(y: int) {
    y % 4 == 0 && (y % 100 != 0 || y % 400 == 0)
  }

  function DaysInMonth(y: int, m: int): int {
    if m == 2 then (if IsLeapYear(y) then 29 else 28)
    else if m == 4 || m == 6 || m == 9 || m == 11 then 30
    else 31
  }

  predicate ValidDate(d: Date) {
    1 <= d.month <= 12 && 1 <= d.day <= DaysInMonth(d.year, d.month)
  }

  /** Days in a 400-year era. */
  const EraDays := 146097

  /** Day number of 0000-03-01, the first day of era 0 (eras and their years start on 1 March). */
  const EpochShift := 719468

  /** The year of the era (0..399) that day `doe` of the era falls in. */
  function YearOfEra(doe: int): int {
    (doe - doe / 1460 + doe / 36524 - doe / 146096) / 365
  }

  /** The day of the era on which year `yoe` of the era starts. */
  function StartOfYear(yoe: int): int {
    365 * yoe + yoe / 4 - yoe / 100
  }

  /** The month (0 = March .. 11 = February) that day `doy` of a March-based year falls in. */
  function MonthOfYear(doy: int): int {
    (5 * doy + 2) / 153
  }

  /** The day of a March-based year on which month `mp` starts. */
  function StartOfMonth(mp: int): int {
    (153 * mp + 2) / 5
  }

  /** The civil date of a day number. */
  function ToDate(z: Day): (d: Date)
    ensures ValidDate(d)
  {
    var zz := z + EpochShift;
    DateInEra(zz / EraDays, zz % EraDays)
  }

  /** The date on day `doe` of era `era`. */
  function DateInEra(era: int, doe: int): (d: Date)
    requires 0 <= doe < EraDays
    ensures ValidDate(d)
  {
    YearOfEraBounds(doe);
    var yoe := YearOfEra(doe);
    LeapShift(era, yoe + 1);
    DateInYear(era * 400 + yoe, doe - StartOfYear(yoe))
  }

  /** The date on day `doy` of the March-based year `y` (which ends in February of year y + 1). */
  function DateInYear(y: int, doy: int): (d: Date)
    requires 0 <= doy <= 365
    requires doy == 365 ==> IsLeapYear(y + 1)
    ensures ValidDate(d)
  {
    MonthOfDayBounds(doy);
    var mp := MonthOfYear(doy);
    var month := if mp < 10 then mp + 3 else mp - 9;
    Date(y + (if month <= 2 then 1 else 0), month, doy - StartOfMonth(mp) + 1)
  }

  /** The day number of a civil date. */
  function FromDate(d: Date): Day {
    var y := d.year - (if d.month <= 2 then 1 else 0);
    var era := y / 400;
    var yoe := y % 400;
    var mp := if d.month > 2 then d.month - 3 else d.month + 9;
    era * EraDays + StartOfYear(yoe) + StartOfMonth(mp) + d.day - 1 - EpochShift
  }

  /** `date.weekday()`: 0 for Monday .. 6 for Sunday; 1970-01-01 was a Thursday. */
  function Weekday(z: Day): (w: int)
    ensures 0 <= w < 7
  {
    (z + 3) % 7
  }

  // ---------------------------------------------------------------------------
  // The arithmetic behind the conversion, split into facts small enough for the
  // solver: an era is 4 centuries of 36524 days (the last one a day longer), a
  // century is 25 blocks of 1461 days (the last one a day shorter).
  // ---------------------------------------------------------------------------

  lemma SplitEra(doe: int) returns (b: int, q: int, s: int)
    requires 0 <= doe <= 146095
    ensures 0 <= b <= 3 && 0 <= q <= 24 && 0 <= s <= 1460
    ensures q == 24 ==> s <= 1459
    ensures doe == 36524 * b + 1461 * q + s
  {
    b := doe / 36524;
    var r := doe % 36524;
    q := r / 1461;
    s := r % 1461;
  }

  lemma YearInBlock(b: int, q: int, s: int)
    requires 0 <= b <= 3 && 0 <= q <= 24 && 0 <= s <= 1460
    requires q == 24 ==> s <= 1459
    ensures YearOfEra(36524 * b + 1461 * q + s) == 100 * b + 4 * q + (if s == 1460 then 3 else s / 365)
  {
    var doe := 36524 * b + 1461 * q + s;
    var t := if s + 24 * b + q >= 1460 then 1 else 0;
    assert doe / 1460 == 25 * b + q + t;
    assert doe / 36524 == b;
    assert doe / 146096 == 0;
    assert (s - t) / 365 == (if s == 1460 then 3 else s / 365);
    assert doe - doe / 1460 + doe / 36524 - doe / 146096 == 365 * (100 * b + 4 * q) + (s - t);
  }

  lemma StartInBlock(b: int, q: int, y4: int)
    requires 0 <= b <= 3 && 0 <= q <= 24 && 0 <= y4 <= 3
    ensures StartOfYear(100 * b + 4 * q + y4) == 36524 * b + 1461 * q + 365 * y4
  {
    var yoe := 100 * b + 4 * q + y4;
    assert yoe / 4 == 25 * b + q;
    assert yoe / 100 == b;
  }

  /** Leap years repeat every 400 years. */
  lemma LeapShift(era: int, k: int)
    ensures IsLeapYear(era * 400 + k) == IsLeapYear(k)
  {
    ModShift(k, era * 100, 4);
    ModShift(k, era * 4, 100);
    ModShift(k, era, 400);
  }

  lemma ModShift(k: int, n: int, m: int)
    requires m == 4 || m == 100 || m == 400
    ensures (k + n * m) % m == k % m
  {
    var q, r := k / m, k % m;
    assert k == q * m + r && 0 <= r < m;
    assert k + n * m == (q + n) * m + r;
    DivisionUnique(k + n * m, m, q + n, r);
  }

  /** Euclidean division has one quotient and one remainder. */
  lemma DivisionUnique(x: int, m: int, q: int, r: int)
    requires 0 < m && 0 <= r < m && x == q * m + r
    ensures x % m == r
  {
    var q', r' := x / m, x % m;
    assert x == q' * m + r' && 0 <= r' < m;
    if q > q' {
      var d := q - q';
      assert d * m == q * m - q' * m;
      AtLeastOnce(d, m);
    } else if q < q' {
      var d := q' - q;
      assert d * m == q' * m - q * m;
      AtLeastOnce(d, m);
    }
  }

  lemma {:induction false} AtLeastOnce(d: int, m: int)
    requires d >= 1 && m >= 0
    ensures d * m >= m
    decreases d
  {
    if d > 1 {
      AtLeastOnce(d - 1, m);
      assert d * m == (d - 1) * m + m;
    }
  }

  /** The year of the era is in range, the day lies within it, and only a leap year has a 366th day. */
  lemma YearOfEraBounds(doe: int)
    requires 0 <= doe <= 146096
    ensures 0 <= YearOfEra(doe) <= 399
    ensures StartOfYear(YearOfEra(doe)) <= doe <= StartOfYear(YearOfEra(doe)) + 365
    ensures doe == StartOfYear(YearOfEra(doe)) + 365 ==> IsLeapYear(YearOfEra(doe) + 1)
  {
    if doe == 146096 {
      LastDayOfEra();
    } else {
      var b, q, s := SplitEra(doe);
      YearOfBlockDay(b, q, s);
    }
  }

  lemma YearOfBlockDay(b: int, q: int, s: int)
    requires 0 <= b <= 3 && 0 <= q <= 24 && 0 <= s <= 1460
    requires q == 24 ==> s <= 1459
    ensures var yoe := YearOfEra(36524 * b + 1461 * q + s);
      0 <= yoe <= 399
      && StartOfYear(yoe) <= 36524 * b + 1461 * q + s <= StartOfYear(yoe) + 365
      && (36524 * b + 1461 * q + s == StartOfYear(yoe) + 365 ==> IsLeapYear(yoe + 1))
  {
    YearInBlock(b, q, s);
    var y4 := if s == 1460 then 3 else s / 365;
    StartInBlock(b, q, y4);
    var yoe := 100 * b + 4 * q + y4;
    if s == 1460 {
      assert (yoe + 1) % 4 == 0 && (yoe + 1) % 100 != 0;
    }
  }

  /** The start of year `yoe` plus a day inside that year lies in year `yoe`. */
  lemma YearOfEraOfStart(yoe: int, doy: int)
    requires 0 <= yoe <= 399
    requires 0 <= doy <= 364 || (doy == 365 && IsLeapYear(yoe + 1))
    ensures 0 <= StartOfYear(yoe) + doy <= 146096
    ensures YearOfEra(StartOfYear(yoe) + doy) == yoe
  {
    var b, q, y4 := SplitYear(yoe);
    StartInBlock(b, q, y4);
    if doy == 365 {
      LeapYearOfEra(yoe);
    }
    if yoe == 399 && doy == 365 {
      LastDayOfEra();
    } else {
      YearInBlock(b, q, 365 * y4 + doy);
    }
  }

  lemma SplitYear(yoe: int) returns (b: int, q: int, y4: int)
    requires 0 <= yoe <= 399
    ensures 0 <= b <= 3 && 0 <= q <= 24 && 0 <= y4 <= 3
    ensures yoe == 100 * b + 4 * q + y4
    ensures q == 24 && y4 == 3 ==> yoe % 100 == 99
  {
    b := yoe / 100;
    q := (yoe % 100) / 4;
    y4 := yoe % 4;
  }

  /** In era coordinates, year `yoe` is followed by a leap day only when it is the last of a 4-year block that is not a century's last, or of the era. */
  lemma LeapYearOfEra(yoe: int)
    requires 0 <= yoe <= 399
    requires IsLeapYear(yoe + 1)
    ensures yoe % 4 == 3
    ensures yoe % 100 == 99 ==> yoe == 399
  {
  }

  lemma LastDayOfEra()
    ensures StartOfYear(399) + 365 == 146096
    ensures YearOfEra(146096) == 399
  {
  }

  /** Months of a March-based year: month `mp` covers days StartOfMonth(mp) .. StartOfMonth(mp + 1) - 1. */
  lemma MonthOfDayBounds(doy: int)
    requires 0 <= doy <= 365
    ensures 0 <= MonthOfYear(doy) <= 11
    ensures StartOfMonth(MonthOfYear(doy)) <= doy < StartOfMonth(MonthOfYear(doy) + 1)
    ensures MonthOfYear(doy) < 11 ==> doy - StartOfMonth(MonthOfYear(doy)) < MonthLength(MonthOfYear(doy))
    ensures MonthOfYear(doy) == 11 ==> doy - StartOfMonth(11) <= 28
  {
  }

  /** Days in March-based month `mp` (0 = March .. 10 = January); February is handled apart. */
  function MonthLength(mp: int): int {
    if mp == 1 || mp == 3 || mp == 6 || mp == 8 then 30 else 31
  }

  lemma MonthOfStart(mp: int, k: int)
    requires 0 <= mp <= 11
    requires 0 <= k && (mp < 11 ==> k < MonthLength(mp)) && (mp == 11 ==> k <= 28)
    ensures MonthOfYear(StartOfMonth(mp) + k) == mp
  {
  }

  /** Day number to date and back is the identity. */
  lemma FromToDate(z: Day)
    ensures FromDate(ToDate(z)) == z
  {
    var zz := z + EpochShift;
    var era := zz / EraDays;
    var doe := zz % EraDays;
    YearOfEraBounds(doe);
    var yoe := YearOfEra(doe);
    LeapShift(era, yoe + 1);
    assert era * 400 + (yoe + 1) == era * 400 + yoe + 1;
    assert ToDate(z) == DateInYear(era * 400 + yoe, doe - StartOfYear(yoe));
    FromDateInYear(era, yoe, doe - StartOfYear(yoe));
    assert zz == era * EraDays + doe;
  }

  lemma FromDateInYear(era: int, yoe: int, doy: int)
    requires 0 <= yoe <= 399 && 0 <= doy <= 365
    requires doy == 365 ==> IsLeapYear(era * 400 + yoe + 1)
    ensures FromDate(DateInYear(era * 400 + yoe, doy)) == era * EraDays + StartOfYear(yoe) + doy - EpochShift
  {
    var y := era * 400 + yoe;
    assert y / 400 == era && y % 400 == yoe;
    MonthOfDayBounds(doy);
  }

  /** Every valid date survives date to day number and back. */
  lemma ToFromDate(d: Date)
    requires ValidDate(d)
    ensures ToDate(FromDate(d)) == d
  {
    var era, doe := EraDayOfDate(d);
    ToDateOfEraDay(FromDate(d), era, doe);
  }

  lemma ToDateOfEraDay(z: Day, era: int, doe: int)
    requires 0 <= doe < EraDays
    requires z + EpochShift == era * EraDays + doe
    ensures ToDate(z) == DateInEra(era, doe)
  {
    EraSplit(era, doe);
  }

  /** Where a valid date lies in its era, and that reading that position back gives the date. */
  lemma EraDayOfDate(d: Date) returns (era: int, doe: int)
    requires ValidDate(d)
    ensures 0 <= doe < EraDays
    ensures FromDate(d) + EpochShift == era * EraDays + doe
    ensures DateInEra(era, doe) == d
  {
    var yoe, mp;
    era, yoe, mp := FromDateParts(d);
    DateInEraOfParts(d, era, yoe, mp);
    doe := StartOfYear(yoe) + StartOfMonth(mp) + d.day - 1;
  }

  lemma FromDateParts(d: Date) returns (era: int, yoe: int, mp: int)
    requires ValidDate(d)
    ensures era == (d.year - (if d.month <= 2 then 1 else 0)) / 400
    ensures yoe == (d.year - (if d.month <= 2 then 1 else 0)) % 400
    ensures mp == if d.month > 2 then d.month - 3 else d.month + 9
    ensures FromDate(d) + EpochShift == era * EraDays + StartOfYear(yoe) + StartOfMonth(mp) + d.day - 1
  {
    var y := d.year - (if d.month <= 2 then 1 else 0);
    era := y / 400;
    yoe := y % 400;
    mp := if d.month > 2 then d.month - 3 else d.month + 9;
  }

  lemma DateInEraOfParts(d: Date, era: int, yoe: int, mp: int)
    requires ValidDate(d)
    requires era == (d.year - (if d.month <= 2 then 1 else 0)) / 400
    requires yoe == (d.year - (if d.month <= 2 then 1 else 0)) % 400
    requires mp == if d.month > 2 then d.month - 3 else d.month + 9
    ensures 0 <= StartOfYear(yoe) + StartOfMonth(mp) + d.day - 1 < EraDays
    ensures DateInEra(era, StartOfYear(yoe) + StartOfMonth(mp) + d.day - 1) == d
  {
    var y := d.year - (if d.month <= 2 then 1 else 0);
    var doy := StartOfMonth(mp) + d.day - 1;
    DayOfYearOfDate(d, era, yoe, mp);
    assert y == era * 400 + yoe;
    DateInEraOfStart(era, yoe, doy, y);
    DateInYearOfDate(d, y, mp);
    assert DateInEra(era, StartOfYear(yoe) + doy) == DateInYear(y, doy);
  }

  lemma DateInEraOfStart(era: int, yoe: int, doy: int, y: int)
    requires y == era * 400 + yoe
    requires 0 <= yoe <= 399
    requires 0 <= doy <= 364 || (doy == 365 && IsLeapYear(yoe + 1))
    ensures 0 <= StartOfYear(yoe) + doy < EraDays
    ensures doy == 365 ==> IsLeapYear(y + 1)
    ensures DateInEra(era, StartOfYear(yoe) + doy) == DateInYear(y, doy)
  {
    YearOfEraOfStart(yoe, doy);
    LeapShift(era, yoe + 1);
    var doe := StartOfYear(yoe) + doy;
    var y := YearOfEra(doe);
    assert y == yoe;
    assert doe - StartOfYear(y) == doy;
  }

  lemma DateInYearOfDate(d: Date, y: int, mp: int)
    requires ValidDate(d)
    requires y == d.year - (if d.month <= 2 then 1 else 0)
    requires mp == if d.month > 2 then d.month - 3 else d.month + 9
    requires 0 <= mp <= 11
    requires mp < 11 ==> d.day - 1 < MonthLength(mp)
    requires mp == 11 ==> d.day - 1 <= 28
    requires var doy := StartOfMonth(mp) + d.day - 1; 0 <= doy <= 364 || (doy == 365 && IsLeapYear(y + 1))
    ensures DateInYear(y, StartOfMonth(mp) + d.day - 1) == d
  {
    MonthOfStart(mp, d.day - 1);
  }

  lemma DayOfYearOfDate(d: Date, era: int, yoe: int, mp: int)
    requires ValidDate(d)
    requires era == (d.year - (if d.month <= 2 then 1 else 0)) / 400
    requires yoe == (d.year - (if d.month <= 2 then 1 else 0)) % 400
    requires mp == if d.month > 2 then d.month - 3 else d.month + 9
    ensures 0 <= mp <= 11
    ensures mp < 11 ==> d.day - 1 < MonthLength(mp)
    ensures mp == 11 ==> d.day - 1 <= 28
    ensures var doy := StartOfMonth(mp) + d.day - 1;
      0 <= doy <= 364 || (doy == 365 && IsLeapYear(yoe + 1))
  {
    if d.month == 2 && d.day == 29 {
      var y := d.year - 1;
      assert y == era * 400 + yoe;
      LeapShift(era, yoe + 1);
    }
  }

  lemma EraSplit(era: int, doe: int)
    requires 0 <= doe < EraDays
    ensures (era * EraDays + doe) / EraDays == era
    ensures (era * EraDays + doe) % EraDays == doe
  {
  }

  /** The day after a date that is not the last of its month is the next day of the same month. */
  lemma NextDayInMonth(z: Day)
    requires ToDate(z).day < DaysInMonth(ToDate(z).year, ToDate(z).month)
    ensures ToDate(z + 1) == Date(ToDate(z).year, ToDate(z).month, ToDate(z).day + 1)
  {
    var d := ToDate(z);
    FromToDate(z);
    NextDayFrom(d, z);
  }

  lemma NextDayFrom(d: Date, z: Day)
    requires ValidDate(d) && FromDate(d) == z
    requires d.day < DaysInMonth(d.year, d.month)
    ensures ToDate(z + 1) == Date(d.year, d.month, d.day + 1)
  {
    var next := Date(d.year, d.month, d.day + 1);
    FromDateNext(d);
    ToFromDate(next);
  }

  lemma FromDateNext(d: Date)
    ensures FromDate(Date(d.year, d.month, d.day + 1)) == FromDate(d) + 1
  {
  }

  /** `date.isoformat()`: YYYY-MM-DD. Years outside 1..9999 do not occur in Python. */
  function IsoFormat(z: Day): string {
    var d := ToDate(z);
    YearText(d.year) + "-" + ZeroPad(d.month, 2) + "-" + ZeroPad(d.day, 2)
  }

  function YearText(y: int): string {
    if y >= 0 then ZeroPad(y, 4) else "-" + ZeroPad(-y, 4)
  }

  /** `strftime("%B")` in the C locale. */
  function MonthName(m: int): string {
    match m
    case 1 => "January" case 2 => "February" case 3 => "March" case 4 => "April"
    case 5 => "May" case 6 => "June" case 7 => "July" case 8 => "August"
    case 9 => "September" case 10 => "October" case 11 => "November"
    case _ => "December"
  }

  /** `strftime("%B %d, %Y")`, e.g. "January 05, 2024". */
  function LongFormat(z: Day): string {
    var d := ToDate(z);
    MonthName(d.month) + " " + ZeroPad(d.day, 2) + ", " + YearText(d.year)
  }
}

=== FILE: deadlines.dfy ===
/** Statutory response deadlines: business-day arithmetic with holiday calendars,
    the per-jurisdiction rule table and the calculator that applies it
    (foia_rti/tracker/deadlines.py).
 */
module Deadlines {

  import opened Outcomes
  import opened Text
  import opened Dates

  /** The holiday predicate a rule hands to the business-day counter. */
  datatype Calendar = NoHolidays | UsFederal | UkBank

  /** How a rule counts its days. */
  datatype DayKind = BusinessDays | CalendarDays

  datatype Rule = Rule(
    initialDays: int,
    dayKind: DayKind,
    holidays: Calendar,
    extensionDays: int,
    extensionKind: DayKind,
    notes: string)

  // ---------------------------------------------------------------------------
  // Holidays and business days
  // ---------------------------------------------------------------------------

  /** Month/day pairs that are US federal holidays whatever the weekday. */
  predicate IsUsFixedHoliday(month: int, day: int) {
    (month, day) in {(1, 1), (6, 19), (7, 4), (11, 11), (12, 25)}
  }

  /** The simplified US federal calendar on a date falling on weekday `w` (Monday = 0). */
  predicate IsUsFederalHolidayOn(d: Date, w: int) {
    IsUsFixedHoliday(d.month, d.day)
    || (d.month == 1 && w == 0 && 15 <= d.day <= 21)
    || (d.month == 2 && w == 0 && 15 <= d.day <= 21)
    || (d.month == 5 && w == 0 && d.day >= 25)
    || (d.month == 9 && w == 0 && d.day <= 7)
    || (d.month == 10 && w == 0 && 8 <= d.day <= 14)
    || (d.month == 11 && w == 3 && 22 <= d.day <= 28)
  }

  /** Month/day pairs that are UK bank holidays whatever the weekday. */
  predicate IsUkFixedHoliday(month: int, day: int) {
    (month, day) in {(1, 1), (12, 25), (12, 26)}
  }

  /** The simplified England and Wales bank-holiday calendar. */
  predicate IsUkBankHolidayOn(d: Date, w: int) {
    IsUkFixedHoliday(d.month, d.day)
    || (d.month == 5 && w == 0 && d.day <= 7)
    || (d.month == 5 && w == 0 && d.day >= 25)
    || (d.month == 8 && w == 0 && d.day >= 25)
  }

  /** `_us_federal_holidays(d)`. */
  predicate IsUsFederalHoliday(z: Day) {
    IsUsFederalHolidayOn(ToDate(z), Weekday(z))
  }

  /** `_uk_bank_holidays(d)`. */
  predicate IsUkBankHoliday(z: Day) {
    IsUkBankHolidayOn(ToDate(z), Weekday(z))
  }

  predicate IsWeekend(z: Day) {
    Weekday(z) >= 5
  }

  /** The `holiday_fn` a rule names; with no function nothing is a holiday. */
  function HolidaysOf(cal: Calendar): Day -> bool {
    match cal
    case NoHolidays => (z: Day) => false
    case UsFederal => IsUsFederalHoliday
    case UkBank => IsUkBankHoliday
  }

  /** A day the business-day counter counts: neither a weekend day nor a holiday. */
  predicate IsBusinessDay(z: Day, holiday: Day -> bool) {
    !IsWeekend(z) && !holiday(z)
  }

  /** What keeps the business-day loop finite: in every week the holiday function leaves
      at least one of Tuesday, Wednesday and Thursday free. */
  ghost predicate LeavesMidweekDay(holiday: Day -> bool) {
    forall d :: !holiday(TuesdayFrom(d)) || !holiday(TuesdayFrom(d) + 1) || !holiday(TuesdayFrom(d) + 2)
  }

  lemma WeekdaysAfter(t: Day)
    ensures Weekday(t) == 1 ==> Weekday(t + 1) == 2 && Weekday(t + 2) == 3
  {
  }

  /** Early in a month the next day is the next date of the same month. */
  lemma NextDayEarlyInMonth(z: Day)
    ensures ToDate(z).day <= 27 ==> ToDate(z + 1) == Date(ToDate(z).year, ToDate(z).month, ToDate(z).day + 1)
  {
    if ToDate(z).day <= 27 {
      NextDayInMonth(z);
    }
  }

  /** On a Tuesday or Wednesday only fixed-date holidays fall; the day after one of them is
      a holiday again only after the UK's Christmas Day. */
  lemma UsDayAfterMidweekHoliday(d0: Date, w: int, d1: Date)
    requires w == 1 || w == 2
    requires IsUsFederalHolidayOn(d0, w)
    requires d0.day <= 27 ==> d1 == Date(d0.year, d0.month, d0.day + 1)
    ensures !IsUsFederalHolidayOn(d1, w + 1)
  {
  }

  lemma UkDayAfterMidweekHoliday(d0: Date, w: int, d1: Date)
    requires w == 1 || w == 2
    requires IsUkBankHolidayOn(d0, w)
    requires d0.day <= 27 ==> d1 == Date(d0.year, d0.month, d0.day + 1)
    ensures IsUkBankHolidayOn(d1, w + 1) ==> d1.month == 12 && d1.day == 26
    ensures d0.month == 12 && d0.day == 26 ==> !IsUkBankHolidayOn(d1, w + 1)
  {
  }

  /** A US federal holiday on a Tuesday is never followed by another one. */
  lemma UsMidweek(t: Day)
    requires Weekday(t) == 1
    ensures !IsUsFederalHoliday(t) || !IsUsFederalHoliday(t + 1)
  {
    WeekdaysAfter(t);
    NextDayEarlyInMonth(t);
    if IsUsFederalHoliday(t) {
      UsDayAfterMidweekHoliday(ToDate(t), 1, ToDate(t + 1));
    }
  }

  /** UK bank holidays on a Tuesday and the Wednesday after it are Christmas and Boxing Day. */
  lemma UkTuesdayPair(t: Day)
    requires Weekday(t) == 1
    ensures IsUkBankHoliday(t) && IsUkBankHoliday(t + 1) ==> ToDate(t + 1).month == 12 && ToDate(t + 1).day == 26
  {
    WeekdaysAfter(t);
    NextDayEarlyInMonth(t);
    if IsUkBankHoliday(t) {
      UkDayAfterMidweekHoliday(ToDate(t), 1, ToDate(t + 1));
    }
  }

  /** The Thursday after a Wednesday Boxing Day is no UK bank holiday. */
  lemma UkAfterBoxingDay(s: Day)
    requires Weekday(s) == 2 && ToDate(s).month == 12 && ToDate(s).day == 26
    ensures !IsUkBankHoliday(s + 1)
  {
    WeekdaysAfter(s - 1);
    NextDayEarlyInMonth(s);
    UkDayAfterMidweekHoliday(ToDate(s), 2, ToDate(s + 1));
  }

  lemma UsLeavesMidweekDay()
    ensures LeavesMidweekDay(IsUsFederalHoliday)
  {
    forall d
      ensures !IsUsFederalHoliday(TuesdayFrom(d)) || !IsUsFederalHoliday(TuesdayFrom(d) + 1)
    {
      UsMidweek(TuesdayFrom(d));
    }
  }

  lemma UkLeavesMidweekDay()
    ensures LeavesMidweekDay(IsUkBankHoliday)
  {
    forall d
      ensures !IsUkBankHoliday(TuesdayFrom(d)) || !IsUkBankHoliday(TuesdayFrom(d) + 1)
           || !IsUkBankHoliday(TuesdayFrom(d) + 2)
    {
      var t := TuesdayFrom(d);
      WeekdaysAfter(t);
      UkTuesdayPair(t);
      if IsUkBankHoliday(t) && IsUkBankHoliday(t + 1) {
        UkAfterBoxingDay(t + 1);
      }
    }
  }

  /** Each of the three calendars leaves a midweek day free in every week. */
  lemma CalendarLeavesMidweekDay(cal: Calendar)
    ensures LeavesMidweekDay(HolidaysOf(cal))
  {
    match cal
    case NoHolidays =>
    case UsFederal => UsLeavesMidweekDay();
    case UkBank => UkLeavesMidweekDay();
  }

  /** The Tuesday on or after `d`. */
  function TuesdayFrom(d: Day): (t: Day)
    ensures d <= t < d + 7 && Weekday(t) == 1
  {
    d + (8 - Weekday(d)) % 7
  }

  /** A business day at most nine days after `d`. */
  function BusinessDayWithin(d: Day, holiday: Day -> bool): (w: Day)
    requires LeavesMidweekDay(holiday)
    ensures d < w <= d + 9 && IsBusinessDay(w, holiday)
  {
    var t := TuesdayFrom(d + 1);
    WeekdaysAfter(t);
    assert !holiday(t) || !holiday(t + 1) || !holiday(t + 2);
    if !holiday(t) then t else if !holiday(t + 1) then t + 1 else t + 2
  }

  /** The first business day after `d`. */
  function NextBusinessDay(d: Day, holiday: Day -> bool): (r: Day)
    requires LeavesMidweekDay(holiday)
    ensures d < r && IsBusinessDay(r, holiday)
    ensures forall k :: d < k < r ==> !IsBusinessDay(k, holiday)
  {
    ScanForBusinessDay(d, d + 1, holiday)
  }

  function ScanForBusinessDay(d: Day, from: Day, holiday: Day -> bool): (r: Day)
    requires LeavesMidweekDay(holiday)
    requires d < from <= BusinessDayWithin(d, holiday)
    requires forall k :: d < k < from ==> !IsBusinessDay(k, holiday)
    ensures from <= r && IsBusinessDay(r, holiday)
    ensures forall k :: d < k < r ==> !IsBusinessDay(k, holiday)
    decreases BusinessDayWithin(d, holiday) - from
  {
    if IsBusinessDay(from, holiday) then from else ScanForBusinessDay(d, from + 1, holiday)
  }

  /** The number of business days `k` with `a < k <= b`. */
  function CountBusinessDays(a: Day, b: Day, holiday: Day -> bool): nat
    decreases b - a
  {
    if b <= a then 0
    else CountBusinessDays(a, b - 1, holiday) + (if IsBusinessDay(b, holiday) then 1 else 0)
  }

  lemma {:induction false} CountSplit(a: Day, m: Day, b: Day, holiday: Day -> bool)
    requires a <= m <= b
    ensures CountBusinessDays(a, b, holiday) == CountBusinessDays(a, m, holiday) + CountBusinessDays(m, b, holiday)
    decreases b - m
  {
    if m < b {
      CountSplit(a, m, b - 1, holiday);
    }
  }

  lemma {:induction false} CountNone(a: Day, b: Day, holiday: Day -> bool)
    requires forall k :: a < k <= b ==> !IsBusinessDay(k, holiday)
    ensures CountBusinessDays(a, b, holiday) == 0
    decreases b - a
  {
    if a < b {
      CountNone(a, b - 1, holiday);
    }
  }

  /** `add_business_days(start, days, holiday_fn)`: the `days`-th business day after `start`. */
  function AddBusinessDays(start: Day, days: int, holiday: Day -> bool): (r: Day)
    requires LeavesMidweekDay(holiday)
    ensures days <= 0 ==> r == start
    ensures days > 0 ==> start < r && IsBusinessDay(r, holiday) && CountBusinessDays(start, r, holiday) == days
    decreases days
  {
    if days <= 0 then start
    else
      var next := NextBusinessDay(start, holiday);
      var r := AddBusinessDays(next, days - 1, holiday);
      assert CountBusinessDays(start, r, holiday) == days by {
        CountNone(start, next - 1, holiday);
        CountSplit(start, next, r, holiday);
      }
      r
  }

  /** Only one day is the `n`-th business day after `start`. */
  lemma NthBusinessDayUnique(start: Day, r1: Day, r2: Day, holiday: Day -> bool)
    requires start < r1 && start < r2
    requires IsBusinessDay(r1, holiday) && IsBusinessDay(r2, holiday)
    requires CountBusinessDays(start, r1, holiday) == CountBusinessDays(start, r2, holiday)
    ensures r1 == r2
  {
    if r1 < r2 {
      CountSplit(start, r1, r2, holiday);
      CountSplit(r1, r2 - 1, r2, holiday);
    } else if r2 < r1 {
      CountSplit(start, r2, r1, holiday);
      CountSplit(r2, r1 - 1, r1, holiday);
    }
  }

  /** The day-by-day loop of `add_business_days`, as written: step one day, skip weekends and
      holidays, count the rest until `days` have been counted. */
  method AddBusinessDaysLoop(start: Day, days: int, holiday: Day -> bool) returns (current: Day)
    requires LeavesMidweekDay(holiday)
    ensures days <= 0 ==> current == start
    ensures days > 0 ==> start < current && IsBusinessDay(current, holiday)
    ensures days > 0 ==> CountBusinessDays(start, current, holiday) == days
    ensures current == AddBusinessDays(start, days, holiday)
  {
    current := start;
    var added := 0;
    while added < days
      invariant start <= current
      invariant days > 0 ==> 0 <= added <= days
      invariant days <= 0 ==> added == 0 && current == start
      invariant CountBusinessDays(start, current, holiday) == added
      invariant days > 0 && added == days ==> IsBusinessDay(current, holiday)
      decreases days - added, NextBusinessDay(current, holiday) - current
    {
      var before := current;
      current := current + 1;
      if IsWeekend(current) {
        assert NextBusinessDay(current, holiday) == NextBusinessDay(before, holiday);
        continue;
      }
      if holiday(current) {
        assert NextBusinessDay(current, holiday) == NextBusinessDay(before, holiday);
        continue;
      }
      added := added + 1;
    }
    if days > 0 {
      NthBusinessDayUnique(start, current, AddBusinessDays(start, days, holiday), holiday);
    }
  }

  /** `add_business_days(start, days, holiday_fn)` with the holiday function of one of the
      calendars a rule can name. */
  function AddBusinessDaysIn(start: Day, days: int, cal: Calendar): (r: Day)
    ensures CountedOff(start, r, days, BusinessDays, cal)
  {
    CalendarLeavesMidweekDay(cal);
    AddBusinessDays(start, days, HolidaysOf(cal))
  }

  /** `add_calendar_days(start, days)`. Days are unbounded: Python raises `OverflowError` for a result
      past 9999-12-31, which this model does not. */
  function AddCalendarDays(start: Day, days: int): (r: Day)
    ensures r - start == days
  {
    start + days
  }

  // ---------------------------------------------------------------------------
  // The rule table and the calculator
  // ---------------------------------------------------------------------------

  const SectionSign := "\U{0E22}\U{0E07}"

  const UsFederalRule := Rule(20, BusinessDays, UsFederal, 10, BusinessDays,
    "5 U.S.C. " + SectionSign + " 552(a)(6)(A)(i): 20 business days. "
    + "Extension of up to 10 additional business days under "
    + SectionSign + " 552(a)(6)(B)(i) for 'unusual circumstances.'")

  const IndiaRule := Rule(30, CalendarDays, NoHolidays, 0, CalendarDays,
    "RTI Act Section 7(1): 30 days from receipt. "
    + "If life/liberty at stake: 48 hours. "
    + "Transfer to another PIO: 5 days for transfer + 30 days.")

  const UkRule := Rule(20, BusinessDays, UkBank, 0, BusinessDays,
    "FOIA 2000 Section 10(1): 20 working days (excludes weekends "
    + "and bank holidays). No statutory extension, but the authority "
    + "may need 'reasonable' additional time for public interest test "
    + "under qualified exemptions (Section 10(3)).")

  const EuRule := Rule(15, BusinessDays, NoHolidays, 15, BusinessDays,
    "Regulation 1049/2001 Article 7(1): 15 working days. "
    + "Extension of 15 working days under Article 7(3) "
    + "'in exceptional cases' with reasons given.")

  /** The generic rule for any jurisdiction named "US-State...", which has no entry of its own. */
  const StateFallbackRule := Rule(10, BusinessDays, UsFederal, 0, BusinessDays,
    "State deadlines vary. Check state-specific rules.")

  /** A rule table as a Python dict keeps it: the rules by key, and the keys in insertion order. */
  datatype RuleTable = RuleTable(order: seq<string>, rules: map<string, Rule>)

  ghost predicate ValidTable(table: RuleTable) {
    (forall i, j :: 0 <= i < j < |table.order| ==> table.order[i] != table.order[j])
    && (forall k :: k in table.order <==> k in table.rules)
  }

  const DefaultRules := RuleTable(
    ["US-Federal", "India", "UK", "EU"],
    map["US-Federal" := UsFederalRule, "India" := IndiaRule, "UK" := UkRule, "EU" := EuRule])

  /** `table[key] = rule`: an existing key keeps its place, a new one goes last. */
  function Put(table: RuleTable, key: string, rule: Rule): (r: RuleTable)
    requires ValidTable(table)
    ensures ValidTable(r)
    ensures key in r.rules && r.rules[key] == rule
    ensures forall k :: k != key ==> (k in r.rules <==> k in table.rules)
    ensures forall k :: k != key && k in table.rules ==> r.rules[k] == table.rules[k]
    ensures r.order == if key in table.rules then table.order else table.order + [key]
  {
    RuleTable(if key in table.rules then table.order else table.order + [key], table.rules[key := rule])
  }

  /** The keys of a sequence of entries. */
  function EntryKeys(entries: seq<(string, Rule)>): (keys: set<string>)
    ensures forall i :: 0 <= i < |entries| ==> entries[i].0 in keys
  {
    if entries == [] then {} else EntryKeys(entries[..|entries| - 1]) + {entries[|entries| - 1].0}
  }

  /** The value the last entry for `key` carries. */
  function LastValue(entries: seq<(string, Rule)>, key: string): (r: Option<Rule>)
    ensures r.Some? <==> key in EntryKeys(entries)
  {
    if entries == [] then None
    else if entries[|entries| - 1].0 == key then Some(entries[|entries| - 1].1)
    else
      LastValue(entries[..|entries| - 1], key)
  }

  /** `table.update(entries)`: each entry in turn. */
  function Update(table: RuleTable, entries: seq<(string, Rule)>): (r: RuleTable)
    requires ValidTable(table)
    ensures ValidTable(r)
    decreases |entries|
  {
    if entries == [] then table
    else Put(Update(table, entries[..|entries| - 1]), entries[|entries| - 1].0, entries[|entries| - 1].1)
  }

  /** After an update the last entry for a key wins, and keys no entry names keep their rules. */
  lemma {:induction false} UpdateRules(table: RuleTable, entries: seq<(string, Rule)>)
    requires ValidTable(table)
    ensures forall k :: k in Update(table, entries).rules <==> k in table.rules || k in EntryKeys(entries)
    ensures forall k :: k in EntryKeys(entries) ==> Some(Update(table, entries).rules[k]) == LastValue(entries, k)
    ensures forall k :: k in table.rules && k !in EntryKeys(entries) ==> Update(table, entries).rules[k] == table.rules[k]
    decreases |entries|
  {
    if entries != [] {
      var n := |entries| - 1;
      UpdateRules(table, entries[..n]);
      assert forall k :: k != entries[n].0 ==> LastValue(entries, k) == LastValue(entries[..n], k);
    }
  }

  lemma PrefixOfPrefix(a: seq<string>, b: seq<string>, c: seq<string>)
    requires |a| <= |b| <= |c| && b[..|a|] == a && c[..|b|] == b
    ensures c[..|a|] == a
  {
    assert c[..|a|] == c[..|b|][..|a|];
  }

  /** An update keeps the keys already present in their order; new keys only follow them. */
  lemma {:induction false} UpdateOrder(table: RuleTable, entries: seq<(string, Rule)>)
    requires ValidTable(table)
    ensures |table.order| <= |Update(table, entries).order|
    ensures Update(table, entries).order[..|table.order|] == table.order
    decreases |entries|
  {
    if entries != [] {
      var n := |entries| - 1;
      var before := Update(table, entries[..n]);
      UpdateOrder(table, entries[..n]);
      var r := Put(before, entries[n].0, entries[n].1);
      assert r.order[..|before.order|] == before.order;
      PrefixOfPrefix(table.order, before.order, r.order);
    }
  }

  datatype Calculator = Calculator(table: RuleTable)

  /** `DeadlineCalculator(custom_rules)`: the built-in table, updated by the custom rules. */
  function NewCalculator(custom: seq<(string, Rule)>): (c: Calculator)
    ensures ValidTable(c.table)
    ensures forall k :: k in c.table.rules <==> k in DefaultRules.rules || k in EntryKeys(custom)
    ensures forall k :: k in EntryKeys(custom) ==> Some(c.table.rules[k]) == LastValue(custom, k)
    ensures forall k :: k in DefaultRules.rules && k !in EntryKeys(custom) ==> c.table.rules[k] == DefaultRules.rules[k]
    ensures |c.table.order| >= 4 && c.table.order[..4] == ["US-Federal", "India", "UK", "EU"]
  {
    UpdateRules(DefaultRules, custom);
    UpdateOrder(DefaultRules, custom);
    Calculator(Update(DefaultRules, custom))
  }

  /** `list_jurisdictions()`: the table's keys in insertion order. */
  function ListJurisdictions(calculator: Calculator): seq<string> {
    calculator.table.order
  }

  /** `_get_rule`: an exact entry, else the generic rule for "US-State..." names, else an error. */
  function GetRule(calculator: Calculator, jurisdiction: string): (r: Result<Rule>)
    ensures jurisdiction in calculator.table.rules ==> r == Ok(calculator.table.rules[jurisdiction])
    ensures jurisdiction !in calculator.table.rules && StartsWith(jurisdiction, "US-State") ==> r == Ok(StateFallbackRule)
    ensures r.Err? <==> jurisdiction !in calculator.table.rules && !StartsWith(jurisdiction, "US-State")
    ensures r.Err? ==> r.message == "No deadline rules for jurisdiction '" + jurisdiction + "'. Known: "
                                     + Join(calculator.table.order, ", ")
  {
    if jurisdiction in calculator.table.rules then Ok(calculator.table.rules[jurisdiction])
    else if StartsWith(jurisdiction, "US-State") then Ok(StateFallbackRule)
    else Err("No deadline rules for jurisdiction '" + jurisdiction + "'. Known: " + Join(calculator.table.order, ", "))
  }

  /** `to` lies `days` days of kind `kind` after `from`: for business days, `to` is itself a
      business day and exactly `days` business days lie in `(from, to]`. */
  ghost predicate CountedOff(from: Day, to: Day, days: int, kind: DayKind, cal: Calendar) {
    match kind
    case CalendarDays => to - from == days
    case BusinessDays =>
      if days <= 0 then to == from
      else from < to && IsBusinessDay(to, HolidaysOf(cal)) && CountBusinessDays(from, to, HolidaysOf(cal)) == days
  }

  /** `calculate(jurisdiction, filed_date)`: the initial response deadline. */
  function Calculate(calculator: Calculator, jurisdiction: string, filed: Day): (r: Result<Day>)
    ensures r.Err? <==> GetRule(calculator, jurisdiction).Err?
    ensures r.Err? ==> r.message == GetRule(calculator, jurisdiction).message
    ensures r.Ok? ==> var rule := GetRule(calculator, jurisdiction).value;
      CountedOff(filed, r.value, rule.initialDays, rule.dayKind, rule.holidays)
  {
    var rule :- GetRule(calculator, jurisdiction);
    if rule.dayKind == BusinessDays then Ok(AddBusinessDaysIn(filed, rule.initialDays, rule.holidays))
    else Ok(AddCalendarDays(filed, rule.initialDays))
  }

  /** `calculate_extension(jurisdiction, original_deadline)`: none when the rule grants no extension. */
  function CalculateExtension(calculator: Calculator, jurisdiction: string, deadline: Day): (r: Result<Option<Day>>)
    ensures r.Err? <==> GetRule(calculator, jurisdiction).Err?
    ensures r.Ok? ==> (r.value.None? <==> GetRule(calculator, jurisdiction).value.extensionDays == 0)
    ensures r.Ok? && r.value.Some? ==> var rule := GetRule(calculator, jurisdiction).value;
      CountedOff(deadline, r.value.value, rule.extensionDays, rule.extensionKind, rule.holidays)
  {
    var rule :- GetRule(calculator, jurisdiction);
    if rule.extensionDays == 0 then Ok(None)
    else if rule.extensionKind == BusinessDays then Ok(Some(AddBusinessDaysIn(deadline, rule.extensionDays, rule.holidays)))
    else Ok(Some(AddCalendarDays(deadline, rule.extensionDays)))
  }

  datatype JurisdictionInfo = JurisdictionInfo(
    jurisdiction: string, initialDays: int, dayKind: DayKind, extensionDays: int, notes: string)

  /** `get_jurisdiction_info(jurisdiction)`. */
  function GetJurisdictionInfo(calculator: Calculator, jurisdiction: string): (r: Result<JurisdictionInfo>)
    ensures r.Err? <==> GetRule(calculator, jurisdiction).Err?
    ensures r.Ok? ==> var rule := GetRule(calculator, jurisdiction).value;
      r.value == JurisdictionInfo(jurisdiction, rule.initialDays, rule.dayKind, rule.extensionDays, rule.notes)
  {
    var rule :- GetRule(calculator, jurisdiction);
    Ok(JurisdictionInfo(jurisdiction, rule.initialDays, rule.dayKind, rule.extensionDays, rule.notes))
  }

  // ---------------------------------------------------------------------------
  // Properties
  // ---------------------------------------------------------------------------

  /** The first business day after a later day is no earlier. */
  lemma NextBusinessDayMonotone(a: Day, b: Day, holiday: Day -> bool)
    requires LeavesMidweekDay(holiday)
    requires a <= b
    ensures NextBusinessDay(a, holiday) <= NextBusinessDay(b, holiday)
  {
  }

  /** Counting off more business days, or from a later day, never gives an earlier deadline. */
  lemma {:induction false} AddBusinessDaysMonotone(a: Day, b: Day, m: int, n: int, holiday: Day -> bool)
    requires LeavesMidweekDay(holiday)
    requires a <= b && m <= n
    ensures AddBusinessDays(a, m, holiday) <= AddBusinessDays(b, n, holiday)
    decreases n
  {
    if m > 0 {
      NextBusinessDayMonotone(a, b, holiday);
      AddBusinessDaysMonotone(NextBusinessDay(a, holiday), NextBusinessDay(b, holiday), m - 1, n - 1, holiday);
    } else if n > 0 {
      AddBusinessDaysMonotone(a, NextBusinessDay(b, holiday), m, n - 1, holiday);
    }
  }

  /** Counting off `m` business days and then `n` more is counting off `m + n`. */
  lemma AddBusinessDaysCompose(start: Day, m: nat, n: nat, holiday: Day -> bool)
    requires LeavesMidweekDay(holiday)
    ensures AddBusinessDays(AddBusinessDays(start, m, holiday), n, holiday) == AddBusinessDays(start, m + n, holiday)
  {
    var mid := AddBusinessDays(start, m, holiday);
    var r := AddBusinessDays(mid, n, holiday);
    if n > 0 {
      CountSplit(start, mid, r, holiday);
      NthBusinessDayUnique(start, r, AddBusinessDays(start, m + n, holiday), holiday);
    }
  }

  /** When a rule counts both its initial period and its extension in business days, the
      extended deadline is the sum of both periods counted off from the filing date. */
  lemma ExtensionCountsFromFiling(calculator: Calculator, jurisdiction: string, filed: Day)
    requires GetRule(calculator, jurisdiction).Ok?
    requires var rule := GetRule(calculator, jurisdiction).value;
      rule.dayKind == BusinessDays && rule.extensionKind == BusinessDays
      && rule.initialDays >= 0 && rule.extensionDays > 0
    ensures var rule := GetRule(calculator, jurisdiction).value;
      CalculateExtension(calculator, jurisdiction, Calculate(calculator, jurisdiction, filed).value)
        == Ok(Some(AddBusinessDaysIn(filed, rule.initialDays + rule.extensionDays, rule.holidays)))
  {
    var rule := GetRule(calculator, jurisdiction).value;
    var d := Calculate(calculator, jurisdiction, filed).value;
    assert d == AddBusinessDaysIn(filed, rule.initialDays, rule.holidays);
    assert CalculateExtension(calculator, jurisdiction, d)
      == Ok(Some(AddBusinessDaysIn(d, rule.extensionDays, rule.holidays)));
    AddBusinessDaysInCompose(filed, rule.initialDays, rule.extensionDays, rule.holidays);
  }

  /** `AddBusinessDaysCompose` for a calendar of the rule table. */
  lemma AddBusinessDaysInCompose(start: Day, a: int, b: int, cal: Calendar)
    requires a >= 0 && b >= 0
    ensures AddBusinessDaysIn(AddBusinessDaysIn(start, a, cal), b, cal) == AddBusinessDaysIn(start, a + b, cal)
  {
    CalendarLeavesMidweekDay(cal);
    AddBusinessDaysCompose(start, a, b, HolidaysOf(cal));
  }

  lemma DefaultUsFederalRule()
    ensures GetRule(NewCalculator([]), "US-Federal") == Ok(UsFederalRule)
  {
    DefaultCalculator();
  }

  /** With the built-in rules, every "US-State..." name gets the generic ten-business-day rule. */
  lemma StateJurisdictionsUseFallback(jurisdiction: string)
    requires StartsWith(jurisdiction, "US-State")
    ensures GetRule(NewCalculator([]), jurisdiction) == Ok(StateFallbackRule)
  {
    DefaultCalculator();
    assert jurisdiction !in DefaultRules.rules by {
      assert jurisdiction[3] == "US-State"[3] == 'S';
      assert "US-Federal"[3] == 'F' && "India"[3] == 'i';
    }
  }

  /** Without custom rules the calculator holds exactly the built-in table. */
  lemma DefaultCalculator()
    ensures NewCalculator([]).table == DefaultRules
  {
  }

  /** The built-in jurisdictions, listed in the order the table declares them. */
  lemma DefaultJurisdictionList()
    ensures ListJurisdictions(NewCalculator([])) == ["US-Federal", "India", "UK", "EU"]
    ensures Join(ListJurisdictions(NewCalculator([])), ", ") == "US-Federal, India, UK, EU"
  {
    DefaultCalculator();
    assert Join(["UK", "EU"], ", ") == "UK, EU";
    assert Join(["India", "UK", "EU"], ", ") == "India, UK, EU";
  }

  /** An unknown jurisdiction is refused with the known ones listed in insertion order. */
  lemma UnknownJurisdiction(filed: Day)
    ensures Calculate(NewCalculator([]), "Atlantis", filed)
      == Err("No deadline rules for jurisdiction '" + "Atlantis" + "'. Known: " + "US-Federal, India, UK, EU")
  {
    DefaultJurisdictionList();
    assert "Atlantis" !in NewCalculator([]).table.rules by {
      DefaultCalculator();
    }
    assert !StartsWith("Atlantis", "US-State") by {
      assert "Atlantis"[..8][0] == 'A';
    }
  }

  /** Day numbers of the dates the examples below use. */
  lemma IndiaExampleDays()
    ensures FromDate(Date(2025, 2, 1)) == 20120 && FromDate(Date(2025, 3, 3)) == 20150
  {
    assert FromDate(Date(2025, 2, 1)) == 20120;
  }

  lemma FridayExampleDays()
    ensures FromDate(Date(2025, 2, 7)) == 20126 && FromDate(Date(2025, 2, 10)) == 20129
  {
    assert FromDate(Date(2025, 2, 7)) == 20126;
  }

  lemma DefaultIndiaRule()
    ensures GetRule(NewCalculator([]), "India") == Ok(IndiaRule)
  {
    DefaultCalculator();
  }

  /** India's 30 calendar days: filed 1 February 2025, due 3 March 2025. */
  lemma IndiaExample()
    ensures Calculate(NewCalculator([]), "India", FromDate(Date(2025, 2, 1))) == Ok(FromDate(Date(2025, 3, 3)))
  {
    DefaultIndiaRule();
    IndiaExampleDays();
  }

  /** One business day after Friday 7 February 2025 is Monday 10 February 2025. */
  lemma FridayPlusOneBusinessDay()
    ensures AddBusinessDaysIn(FromDate(Date(2025, 2, 7)), 1, NoHolidays) == FromDate(Date(2025, 2, 10))
  {
    FridayExampleDays();
    assert Weekday(20127) == 5 && Weekday(20128) == 6 && Weekday(20129) == 0;
  }
}

=== FILE: dispatch_config.dfy ===
// The dispatch configuration: persona accounts that send requests, the targets to dispatch, and
// the global settings. Reading the JSON file and the environment is outside the model; what is
// kept is how a loaded entry becomes a persona or a target, including the rule that a persona
// without a password is inactive.

module DispatchConfig {
  import opened Outcomes
  import Sorting

  /** `PersonaAccount`. The last-filed timestamp is not modelled. */
  datatype Persona = Persona(
    email: string,
    appPassword: string,
    displayName: string,
    organization: string,
    jurisdictions: seq<string>,
    maxPerWeek: int,
    filedThisWeek: int,
    active: bool)

  /** `DispatchTarget`. The date bounds are the unparsed `YYYY-MM-DD` strings of the file. */
  datatype DispatchTarget = DispatchTarget(
    templateId: string,
    agency: string,
    jurisdiction: string,
    priority: int,
    topicOverride: string,
    facilities: seq<string>,
    dateRangeStart: Option<string>,
    dateRangeEnd: Option<string>)

  /** `DispatchConfig`. */
  datatype Config = Config(
    personas: seq<Persona>,
    targets: seq<DispatchTarget>,
    globalMaxDaily: int,
    minDelayMinutes: int,
    staggerDays: bool)

  // ---- one persona ----

  /** `can_file`: active, under the weekly cap, and either unrestricted (an empty list admits every
      jurisdiction) or listing the jurisdiction. */
  predicate CanFile(p: Persona, jurisdiction: string) {
    if !p.active then false
    else if p.filedThisWeek >= p.maxPerWeek then false
    else if p.jurisdictions == [] then true
    else jurisdiction in p.jurisdictions
  }

  /** `record_filing`: one more filing this week. */
  function RecordFiling(p: Persona): (q: Persona)
    ensures q.filedThisWeek > p.filedThisWeek
  {
    p.(filedThisWeek := p.filedThisWeek + 1)
  }

  /** A persona is eligible exactly when it is active, under its cap, and admits the jurisdiction. */
  lemma CanFileMeans(p: Persona, jurisdiction: string)
    ensures CanFile(p, jurisdiction) <==>
      p.active && p.filedThisWeek < p.maxPerWeek && (|p.jurisdictions| == 0 || jurisdiction in p.jurisdictions)
  {
  }

  /** A filing by an eligible persona never takes it past its weekly cap. */
  lemma FilingWithinCap(p: Persona, jurisdiction: string)
    requires CanFile(p, jurisdiction)
    ensures RecordFiling(p).filedThisWeek <= p.maxPerWeek
  {
  }

  /** A filing changes nothing about the persona but its weekly count. */
  lemma FilingKeepsPersona(p: Persona)
    ensures RecordFiling(p).(filedThisWeek := p.filedThisWeek) == p
    ensures RecordFiling(p).filedThisWeek == p.filedThisWeek + 1
  {
  }

  /** `n` filings in a row. */
  function Filings(p: Persona, n: nat): Persona
    decreases n
  {
    if n == 0 then p else RecordFiling(Filings(p, n - 1))
  }

  /** The weekly cap bounds how many more times a persona can file: after `n` filings it is still
      eligible only if `n` is below the room it had left. */
  lemma {:induction false} FilingsExhaust(p: Persona, n: nat, jurisdiction: string)
    requires CanFile(Filings(p, n), jurisdiction)
    ensures n < p.maxPerWeek - p.filedThisWeek
    ensures CanFile(p, jurisdiction)
  {
    FilingsCount(p, n);
  }

  lemma {:induction false} FilingsCount(p: Persona, n: nat)
    ensures Filings(p, n) == p.(filedThisWeek := p.filedThisWeek + n)
    decreases n
  {
    if n > 0 {
      FilingsCount(p, n - 1);
    }
  }

  // ---- choosing a persona ----

  /** The scan behind `min(candidates, key=filed_this_week)`: `best` is the first eligible persona
      with the fewest filings among those before `i`, and a later one replaces it only with strictly
      fewer filings, as `min` keeps the first of equal keys. */
  function Fewest(personas: seq<Persona>, jurisdiction: string, i: nat, best: Option<nat>): (r: Option<nat>)
    requires i <= |personas|
    requires best.Some? ==> best.value < i && CanFile(personas[best.value], jurisdiction)
    ensures r.Some? ==> r.value < |personas| && CanFile(personas[r.value], jurisdiction)
    decreases |personas| - i
  {
    if i == |personas| then best
    else
      var better := CanFile(personas[i], jurisdiction)
                    && (best.None? || personas[i].filedThisWeek < personas[best.value].filedThisWeek);
      Fewest(personas, jurisdiction, i + 1, if better then Some(i) else best)
  }

  /** The persona `best` is the first of the fewest-filings eligible personas before `i`. */
  ghost predicate FirstFewest(personas: seq<Persona>, jurisdiction: string, i: nat, best: Option<nat>)
    requires i <= |personas|
  {
    (best.None? <==> forall k :: 0 <= k < i ==> !CanFile(personas[k], jurisdiction))
    && (best.Some? ==>
      best.value < i && CanFile(personas[best.value], jurisdiction)
      && (forall k :: 0 <= k < i && CanFile(personas[k], jurisdiction) ==>
            personas[best.value].filedThisWeek <= personas[k].filedThisWeek)
      && (forall k :: 0 <= k < best.value && CanFile(personas[k], jurisdiction) ==>
            personas[best.value].filedThisWeek < personas[k].filedThisWeek))
  }

  /** The scan keeps `FirstFewest` from each prefix to the next. */
  lemma {:induction false} FewestIsFirstFewest(personas: seq<Persona>, jurisdiction: string, i: nat, best: Option<nat>)
    requires i <= |personas| && FirstFewest(personas, jurisdiction, i, best)
    ensures FirstFewest(personas, jurisdiction, |personas|, Fewest(personas, jurisdiction, i, best))
    decreases |personas| - i
  {
    if i < |personas| {
      var better := CanFile(personas[i], jurisdiction)
                    && (best.None? || personas[i].filedThisWeek < personas[best.value].filedThisWeek);
      var next := if better then Some(i) else best;
      assert FirstFewest(personas, jurisdiction, i + 1, next);
      FewestIsFirstFewest(personas, jurisdiction, i + 1, next);
    }
  }

  /** `get_available_persona`, as an index into the persona list (the runner then records the
      filing on that very persona). None exactly when nobody can file; otherwise an eligible persona
      with the fewest filings this week, the first in list order among equals. */
  function AvailablePersona(personas: seq<Persona>, jurisdiction: string): (r: Option<nat>)
    ensures r.None? <==> forall k :: 0 <= k < |personas| ==> !CanFile(personas[k], jurisdiction)
    ensures r.Some? ==> r.value < |personas| && CanFile(personas[r.value], jurisdiction)
    ensures r.Some? ==> forall k :: 0 <= k < |personas| && CanFile(personas[k], jurisdiction) ==>
      personas[r.value].filedThisWeek <= personas[k].filedThisWeek
    ensures r.Some? ==> forall k :: 0 <= k < r.value && CanFile(personas[k], jurisdiction) ==>
      personas[r.value].filedThisWeek < personas[k].filedThisWeek
  {
    FewestIsFirstFewest(personas, jurisdiction, 0, None);
    Fewest(personas, jurisdiction, 0, None)
  }

  /** The choice is determined: any eligible persona with the fewest filings and no equal before it
      is the one chosen. */
  lemma AvailableIsFirstFewest(personas: seq<Persona>, jurisdiction: string, k: nat)
    requires k < |personas| && CanFile(personas[k], jurisdiction)
    requires forall i :: 0 <= i < |personas| && CanFile(personas[i], jurisdiction) ==>
      personas[k].filedThisWeek <= personas[i].filedThisWeek
    requires forall i :: 0 <= i < k && CanFile(personas[i], jurisdiction) ==>
      personas[k].filedThisWeek < personas[i].filedThisWeek
    ensures AvailablePersona(personas, jurisdiction) == Some(k)
  {
    var r := AvailablePersona(personas, jurisdiction);
    assert r.Some?;
  }

  // ---- targets ----

  /** The sort key of a target: its priority, 1 first. */
  function PriorityKey(t: DispatchTarget): Sorting.Key {
    (t.priority, 0)
  }

  /** `targets_by_priority`: the same targets, by non-decreasing priority. */
  function TargetsByPriority(targets: seq<DispatchTarget>): (r: seq<DispatchTarget>)
    ensures multiset(r) == multiset(targets) && |r| == |targets|
    ensures forall i, j :: 0 <= i < j < |r| ==> r[i].priority <= r[j].priority
  {
    var r := Sorting.SortBy(targets, PriorityKey);
    assert |r| == |multiset(r)| == |multiset(targets)| == |targets|;
    forall i, j | 0 <= i < j < |r|
      ensures r[i].priority <= r[j].priority
    {
      assert Sorting.KeyLe(PriorityKey(r[i]), PriorityKey(r[j]));
    }
    r
  }

  /** The targets of one priority, in their order in a list. */
  function WithPriority(targets: seq<DispatchTarget>, priority: int): seq<DispatchTarget> {
    Sorting.WithKey(targets, PriorityKey, (priority, 0))
  }

  /** The sort is stable: targets of equal priority keep their configured order. */
  lemma TargetsByPriorityStable(targets: seq<DispatchTarget>, priority: int)
    ensures WithPriority(TargetsByPriority(targets), priority) == WithPriority(targets, priority)
  {
    Sorting.SortByStable(targets, PriorityKey, (priority, 0));
  }

  // ---- counting personas ----

  /** `active_persona_count`. */
  function ActivePersonaCount(personas: seq<Persona>): (n: nat)
    ensures n <= |personas|
    decreases |personas|
  {
    if personas == [] then 0
    else ActivePersonaCount(personas[..|personas| - 1]) + (if personas[|personas| - 1].active then 1 else 0)
  }

  /** The positions of the active personas. */
  ghost function ActiveIndices(personas: seq<Persona>): set<nat> {
    set i: nat | i < |personas| && personas[i].active
  }

  /** The count is the number of active positions. */
  lemma {:induction false} ActiveCountIsActiveIndices(personas: seq<Persona>)
    ensures ActivePersonaCount(personas) == |ActiveIndices(personas)|
    decreases |personas|
  {
    if personas != [] {
      var last := |personas| - 1;
      var front := personas[..last];
      ActiveCountIsActiveIndices(front);
      var added := if personas[last].active then {last} else {};
      ActiveIndicesSnoc(personas);
      assert last !in ActiveIndices(front);
      assert |ActiveIndices(front) + added| == |ActiveIndices(front)| + |added|;
    }
  }

  /** The active positions of a list are those of its front, and the last one if active. */
  lemma ActiveIndicesSnoc(personas: seq<Persona>)
    requires personas != []
    ensures var last := |personas| - 1;
      ActiveIndices(personas) == ActiveIndices(personas[..last]) + (if personas[last].active then {last} else {})
  {
    var last := |personas| - 1;
    assert forall i :: 0 <= i < last ==> personas[..last][i] == personas[i];
  }

  /** With no active persona, nobody can be chosen. */
  lemma NoActiveNoneAvailable(personas: seq<Persona>, jurisdiction: string)
    requires ActivePersonaCount(personas) == 0
    ensures AvailablePersona(personas, jurisdiction).None?
  {
    ActiveCountIsActiveIndices(personas);
    forall k | 0 <= k < |personas|
      ensures !CanFile(personas[k], jurisdiction)
    {
      assert personas[k].active ==> k in ActiveIndices(personas);
    }
  }

  // ---- loading ----

  /** A persona entry of the configuration file; `None` is a missing key. */
  datatype PersonaEntry = PersonaEntry(
    email: string,
    passwordEnv: Option<string>,
    displayName: Option<string>,
    organization: Option<string>,
    jurisdictions: Option<seq<string>>,
    maxPerWeek: Option<int>,
    active: Option<bool>)

  /** A target entry of the configuration file. */
  datatype TargetEntry = TargetEntry(
    templateId: string,
    agency: string,
    jurisdiction: string,
    priority: Option<int>,
    topicOverride: Option<string>,
    facilities: Option<seq<string>>,
    dateRangeStart: Option<string>,
    dateRangeEnd: Option<string>)

  /** The whole file. */
  datatype ConfigEntry = ConfigEntry(
    personas: Option<seq<PersonaEntry>>,
    targets: Option<seq<TargetEntry>>,
    globalMaxDaily: Option<int>,
    minDelayMinutes: Option<int>,
    staggerDays: Option<bool>)

  /** The password a persona gets: the value of the named environment variable, or empty when no
      variable is named or it is unset. */
  function PasswordOf(entry: PersonaEntry, env: map<string, string>): string {
    var name := entry.passwordEnv.GetOr("");
    if name != "" && name in env then env[name] else ""
  }

  /** One persona as loaded: the defaults of the file format, no filings yet, and inactive whenever
      the password came out empty, whatever the entry's own `active` says. */
  function LoadPersona(entry: PersonaEntry, env: map<string, string>): (p: Persona)
    ensures p.active <==> PasswordOf(entry, env) != "" && entry.active.GetOr(true)
    ensures p.appPassword == PasswordOf(entry, env) && p.email == entry.email && p.filedThisWeek == 0
    ensures entry.displayName.None? ==> p.displayName == entry.email
    ensures entry.displayName.Some? ==> p.displayName == entry.displayName.value
    ensures entry.organization.None? ==> p.organization == "Open Paws"
    ensures entry.organization.Some? ==> p.organization == entry.organization.value
    ensures entry.maxPerWeek.None? ==> p.maxPerWeek == 5
    ensures entry.maxPerWeek.Some? ==> p.maxPerWeek == entry.maxPerWeek.value
    ensures entry.jurisdictions.Some? ==> p.jurisdictions == entry.jurisdictions.value
    ensures entry.jurisdictions.None? ==> forall j :: CanFile(p, j) <==> p.active && 0 < p.maxPerWeek
  {
    var password := PasswordOf(entry, env);
    var p := Persona(entry.email, password, entry.displayName.GetOr(entry.email),
                     entry.organization.GetOr("Open Paws"), entry.jurisdictions.GetOr([]),
                     entry.maxPerWeek.GetOr(5), 0, entry.active.GetOr(true));
    if password == "" then p.(active := false) else p
  }

  /** One target as loaded, with priority 2, no topic override and no facilities by default. */
  function LoadTarget(entry: TargetEntry): (t: DispatchTarget)
    ensures t.priority == entry.priority.GetOr(2)
    ensures t.templateId == entry.templateId && t.agency == entry.agency && t.jurisdiction == entry.jurisdiction
    ensures entry.topicOverride.None? ==> t.topicOverride == ""
    ensures entry.topicOverride.Some? ==> t.topicOverride == entry.topicOverride.value
    ensures entry.facilities.None? ==> t.facilities == []
    ensures entry.facilities.Some? ==> t.facilities == entry.facilities.value
    ensures t.dateRangeStart == entry.dateRangeStart && t.dateRangeEnd == entry.dateRangeEnd
  {
    DispatchTarget(entry.templateId, entry.agency, entry.jurisdiction, entry.priority.GetOr(2),
                   entry.topicOverride.GetOr(""), entry.facilities.GetOr([]), entry.dateRangeStart,
                   entry.dateRangeEnd)
  }

  /** The pure part of `load_dispatch_config`: entries in file order, and the global defaults of at
      most 20 requests a day, 15 minutes apart, weekdays only. */
  function LoadConfig(raw: ConfigEntry, env: map<string, string>): (c: Config)
    ensures |c.personas| == |raw.personas.GetOr([])| && |c.targets| == |raw.targets.GetOr([])|
    ensures forall i :: 0 <= i < |c.personas| ==> c.personas[i] == LoadPersona(raw.personas.GetOr([])[i], env)
    ensures forall i :: 0 <= i < |c.targets| ==> c.targets[i] == LoadTarget(raw.targets.GetOr([])[i])
    ensures raw.globalMaxDaily.None? ==> c.globalMaxDaily == 20
    ensures raw.globalMaxDaily.Some? ==> c.globalMaxDaily == raw.globalMaxDaily.value
    ensures raw.minDelayMinutes.None? ==> c.minDelayMinutes == 15
    ensures raw.minDelayMinutes.Some? ==> c.minDelayMinutes == raw.minDelayMinutes.value
    ensures raw.staggerDays.None? ==> c.staggerDays
    ensures raw.staggerDays.Some? ==> c.staggerDays == raw.staggerDays.value
  {
    var entries := raw.personas.GetOr([]);
    var targets := raw.targets.GetOr([]);
    Config(seq(|entries|, i requires 0 <= i < |entries| => LoadPersona(entries[i], env)),
           seq(|targets|, i requires 0 <= i < |targets| => LoadTarget(targets[i])),
           raw.globalMaxDaily.GetOr(20), raw.minDelayMinutes.GetOr(15), raw.staggerDays.GetOr(true))
  }

  /** Every persona a loaded configuration can choose has a password. */
  lemma LoadedEligibleHavePasswords(raw: ConfigEntry, env: map<string, string>, jurisdiction: string)
    ensures var c := LoadConfig(raw, env);
      AvailablePersona(c.personas, jurisdiction).Some? ==>
        c.personas[AvailablePersona(c.personas, jurisdiction).value].appPassword != ""
  {
  }
}

=== FILE: dispatch_runner.dfy ===
// The dispatch runner: a campaign takes the configured targets in priority order, stops sending
// once the day's limit is reached, picks the least-used eligible persona for each target, and has
// that persona generate, email and track the request. Generation, the mail server, date parsing
// and the tracker's row ids come from a `World` of oracles; the clock is a parameter.

module DispatchRunner {
  import opened Outcomes
  import opened GeneratorBase
  import Text
  import Dates
  import Deadlines
  import Tracker
  import EmailFiler
  import BatchFiler
  import opened DispatchConfig

  // ---- generators ----

  /** The generators dispatch campaigns can use. */
  datatype Generator = FederalGenerator | IndiaGenerator

  /** `GENERATORS`: US-Federal and India only. */
  function Registered(jurisdiction: string): (g: Option<Generator>)
    ensures g.Some? <==> jurisdiction == "US-Federal" || jurisdiction == "India"
  {
    if jurisdiction == "US-Federal" then Some(FederalGenerator)
    else if jurisdiction == "India" then Some(IndiaGenerator)
    else None
  }

  const Supported := "Supported: ['US-Federal', 'India']"

  /** Every cached generator is the registered one for its jurisdiction. */
  predicate CacheValid(cache: map<string, Generator>) {
    forall j :: j in cache ==> Registered(j) == Some(cache[j])
  }

  /** `_get_generator`: the cached generator for the jurisdiction, else a new registered one,
      which is then cached; an unregistered jurisdiction is an error naming the supported ones. */
  function GetGenerator(cache: map<string, Generator>, jurisdiction: string)
    : (res: Result<(Generator, map<string, Generator>)>)
    ensures res.Err? <==> jurisdiction !in cache && Registered(jurisdiction).None?
    ensures res.Err? ==> res.message == "No generator registered for jurisdiction '" + jurisdiction + "'. " + Supported
    ensures res.Ok? ==> res.value.1 == cache[jurisdiction := res.value.0]
    ensures jurisdiction in cache ==> res == Ok((cache[jurisdiction], cache))
  {
    if jurisdiction in cache then Ok((cache[jurisdiction], cache))
    else
      match Registered(jurisdiction)
      case Some(g) => Ok((g, cache[jurisdiction := g]))
      case None => Err("No generator registered for jurisdiction '" + jurisdiction + "'. " + Supported)
  }

  /** Over a valid cache, caching changes no answer: exactly the two registered jurisdictions are
      served, each by its registered generator, and the cache stays valid. */
  lemma CachingIsTransparent(cache: map<string, Generator>, jurisdiction: string)
    requires CacheValid(cache)
    ensures GetGenerator(cache, jurisdiction).Ok? <==> jurisdiction == "US-Federal" || jurisdiction == "India"
    ensures GetGenerator(cache, jurisdiction).Ok? ==>
      Some(GetGenerator(cache, jurisdiction).value.0) == Registered(jurisdiction)
      && CacheValid(GetGenerator(cache, jurisdiction).value.1)
  {
  }

  /** One instance per jurisdiction: once served, a jurisdiction is served the same generator
      again and the cache does not change. */
  lemma CachedOnce(cache: map<string, Generator>, jurisdiction: string)
    requires GetGenerator(cache, jurisdiction).Ok?
    ensures var (g, cache1) := GetGenerator(cache, jurisdiction).value;
      GetGenerator(cache1, jurisdiction) == Ok((g, cache1))
  {
  }

  // ---- the oracles ----

  /** What the runner cannot see: `strptime` on `%Y-%m-%d`, each generator's template file, the
      generators themselves, the mail server (message size and reply for a message sent to the given
      envelope recipients), and the row id the
      tracker's storage engine assigns. */
  datatype World = World(
    parseDate: string -> Result<Dates.Day>,
    templates: Generator -> seq<Template>,
    generate: (Generator, RequestContext) -> Result<GeneratedRequest>,
    server: (seq<string>, EmailFiler.EmailMessage) -> (nat, EmailFiler.ServerReply),
    rowId: Tracker.Store -> int)

  /** The engine never hands out an id that is in use. */
  ghost predicate FreshIds(world: World) {
    forall s: Tracker.Store :: world.rowId(s) !in s.records
  }

  // ---- generating a request ----

  /** An optional date bound of a target: a missing or empty string is no bound. */
  function Bound(world: World, text: Option<string>): Result<Option<Dates.Day>> {
    if text.None? || text.value == "" then Ok(None)
    else
      match world.parseDate(text.value)
      case Ok(d) => Ok(Some(d))
      case Err(e) => Err(e)
  }

  /** The topic of the request: the target's override, else the template's name (its id when
      the template has no name), else empty. */
  function TopicFor(target: DispatchTarget, template: Option<Template>): string {
    if target.topicOverride != "" then target.topicOverride
    else if template.Some? then template.value.name.GetOr(target.templateId)
    else target.topicOverride
  }

  /** `_generate_request`: both date bounds parse, the jurisdiction has a generator, and the
      generator's answer on the target's context is the request. The cache only grows, and stays
      valid. The facilities and the persona's own details only reach the letter text. */
  method GenerateRequest(cache: map<string, Generator>, target: DispatchTarget, world: World)
    returns (res: Result<GeneratedRequest>, cache': map<string, Generator>)
    ensures CacheValid(cache) ==> CacheValid(cache')
    ensures forall j :: j in cache ==> j in cache' && cache'[j] == cache[j]
    ensures forall j :: j in cache' ==> j in cache || j == target.jurisdiction
    ensures CacheValid(cache) && Registered(target.jurisdiction).None? ==> res.Err?
    ensures res.Ok? ==>
      target.jurisdiction in cache' && Bound(world, target.dateRangeStart).Ok? && Bound(world, target.dateRangeEnd).Ok?
    ensures res.Ok? ==>
      var template := GetTemplate(world.templates(cache'[target.jurisdiction]), target.templateId);
      var topic := TopicFor(target, template);
      res == world.generate(cache'[target.jurisdiction],
                            RequestContext(target.agency, topic, target.jurisdiction,
                                           Bound(world, target.dateRangeStart).value, Bound(world, target.dateRangeEnd).value,
                                           [], [], true, Some(target.templateId)))
      && (target.topicOverride != "" ==> topic == target.topicOverride)
      && (target.topicOverride == "" && template.Some? ==> topic == template.value.name.GetOr(target.templateId))
      && (target.topicOverride == "" && template.None? ==> topic == "")
  {
    cache' := cache;
    var start := Bound(world, target.dateRangeStart);
    if start.Err? {
      return Err(start.message), cache';
    }
    var end := Bound(world, target.dateRangeEnd);
    if end.Err? {
      return Err(end.message), cache';
    }
    var chosen := GetGenerator(cache, target.jurisdiction);
    if chosen.Err? {
      return Err(chosen.message), cache';
    }
    var generator := chosen.value.0;
    cache' := chosen.value.1;
    var template := GetTemplate(world.templates(generator), target.templateId);
    var context := RequestContext(target.agency, TopicFor(target, template), target.jurisdiction, start.value,
                                  end.value, [], [], true, Some(target.templateId));
    res := world.generate(generator, context);
  }

  // ---- emailing it ----

  /** The mail settings of a persona: Gmail over TLS, signed in, sending and taking replies as the
      persona. */
  function PersonaMail(p: Persona): (config: EmailFiler.EmailConfig)
    ensures config.username == p.email && config.password == p.appPassword && config.useTls
    ensures config.fromAddress == p.email && config.replyTo == p.email && config.fromName == p.displayName
  {
    EmailFiler.EmailConfig("smtp.gmail.com", 587, true, p.email, p.appPassword, p.email, p.displayName, p.email, "")
  }

  /** `format_request` and `send` with the persona's settings; an exception from either is an
      error carrying its message. A request without an agency address, or a live run by a persona
      missing its address or password, is refused; a dry run reports `dry_run`. The server gets
      the corrected envelope, which on the TLS path every persona uses is the one `send` builds. */
  method EmailPhase(persona: Persona, generated: GeneratedRequest, dryRun: bool, world: World)
    returns (res: Result<map<string, string>>)
    ensures EmailFiler.AgencyEmail(generated.metadata) == "" ==> res.Err?
    ensures !dryRun && (persona.email == "" || persona.appPassword == "") ==> res.Err?
    ensures res.Err? && EmailFiler.AgencyEmail(generated.metadata) != "" && (persona.email == "" || persona.appPassword == "") ==>
      res.message == EmailFiler.MissingCredentials
    ensures EmailFiler.AgencyEmail(generated.metadata) != "" ==>
      var message := EmailFiler.FormatRequest(PersonaMail(persona), generated, []).value;
      var reply := world.server(EmailFiler.RecipientsAsWritten(PersonaMail(persona), message), message).1;
      (EmailFiler.Raises(PersonaMail(persona), dryRun, reply) ==> res == Err(reply.error))
      && (!dryRun && persona.email != "" && persona.appPassword != "" ==>
            (reply.Accepted? ==> res == Ok(EmailFiler.SentReport(message)))
            && (reply.Refused? ==> res == Ok(EmailFiler.ErrorReport(reply.error))))
    ensures dryRun && EmailFiler.AgencyEmail(generated.metadata) != "" ==> res.Ok?
    ensures res.Ok? ==> "status" in res.value && res.value["status"] in {"dry_run", "sent", "error"}
    ensures res.Ok? ==> (res.value["status"] == "dry_run" <==> dryRun)
  {
    var config := PersonaMail(persona);
    var formatted := EmailFiler.FormatRequest(config, generated, []);
    if formatted.Err? {
      return Err(formatted.message);
    }
    EmailFiler.RecipientsAgreeWithTls(config, formatted.value);
    var (size, reply) := world.server(EmailFiler.Recipients(formatted.value), formatted.value);
    res := EmailFiler.Send(config, formatted.value, dryRun, size, reply);
  }

  /** `email_result.get("status")`. */
  function StatusOf(report: map<string, string>): Option<string> {
    if "status" in report then Some(report["status"]) else None
  }

  /** The report says the request went out, or would have in a dry run. */
  predicate Delivered(report: map<string, string>) {
    StatusOf(report) == Some("sent") || StatusOf(report) == Some("dry_run")
  }

  /** `email_result.get("error", "Unknown email error")`. */
  function ErrorOf(report: map<string, string>): string {
    if "error" in report then report["error"] else "Unknown email error"
  }

  // ---- tracking it ----

  const ViaPersona := "Dispatched via persona: "

  /** The keyword arguments of a dispatched row: filed today by email with the deadline and a fee
      waiver, then a note naming the persona. */
  function DispatchColumns(today: Dates.Day, deadline: Dates.Day, personaEmail: string): seq<Tracker.Assign> {
    BatchFiler.FiledColumns(today, deadline, "email") + [Tracker.SetNotes(Some(ViaPersona + personaEmail))]
  }

  /** A row records a request dispatched today by the persona: status FILED, filed today, with the
      calculator's deadline for the jurisdiction, by email, with a fee waiver requested and
      a note naming the persona. */
  ghost predicate DispatchedRow(r: Tracker.Request, calculator: Deadlines.Calculator, today: Dates.Day,
                                jurisdiction: string, agency: string, personaEmail: string) {
    r.status == Tracker.Filed && r.dateFiled == Some(today)
    && r.deadline.Some? && Deadlines.Calculate(calculator, jurisdiction, today) == Ok(r.deadline.value)
    && r.filingMethod == Some("email") && r.feeWaiverRequested
    && r.notes == Some(ViaPersona + personaEmail) && r.agency == agency
  }

  /** The dispatch columns land in their own columns. */
  lemma DispatchRow(r0: Tracker.Request, today: Dates.Day, deadline: Dates.Day, personaEmail: string)
    ensures var r := Tracker.ApplyAll(r0, DispatchColumns(today, deadline, personaEmail));
      r.status == Tracker.Filed && r.dateFiled == Some(today) && r.deadline == Some(deadline)
      && r.filingMethod == Some("email") && r.feeWaiverRequested && r.notes == Some(ViaPersona + personaEmail)
  {
    var filed := BatchFiler.FiledColumns(today, deadline, "email");
    var note := Tracker.SetNotes(Some(ViaPersona + personaEmail));
    Tracker.ApplyAllSnoc(r0, filed, note);
    BatchFiler.FiledRow(r0, today, deadline, "email");
    Tracker.StepNotes(Tracker.ApplyAll(r0, filed), Some(ViaPersona + personaEmail));
  }

  /** A row created with the dispatch columns records the dispatch. */
  lemma CreatedDispatched(s: Tracker.Store, id: int, calculator: Deadlines.Calculator, jurisdiction: string, generated: GeneratedRequest,
                          topic: string, personaEmail: string, today: Dates.Day, deadline: Dates.Day)
    requires Tracker.Valid(s) && id !in s.records
    requires Deadlines.Calculate(calculator, jurisdiction, today) == Ok(deadline)
    requires Tracker.Create(s, id, generated.agency, generated.jurisdiction, topic, generated.text,
                            DispatchColumns(today, deadline, personaEmail)).Ok?
    ensures var s' := Tracker.Create(s, id, generated.agency, generated.jurisdiction, topic, generated.text,
                                     DispatchColumns(today, deadline, personaEmail)).value.0;
      Tracker.Valid(s') && id in s'.records && s'.records == s.records[id := s'.records[id]]
      && DispatchedRow(s'.records[id], calculator, today, jurisdiction, generated.agency, personaEmail)
      && s'.records[id].jurisdiction == generated.jurisdiction && s'.records[id].topic == topic
      && s'.records[id].requestText == Some(generated.text)
  {
    Tracker.CreatedIsApplied(s, id, generated.agency, generated.jurisdiction, topic, generated.text,
                             DispatchColumns(today, deadline, personaEmail));
    DispatchRow(Tracker.NewRecord(id, s.clock, generated.agency, generated.jurisdiction, topic, generated.text),
                today, deadline, personaEmail);
  }

  /** The tracking step of `_dispatch_one`: the default deadline for the target's jurisdiction
      (an error when it has no rules) and a new row under a fresh id. The row takes the generated
      request's agency, jurisdiction and text, and the target's topic override when there is one. */
  method TrackPhase(db: Tracker.Store, calculator: Deadlines.Calculator, target: DispatchTarget, generated: GeneratedRequest, personaEmail: string,
                    today: Dates.Day, world: World) returns (res: Result<(Tracker.Store, int)>)
    requires Tracker.Valid(db) && FreshIds(world)
    ensures Deadlines.Calculate(calculator, target.jurisdiction, today).Err? ==> res.Err?
    ensures res.Ok? ==> var (db', id) := res.value;
      Tracker.Valid(db') && id !in db.records && id in db'.records && db'.records == db.records[id := db'.records[id]]
      && DispatchedRow(db'.records[id], calculator, today, target.jurisdiction, generated.agency, personaEmail)
      && db'.records[id].topic == (if target.topicOverride != "" then target.topicOverride else generated.context.topic)
      && db'.records[id].jurisdiction == generated.jurisdiction && db'.records[id].requestText == Some(generated.text)
  {
    var deadline := Deadlines.Calculate(calculator, target.jurisdiction, today);
    if deadline.Err? {
      return Err(deadline.message);
    }
    var topic := if target.topicOverride != "" then target.topicOverride else generated.context.topic;
    var id := world.rowId(db);
    var created := Tracker.Create(db, id, generated.agency, generated.jurisdiction, topic, generated.text,
                                  DispatchColumns(today, deadline.value, personaEmail));
    if created.Err? {
      return Err(created.message);
    }
    CreatedDispatched(db, id, calculator, target.jurisdiction, generated, topic, personaEmail, today, deadline.value);
    return Ok((created.value.0, id));
  }

  // ---- one dispatch ----

  /** `DispatchResult`. */
  datatype DispatchResult = DispatchResult(
    target: DispatchTarget,
    personaEmail: string,
    personaName: string,
    success: bool,
    textPreview: string,
    agencyFullName: string,
    emailResult: Option<map<string, string>>,
    trackerId: Option<int>,
    error: Option<string>,
    skippedReason: Option<string>)

  /** A result's tracker id, if any, names a row of `db` recording its dispatch. */
  ghost predicate Recorded(r: DispatchResult, db: Tracker.Store, calculator: Deadlines.Calculator, today: Dates.Day) {
    r.trackerId.Some? ==>
      r.trackerId.value in db.records
      && DispatchedRow(db.records[r.trackerId.value], calculator, today, r.target.jurisdiction, r.agencyFullName, r.personaEmail)
  }

  /** `_dispatch_one`: generate, email and, on a live run, track. Success means the email report
      says `sent` or `dry_run`; anything raised before that is a failure carrying its message, and
      a failure while tracking leaves the success standing with the error beside it. Only a
      successful live run adds a row, under a fresh id. */
  method DispatchOne(db: Tracker.Store, calculator: Deadlines.Calculator, cache: map<string, Generator>, target: DispatchTarget, persona: Persona,
                     dryRun: bool, today: Dates.Day, world: World)
    returns (r: DispatchResult, db': Tracker.Store, cache': map<string, Generator>)
    requires Tracker.Valid(db) && FreshIds(world)
    ensures r.target == target && r.personaEmail == persona.email && r.personaName == persona.displayName
    ensures r.skippedReason.None? && |r.textPreview| <= 300
    ensures r.success <==> r.emailResult.Some? && Delivered(r.emailResult.value)
    ensures !r.success ==> r.error.Some? && r.trackerId.None?
    ensures !r.success && r.emailResult.Some? ==> r.error == Some(ErrorOf(r.emailResult.value))
    ensures !dryRun && (persona.email == "" || persona.appPassword == "") ==> !r.success
    ensures r.success && dryRun ==> r.error.None?
    ensures r.success && !dryRun && r.error.None? ==> r.trackerId.Some?
    ensures r.trackerId.Some? ==>
      !dryRun && r.success && r.error.None? && r.trackerId.value !in db.records && r.trackerId.value in db'.records
      && db'.records == db.records[r.trackerId.value := db'.records[r.trackerId.value]]
    ensures r.trackerId.None? ==> db' == db
    ensures Tracker.Valid(db') && Recorded(r, db', calculator, today)
    ensures CacheValid(cache) ==> CacheValid(cache')
    ensures CacheValid(cache) && Registered(target.jurisdiction).None? ==> !r.success
  {
    r := DispatchResult(target, persona.email, persona.displayName, false, "", "", None, None, None, None);
    db' := db;
    var generated;
    generated, cache' := GenerateRequest(cache, target, world);
    if generated.Err? {
      r := r.(error := Some(generated.message));
      return;
    }
    var request := generated.value;
    r := r.(agencyFullName := request.agency, textPreview := Text.Take(request.text, 300));
    var sent := EmailPhase(persona, request, dryRun, world);
    if sent.Err? {
      r := r.(error := Some(sent.message));
      return;
    }
    r := r.(emailResult := Some(sent.value));
    if !Delivered(sent.value) {
      r := r.(error := Some(ErrorOf(sent.value)));
      return;
    }
    r := r.(success := true);
    if !dryRun {
      var tracked := TrackPhase(db, calculator, target, request, persona.email, today, world);
      if tracked.Err? {
        r := r.(error := Some(tracked.message));
        return;
      }
      db' := tracked.value.0;
      r := r.(trackerId := Some(tracked.value.1));
    }
  }

  // ---- the campaign ----

  /** `DispatchRunner`: the configuration, the tracker, the generator cache, and how many requests
      this runner has sent so far (the count outlives a run). The calculator is the default one,
      which `_dispatch_one` builds afresh for every row. */
  datatype Runner = Runner(
    config: Config,
    db: Tracker.Store,
    calculator: Deadlines.Calculator,
    cache: map<string, Generator>,
    sentToday: int)

  /** A new runner: nothing cached, nothing sent yet. */
  function NewRunner(config: Config, db: Tracker.Store): (runner: Runner)
    ensures runner.cache == map[] && runner.sentToday == 0 && CacheValid(runner.cache)
  {
    Runner(config, db, Deadlines.NewCalculator([]), map[], 0)
  }

  /** `DispatchReport`, without its timestamps. */
  datatype Report = Report(
    dryRun: bool,
    totalTargets: nat,
    sent: nat,
    skipped: nat,
    failed: nat,
    results: seq<DispatchResult>)

  /** A target passed over before dispatch, with the reason. */
  function Skip(target: DispatchTarget, reason: string): DispatchResult {
    DispatchResult(target, "", "", false, "", "", None, None, None, Some(reason))
  }

  const WeekendReason := "Weekend \U{2014} stagger_days is enabled"

  function LimitReason(limit: int): string {
    "Daily limit reached (" + Text.IntToString(limit) + ")"
  }

  function NoPersonaReason(jurisdiction: string): string {
    "No available persona for jurisdiction '" + jurisdiction + "' (all exhausted or inactive)"
  }

  /** The day's limit: `max_today` when given, zero included, else the configured maximum. */
  function DailyLimit(config: Config, maxToday: Option<int>): int {
    maxToday.GetOr(config.globalMaxDaily)
  }

  /** Whether a live run on this weekday is skipped: weekends, when dispatch is staggered. */
  predicate Weekend(config: Config, dryRun: bool, weekday: int) {
    config.staggerDays && !dryRun && weekday >= 5
  }

  // ---- counting the results ----

  /** How the report counts a result. */
  datatype Kind = Sent | Failed | Skipped

  /** A success is sent even when tracking it failed afterwards; otherwise a non-empty error is a
      failure, and anything else was skipped. */
  function KindOf(r: DispatchResult): Kind {
    if r.success then Sent else if r.error.Some? && r.error.value != "" then Failed else Skipped
  }

  /** The number of results of one kind. */
  function CountOf(results: seq<DispatchResult>, kind: Kind): (n: nat)
    ensures n <= |results|
    decreases |results|
  {
    if results == [] then 0
    else CountOf(results[..|results| - 1], kind) + (if KindOf(results[|results| - 1]) == kind then 1 else 0)
  }

  /** Every result is of exactly one kind. */
  lemma {:induction false} CountsAddUp(results: seq<DispatchResult>)
    ensures CountOf(results, Sent) + CountOf(results, Skipped) + CountOf(results, Failed) == |results|
    decreases |results|
  {
    if results != [] {
      CountsAddUp(results[..|results| - 1]);
    }
  }

  /** Counting one more result. */
  lemma CountOfSnoc(results: seq<DispatchResult>, r: DispatchResult, kind: Kind)
    ensures CountOf(results + [r], kind) == CountOf(results, kind) + (if KindOf(r) == kind then 1 else 0)
  {
    assert (results + [r])[..|results|] == results;
  }

  /** Results that are all skips count as skipped only. */
  lemma {:induction false} CountsOfSkips(results: seq<DispatchResult>)
    requires forall k :: 0 <= k < |results| ==> KindOf(results[k]) == Skipped
    ensures CountOf(results, Skipped) == |results| && CountOf(results, Sent) == 0 && CountOf(results, Failed) == 0
    decreases |results|
  {
    if results != [] {
      CountsOfSkips(results[..|results| - 1]);
    }
  }

  // ---- persona bookkeeping ----

  /** Every persona within its weekly cap. */
  predicate WithinCaps(personas: seq<Persona>) {
    forall i :: 0 <= i < |personas| ==> personas[i].filedThisWeek <= personas[i].maxPerWeek
  }

  /** All filings of the week, over all personas. */
  function FilingsTotal(personas: seq<Persona>): int
    decreases |personas|
  {
    if personas == [] then 0 else FilingsTotal(personas[..|personas| - 1]) + personas[|personas| - 1].filedThisWeek
  }

  /** Recording a filing on one persona adds one to the week's total. */
  lemma {:induction false} FilingAddsOne(personas: seq<Persona>, i: nat)
    requires i < |personas|
    ensures FilingsTotal(personas[i := RecordFiling(personas[i])]) == FilingsTotal(personas) + 1
    decreases |personas|
  {
    var after := personas[i := RecordFiling(personas[i])];
    var last := |personas| - 1;
    assert after[..last] == if i == last then personas[..last] else personas[..last][i := RecordFiling(personas[i])];
    if i < last {
      FilingAddsOne(personas[..last], i);
    }
  }

  /** Recording a filing on an eligible persona keeps every persona within its cap. */
  lemma FilingKeepsCaps(personas: seq<Persona>, i: nat, jurisdiction: string)
    requires i < |personas| && CanFile(personas[i], jurisdiction) && WithinCaps(personas)
    ensures WithinCaps(personas[i := RecordFiling(personas[i])])
  {
    FilingWithinCap(personas[i], jurisdiction);
  }

  /** What one step keeps: the configuration but for the personas' weekly counts, a valid tracker
      that kept every row (and was not touched on a dry run), a valid cache, and caps kept. Each
      success adds one to the sent count and one filing to the week, and happens under the limit. */
  ghost predicate Stepped(runner: Runner, after: Runner, r: DispatchResult, dryRun: bool, limit: int) {
    var n := if r.success then 1 else 0;
    after.config == runner.config.(personas := after.config.personas)
    && |after.config.personas| == |runner.config.personas|
    && after.calculator == runner.calculator
    && after.sentToday == runner.sentToday + n
    && FilingsTotal(after.config.personas) == FilingsTotal(runner.config.personas) + n
    && (r.success ==> runner.sentToday < limit)
    && (WithinCaps(runner.config.personas) ==> WithinCaps(after.config.personas))
    && (Tracker.Valid(runner.db) ==> Tracker.Valid(after.db))
    && BatchFiler.Kept(runner.db.records, after.db.records)
    && (dryRun ==> after.db == runner.db)
    && (CacheValid(runner.cache) ==> CacheValid(after.cache))
  }

  /** The dispatch of one target by the persona at `i`, which can file for it, under the limit:
      only a success records a filing on that persona and counts as sent today. */
  method Dispatch(runner: Runner, i: nat, target: DispatchTarget, dryRun: bool, limit: int, today: Dates.Day,
                  world: World) returns (r: DispatchResult, after: Runner)
    requires Tracker.Valid(runner.db) && FreshIds(world) && runner.sentToday < limit
    requires i < |runner.config.personas| && CanFile(runner.config.personas[i], target.jurisdiction)
    ensures r.target == target && Stepped(runner, after, r, dryRun, limit)
    ensures Recorded(r, after.db, runner.calculator, today)
    ensures r.skippedReason.None? && r.personaEmail == runner.config.personas[i].email
    ensures r.success ==>
      after.config.personas == runner.config.personas[i := RecordFiling(runner.config.personas[i])]
    ensures !r.success ==> after.config.personas == runner.config.personas
  {
    var db, cache;
    r, db, cache := DispatchOne(runner.db, runner.calculator, runner.cache, target, runner.config.personas[i], dryRun,
                                today, world);
    if r.trackerId.Some? {
      BatchFiler.RecordKeeps(runner.db, db, r.trackerId.value);
    }
    after := AfterDispatch(runner, i, r.success, db, cache);
    DispatchStepped(runner, i, target.jurisdiction, r, db, cache, dryRun, limit);
  }

  /** The runner after the persona at `i` dispatched: the new tracker and cache and, on a success,
      one more filing on that persona and one more request sent today. */
  function AfterDispatch(runner: Runner, i: nat, success: bool, db: Tracker.Store, cache: map<string, Generator>)
    : Runner
    requires i < |runner.config.personas|
  {
    var personas := runner.config.personas;
    if success then
      runner.(db := db, cache := cache, config := runner.config.(personas := personas[i := RecordFiling(personas[i])]),
              sentToday := runner.sentToday + 1)
    else runner.(db := db, cache := cache)
  }

  /** A dispatch by an eligible persona under the limit is a step that keeps the run's bookkeeping. */
  lemma DispatchStepped(runner: Runner, i: nat, jurisdiction: string, r: DispatchResult, db: Tracker.Store,
                        cache: map<string, Generator>, dryRun: bool, limit: int)
    requires i < |runner.config.personas| && CanFile(runner.config.personas[i], jurisdiction)
    requires runner.sentToday < limit && Tracker.Valid(db) && BatchFiler.Kept(runner.db.records, db.records)
    requires dryRun ==> db == runner.db
    requires CacheValid(runner.cache) ==> CacheValid(cache)
    ensures Stepped(runner, AfterDispatch(runner, i, r.success, db, cache), r, dryRun, limit)
  {
    var personas := runner.config.personas;
    if r.success {
      FilingAddsOne(personas, i);
      if WithinCaps(personas) {
        FilingKeepsCaps(personas, i, jurisdiction);
      }
    }
  }

  /** One iteration of `run`. Over the limit, or with nobody eligible, the target is skipped and
      nothing changes. Otherwise the available persona dispatches it. */
  method Step(runner: Runner, target: DispatchTarget, dryRun: bool, limit: int, today: Dates.Day, world: World)
    returns (r: DispatchResult, after: Runner)
    requires Tracker.Valid(runner.db) && FreshIds(world)
    ensures r.target == target && Stepped(runner, after, r, dryRun, limit)
    ensures Recorded(r, after.db, runner.calculator, today)
    ensures runner.sentToday >= limit ==> r == Skip(target, LimitReason(limit)) && after == runner
    ensures runner.sentToday < limit && AvailablePersona(runner.config.personas, target.jurisdiction).None? ==>
      r == Skip(target, NoPersonaReason(target.jurisdiction)) && after == runner
    ensures r.skippedReason.None? ==>
      runner.sentToday < limit && AvailablePersona(runner.config.personas, target.jurisdiction).Some?
      && r.personaEmail == runner.config.personas[AvailablePersona(runner.config.personas, target.jurisdiction).value].email
    ensures r.success ==>
      var i := AvailablePersona(runner.config.personas, target.jurisdiction).value;
      after.config.personas == runner.config.personas[i := RecordFiling(runner.config.personas[i])]
    ensures !r.success ==> after.config.personas == runner.config.personas
  {
    if runner.sentToday >= limit {
      return Skip(target, LimitReason(limit)), runner;
    }
    var chosen := AvailablePersona(runner.config.personas, target.jurisdiction);
    if chosen.None? {
      return Skip(target, NoPersonaReason(target.jurisdiction)), runner;
    }
    r, after := Dispatch(runner, chosen.value, target, dryRun, limit, today, world);
  }

  /** The report with one more result, counted by its kind. */
  function Add(report: Report, r: DispatchResult): (next: Report)
    ensures next.results == report.results + [r]
  {
    var kind := KindOf(r);
    report.(results := report.results + [r],
            sent := report.sent + (if kind == Sent then 1 else 0),
            skipped := report.skipped + (if kind == Skipped then 1 else 0),
            failed := report.failed + (if kind == Failed then 1 else 0))
  }

  /** The report after the first `i` targets of `sorted`: one result each, counted by kind. */
  ghost predicate Tallied(report: Report, sorted: seq<DispatchTarget>, i: nat, dryRun: bool) {
    i <= |sorted| && |report.results| == i && report.totalTargets == |sorted| && report.dryRun == dryRun
    && report.sent == CountOf(report.results, Sent) && report.skipped == CountOf(report.results, Skipped)
    && report.failed == CountOf(report.results, Failed)
    && (forall k :: 0 <= k < i ==> report.results[k].target == sorted[k])
  }

  /** The runner after `sent` successes under `limit`, compared with where the run started. */
  ghost predicate Progressed(runner: Runner, after: Runner, sent: int, limit: int, dryRun: bool) {
    after.config == runner.config.(personas := after.config.personas)
    && |after.config.personas| == |runner.config.personas| && after.calculator == runner.calculator
    && after.sentToday == runner.sentToday + sent
    && after.sentToday <= (if runner.sentToday <= limit then limit else runner.sentToday)
    && FilingsTotal(after.config.personas) == FilingsTotal(runner.config.personas) + sent
    && (WithinCaps(runner.config.personas) ==> WithinCaps(after.config.personas))
    && (Tracker.Valid(runner.db) ==> Tracker.Valid(after.db))
    && BatchFiler.Kept(runner.db.records, after.db.records)
    && (dryRun ==> after.db == runner.db)
    && (CacheValid(runner.cache) ==> CacheValid(after.cache))
  }

  /** Every tracker id among the results names a row of `db` recording its dispatch. */
  ghost predicate AllRecorded(results: seq<DispatchResult>, db: Tracker.Store, calculator: Deadlines.Calculator,
                              today: Dates.Day) {
    forall k :: 0 <= k < |results| ==> Recorded(results[k], db, calculator, today)
  }

  /** A later step keeps every row an earlier result recorded. */
  lemma RecordedStays(r: DispatchResult, db: Tracker.Store, db': Tracker.Store, calculator: Deadlines.Calculator,
                      today: Dates.Day)
    requires Recorded(r, db, calculator, today) && BatchFiler.Kept(db.records, db'.records)
    ensures Recorded(r, db', calculator, today)
  {
    if r.trackerId.Some? {
      var id := r.trackerId.value;
      assert id in db.records;
      assert id in db'.records && db'.records[id] == db.records[id];
    }
  }

  /** Adding a result for the next target keeps the tally. */
  lemma TallyStep(report: Report, r: DispatchResult, sorted: seq<DispatchTarget>, i: nat, dryRun: bool)
    requires Tallied(report, sorted, i, dryRun) && i < |sorted| && r.target == sorted[i]
    ensures Tallied(Add(report, r), sorted, i + 1, dryRun)
  {
    CountOfSnoc(report.results, r, Sent);
    CountOfSnoc(report.results, r, Skipped);
    CountOfSnoc(report.results, r, Failed);
    var added := Add(report, r);
    assert forall k :: 0 <= k < i ==> added.results[k] == report.results[k];
  }

  /** One more step keeps the runner's progress. */
  lemma ProgressStep(runner: Runner, after: Runner, next: Runner, r: DispatchResult, sent: int, limit: int,
                     dryRun: bool)
    requires Progressed(runner, after, sent, limit, dryRun) && Stepped(after, next, r, dryRun, limit)
    ensures Progressed(runner, next, sent + (if r.success then 1 else 0), limit, dryRun)
  {
    assert BatchFiler.Kept(runner.db.records, next.db.records) by {
      forall id | id in runner.db.records
        ensures id in next.db.records && next.db.records[id] == runner.db.records[id]
      {
        assert id in after.db.records;
      }
    }
  }

  /** One more step keeps every recorded row, and records the new result's. */
  lemma RecordedStep(results: seq<DispatchResult>, r: DispatchResult, db: Tracker.Store, db': Tracker.Store,
                     calculator: Deadlines.Calculator, today: Dates.Day)
    requires AllRecorded(results, db, calculator, today) && BatchFiler.Kept(db.records, db'.records)
    requires Recorded(r, db', calculator, today)
    ensures AllRecorded(results + [r], db', calculator, today)
  {
    forall k | 0 <= k < |results|
      ensures Recorded(results[k], db', calculator, today)
    {
      RecordedStays(results[k], db, db', calculator, today);
    }
  }

  /** The report of a weekend: every configured target skipped, in configured order. */
  function WeekendReport(dryRun: bool, targets: seq<DispatchTarget>): (report: Report)
    ensures report.dryRun == dryRun && report.totalTargets == |report.results| == |targets|
    ensures report.sent == 0 && report.failed == 0 && report.skipped == report.totalTargets
    ensures report.sent == CountOf(report.results, Sent) && report.skipped == CountOf(report.results, Skipped)
    ensures report.failed == CountOf(report.results, Failed)
    ensures forall k :: 0 <= k < |targets| ==> report.results[k] == Skip(targets[k], WeekendReason)
  {
    var results := seq(|targets|, k requires 0 <= k < |targets| => Skip(targets[k], WeekendReason));
    CountsOfSkips(results);
    Report(dryRun, |targets|, 0, |targets|, 0, results)
  }

  /** The weekday part of `run`: every target in priority order, under the day's limit. */
  method Campaign(runner: Runner, dryRun: bool, limit: int, today: Dates.Day, world: World)
    returns (report: Report, after: Runner)
    requires Tracker.Valid(runner.db) && FreshIds(world)
    ensures Tallied(report, TargetsByPriority(runner.config.targets), |runner.config.targets|, dryRun)
    ensures Progressed(runner, after, report.sent, limit, dryRun)
    ensures AllRecorded(report.results, after.db, runner.calculator, today)
  {
    var sorted := TargetsByPriority(runner.config.targets);
    report := Report(dryRun, |sorted|, 0, 0, 0, []);
    after := runner;
    var i := 0;
    while i < |sorted|
      invariant Tallied(report, sorted, i, dryRun) && Progressed(runner, after, report.sent, limit, dryRun)
      invariant AllRecorded(report.results, after.db, runner.calculator, today)
    {
      var r, next := Step(after, sorted[i], dryRun, limit, today, world);
      TallyStep(report, r, sorted, i, dryRun);
      ProgressStep(runner, after, next, r, report.sent, limit, dryRun);
      RecordedStep(report.results, r, after.db, next.db, runner.calculator, today);
      report := Add(report, r);
      after := next;
      i := i + 1;
    }
  }

  /** `run`. On a weekend of a live, staggered campaign every configured target is skipped and
      nothing changes. Otherwise there is one result per target in priority order; the counters
      classify the results and add up to the number of targets; each success is one more request
      sent today and one more filing on a persona, made while under the day's limit, so the sent
      count never passes the limit (or where it already stood); a persona within its weekly cap
      stays within it; a dry run leaves the tracker alone; and every tracker id names a row of the
      final tracker recording its dispatch. */
  method Run(runner: Runner, dryRun: bool, maxToday: Option<int>, weekday: int, today: Dates.Day, world: World)
    returns (report: Report, after: Runner)
    requires Tracker.Valid(runner.db) && FreshIds(world)
    ensures report.dryRun == dryRun && report.totalTargets == |report.results|
    ensures report.totalTargets == report.sent + report.skipped + report.failed
    ensures report.sent == CountOf(report.results, Sent) && report.skipped == CountOf(report.results, Skipped)
    ensures report.failed == CountOf(report.results, Failed)
    ensures forall k :: 0 <= k < |report.results| ==> Recorded(report.results[k], after.db, after.calculator, today)
    ensures Weekend(runner.config, dryRun, weekday) ==>
      after == runner && |report.results| == |runner.config.targets|
      && (forall k :: 0 <= k < |report.results| ==>
            report.results[k] == Skip(runner.config.targets[k], WeekendReason))
    ensures !Weekend(runner.config, dryRun, weekday) ==>
      |report.results| == |runner.config.targets|
      && forall k :: 0 <= k < |report.results| ==>
           report.results[k].target == TargetsByPriority(runner.config.targets)[k]
    ensures after.config == runner.config.(personas := after.config.personas)
    ensures |after.config.personas| == |runner.config.personas| && after.calculator == runner.calculator
    ensures after.sentToday == runner.sentToday + report.sent
    ensures var limit := DailyLimit(runner.config, maxToday);
      after.sentToday <= if runner.sentToday <= limit then limit else runner.sentToday
    ensures FilingsTotal(after.config.personas) == FilingsTotal(runner.config.personas) + report.sent
    ensures WithinCaps(runner.config.personas) ==> WithinCaps(after.config.personas)
    ensures Tracker.Valid(after.db) && BatchFiler.Kept(runner.db.records, after.db.records)
    ensures dryRun ==> after.db == runner.db
    ensures CacheValid(runner.cache) ==> CacheValid(after.cache)
  {
    if Weekend(runner.config, dryRun, weekday) {
      return WeekendReport(dryRun, runner.config.targets), runner;
    }
    report, after := Campaign(runner, dryRun, DailyLimit(runner.config, maxToday), today, world);
    CountsAddUp(report.results);
  }
}

=== FILE: email_filer.dfy ===
/** The email filer: subject lines, the HTML alternative of the letter, turning a generated request
    into a message, and the branches of `send` that do not depend on the mail server. Building the
    MIME message and the SMTP conversation are not modelled: the size of the MIME text and the
    server's answer are parameters.
 */
module EmailFiler {
  import opened Outcomes
  import opened Text
  import opened GeneratorBase
  import USFederal
  import IndiaRTI
  import UKFOI
  import EURequests
  import USState

  /** `EmailConfig`. */
  datatype EmailConfig = EmailConfig(
    smtpHost: string,
    smtpPort: int,
    useTls: bool,
    username: string,
    password: string,
    fromAddress: string,
    fromName: string,
    replyTo: string,
    bcc: string)

  /** `EmailConfig()` with every field left at its default. */
  const DefaultConfig := EmailConfig("smtp.gmail.com", 587, true, "", "", "", "Open Paws FOIA", "", "")

  /** `EmailMessage`; attachments are file paths and the extra headers keep their insertion order. */
  datatype EmailMessage = EmailMessage(
    to: string,
    subject: string,
    bodyText: string,
    bodyHtml: Option<string>,
    fromAddress: string,
    fromName: string,
    replyTo: string,
    bcc: string,
    attachments: seq<string>,
    headers: seq<(string, string)>)

  // ---- subject lines ----

  const Dash := " \U{2014} "

  /** A subject template: `head` followed by `{topic}`, then ` — {agency}` when `withAgency` holds.
      Every template of the filer has one of these two shapes. */
  datatype SubjectTemplate = SubjectTemplate(head: string, withAgency: bool)

  /** `SUBJECT_TEMPLATES`. */
  const SubjectTemplates: seq<(string, SubjectTemplate)> := [
    ("US-Federal", SubjectTemplate("FOIA Request" + Dash, true)),
    ("India", SubjectTemplate("RTI Application under Section 6(1)" + Dash, false)),
    ("UK", SubjectTemplate("Freedom of Information Request" + Dash, false)),
    ("EU", SubjectTemplate("Application for Access to Documents (Reg. 1049/2001)" + Dash, false))
  ]

  /** The template used for a jurisdiction the table does not know. */
  const FallbackSubject := SubjectTemplate("Public Records Request" + Dash, false)

  /** State jurisdictions borrow the federal template. */
  function SubjectKey(jurisdiction: string): (key: string)
    ensures StartsWith(jurisdiction, "US-State") ==> key == "US-Federal"
    ensures !StartsWith(jurisdiction, "US-State") ==> key == jurisdiction
  {
    if StartsWith(jurisdiction, "US-State") then "US-Federal" else jurisdiction
  }

  function TemplateFor(jurisdiction: string): SubjectTemplate {
    Lookup(SubjectTemplates, SubjectKey(jurisdiction)).GetOr(FallbackSubject)
  }

  /** `template.format(topic=…, agency=…)` for a template of the shape above. */
  function FormatSubject(t: SubjectTemplate, topic: string, agency: string): string {
    t.head + topic + (if t.withAgency then Dash + agency else "")
  }

  /** `_build_subject`: the topic is cut to 80 characters and the agency name to 60. */
  function BuildSubject(request: GeneratedRequest): (subject: string)
    ensures StartsWith(subject, TemplateFor(request.jurisdiction).head)
    ensures |subject| <= |TemplateFor(request.jurisdiction).head| + 80
      + (if TemplateFor(request.jurisdiction).withAgency then |Dash| + 60 else 0)
  {
    FormatSubject(TemplateFor(request.jurisdiction), Take(request.context.topic, 80), Take(request.agency, 60))
  }

  /** A state jurisdiction gets the federal subject line. */
  lemma StateSubjectsAreFederal(request: GeneratedRequest)
    requires StartsWith(request.jurisdiction, "US-State")
    ensures BuildSubject(request) == BuildSubject(request.(jurisdiction := "US-Federal"))
  {
    assert "US-Federal"[3] != "US-State"[3];
  }

  /** Of the table's templates, only the federal one names the agency. */
  lemma OnlyFederalTemplateNamesAgency(key: string)
    ensures Lookup(SubjectTemplates, key).GetOr(FallbackSubject).withAgency <==> key == "US-Federal"
  {
    assert KeysOf(SubjectTemplates) == ["US-Federal", "India", "UK", "EU"];
    var r := Lookup(SubjectTemplates, key);
    if r.Some? {
      var i :| 0 <= i < |SubjectTemplates| && SubjectTemplates[i] == (key, r.value);
      assert r.value.withAgency <==> i == 0;
    }
  }

  /** The subject line names the agency exactly for federal and state requests. */
  lemma AgencyOnlyInUSSubjects(jurisdiction: string)
    ensures TemplateFor(jurisdiction).withAgency
      <==> jurisdiction == "US-Federal" || StartsWith(jurisdiction, "US-State")
  {
    OnlyFederalTemplateNamesAgency(SubjectKey(jurisdiction));
    if jurisdiction == "US-Federal" {
      assert "US-Federal"[3] != "US-State"[3];
    }
  }

  /** A jurisdiction with no template of its own gets the public-records subject line. */
  lemma FallbackSubjectLine(request: GeneratedRequest)
    requires SubjectKey(request.jurisdiction) !in ["US-Federal", "India", "UK", "EU"]
    ensures BuildSubject(request) == "Public Records Request" + Dash + Take(request.context.topic, 80)
  {
    assert KeysOf(SubjectTemplates) == ["US-Federal", "India", "UK", "EU"];
  }

  /** Reads the topic back from a subject line whose template does not name the agency. */
  function SubjectTopic(subject: string, jurisdiction: string): Option<string> {
    var t := TemplateFor(jurisdiction);
    if !t.withAgency && StartsWith(subject, t.head) then Some(subject[|t.head|..]) else None
  }

  /** Without the agency, the subject line gives back the first 80 characters of the topic. */
  lemma SubjectTopicRoundTrip(request: GeneratedRequest)
    requires !TemplateFor(request.jurisdiction).withAgency
    ensures SubjectTopic(BuildSubject(request), request.jurisdiction) == Some(Take(request.context.topic, 80))
  {
    var t := TemplateFor(request.jurisdiction);
    var subject := BuildSubject(request);
    assert subject == t.head + Take(request.context.topic, 80) + "";
    assert subject[|t.head|..] == Take(request.context.topic, 80);
  }

  /** With the agency, the cut topic and the cut agency name sit either side of the dash. */
  lemma FederalSubjectParts(request: GeneratedRequest)
    requires TemplateFor(request.jurisdiction).withAgency
    ensures var subject := BuildSubject(request);
      var h := |TemplateFor(request.jurisdiction).head|;
      var topic := Take(request.context.topic, 80);
      subject[h..h + |topic|] == topic
      && subject[h + |topic|..h + |topic| + |Dash|] == Dash
      && subject[h + |topic| + |Dash|..] == Take(request.agency, 60)
  {
    var t := TemplateFor(request.jurisdiction);
    var topic := Take(request.context.topic, 80);
    var agency := Take(request.agency, 60);
    assert BuildSubject(request) == t.head + topic + (Dash + agency);
    ThreeParts(t.head, topic, Dash, agency);
  }

  /** The pieces of a concatenation sit at the offsets their lengths give. */
  lemma ThreeParts(a: string, b: string, c: string, d: string)
    ensures var s := a + b + (c + d);
      s[|a|..|a| + |b|] == b && s[|a| + |b|..|a| + |b| + |c|] == c && s[|a| + |b| + |c|..] == d
  {
    var s := a + b + (c + d);
    assert s[|a|..] == b + (c + d);
    assert (b + (c + d))[..|b|] == b;
    assert s[|a| + |b|..] == c + d;
  }

  // ---- the HTML alternative ----

  /** One character through `html.escape` (quotes included). */
  function EscapeChar(c: char): string {
    if c == '&' then "&amp;"
    else if c == '<' then "&lt;"
    else if c == '>' then "&gt;"
    else if c == '"' then "&quot;"
    else if c == '\'' then "&#x27;"
    else [c]
  }

  /** `html.escape(s)`: no markup character survives. */
  function Escape(s: string): (e: string)
    ensures forall k :: 0 <= k < |e| ==> e[k] != '<' && e[k] != '>' && e[k] != '"' && e[k] != '\''
    ensures |e| >= |s|
  {
    if s == [] then [] else EscapeChar(s[0]) + Escape(s[1..])
  }

  /** The entity `html.unescape` reads at the start of `e`, as the character and the entity's length;
      only the five entities `Escape` produces are recognised. */
  function EntityAt(e: string): (r: Option<(char, nat)>)
    ensures r.Some? ==> 4 <= r.value.1 <= |e|
  {
    if |e| < 4 || e[0] != '&' then None
    else if e[..4] == "&lt;" then Some(('<', 4))
    else if e[..4] == "&gt;" then Some(('>', 4))
    else if |e| >= 5 && e[..5] == "&amp;" then Some(('&', 5))
    else if |e| >= 6 && e[..6] == "&quot;" then Some(('"', 6))
    else if |e| >= 6 && e[..6] == "&#x27;" then Some(('\'', 6))
    else None
  }

  /** `html.unescape`, restricted to the five entities `Escape` produces. */
  function Unescape(e: string): string
    decreases |e|
  {
    if e == [] then []
    else match EntityAt(e)
      case Some((c, n)) => [c] + Unescape(e[n..])
      case None => [e[0]] + Unescape(e[1..])
  }

  /** The entity of a character is read back as that character. */
  lemma EntityOfEscape(c: char, rest: string)
    ensures EscapeChar(c) == [c] ==> c != '&' && EntityAt(EscapeChar(c) + rest).None?
    ensures EscapeChar(c) != [c] ==> EntityAt(EscapeChar(c) + rest) == Some((c, |EscapeChar(c)|))
  {
    var e := EscapeChar(c) + rest;
    if c == '&' {
      assert e[..4] == "&amp" && e[..5] == "&amp;";
    } else if c == '<' {
      assert e[..4] == "&lt;";
    } else if c == '>' {
      assert e[..4] == "&gt;";
    } else if c == '"' {
      assert e[..4] == "&quo" && e[..6] == "&quot;";
    } else if c == '\'' {
      assert e[..4] == "&#x2" && e[..6] == "&#x27;";
    } else {
      assert e[0] == c;
    }
  }

  /** Escaping loses nothing. */
  lemma {:induction false} UnescapeEscape(s: string)
    ensures Unescape(Escape(s)) == s
    decreases |s|
  {
    if s != [] {
      assert Escape(s) == EscapeChar(s[0]) + Escape(s[1..]);
      UnescapeStep(s[0], Escape(s[1..]));
      UnescapeEscape(s[1..]);
      assert s == [s[0]] + s[1..];
    }
  }

  /** One escaped character is read back ahead of whatever follows it. */
  lemma UnescapeStep(c: char, rest: string)
    ensures Unescape(EscapeChar(c) + rest) == [c] + Unescape(rest)
  {
    var e := EscapeChar(c) + rest;
    EntityOfEscape(c, rest);
    assert e[|EscapeChar(c)|..] == rest;
    if EscapeChar(c) == [c] {
      assert e[0] == c && e[1..] == rest;
    }
  }

  /** One step of the paragraph markup, read character by character: a blank line closes the
      paragraph and opens the next, any other line break becomes `<br>`, and every other character
      is kept. Returns the markup and how many characters it consumed. */
  function MarkupStep(e: string): (r: (string, nat))
    requires e != []
    ensures 0 < r.1 <= |e|
  {
    if |e| >= 2 && e[0] == '\n' && e[1] == '\n' then ("</p>\n<p>", 2)
    else if e[0] == '\n' then ("<br>\n", 1)
    else ([e[0]], 1)
  }

  function Markup(e: string): string
    decreases |e|
  {
    if e == [] then [] else MarkupStep(e).0 + Markup(e[MarkupStep(e).1..])
  }

  /** One step of reading the markup back: the blank line, the line break, or the character itself,
      with the number of characters read. */
  function UnmarkupStep(m: string): (r: (string, nat))
    requires m != []
    ensures 0 < r.1 <= |m|
  {
    if |m| >= 8 && m[..8] == "</p>\n<p>" then ("\n\n", 8)
    else if |m| >= 5 && m[..5] == "<br>\n" then ("\n", 5)
    else ([m[0]], 1)
  }

  function Unmarkup(m: string): string
    decreases |m|
  {
    if m == [] then [] else UnmarkupStep(m).0 + Unmarkup(m[UnmarkupStep(m).1..])
  }

  /** Each markup step is read back by one unmarkup step, when the text has no `<`. */
  lemma StepBack(e: string, rest: string)
    requires e != [] && e[0] != '<'
    ensures UnmarkupStep(MarkupStep(e).0 + rest) == (e[..MarkupStep(e).1], |MarkupStep(e).0|)
  {
    var m := MarkupStep(e).0 + rest;
    if |e| >= 2 && e[0] == '\n' && e[1] == '\n' {
      assert m[..8] == "</p>\n<p>";
      assert e[..2] == "\n\n";
    } else if e[0] == '\n' {
      assert m[..5] == "<br>\n";
      assert m[1] == 'b';
      assert e[..1] == "\n";
    } else {
      assert m[0] == e[0];
      assert e[..1] == [e[0]];
    }
  }

  /** One markup step followed by any markup is read back as the consumed text followed by that
      markup read back. */
  lemma ReadStep(e: string, rest: string)
    requires e != [] && e[0] != '<'
    ensures Unmarkup(MarkupStep(e).0 + rest) == e[..MarkupStep(e).1] + Unmarkup(rest)
  {
    var out := MarkupStep(e).0;
    var m := out + rest;
    StepBack(e, rest);
    assert m[|out|..] == rest;
  }

  /** Markup of text without `<` is read back exactly. */
  lemma {:induction false} UnmarkupMarkup(e: string)
    requires forall k :: 0 <= k < |e| ==> e[k] != '<'
    ensures Unmarkup(Markup(e)) == e
    decreases |e|
  {
    if e != [] {
      var n := MarkupStep(e).1;
      var t := e[n..];
      assert Markup(e) == MarkupStep(e).0 + Markup(t);
      ReadStep(e, Markup(t));
      assert forall k :: 0 <= k < |t| ==> t[k] == e[n + k];
      UnmarkupMarkup(t);
      assert e == e[..n] + t;
    }
  }

  /** Text with no blank line that does not end in a line break: its markup never looks past its
      end. */
  predicate Closed(a: string)
    decreases |a|
  {
    a == [] || ((a[0] == '\n' ==> |a| >= 2 && a[1] != '\n') && Closed(a[1..]))
  }

  /** The character-level reading of `Closed`. */
  lemma {:induction false} ClosedOf(a: string)
    requires forall k :: 0 <= k < |a| - 1 ==> a[k] != '\n' || a[k + 1] != '\n'
    requires a == [] || a[|a| - 1] != '\n'
    ensures Closed(a)
    decreases |a|
  {
    if a != [] {
      var t := a[1..];
      forall k | 0 <= k < |t| - 1
        ensures t[k] != '\n' || t[k + 1] != '\n'
      {
        assert t[k] == a[k + 1] && t[k + 1] == a[k + 2];
      }
      ClosedOf(t);
    }
  }

  lemma {:induction false} MarkupConcat(a: string, b: string)
    requires Closed(a)
    ensures Markup(a + b) == Markup(a) + Markup(b)
    decreases |a|
  {
    if a != [] {
      var t := a[1..];
      assert (a + b)[0] == a[0];
      if a[0] == '\n' {
        assert (a + b)[1] == a[1];
      }
      assert MarkupStep(a + b) == MarkupStep(a) && MarkupStep(a).1 == 1;
      var s0 := MarkupStep(a).0;
      assert (a + b)[1..] == t + b;
      MarkupConcat(t, b);
      AppendAssoc(s0, Markup(t), Markup(b));
    } else {
      assert a + b == b;
    }
  }

  /** Text with no line break is its own markup. */
  lemma {:induction false} MarkupPlain(a: string)
    requires forall k :: 0 <= k < |a| ==> a[k] != '\n'
    ensures Markup(a) == a
    decreases |a|
  {
    if a != [] {
      MarkupPlain(a[1..]);
      assert a == [a[0]] + a[1..];
    }
  }

  lemma NoLineBreak(s: string)
    requires !Contains(s, "\n")
    ensures forall k :: 0 <= k < |s| ==> s[k] != '\n'
  {
    forall k | 0 <= k < |s| ensures s[k] != '\n' {
      assert !SliceAt(s, "\n", k);
      assert s[k..k + 1] == [s[k]];
    }
  }

  /** Two adjacent line breaks are a blank line. */
  lemma BlankLineAt(s: string, i: nat)
    requires i + 1 < |s| && s[i] == '\n' && s[i + 1] == '\n'
    ensures Contains(s, "\n\n")
  {
    assert s[i..i + 2] == "\n\n";
    assert SliceAt(s, "\n\n", i);
  }

  /** A blank line in a tail is a blank line in the whole. */
  lemma BlankLineInTail(s: string, k: nat)
    requires k <= |s| && Contains(s[k..], "\n\n")
    ensures Contains(s, "\n\n")
  {
    var j :| 0 <= j <= |s[k..]| - 2 && SliceAt(s[k..], "\n\n", j);
    BlankLineAt(s, k + j);
  }

  /** Text without line breaks is a closed paragraph. */
  lemma PlainIsClosed(s: string)
    requires forall k :: 0 <= k < |s| ==> s[k] != '\n'
    ensures Closed(s)
  {
    ClosedOf(s);
  }

  lemma AppendAssoc(x: string, y: string, z: string)
    ensures x + y + z == x + (y + z)
  {
  }

  lemma JoinCons(head: string, rest: seq<string>, sep: string)
    requires rest != []
    ensures Join([head] + rest, sep) == head + sep + Join(rest, sep)
  {
    assert ([head] + rest)[1..] == rest;
  }

  /** After the line break at `i` of a paragraph, what remains is a paragraph that does not start
      with a line break. */
  lemma AfterLineBreak(p: string, i: nat)
    requires i < |p| && p[i] == '\n' && !Contains(p, "\n\n")
    ensures !Contains(p[i + 1..], "\n\n")
    ensures i + 1 < |p| ==> p[i + 1] != '\n'
  {
    if Contains(p[i + 1..], "\n\n") {
      BlankLineInTail(p, i + 1);
    }
    if i + 1 < |p| && p[i + 1] == '\n' {
      BlankLineAt(p, i);
    }
  }

  lemma BreakAt(p: string, i: nat)
    requires SliceAt(p, "\n", i)
    ensures p[i] == '\n' && p == p[..i] + ("\n" + p[i + 1..])
  {
    assert p[i..i + 1] == [p[i]];
    assert p == p[..i] + p[i..i + 1] + p[i + 1..];
  }

  lemma PlainBefore(p: string, i: nat)
    requires i <= |p|
    requires forall k :: 0 <= k < i ==> !SliceAt(p, "\n", k)
    ensures forall k :: 0 <= k < i ==> p[..i][k] != '\n'
  {
    forall k | 0 <= k < i
      ensures p[..i][k] != '\n'
    {
      assert !SliceAt(p, "\n", k);
      assert p[k..k + 1] == [p[k]];
    }
  }

  lemma SplitAtBreak(p: string, i: nat)
    requires FindFrom(p, "\n", 0) == Some(i)
    ensures i < |p|
    ensures Split(p, "\n") == [p[..i]] + Split(p[i + 1..], "\n")
  {
  }

  /** The markup of a line break between a line and the rest of its paragraph. */
  lemma MarkupAtBreak(head: string, rest: string)
    requires forall k :: 0 <= k < |head| ==> head[k] != '\n'
    requires rest == [] || rest[0] != '\n'
    ensures Markup(head + ("\n" + rest)) == head + ("<br>\n" + Markup(rest))
  {
    var n := "\n" + rest;
    PlainIsClosed(head);
    MarkupConcat(head, n);
    MarkupPlain(head);
    assert MarkupStep(n) == ("<br>\n", 1) by {
      assert |n| >= 2 ==> n[1] == rest[0];
    }
    assert n[1..] == rest;
  }

  /** Inside one paragraph, `"<br>\n".join(para.split("\n"))` is the markup. */
  lemma {:induction false} LinesAreMarkup(p: string)
    requires !Contains(p, "\n\n")
    ensures Join(Split(p, "\n"), "<br>\n") == Markup(p)
    decreases |p|
  {
    match FindFrom(p, "\n", 0)
    case None =>
      SingleLine(p);
    case Some(i) =>
      BreakAt(p, i);
      AfterLineBreak(p, i);
      LinesAreMarkup(p[i + 1..]);
      LinesStep(p, i);
  }

  /** A paragraph with no line break is one line, kept as it is. */
  lemma SingleLine(p: string)
    requires FindFrom(p, "\n", 0).None?
    ensures Join(Split(p, "\n"), "<br>\n") == Markup(p)
  {
    assert !Contains(p, "\n");
    NoLineBreak(p);
    MarkupPlain(p);
  }

  /** The first line of a paragraph, then the rest. */
  lemma LinesStep(p: string, i: nat)
    requires FindFrom(p, "\n", 0) == Some(i)
    requires !Contains(p, "\n\n")
    requires i < |p| && Join(Split(p[i + 1..], "\n"), "<br>\n") == Markup(p[i + 1..])
    ensures Join(Split(p, "\n"), "<br>\n") == Markup(p)
  {
    var head := p[..i];
    var rest := p[i + 1..];
    BreakAt(p, i);
    PlainBefore(p, i);
    AfterLineBreak(p, i);
    SplitAtBreak(p, i);
    MarkupAtBreak(head, rest);
    JoinCons(head, Split(rest, "\n"), "<br>\n");
    AppendAssoc(head, "<br>\n", Markup(rest));
  }

  /** One paragraph of `_text_to_html`. */
  function ParagraphHtml(para: string): string {
    "<p>" + Join(Split(para, "\n"), "<br>\n") + "</p>"
  }

  function ParagraphsHtml(paras: seq<string>): (r: seq<string>)
    ensures |r| == |paras|
    ensures forall k :: 0 <= k < |paras| ==> r[k] == ParagraphHtml(paras[k])
  {
    seq(|paras|, k requires 0 <= k < |paras| => ParagraphHtml(paras[k]))
  }

  /** A blank line is two line breaks. */
  lemma BlankLineChars(e: string, i: nat)
    requires SliceAt(e, "\n\n", i)
    ensures e[i] == '\n' && e[i + 1] == '\n'
  {
    assert e[i..i + 2][0] == e[i];
    assert e[i..i + 2][1] == e[i + 1];
  }

  /** The text before the first blank line is a closed paragraph. */
  lemma HeadClosed(e: string, i: nat)
    requires SliceAt(e, "\n\n", i)
    requires forall j :: 0 <= j < i ==> !SliceAt(e, "\n\n", j)
    ensures Closed(e[..i])
  {
    var head := e[..i];
    forall k | 0 <= k < |head| - 1
      ensures head[k] != '\n' || head[k + 1] != '\n'
    {
      assert !SliceAt(e, "\n\n", k);
      assert e[k..k + 2] == [head[k], head[k + 1]];
    }
    if i > 0 {
      BlankLineChars(e, i);
      NotBlankBefore(e, i);
      assert head[|head| - 1] == e[i - 1];
    }
    ClosedOf(head);
  }

  lemma NotBlankBefore(e: string, i: nat)
    requires 0 < i < |e| && e[i] == '\n' && !SliceAt(e, "\n\n", i - 1)
    ensures e[i - 1] != '\n'
  {
    assert e[i - 1..i + 1] == [e[i - 1], e[i]];
  }

  lemma AroundBlankLine(e: string, i: nat)
    requires SliceAt(e, "\n\n", i)
    ensures e == e[..i] + ("\n\n" + e[i + 2..])
  {
    BlankLineChars(e, i);
    assert e == e[..i] + e[i..i + 2] + e[i + 2..];
    assert e[i..i + 2] == [e[i], e[i + 1]];
  }

  /** Cutting at the first blank line: the paragraph before it is closed, and the rest is split
      on its own. */
  lemma FirstBlankLine(e: string, i: nat)
    requires FindFrom(e, "\n\n", 0) == Some(i)
    ensures i + 2 <= |e|
    ensures Closed(e[..i])
    ensures e == e[..i] + ("\n\n" + e[i + 2..])
    ensures Split(e, "\n\n") == [e[..i]] + Split(e[i + 2..], "\n\n")
  {
    HeadClosed(e, i);
    AroundBlankLine(e, i);
  }

  /** The markup of a blank line after a closed paragraph. */
  lemma MarkupAtBlank(head: string, rest: string)
    requires Closed(head)
    ensures Markup(head + ("\n\n" + rest)) == Markup(head) + ("</p>\n<p>" + Markup(rest))
  {
    var n := "\n\n" + rest;
    MarkupConcat(head, n);
    assert MarkupStep(n) == ("</p>\n<p>", 2);
    assert n[2..] == rest;
  }

  lemma JoinParagraphs(head: string, parts: seq<string>)
    requires parts != []
    ensures Join(ParagraphsHtml([head] + parts), "\n") == ParagraphHtml(head) + "\n" + Join(ParagraphsHtml(parts), "\n")
  {
    assert ParagraphsHtml([head] + parts) == [ParagraphHtml(head)] + ParagraphsHtml(parts);
    JoinCons(ParagraphHtml(head), ParagraphsHtml(parts), "\n");
  }

  /** The paragraphs of escaped text, joined by line breaks, are the character-by-character markup
      between one opening and one closing tag. */
  lemma {:induction false} ParagraphsAreMarkup(e: string)
    ensures Join(ParagraphsHtml(Split(e, "\n\n")), "\n") == "<p>" + Markup(e) + "</p>"
    decreases |e|
  {
    match FindFrom(e, "\n\n", 0)
    case None =>
      assert Split(e, "\n\n") == [e];
      assert !Contains(e, "\n\n");
      LinesAreMarkup(e);
    case Some(i) =>
      var head := e[..i];
      var rest := e[i + 2..];
      FirstBlankLine(e, i);
      LinesAreMarkup(head);
      ParagraphsAreMarkup(rest);
      JoinParagraphs(head, Split(rest, "\n\n"));
      MarkupAtBlank(head, rest);
      ParagraphsMeet(Markup(head), Markup(rest));
  }

  /** Two paragraphs joined by a line break meet at a blank line's markup. */
  lemma ParagraphsMeet(x: string, y: string)
    ensures ("<p>" + x + "</p>") + "\n" + ("<p>" + y + "</p>") == "<p>" + (x + ("</p>\n<p>" + y)) + "</p>"
  {
    assert "</p>" + "\n" + "<p>" == "</p>\n<p>";
  }

  /** The fixed page around the paragraphs. */
  const HtmlHead := "<!DOCTYPE html><html><head>" + "<meta charset=\"utf-8\">"
    + "<style>body{font-family:Georgia,serif;font-size:12pt;"
    + "line-height:1.6;max-width:700px;margin:40px auto;}</style>" + "</head><body>"
  const HtmlTail := "</body></html>"

  /** `_text_to_html`: escape, cut into paragraphs at blank lines, turn the remaining line breaks into
      `<br>`, and wrap the paragraphs in the fixed page. */
  function TextToHtml(text: string): (html: string)
    ensures html == HtmlHead + "<p>" + Markup(Escape(text)) + "</p>" + HtmlTail
  {
    ParagraphsAreMarkup(Escape(text));
    HtmlHead + Join(ParagraphsHtml(Split(Escape(text), "\n\n")), "\n") + HtmlTail
  }

  /** The text between `head` followed by an opening paragraph tag and a closing paragraph tag
      followed by `tail`. */
  function Unwrap(html: string, head: string, tail: string): (r: Option<string>)
    ensures r.Some? ==> html == head + "<p>" + r.value + "</p>" + tail
  {
    var lo := |head| + 3;
    var hi := |html| - 4 - |tail|;
    if lo <= hi && html[..lo] == head + "<p>" && html[hi..] == "</p>" + tail
    then
      assert html == html[..lo] + html[lo..hi] + html[hi..];
      Some(html[lo..hi])
    else None
  }

  lemma UnwrapWrap(head: string, m: string, tail: string)
    ensures Unwrap(head + "<p>" + m + "</p>" + tail, head, tail) == Some(m)
  {
    var html := head + "<p>" + m + "</p>" + tail;
    var lo := |head| + 3;
    var hi := |html| - 4 - |tail|;
    assert html[..lo] == head + "<p>";
    assert html[hi..] == "</p>" + tail;
    assert html[lo..hi] == m;
  }

  /** What a reader of the HTML part recovers: the text inside the page and the outer paragraph
      tags, with the markup and the entities read back. */
  function HtmlToText(html: string): Option<string> {
    match Unwrap(html, HtmlHead, HtmlTail)
    case Some(m) => Some(Unescape(Unmarkup(m)))
    case None => None
  }

  /** The HTML alternative carries exactly the plain-text letter. */
  lemma TextToHtmlRoundTrip(text: string)
    ensures HtmlToText(TextToHtml(text)) == Some(text)
  {
    UnwrapWrap(HtmlHead, Markup(Escape(text)), HtmlTail);
    UnmarkupMarkup(Escape(text));
    UnescapeEscape(text);
  }

  // ---- formatting a request as a message ----

  /** The recipient `format_request` reads: the agency email when the metadata holds one as text. */
  function AgencyEmail(metadata: map<string, MetaValue>): string {
    if "agency_email" in metadata && metadata["agency_email"].Str? then metadata["agency_email"].s else ""
  }

  /** `format_request`: a request without an agency email cannot be emailed; otherwise the message goes
      to that address, carries the letter as text and as HTML, and replies go to the configured
      reply-to address or else to the sender. */
  function FormatRequest(config: EmailConfig, request: GeneratedRequest, attachments: seq<string>)
    : (res: Result<EmailMessage>)
    ensures res.Err? <==> AgencyEmail(request.metadata) == ""
    ensures res.Ok? ==> res.value.to == AgencyEmail(request.metadata) && res.value.to != ""
    ensures res.Ok? ==> res.value.bodyText == request.text && res.value.subject == BuildSubject(request)
    ensures res.Ok? ==> res.value.bodyHtml.Some? && HtmlToText(res.value.bodyHtml.value) == Some(request.text)
    ensures res.Ok? ==> (res.value.replyTo == config.replyTo || (config.replyTo == "" && res.value.replyTo == config.fromAddress))
    ensures res.Ok? ==> res.value.headers == [("X-FOIA-Jurisdiction", request.jurisdiction), ("X-FOIA-Agency", request.agency)]
  {
    var to := AgencyEmail(request.metadata);
    if to == "" then
      Err("No email address found for " + request.agency + ". Please provide the agency's FOIA email.")
    else
      TextToHtmlRoundTrip(request.text);
      Ok(EmailMessage(
        to, BuildSubject(request), request.text, Some(TextToHtml(request.text)),
        config.fromAddress, config.fromName,
        if config.replyTo != "" then config.replyTo else config.fromAddress,
        config.bcc, attachments,
        [("X-FOIA-Jurisdiction", request.jurisdiction), ("X-FOIA-Agency", request.agency)]))
  }

  /** A request whose metadata has no agency email is refused. */
  lemma MissingEmailRefused(config: EmailConfig, request: GeneratedRequest, attachments: seq<string>)
    requires "agency_email" !in request.metadata
    ensures FormatRequest(config, request, attachments).Err?
  {
  }

  /** A request whose metadata holds a non-empty agency email is formatted for that address. */
  lemma PresentEmailAccepted(config: EmailConfig, request: GeneratedRequest, attachments: seq<string>)
    requires "agency_email" in request.metadata && request.metadata["agency_email"].Str?
    requires request.metadata["agency_email"].s != ""
    ensures FormatRequest(config, request, attachments).Ok?
    ensures FormatRequest(config, request, attachments).value.to == request.metadata["agency_email"].s
  {
  }

  // ---- which generated requests can be emailed ----

  /** Indian applications carry no agency email, so the email filer always refuses them. */
  lemma IndianRequestsRefused(config: EmailConfig, ctx: RequestContext, templates: seq<Template>, rendered: string,
                              language: string, attachments: seq<string>)
    requires IndiaRTI.Generate(ctx, templates, rendered, language).Ok?
    ensures FormatRequest(config, IndiaRTI.Generate(ctx, templates, rendered, language).value, attachments).Err?
  {
    IndiaRTI.IndianRequestsHaveNoEmail(ctx, templates, rendered, language);
    MissingEmailRefused(config, IndiaRTI.Generate(ctx, templates, rendered, language).value, attachments);
  }

  /** EU applications keep the address under the institution's key, so the email filer refuses them. */
  lemma EURequestsRefused(config: EmailConfig, ctx: RequestContext, rendered: string, aarhus: bool,
                          attachments: seq<string>)
    requires EURequests.Generate(ctx, rendered, aarhus).Ok?
    ensures FormatRequest(config, EURequests.Generate(ctx, rendered, aarhus).value, attachments).Err?
  {
    EURequests.EURequestsHaveNoAgencyEmail(ctx, rendered, aarhus);
    MissingEmailRefused(config, EURequests.Generate(ctx, rendered, aarhus).value, attachments);
  }

  /** Every federal request that generates can be emailed. */
  lemma FederalRequestsAccepted(config: EmailConfig, ctx: RequestContext, templates: seq<Template>, rendered: string,
                                attachments: seq<string>)
    requires USFederal.Generate(ctx, templates, rendered).Ok?
    ensures FormatRequest(config, USFederal.Generate(ctx, templates, rendered).value, attachments).Ok?
  {
    USFederal.GeneratedFederalRequests(ctx, templates, rendered);
    PresentEmailAccepted(config, USFederal.Generate(ctx, templates, rendered).value, attachments);
  }

  /** Every UK request that generates can be emailed. */
  lemma UKRequestsAccepted(config: EmailConfig, ctx: RequestContext, rendered: string, eir: bool,
                           attachments: seq<string>)
    requires UKFOI.Generate(ctx, rendered, eir).Ok?
    ensures FormatRequest(config, UKFOI.Generate(ctx, rendered, eir).value, attachments).Ok?
  {
    UKFOI.UKRequestsEmailable(ctx, rendered, eir);
    PresentEmailAccepted(config, UKFOI.Generate(ctx, rendered, eir).value, attachments);
  }

  /** Every state request generated over a registry whose agencies all have email addresses can be
      emailed; the built-in registry is such a registry. */
  lemma StateRequestsAccepted(registry: seq<(string, USState.StateInfo)>, config: EmailConfig, ctx: RequestContext,
                              rendered: string, attachments: seq<string>)
    requires USState.Emailable(registry)
    requires USState.Generate(registry, ctx, rendered).Ok?
    ensures FormatRequest(config, USState.Generate(registry, ctx, rendered).value, attachments).Ok?
  {
    USState.GeneratedEmailable(registry, ctx, rendered);
    PresentEmailAccepted(config, USState.Generate(registry, ctx, rendered).value, attachments);
  }

  // ---- formatting a request for a web portal ----

  /** A metadata value as Python's string formatting writes it. */
  function MetaText(v: MetaValue): string {
    match v
    case Str(t) => t
    case Bool(b) => if b then "True" else "False"
  }

  /** `metadata.get(key, default)`, written as text. */
  function MetaGet(metadata: map<string, MetaValue>, key: string, default: string): (t: string)
    ensures key !in metadata ==> t == default
    ensures key in metadata && metadata[key].Str? ==> t == metadata[key].s
  {
    if key in metadata then MetaText(metadata[key]) else default
  }

  /** The copy-paste form `format_for_portal` returns. */
  datatype PortalForm = PortalForm(subject: string, body: string, agencyPortal: string, instructions: string)

  const GoTo := "1. Go to "
  const RemainingSteps :=
    "\n2. Copy the subject line into the subject field\n"
    + "3. Paste the body text into the request description field\n"
    + "4. Attach any supporting documents\n"
    + "5. Submit and note the confirmation number"

  /** The numbered instructions, sending the user to `destination` first. */
  function Instructions(destination: string): string {
    GoTo + destination + RemainingSteps
  }

  /** Reads the destination back from the instructions. */
  function InstructionsDestination(instructions: string): (r: Option<string>)
    ensures r.Some? ==> instructions == Instructions(r.value)
  {
    var lo := |GoTo|;
    var hi := |instructions| - |RemainingSteps|;
    if lo <= hi && instructions[..lo] == GoTo && instructions[hi..] == RemainingSteps then
      Framed(instructions, GoTo, RemainingSteps);
      Some(instructions[lo..hi])
    else None
  }

  /** A string that opens with `p` and closes with `q` is `p`, its middle, then `q`. */
  lemma Framed(s: string, p: string, q: string)
    requires |p| <= |s| - |q| && s[..|p|] == p && s[|s| - |q|..] == q
    ensures s == p + s[|p|..|s| - |q|] + q
  {
    assert s == s[..|p|] + s[|p|..|s| - |q|] + s[|s| - |q|..];
  }

  /** The destination is written into the instructions so that it can be read back. */
  lemma InstructionsRoundTrip(destination: string)
    ensures InstructionsDestination(Instructions(destination)) == Some(destination)
  {
    var t := Instructions(destination);
    assert t[..|GoTo|] == GoTo;
    assert t[|t| - |RemainingSteps|..] == RemainingSteps;
    assert t[|GoTo|..|t| - |RemainingSteps|] == destination;
  }

  /** `format_for_portal`: the subject and the letter for pasting into the agency's portal. The
      instructions name the portal, or "the agency portal" when the metadata has no portal entry;
      an entry that is present but empty leaves the first step without a destination. */
  function FormatForPortal(request: GeneratedRequest): (f: PortalForm)
    ensures f.subject == BuildSubject(request) && f.body == request.text
    ensures "agency_portal" !in request.metadata ==>
      f.agencyPortal == "" && InstructionsDestination(f.instructions) == Some("the agency portal")
    ensures "agency_portal" in request.metadata && request.metadata["agency_portal"].Str? ==>
      f.agencyPortal == request.metadata["agency_portal"].s
      && InstructionsDestination(f.instructions) == Some(f.agencyPortal)
  {
    var destination := MetaGet(request.metadata, "agency_portal", "the agency portal");
    InstructionsRoundTrip(destination);
    PortalForm(BuildSubject(request), request.text, MetaGet(request.metadata, "agency_portal", ""),
               Instructions(destination))
  }

  /** Federal requests always carry a portal entry, so their instructions name it, even when it is
      empty. */
  lemma FederalPortalInstructions(ctx: RequestContext, templates: seq<Template>, rendered: string)
    requires USFederal.Generate(ctx, templates, rendered).Ok?
    ensures var f := FormatForPortal(USFederal.Generate(ctx, templates, rendered).value);
      InstructionsDestination(f.instructions) == Some(f.agencyPortal)
  {
    USFederal.GeneratedFederalRequests(ctx, templates, rendered);
  }

  // ---- sending ----

  /** What the mail server did with the message: accepted it, failed with an SMTP error (which
      `send` reports), or failed with any other exception, such as a refused connection (which
      `send` lets through to its caller). */
  datatype ServerReply = Accepted | Refused(error: string) | Raised(error: string)

  /** A live send with both credentials whose connection raised something other than an SMTP
      error: the exception leaves `send`. */
  predicate Raises(config: EmailConfig, dryRun: bool, reply: ServerReply) {
    !dryRun && config.username != "" && config.password != "" && reply.Raised?
  }

  const MissingCredentials := "SMTP credentials not configured. Set EmailConfig.username and password."

  /** The report of a dry run: what would be sent, with the first 200 characters of the text. */
  function DryRunReport(message: EmailMessage, mimeSize: nat): (m: map<string, string>)
    ensures "status" in m && m["status"] == "dry_run"
    ensures "to" in m && m["to"] == message.to && "subject" in m && m["subject"] == message.subject
    ensures "body_preview" in m && |m["body_preview"]| <= 200 && StartsWith(message.bodyText, m["body_preview"])
  {
    map["status" := "dry_run", "to" := message.to, "subject" := message.subject,
        "body_preview" := Take(message.bodyText, 200), "mime_size" := NatToString(mimeSize)]
  }

  /** The report of a message the server accepted. */
  function SentReport(message: EmailMessage): (m: map<string, string>)
    ensures "status" in m && m["status"] == "sent"
    ensures "to" in m && m["to"] == message.to && "subject" in m && m["subject"] == message.subject
  {
    map["status" := "sent", "to" := message.to, "subject" := message.subject]
  }

  /** The report of an SMTP failure. */
  function ErrorReport(error: string): (m: map<string, string>)
    ensures "status" in m && m["status"] == "error"
    ensures "error" in m && m["error"] == error
  {
    map["status" := "error", "error" := error]
  }

  /** `send`. The dry run reports what would be sent without touching the server; a real send needs
      both credentials, and then reports the server's verdict, or raises what the connection
      raised when that was not an SMTP error. `mimeSize` is the length of the assembled MIME
      text. An `Err` stands for an exception leaving `send`. */
  function Send(config: EmailConfig, message: EmailMessage, dryRun: bool, mimeSize: nat, reply: ServerReply)
    : (res: Result<map<string, string>>)
    ensures res.Err? <==> !dryRun && (config.username == "" || config.password == "" || reply.Raised?)
    ensures res.Err? && (config.username == "" || config.password == "") ==> res.message == MissingCredentials
    ensures Raises(config, dryRun, reply) ==> res.Err? && res.message == reply.error
    ensures res.Ok? ==> "status" in res.value && res.value["status"] in {"dry_run", "sent", "error"}
    ensures res.Ok? ==> (res.value["status"] == "dry_run" <==> dryRun)
    ensures res.Ok? && !dryRun ==> (res.value["status"] == "sent" <==> reply.Accepted?)
    ensures res.Ok? && !dryRun ==> (res.value["status"] == "error" <==> reply.Refused?)
    ensures res.Ok? && (dryRun || reply.Accepted?) ==>
      "to" in res.value && res.value["to"] == message.to && "subject" in res.value && res.value["subject"] == message.subject
    ensures res.Ok? && !dryRun && reply.Refused? ==> "error" in res.value && res.value["error"] == reply.error
    ensures dryRun ==> res.Ok? && res.value == DryRunReport(message, mimeSize)
  {
    if dryRun then
      Ok(DryRunReport(message, mimeSize))
    else if config.username == "" || config.password == "" then
      Err(MissingCredentials)
    else
      match reply
      case Accepted => Ok(SentReport(message))
      case Refused(e) => Ok(ErrorReport(e))
      case Raised(e) => Err(e)
  }

  /** A dry run depends neither on the configuration nor on the server. */
  lemma DryRunIgnoresServer(c1: EmailConfig, c2: EmailConfig, message: EmailMessage, mimeSize: nat,
                            r1: ServerReply, r2: ServerReply)
    ensures Send(c1, message, true, mimeSize, r1) == Send(c2, message, true, mimeSize, r2)
  {
  }

  /** The envelope recipients as `send` builds them: the blind copy is added on the TLS path only. */
  function RecipientsAsWritten(config: EmailConfig, message: EmailMessage): seq<string> {
    if config.useTls && message.bcc != "" then [message.to, message.bcc] else [message.to]
  }

  /** Without TLS a configured blind copy is never delivered, although the message still carries the
      `Bcc` header. */
  lemma BlindCopyDroppedWithoutTls(config: EmailConfig, message: EmailMessage)
    requires !config.useTls && message.bcc != "" && message.bcc != message.to
    ensures message.bcc !in RecipientsAsWritten(config, message)
  {
  }

  /** The envelope recipients on either path: the addressee, then the blind copy when there is one. */
  function Recipients(message: EmailMessage): (rs: seq<string>)
    ensures |rs| >= 1 && rs[0] == message.to
    ensures message.bcc in rs <==> message.bcc != "" || message.bcc == message.to
    ensures |rs| == 2 <==> message.bcc != ""
  {
    if message.bcc != "" then [message.to, message.bcc] else [message.to]
  }

  /** With TLS the two agree; they differ only where the blind copy is lost. */
  lemma RecipientsAgreeWithTls(config: EmailConfig, message: EmailMessage)
    ensures config.useTls ==> RecipientsAsWritten(config, message) == Recipients(message)
    ensures RecipientsAsWritten(config, message) != Recipients(message) <==> !config.useTls && message.bcc != ""
  {
  }
}

=== FILE: eu_requests.dfy ===
/** The EU access-to-documents request generator (Regulation (EC) No 1049/2001, with the Aarhus
    Regulation (EC) No 1367/2006 for environmental information): institution-name resolution and the
    decisions `generate` makes around the rendered application.
 */
module EURequests {
  import opened Outcomes
  import opened Text
  import opened GeneratorBase

  datatype InstitutionInfo = InstitutionInfo(fullName: string, email: string, portal: string)

  /** The registry keys, in registry order. */
  const Keys: seq<string> := ["EC-DG-SANTE", "EC-DG-AGRI", "EC-DG-ENV", "EFSA", "ECA", "EU-COUNCIL", "EU-PARLIAMENT"]

  const Commission := "European Commission \U{2014} Directorate-General for "
  const CommissionEmail := "sg-acc-doc@ec.europa.eu"
  const CommissionPortal := "https://ec.europa.eu/info/about-european-commission/contact/problems-and-complaints/"
    + "how-make-request-access-european-commission-documents_en"

  /** `EU_INSTITUTIONS`, in registry order, keeping the fields the generator reads. */
  const Registry: seq<(string, InstitutionInfo)> := [
    ("EC-DG-SANTE", InstitutionInfo(Commission + "Health and Food Safety (DG SANTE)", CommissionEmail, CommissionPortal)),
    ("EC-DG-AGRI", InstitutionInfo(Commission + "Agriculture and Rural Development (DG AGRI)", CommissionEmail, CommissionPortal)),
    ("EC-DG-ENV", InstitutionInfo(Commission + "Environment (DG ENV)", CommissionEmail, CommissionPortal)),
    ("EFSA", InstitutionInfo("European Food Safety Authority", "access-to-documents@efsa.europa.eu",
                             "https://www.efsa.europa.eu/en/access-to-documents")),
    ("ECA", InstitutionInfo("European Court of Auditors", "eca-info@eca.europa.eu",
                            "https://www.eca.europa.eu/en/Pages/AccessToDocuments.aspx")),
    ("EU-COUNCIL", InstitutionInfo("Council of the European Union", "access@consilium.europa.eu",
                                   "https://www.consilium.europa.eu/en/documents-publications/access-documents/")),
    ("EU-PARLIAMENT", InstitutionInfo("European Parliament", "accesdoc@europarl.europa.eu",
                                      "https://www.europarl.europa.eu/RegistreWeb/home/welcome.htm"))]

  lemma KeysOfRegistry()
    ensures KeysOf(Registry) == Keys
  {
  }

  /** The alias table of `_resolve_institution`, in the order it is scanned; each alias names its key
      by position in `Keys`. */
  const Aliases: seq<(string, nat)> := [
    ("DG SANTE", 0), ("SANTE", 0),
    ("DG AGRI", 1), ("AGRI", 1),
    ("DG ENV", 2), ("ENVIRONMENT", 2),
    ("EFSA", 3), ("FOOD SAFETY AUTHORITY", 3),
    ("COURT OF AUDITORS", 4),
    ("COUNCIL", 5),
    ("PARLIAMENT", 6)]

  /** `_resolve_institution`. */
  function ResolveInstitution(raw: string): (key: string)
    ensures key in Keys || key == raw
    ensures Normalise(raw) in Keys ==> key == Normalise(raw)
  {
    ResolveByAlias(raw, Keys, Aliases)
  }

  /** The keys are already normalised. */
  lemma KeyNormalises(key: string)
    requires key in Keys
    ensures Normalise(key) == key
  {
    CanonicalKey(key);
  }

  /** Each key resolves to itself, so resolving a resolved key changes nothing. */
  lemma KeysResolveToThemselves(key: string)
    requires key in Keys
    ensures ResolveInstitution(key) == key
  {
    KeyNormalises(key);
  }

  /** `AgricultureFirst` for the normalised name. */
  lemma AgricultureFirstStage(upper: string, raw: string)
    requires upper !in Keys && Contains(upper, "AGRI") && !Contains(upper, "SANTE")
    ensures ResolveNormalised(upper, raw, Keys, Aliases) == "EC-DG-AGRI"
  {
    assert Contains(upper, Aliases[3].0);
    assert !Contains(upper, Aliases[1].0);
    assert !Contains(upper, Aliases[0].0) by {
      if Contains(upper, Aliases[0].0) {
        ContainsTail(upper, Aliases[0].0, 3);
      }
    }
    FirstAliasAtMost(upper, Aliases, 3);
    var i := FirstAlias(upper, Aliases, 0).value;
    ResolvesThroughAlias(upper, raw, Keys, Aliases, i);
  }

  /** A name that is not a key and mentions agriculture ("AGRI") but not health and food safety
      ("SANTE") goes to DG AGRI, even when it also names the environment, the Council or the
      Parliament: those aliases are scanned later. */
  lemma AgricultureFirst(raw: string)
    requires Normalise(raw) !in Keys && Contains(Normalise(raw), "AGRI") && !Contains(Normalise(raw), "SANTE")
    ensures ResolveInstitution(raw) == "EC-DG-AGRI"
  {
    AgricultureFirstStage(Normalise(raw), raw);
  }

  const LegalBasis := "Regulation (EC) No 1049/2001 of 30 May 2001 regarding public access "
    + "to EP, Council and Commission documents; Regulation (EC) No 1367/2006 "
    + "(Aarhus Regulation) for environmental information"

  const FilingMethod := "email or online portal"

  /** `generate`, given the rendered application: an unresolvable institution is an error; otherwise
      the application goes to the resolved institution with a 15-working-day response period, the
      context passed through unchanged, and metadata naming the institution's address and portal and
      whether the Aarhus Regulation is invoked. */
  function Generate(ctx: RequestContext, rendered: string, aarhus: bool): (res: Result<GeneratedRequest>)
    ensures res.Err? <==> Lookup(Registry, ResolveInstitution(ctx.agency)).None?
    ensures res.Err? <==> ResolveInstitution(ctx.agency) !in Keys
    ensures res.Ok? ==>
      var info := Lookup(Registry, ResolveInstitution(ctx.agency)).value;
      var g := res.value;
      g.jurisdiction == "EU" && g.deadlineDays == 15 && g.agency == info.fullName && g.filingMethod == FilingMethod
      && g.text == Strip(rendered) && g.context == ctx
    ensures res.Ok? ==>
      var key := ResolveInstitution(ctx.agency);
      var info := Lookup(Registry, key).value;
      res.value.metadata == map["institution_key" := Str(key), "institution_email" := Str(info.email),
                                "institution_portal" := Str(info.portal), "aarhus_included" := Bool(aarhus)]
  {
    var key := ResolveInstitution(ctx.agency);
    KeysOfRegistry();
    match Lookup(Registry, key)
    case None => Err("Unknown institution '" + ctx.agency + "'. Known: " + Join(Keys, ", "))
    case Some(info) =>
      Ok(GeneratedRequest(
        Strip(rendered), "EU", info.fullName, LegalBasis, 15, FilingMethod, ctx,
        map["institution_key" := Str(key), "institution_email" := Str(info.email),
            "institution_portal" := Str(info.portal), "aarhus_included" := Bool(aarhus)]))
  }

  /** An EU application names its address under "institution_email", never "agency_email", so the
      email filer does not accept it; an error means the name came back unresolved. */
  lemma EURequestsHaveNoAgencyEmail(ctx: RequestContext, rendered: string, aarhus: bool)
    ensures Generate(ctx, rendered, aarhus).Ok? ==> "agency_email" !in Generate(ctx, rendered, aarhus).value.metadata
    ensures Generate(ctx, rendered, aarhus).Err? ==> ResolveInstitution(ctx.agency) == ctx.agency
  {
    NoAgencyEmailKey(ctx, rendered, aarhus);
    ErrorMeansUnresolved(ctx, rendered, aarhus);
  }

  lemma NoAgencyEmailKey(ctx: RequestContext, rendered: string, aarhus: bool)
    ensures Generate(ctx, rendered, aarhus).Ok? ==> "agency_email" !in Generate(ctx, rendered, aarhus).value.metadata
  {
  }

  lemma ErrorMeansUnresolved(ctx: RequestContext, rendered: string, aarhus: bool)
    ensures Generate(ctx, rendered, aarhus).Err? ==> ResolveInstitution(ctx.agency) == ctx.agency
  {
  }

}

=== FILE: generator_base.dfy ===
/** What every request generator shares: the request context and its date-range phrase, the optional
    pre-built templates and how they are merged into a context, the generated request, and the
    exact-then-alias-then-substring name lookup that each generator's resolver is built from.
    Rendering the letter itself is not modelled; a generated request carries the rendered text
    it is given.
 */
module GeneratorBase {
  import opened Outcomes
  import opened Text
  import opened Dates

  /** The fields of `RequestContext` that the generators decide on. The requester's own details
      only feed the rendered letter. */
  datatype RequestContext = RequestContext(
    agency: string,
    topic: string,
    jurisdiction: string,
    dateRangeStart: Option<Day>,
    dateRangeEnd: Option<Day>,
    specificRecords: seq<string>,
    keywords: seq<string>,
    feeWaiver: bool,
    templateId: Option<string>)

  // ---- the date-range phrase ----

  const AllDates := "all available dates"

  /** `date_range_str`; `ParseDateRange` reads it back. */
  function DateRangeText(start: Option<Day>, end: Option<Day>): string {
    match (start, end)
    case (Some(a), Some(b)) => LongFormat(a) + " through " + LongFormat(b)
    case (Some(a), None) => "from " + LongFormat(a) + " to present"
    case (None, Some(b)) => "up to " + LongFormat(b)
    case (None, None) => AllDates
  }

  /** Days whose year Python's `date` can represent. */
  predicate InPythonRange(z: Day) {
    1 <= ToDate(z).year <= 9999
  }

  /** The long form starts with a capital letter, so it never reads as one of the other phrases. */
  lemma LongFormatShape(z: Day)
    ensures |LongFormat(z)| > 0 && 'A' <= LongFormat(z)[0] <= 'Z'
  {
    MonthNameShape(ToDate(z).month);
  }

  /** The inverse of `MonthName` on the twelve names, 0 on anything else. */
  function MonthNumber(name: string): (m: int)
    ensures 0 <= m <= 12
  {
    if name == "January" then 1 else if name == "February" then 2 else if name == "March" then 3
    else if name == "April" then 4 else if name == "May" then 5 else if name == "June" then 6
    else if name == "July" then 7 else if name == "August" then 8 else if name == "September" then 9
    else if name == "October" then 10 else if name == "November" then 11
    else if name == "December" then 12 else 0
  }

  lemma MonthNameShape(m: int)
    requires 1 <= m <= 12
    ensures MonthNumber(MonthName(m)) == m
    ensures |MonthName(m)| > 0 && 'A' <= MonthName(m)[0] <= 'Z'
    ensures forall k :: 0 <= k < |MonthName(m)| ==> MonthName(m)[k] != ' '
  {
  }

  /** The position of the first `c` in `s`, or `|s|` when there is none. */
  function IndexOf(s: string, c: char): (i: nat)
    ensures i <= |s|
    ensures forall k :: 0 <= k < i ==> s[k] != c
    ensures i < |s| ==> s[i] == c
  {
    if s == [] || s[0] == c then 0 else 1 + IndexOf(s[1..], c)
  }

  /** Reads one `%B %d, %Y` date from the front of `s`, with its length. */
  function ParseLongPrefix(s: string): Option<(Day, nat)> {
    var i := IndexOf(s, ' ');
    var m := MonthNumber(s[..i]);
    if m == 0 || |s| < i + 9 then None
    else
      var dd := s[i + 1..i + 3];
      var yyyy := s[i + 5..i + 9];
      if s[i + 3..i + 5] == ", " && AllDigits(dd) && AllDigits(yyyy)
         && ValidDate(Date(DigitsValue(yyyy), m, DigitsValue(dd)))
      then Some((FromDate(Date(DigitsValue(yyyy), m, DigitsValue(dd))), i + 9))
      else None
  }

  /** Reads back the phrase `DateRangeText` writes. */
  function ParseDateRange(s: string): Option<(Option<Day>, Option<Day>)> {
    if s == AllDates then Some((None, None))
    else if StartsWith(s, "from ") then ParseFromPhrase(s[5..])
    else if StartsWith(s, "up to ") then ParseUpToPhrase(s[6..])
    else ParseThroughPhrase(s)
  }

  function ParseFromPhrase(s: string): Option<(Option<Day>, Option<Day>)> {
    match ParseLongPrefix(s)
    case Some((a, n)) => if s[n..] == " to present" then Some((Some(a), None)) else None
    case None => None
  }

  function ParseUpToPhrase(s: string): Option<(Option<Day>, Option<Day>)> {
    match ParseLongPrefix(s)
    case Some((b, n)) => if n == |s| then Some((None, Some(b))) else None
    case None => None
  }

  function ParseThroughPhrase(s: string): Option<(Option<Day>, Option<Day>)> {
    match ParseLongPrefix(s)
    case Some((a, n)) =>
      if StartsWith(s[n..], " through ") then
        match ParseLongPrefix(s[n + 9..])
        case Some((b, k)) => if n + 9 + k == |s| then Some((Some(a), Some(b))) else None
        case None => None
      else None
    case None => None
  }

  /** A number below `10^w` is written in at most `w` digits. */
  lemma {:induction false} ShortDecimal(n: nat, w: nat)
    requires w >= 1 && n < Pow10(w)
    ensures |NatToString(n)| <= w
  {
    if n >= 10 {
      ShortDecimal(n / 10, w - 1);
    }
  }

  /** Equal decimal values of equal-length digit strings: the padded fields read back. */
  lemma PaddedField(n: nat, w: nat)
    requires w >= 1 && n < Pow10(w)
    ensures |ZeroPad(n, w)| == w && AllDigits(ZeroPad(n, w)) && DigitsValue(ZeroPad(n, w)) == n
  {
    ShortDecimal(n, w);
  }

  /** `ParseLongPrefix` reads a long-form date back from the front of any string. */
  lemma LongFormatParses(z: Day, rest: string)
    requires InPythonRange(z)
    ensures ParseLongPrefix(LongFormat(z) + rest) == Some((z, |LongFormat(z)|))
  {
    var d := ToDate(z);
    var name := MonthName(d.month);
    MonthNameShape(d.month);
    PaddedField(d.day, 2);
    PaddedField(d.year, 4);
    var dd := ZeroPad(d.day, 2);
    var yyyy := ZeroPad(d.year, 4);
    assert LongFormat(z) == name + " " + dd + ", " + yyyy;
    LongFormFields(name, dd, yyyy, rest);
    assert Date(d.year, d.month, d.day) == d;
    FromToDate(z);
  }

  /** Where the fields of a long-form date sit in front of any text. */
  lemma LongFormFields(name: string, dd: string, yyyy: string, rest: string)
    requires |dd| == 2 && |yyyy| == 4
    requires forall k :: 0 <= k < |name| ==> name[k] != ' '
    ensures var s := name + " " + dd + ", " + yyyy + rest;
      var i := |name|;
      |s| >= i + 9 && IndexOf(s, ' ') == i && s[..i] == name
      && s[i + 1..i + 3] == dd && s[i + 3..i + 5] == ", " && s[i + 5..i + 9] == yyyy
  {
    var s := name + " " + dd + ", " + yyyy + rest;
    assert s == name + [' '] + dd + ", " + yyyy + rest;
    var i := |name|;
    assert s[i] == ' ';
    assert forall k :: 0 <= k < i ==> s[k] == name[k];
    assert IndexOf(s, ' ') == i;
    assert s[..i] == name;
    assert s[i + 1..i + 3] == dd;
    assert s[i + 3..i + 5] == ", ";
    assert s[i + 5..i + 9] == yyyy;
  }

  lemma ParseThrough(x: string, y: string, a: Day, b: Day)
    requires |x| > 0 && 'A' <= x[0] <= 'Z'
    requires ParseLongPrefix(x + (" through " + y)) == Some((a, |x|))
    requires ParseLongPrefix(y + []) == Some((b, |y|))
    ensures ParseDateRange(x + " through " + y) == Some((Some(a), Some(b)))
  {
    var s := x + " through " + y;
    assert s == x + (" through " + y);
    CapitalIsThroughPhrase(s);
    assert s[|x|..] == " through " + y;
    assert s[|x| + 9..] == y + [];
    ThroughPhraseReads(s, |x|, a, b);
  }

  /** A phrase opening with a capital letter is none of the three fixed forms. */
  lemma CapitalIsThroughPhrase(s: string)
    requires |s| > 0 && 'A' <= s[0] <= 'Z'
    ensures ParseDateRange(s) == ParseThroughPhrase(s)
  {
    assert AllDates[0] == 'a' && "from "[0] == 'f' && "up to "[0] == 'u';
    assert s != AllDates && !StartsWith(s, "from ") && !StartsWith(s, "up to ");
  }

  lemma ThroughPhraseReads(s: string, n: nat, a: Day, b: Day)
    requires ParseLongPrefix(s) == Some((a, n))
    requires n + 9 <= |s| && s[n..n + 9] == " through "
    requires ParseLongPrefix(s[n + 9..]) == Some((b, |s| - n - 9))
    ensures ParseThroughPhrase(s) == Some((Some(a), Some(b)))
  {
    assert StartsWith(s[n..], " through ") by {
      assert s[n..][0..9] == s[n..n + 9];
    }
  }

  lemma ParseFrom(x: string, a: Day)
    requires ParseLongPrefix(x + " to present") == Some((a, |x|))
    ensures ParseDateRange("from " + x + " to present") == Some((Some(a), None))
  {
    var s := "from " + x + " to present";
    assert s[0] == 'f' && AllDates[0] == 'a';
    assert s[5..] == x + " to present";
    assert (x + " to present")[|x|..] == " to present";
  }

  lemma ParseUpTo(y: string, b: Day)
    requires ParseLongPrefix(y + []) == Some((b, |y|))
    ensures ParseDateRange("up to " + y) == Some((None, Some(b)))
  {
    var s := "up to " + y;
    assert s[0] == 'u' && AllDates[0] == 'a';
    assert s[..5] != "from ";
    assert s[6..] == y + [];
    assert y + [] == y;
  }

  /** The date-range phrase loses nothing: both dates, or their absence, read back from it. */
  lemma DateRangeRoundTrip(start: Option<Day>, end: Option<Day>)
    requires start.Some? ==> InPythonRange(start.value)
    requires end.Some? ==> InPythonRange(end.value)
    ensures ParseDateRange(DateRangeText(start, end)) == Some((start, end))
  {
    match (start, end)
    case (Some(a), Some(b)) =>
      LongFormatShape(a);
      LongFormatParses(a, " through " + LongFormat(b));
      LongFormatParses(b, []);
      ParseThrough(LongFormat(a), LongFormat(b), a, b);
    case (Some(a), None) =>
      LongFormatParses(a, " to present");
      ParseFrom(LongFormat(a), a);
    case (None, Some(b)) =>
      LongFormatParses(b, []);
      ParseUpTo(LongFormat(b), b);
    case (None, None) =>
  }

  // ---- pre-built templates ----

  /** One entry of a generator's templates file. A missing `records` or `keywords` key reads as the
      empty list, which is what every use of them does. */
  datatype Template = Template(
    id: Option<string>,
    name: Option<string>,
    description: Option<string>,
    records: seq<string>,
    keywords: seq<string>)

  /** One row of `list_templates`. */
  datatype TemplateSummary = TemplateSummary(id: string, name: string, description: string)

  /** `get_template`: the first entry whose id is `id`. A generator without a templates file has no
      entries. */
  function GetTemplate(templates: seq<Template>, id: string): (r: Option<Template>)
    ensures r.None? <==> forall i :: 0 <= i < |templates| ==> templates[i].id != Some(id)
    ensures r.Some? ==> r.value.id == Some(id)
    ensures r.Some? ==>
      exists i :: 0 <= i < |templates| && templates[i] == r.value && forall j :: 0 <= j < i ==> templates[j].id != Some(id)
  {
    if templates == [] then None
    else if templates[0].id == Some(id) then Some(templates[0])
    else
      var r := GetTemplate(templates[1..], id);
      if r.Some? then
        ShiftFirstIndex(templates, id, r.value);
        r
      else r
  }

  /** The first occurrence in the tail is the first occurrence in the whole when the head does not match. */
  lemma ShiftFirstIndex(templates: seq<Template>, id: string, t: Template)
    requires templates != [] && templates[0].id != Some(id)
    requires exists i :: 0 <= i < |templates[1..]| && templates[1..][i] == t
                         && forall j :: 0 <= j < i ==> templates[1..][j].id != Some(id)
    ensures exists i :: 0 <= i < |templates| && templates[i] == t
                        && forall j :: 0 <= j < i ==> templates[j].id != Some(id)
  {
    var i :| 0 <= i < |templates[1..]| && templates[1..][i] == t
             && forall j :: 0 <= j < i ==> templates[1..][j].id != Some(id);
    assert templates[i + 1] == t;
    forall j | 0 <= j < i + 1
      ensures templates[j].id != Some(id)
    {
      if j > 0 {
        assert templates[j] == templates[1..][j - 1];
      }
    }
  }

  /** `list_templates`: an entry without an `id` or `name` key raises `KeyError` naming the key;
      a missing description reads as "". */
  function ListTemplates(templates: seq<Template>): (r: Result<seq<TemplateSummary>>)
    ensures r.Ok? <==> forall i :: 0 <= i < |templates| ==> templates[i].id.Some? && templates[i].name.Some?
    ensures r.Ok? ==> |r.value| == |templates|
    ensures r.Ok? ==> forall i :: 0 <= i < |templates| ==> r.value[i] == Summary(templates[i])
  {
    if templates == [] then Ok([])
    else
      var t := templates[0];
      if t.id.None? then Err("KeyError: 'id'")
      else if t.name.None? then Err("KeyError: 'name'")
      else
        match ListTemplates(templates[1..])
        case Err(e) => Err(e)
        case Ok(rest) => Ok([Summary(t)] + rest)
  }

  /** The projection `list_templates` makes of one entry that has both keys. */
  function Summary(t: Template): TemplateSummary
    requires t.id.Some? && t.name.Some?
  {
    TemplateSummary(t.id.value, t.name.value, t.description.GetOr(""))
  }

  /** Every listed id finds a template, and the template found is listed: the two views agree. */
  lemma ListedTemplatesFound(templates: seq<Template>, id: string)
    requires ListTemplates(templates).Ok?
    ensures GetTemplate(templates, id).Some? <==>
            exists i :: 0 <= i < |ListTemplates(templates).value| && ListTemplates(templates).value[i].id == id
  {
    var listed := ListTemplates(templates).value;
    if GetTemplate(templates, id).None? {
      forall i | 0 <= i < |listed|
        ensures listed[i].id != id
      {
        assert templates[i].id != Some(id);
      }
    } else {
      var i :| 0 <= i < |templates| && templates[i] == GetTemplate(templates, id).value;
      assert listed[i].id == id;
    }
  }

  /** Python truthiness of the optional template id. */
  predicate Given(s: Option<string>) {
    s.Some? && s.value != ""
  }

  /** The template merge in the federal and Indian generators: a found template's records go in front
      of the caller's, and its keywords replace the caller's only when the caller gave none. The
      context is changed in place, so the caller's own context object carries the merge afterwards.
      The second component is the template description handed to the letter. */
  function MergeTemplate(ctx: RequestContext, templates: seq<Template>): (r: (RequestContext, string))
    ensures r.0 == ctx.(specificRecords := r.0.specificRecords, keywords := r.0.keywords)
    ensures |ctx.specificRecords| <= |r.0.specificRecords|
    ensures r.0.specificRecords[|r.0.specificRecords| - |ctx.specificRecords|..] == ctx.specificRecords
    ensures ctx.keywords != [] ==> r.0.keywords == ctx.keywords
    ensures !Given(ctx.templateId) || GetTemplate(templates, ctx.templateId.value).None? ==> r == (ctx, "")
    ensures Given(ctx.templateId) && GetTemplate(templates, ctx.templateId.value).Some? ==>
      var t := GetTemplate(templates, ctx.templateId.value).value;
      r.0.specificRecords == t.records + ctx.specificRecords
      && (ctx.keywords == [] ==> r.0.keywords == t.keywords)
      && r.1 == t.description.GetOr("")
  {
    if Given(ctx.templateId) then
      match GetTemplate(templates, ctx.templateId.value)
      case Some(t) =>
        var records := t.records + ctx.specificRecords;
        assert records[|records| - |ctx.specificRecords|..] == ctx.specificRecords;
        (ctx.(specificRecords := records,
              keywords := if ctx.keywords == [] && t.keywords != [] then t.keywords else ctx.keywords),
         t.description.GetOr(""))
      case None => (ctx, "")
    else (ctx, "")
  }

  /** Generating twice from the same context object merges twice: the template's records appear twice,
      while the keywords settle after the first merge. */
  lemma MergeTwice(ctx: RequestContext, templates: seq<Template>)
    requires Given(ctx.templateId) && GetTemplate(templates, ctx.templateId.value).Some?
    ensures var t := GetTemplate(templates, ctx.templateId.value).value;
      var once := MergeTemplate(ctx, templates).0;
      var twice := MergeTemplate(once, templates).0;
      twice.specificRecords == t.records + t.records + ctx.specificRecords
      && twice.keywords == once.keywords
  {
    var t := GetTemplate(templates, ctx.templateId.value).value;
    var once := MergeTemplate(ctx, templates).0;
    assert once.templateId == ctx.templateId;
    assert t.records + (t.records + ctx.specificRecords) == t.records + t.records + ctx.specificRecords;
  }

  // ---- generated requests ----

  /** A metadata value: the generators store strings and flags. */
  datatype MetaValue = Str(s: string) | Bool(b: bool)

  /** `GeneratedRequest`, without the fee notes, which are fixed text. */
  datatype GeneratedRequest = GeneratedRequest(
    text: string,
    jurisdiction: string,
    agency: string,
    legalBasis: string,
    deadlineDays: int,
    filingMethod: string,
    context: RequestContext,
    metadata: map<string, MetaValue>)

  // ---- registries ----

  /** The keys of a registry, in registry order (a Python dict's iteration order). */
  function KeysOf<T>(entries: seq<(string, T)>): (keys: seq<string>)
    ensures |keys| == |entries|
    ensures forall i :: 0 <= i < |entries| ==> keys[i] == entries[i].0
  {
    seq(|entries|, i requires 0 <= i < |entries| => entries[i].0)
  }

  /** `registry.get(key)`. */
  function Lookup<T(==)>(entries: seq<(string, T)>, key: string): (r: Option<T>)
    ensures r.None? <==> key !in KeysOf(entries)
    ensures r.Some? ==> exists i :: 0 <= i < |entries| && entries[i] == (key, r.value)
  {
    if entries == [] then None
    else if entries[0].0 == key then
      assert KeysOf(entries)[0] == key;
      Some(entries[0].1)
    else
      var r := Lookup(entries[1..], key);
      assert key in KeysOf(entries) <==> key in KeysOf(entries[1..]) by {
        assert KeysOf(entries) == [entries[0].0] + KeysOf(entries[1..]);
      }
      if r.Some? then
        var i :| 0 <= i < |entries[1..]| && entries[1..][i] == (key, r.value);
        assert entries[i + 1] == (key, r.value);
        r
      else r
  }

  /** What holds of every value in a table holds of whatever is looked up in it. */
  lemma LookupHolds<T>(entries: seq<(string, T)>, key: string, p: T -> bool)
    requires forall i :: 0 <= i < |entries| ==> p(entries[i].1)
    ensures Lookup(entries, key).Some? ==> p(Lookup(entries, key).value)
  {
    if Lookup(entries, key).Some? {
      var i :| 0 <= i < |entries| && entries[i] == (key, Lookup(entries, key).value);
    }
  }

  // ---- name resolution ----

  /** `raw.upper().strip()`. */
  function Normalise(raw: string): string {
    Strip(Upper(raw))
  }

  /** The substring test of the resolvers: either string occurs in the other. */
  predicate Overlaps(a: string, b: string) {
    Contains(b, a) || Contains(a, b)
  }

  /** The first alias, from position `from` on, that occurs in `upper`: the resolvers scan their alias
      tables in order and stop at the first hit. */
  function FirstAlias<K>(upper: string, aliases: seq<(string, K)>, from: nat): (r: Option<nat>)
    requires from <= |aliases|
    ensures r.Some? ==> from <= r.value < |aliases| && Contains(upper, aliases[r.value].0)
    ensures forall j :: from <= j < (if r.Some? then r.value else |aliases|) ==> !Contains(upper, aliases[j].0)
    decreases |aliases| - from
  {
    if from == |aliases| then None
    else if Contains(upper, aliases[from].0) then Some(from)
    else FirstAlias(upper, aliases, from + 1)
  }

  /** The first key, from position `from` on, that overlaps `upper`. */
  function FirstOverlap(upper: string, keys: seq<string>, from: nat): (r: Option<nat>)
    requires from <= |keys|
    ensures r.Some? ==> from <= r.value < |keys| && Overlaps(upper, keys[r.value])
    ensures forall j :: from <= j < (if r.Some? then r.value else |keys|) ==> !Overlaps(upper, keys[j])
    decreases |keys| - from
  {
    if from == |keys| then None
    else if Overlaps(upper, keys[from]) then Some(from)
    else FirstOverlap(upper, keys, from + 1)
  }

  /** Substring occurrence is transitive, so an alias is shadowed by every earlier alias it contains. */
  lemma ContainsTransitive(s: string, t: string, u: string)
    requires Contains(s, t) && Contains(t, u)
    ensures Contains(s, u)
  {
    var i :| 0 <= i <= |s| - |t| && SliceAt(s, t, i);
    var j :| 0 <= j <= |t| - |u| && SliceAt(t, u, j);
    assert t == s[i..i + |t|];
    assert u == t[j..j + |u|];
    forall k | 0 <= k < |u|
      ensures s[i + j + k] == u[k]
    {
      assert u[k] == t[j + k] == s[i + j + k];
    }
    assert s[i + j..i + j + |u|] == u;
    assert SliceAt(s, u, i + j);
  }

  /** A string longer than `s` never occurs in it. */
  lemma TooLongToOccur(s: string, sub: string)
    requires |sub| > |s|
    ensures !Contains(s, sub)
  {
  }

  /** The empty string occurs everywhere, so a blank input overlaps every key. */
  lemma EmptyOverlaps(key: string)
    ensures Overlaps("", key)
  {
    assert SliceAt(key, "", 0);
  }

  /** A key written in capitals, digits and punctuation, without surrounding whitespace, normalises to
      itself. */
  lemma CanonicalKey(key: string)
    requires key != [] && !IsSpace(key[0]) && !IsSpace(key[|key| - 1])
    requires forall i :: 0 <= i < |key| ==> !IsLowerAscii(key[i])
    ensures Normalise(key) == key
  {
    assert Upper(key) == key;
    StripNoSpace(key);
  }

  /** The resolver of the Indian, UK and EU generators: the normalised name when it is a key, else the
      key of the first alias in table order that occurs in it, else the raw name unchanged. */
  function ResolveByAlias(raw: string, keys: seq<string>, aliases: seq<(string, nat)>): (key: string)
    requires forall i :: 0 <= i < |aliases| ==> aliases[i].1 < |keys|
    ensures key in keys || key == raw
    ensures Normalise(raw) in keys ==> key == Normalise(raw)
  {
    ResolveNormalised(Normalise(raw), raw, keys, aliases)
  }

  /** The resolver once the name has been normalised to `upper`. Each alias names its key by position
      in `keys`. */
  function ResolveNormalised(upper: string, raw: string, keys: seq<string>, aliases: seq<(string, nat)>): (key: string)
    requires forall i :: 0 <= i < |aliases| ==> aliases[i].1 < |keys|
    ensures key in keys || key == raw
    ensures upper in keys ==> key == upper
  {
    if upper in keys then upper
    else match FirstAlias(upper, aliases, 0)
      case Some(i) => keys[aliases[i].1]
      case None => raw
  }

  /** The alias stage: a name that is not a key takes the key of the first alias occurring in it, and
      comes back raw when no alias occurs in it. */
  lemma AliasStage(upper: string, raw: string, keys: seq<string>, aliases: seq<(string, nat)>)
    requires forall i :: 0 <= i < |aliases| ==> aliases[i].1 < |keys|
    requires upper !in keys
    ensures (exists j :: 0 <= j < |aliases| && Contains(upper, aliases[j].0)) ==>
      exists i :: 0 <= i < |aliases| && ResolveNormalised(upper, raw, keys, aliases) == keys[aliases[i].1]
        && Contains(upper, aliases[i].0) && forall j :: 0 <= j < i ==> !Contains(upper, aliases[j].0)
    ensures (forall j :: 0 <= j < |aliases| ==> !Contains(upper, aliases[j].0)) ==>
      ResolveNormalised(upper, raw, keys, aliases) == raw
  {
    match FirstAlias(upper, aliases, 0)
    case Some(i) =>
      assert ResolveNormalised(upper, raw, keys, aliases) == keys[aliases[i].1];
    case None =>
  }

  /** The alias stage in the form the per-generator lemmas use. */
  lemma ResolvesThroughAlias(upper: string, raw: string, keys: seq<string>, aliases: seq<(string, nat)>, i: nat)
    requires forall i :: 0 <= i < |aliases| ==> aliases[i].1 < |keys|
    requires upper !in keys && FirstAlias(upper, aliases, 0) == Some(i)
    ensures ResolveNormalised(upper, raw, keys, aliases) == keys[aliases[i].1]
  {
  }

  /** An alias that occurs, with none before it occurring, is the first hit. */
  lemma FirstAliasIs<K>(upper: string, aliases: seq<(string, K)>, k: nat)
    requires k < |aliases| && Contains(upper, aliases[k].0)
    requires forall j :: 0 <= j < k ==> !Contains(upper, aliases[j].0)
    ensures FirstAlias(upper, aliases, 0) == Some(k)
  {
  }

  /** An alias that contains an earlier alias is never the first hit: the earlier one always matches too. */
  lemma ShadowedAlias<K>(upper: string, aliases: seq<(string, K)>, i: nat, j: nat)
    requires i < j < |aliases| && Contains(aliases[j].0, aliases[i].0)
    ensures FirstAlias(upper, aliases, 0) != Some(j)
  {
    if FirstAlias(upper, aliases, 0) == Some(j) {
      ContainsTransitive(upper, aliases[j].0, aliases[i].0);
    }
  }

  /** An alias that occurs bounds the first hit from above. */
  lemma FirstAliasAtMost<K>(upper: string, aliases: seq<(string, K)>, j: nat)
    requires j < |aliases| && Contains(upper, aliases[j].0)
    ensures FirstAlias(upper, aliases, 0).Some? && FirstAlias(upper, aliases, 0).value <= j
  {
  }

  /** Whatever contains `sub` contains each prefix of it. */
  lemma ContainsPrefix(s: string, sub: string, k: nat)
    requires Contains(s, sub) && k <= |sub|
    ensures Contains(s, sub[..k])
  {
    var i :| 0 <= i <= |s| - |sub| && SliceAt(s, sub, i);
    assert s[i..i + k] == s[i..i + |sub|][..k];
    assert SliceAt(s, sub[..k], i);
  }

  /** Normalising leaves no lower-case ASCII letter. */
  lemma NormalisedUpper(raw: string)
    ensures forall k :: 0 <= k < |Normalise(raw)| ==> !IsLowerAscii(Normalise(raw)[k])
  {
    StripKeepsNoLower(Upper(raw));
  }

  lemma StripKeepsNoLower(u: string)
    requires forall k :: 0 <= k < |u| ==> !IsLowerAscii(u[k])
    ensures forall k :: 0 <= k < |Strip(u)| ==> !IsLowerAscii(Strip(u)[k])
  {
    var r := Strip(u);
    var i :| 0 <= i <= |u| - |r| && SliceAt(u, r, i) && AllSpace(u[..i]) && AllSpace(u[i + |r|..]);
    NoLowerInSlice(u, r, i);
  }

  lemma NoLowerInSlice(u: string, r: string, i: int)
    requires SliceAt(u, r, i)
    requires forall k :: 0 <= k < |u| ==> !IsLowerAscii(u[k])
    ensures forall k :: 0 <= k < |r| ==> !IsLowerAscii(r[k])
  {
    forall k | 0 <= k < |r|
      ensures !IsLowerAscii(r[k])
    {
      assert r[k] == u[i..i + |r|][k] == u[i + k];
    }
  }
}

=== FILE: india_rti.dfy ===
/** The Right to Information application generator for Indian public authorities: authority-name
    resolution, the letter-language choice and the decisions `generate` makes around the rendered
    application.
 */
module IndiaRTI {
  import opened Outcomes
  import opened Text
  import opened GeneratorBase

  datatype AuthorityInfo = AuthorityInfo(fullName: string, parentMinistry: string)

  /** The registry keys, in registry order. `MoEFCC` is the one key not written in capitals. */
  const Keys: seq<string> := ["AWBI", "FSSAI", "CPCB", "DAHD", "MoEFCC", "SPCB", "APEDA"]

  const FisheriesMinistry := "Ministry of Fisheries, Animal Husbandry and Dairying"

  /** `INDIA_AGENCIES`, in registry order, keeping the fields the generator reads. */
  const Registry: seq<(string, AuthorityInfo)> := [
    ("AWBI", AuthorityInfo("Animal Welfare Board of India", FisheriesMinistry)),
    ("FSSAI", AuthorityInfo("Food Safety and Standards Authority of India", "Ministry of Health and Family Welfare")),
    ("CPCB", AuthorityInfo("Central Pollution Control Board", "Ministry of Environment, Forest and Climate Change")),
    ("DAHD", AuthorityInfo("Department of Animal Husbandry and Dairying", FisheriesMinistry)),
    ("MoEFCC", AuthorityInfo("Ministry of Environment, Forest and Climate Change", "Direct ministry")),
    ("SPCB", AuthorityInfo("State Pollution Control Board (generic \U{2014} specify state)", "State government")),
    ("APEDA", AuthorityInfo("Agricultural and Processed Food Products Export Development Authority",
                            "Ministry of Commerce and Industry"))]

  lemma KeysOfRegistry()
    ensures KeysOf(Registry) == Keys
  {
  }

  const PollutionControl := "POLLUTION CONTROL"

  /** The alias table of `_resolve_agency`, in the order it is scanned. */
  const Aliases: seq<(string, nat)> := [
    ("ANIMAL WELFARE BOARD", 0),  // AWBI
    ("FOOD SAFETY", 1),           // FSSAI
    (PollutionControl, 2),        // CPCB
    ("CENTRAL POLLUTION", 2),     // CPCB
    ("STATE POLLUTION", 5),       // SPCB
    ("ANIMAL HUSBANDRY", 3),      // DAHD
    ("ENVIRONMENT", 4),           // MoEFCC
    ("MOEF", 4)]                  // MoEFCC

  /** `_resolve_agency`. */
  function ResolveAgency(raw: string): (key: string)
    ensures key in Keys || key == raw
  {
    ResolveByAlias(raw, Keys, Aliases)
  }

  /** A name mentioning a state pollution control board meets the central board's alias first, so it
      never resolves to the state boards' entry; unless it also names the welfare board or food
      safety, it resolves to the central board. */
  lemma StateBoardShadowed(raw: string)
    requires Contains(Normalise(raw), "STATE " + PollutionControl)
    ensures ResolveAgency(raw) in {"AWBI", "FSSAI", "CPCB"}
    ensures !Contains(Normalise(raw), Aliases[0].0) && !Contains(Normalise(raw), Aliases[1].0) ==>
      ResolveAgency(raw) == "CPCB"
  {
    StateBoardAlias(Normalise(raw), raw);
  }

  /** `StateBoardShadowed` for the normalised name. */
  lemma StateBoardAlias(upper: string, raw: string)
    requires Contains(upper, "STATE " + PollutionControl)
    ensures ResolveNormalised(upper, raw, Keys, Aliases) in {"AWBI", "FSSAI", "CPCB"}
    ensures !Contains(upper, Aliases[0].0) && !Contains(upper, Aliases[1].0) ==>
      ResolveNormalised(upper, raw, Keys, Aliases) == "CPCB"
  {
    ContainsPollutionControl(upper);
    NotAKey(upper, "STATE " + PollutionControl);
    FirstAliasAtMost(upper, Aliases, 2);
    var i := FirstAlias(upper, Aliases, 0).value;
    ResolvesThroughAlias(upper, raw, Keys, Aliases, i);
    EarlyTargets(i);
  }

  lemma ContainsPollutionControl(upper: string)
    requires Contains(upper, "STATE " + PollutionControl)
    ensures Contains(upper, Aliases[2].0)
  {
    ContainsTail(upper, "STATE " + PollutionControl, 6);
    assert ("STATE " + PollutionControl)[6..] == PollutionControl;
  }

  /** The first three aliases lead to the welfare board, the food authority and the central board. */
  lemma EarlyTargets(i: nat)
    requires i <= 2
    ensures Keys[Aliases[i].1] == ["AWBI", "FSSAI", "CPCB"][i]
  {
  }

  /** A name containing something longer than every key is not a key. */
  lemma NotAKey(upper: string, sub: string)
    requires Contains(upper, sub) && |sub| > 6
    ensures upper !in Keys
  {
  }

  /** No name normalises to `MoEFCC`, so that entry is reached only through its two aliases. */
  lemma MinistryOnlyByAlias(raw: string)
    ensures ResolveAgency(raw) == "MoEFCC" ==> Contains(Normalise(raw), "ENVIRONMENT") || Contains(Normalise(raw), "MOEF")
  {
    NormalisedNotMinistry(raw);
    MinistryAliasStage(Normalise(raw), raw);
    if raw == "MoEFCC" {
      MinistryKeyHasMoef();
    }
  }

  lemma MinistryKeyHasMoef()
    ensures Contains(Normalise("MoEFCC"), "MOEF")
  {
    var n := Normalise("MoEFCC");
    MinistryKeyNormalises();
    assert SliceAt(n, n, 0);
    ContainsPrefix(n, n, 4);
    assert n[..4] == "MOEF";
  }

  /** `MinistryOnlyByAlias` for the normalised name: apart from a raw name passed through unchanged,
      only the aliases "ENVIRONMENT" and "MOEF" lead to the ministry. */
  lemma MinistryAliasStage(upper: string, raw: string)
    requires upper != "MoEFCC"
    ensures ResolveNormalised(upper, raw, Keys, Aliases) == "MoEFCC" ==>
      raw == "MoEFCC" || Contains(upper, "ENVIRONMENT") || Contains(upper, "MOEF")
  {
    if upper !in Keys {
      match FirstAlias(upper, Aliases, 0)
      case Some(i) =>
        ResolvesThroughAlias(upper, raw, Keys, Aliases, i);
        if Keys[Aliases[i].1] == "MoEFCC" {
          MinistryAliases(i);
        }
      case None =>
    }
  }

  lemma NormalisedNotMinistry(raw: string)
    ensures Normalise(raw) != "MoEFCC"
  {
    NormalisedUpper(raw);
    NotMixedCase(Normalise(raw));
  }

  lemma NotMixedCase(u: string)
    requires forall k :: 0 <= k < |u| ==> !IsLowerAscii(u[k])
    ensures u != "MoEFCC"
  {
    if |u| > 1 {
      assert !IsLowerAscii(u[1]);
    }
  }

  /** Only the aliases "ENVIRONMENT" and "MOEF" lead to the ministry. */
  lemma MinistryAliases(i: nat)
    requires i < |Aliases| && Keys[Aliases[i].1] == "MoEFCC"
    ensures Aliases[i].0 in {"ENVIRONMENT", "MOEF"}
  {
  }

  lemma MinistryKeyNormalises()
    ensures Normalise("MoEFCC") == "MOEFCC"
  {
    assert Upper("MoEFCC") == "MOEFCC";
    StripNoSpace("MOEFCC");
  }

  /** Only the last alias, "MOEF", occurs in the normalised key `MoEFCC`. */
  lemma MinistryFirstAlias()
    ensures FirstAlias("MOEFCC", Aliases, 0) == Some(7)
  {
    var upper := "MOEFCC";
    forall j | 0 <= j < 7
      ensures !Contains(upper, Aliases[j].0)
    {
      TooLongToOccur(upper, Aliases[j].0);
    }
    assert SliceAt(upper, Aliases[7].0, 0);
    FirstAliasIs(upper, Aliases, 7);
  }

  /** The key `MoEFCC` itself resolves through the alias "MOEF". */
  lemma MinistryKeyResolves()
    ensures ResolveAgency("MoEFCC") == "MoEFCC"
    ensures FirstAlias(Normalise("MoEFCC"), Aliases, 0) == Some(7)
  {
    MinistryKeyNormalises();
    MinistryFirstAlias();
    ResolvesThroughAlias("MOEFCC", "MoEFCC", Keys, Aliases, 7);
  }

  /** Each key resolves to itself, so resolving a resolved key changes nothing. */
  lemma KeysResolveToThemselves(key: string)
    requires key in Keys
    ensures ResolveAgency(key) == key
  {
    if key == "MoEFCC" {
      MinistryKeyResolves();
    } else {
      CanonicalKey(key);
    }
  }

  /** The two letter templates. */
  datatype Letter = EnglishLetter | HindiLetter

  /** The Hindi template is used exactly when the requested language, lower-cased, is "hindi". */
  function LetterFor(language: string): (l: Letter)
    ensures l == HindiLetter <==> Lower(language) == "hindi"
  {
    if Lower(language) == "hindi" then HindiLetter else EnglishLetter
  }

  /** The language choice ignores letter case: "HINDI", "Hindi" and "hindi" all choose the Hindi letter. */
  lemma LetterIgnoresCase(language: string)
    ensures LetterFor(Upper(language)) == LetterFor(language)
  {
    assert Lower(Upper(language)) == Lower(language) by {
      forall k | 0 <= k < |language|
        ensures Lower(Upper(language))[k] == Lower(language)[k]
      {
        var c := language[k];
        assert Upper(language)[k] == UpperChar(c);
      }
    }
  }

  const LegalBasis := "Right to Information Act, 2005, " + "Section 6(1)"

  const FilingMethod := "Post / hand delivery / RTI Online Portal " + "(https://rtionline.gov.in) for central government bodies"

  /** `generate`, given the rendered application: an unresolvable authority is an error; otherwise the
      context is merged with the chosen template and the application goes to the resolved authority
      under section 6(1), with a 30-day response period and no email address in the metadata. */
  function Generate(ctx: RequestContext, templates: seq<Template>, rendered: string, language: string)
    : (res: Result<GeneratedRequest>)
    ensures res.Err? <==> Lookup(Registry, ResolveAgency(ctx.agency)).None?
    ensures res.Err? <==> ResolveAgency(ctx.agency) !in Keys
    ensures res.Ok? ==>
      var info := Lookup(Registry, ResolveAgency(ctx.agency)).value;
      var g := res.value;
      g.jurisdiction == "India" && g.deadlineDays == 30 && g.agency == info.fullName
      && g.text == Strip(rendered) && g.context == MergeTemplate(ctx, templates).0
    ensures res.Ok? ==>
      var key := ResolveAgency(ctx.agency);
      var info := Lookup(Registry, key).value;
      res.value.metadata == map["agency_key" := Str(key), "language" := Str(language), "parent_ministry" := Str(info.parentMinistry)]
  {
    var key := ResolveAgency(ctx.agency);
    KeysOfRegistry();
    match Lookup(Registry, key)
    case None => Err("Unknown agency '" + ctx.agency + "'. Known agencies: " + Join(Keys, ", "))
    case Some(info) =>
      Ok(GeneratedRequest(
        Strip(rendered), "India", info.fullName, LegalBasis, 30, FilingMethod,
        MergeTemplate(ctx, templates).0,
        map["agency_key" := Str(key), "language" := Str(language), "parent_ministry" := Str(info.parentMinistry)]))
  }

  /** An Indian application never carries an email address, so it cannot be sent by email; an error
      means the name came back unresolved. */
  lemma IndianRequestsHaveNoEmail(ctx: RequestContext, templates: seq<Template>, rendered: string, language: string)
    ensures Generate(ctx, templates, rendered, language).Ok? ==>
      "agency_email" !in Generate(ctx, templates, rendered, language).value.metadata
    ensures Generate(ctx, templates, rendered, language).Err? ==> ResolveAgency(ctx.agency) == ctx.agency
  {
  }
}

=== FILE: outcomes.dfy ===
/** Optional values and error-carrying results.

    `None` stands for Python's `None`; `Err(message)` stands for an exception the
    source raises (its message text), so that error paths are values of the model
    instead of preconditions.
 */
module Outcomes {

  datatype Option<+T> = None | Some(value: T) {

    /** The value, or `default` when there is none (Python's `x if x is not None else default`). */
    function GetOr(default: T): T {
      match this
      case Some(v) => v
      case None => default
    }
  }

  /** A value, or the message of the exception the source would raise instead. */
  datatype Result<+T> = Ok(value: T) | Err(message: string) {

    predicate IsFailure() {
      Err?
    }

    function PropagateFailure<U>(): Result<U>
      requires Err?
    {
      Err(message)
    }

    function Extract(): T
      requires Ok?
    {
      value
    }
  }
}

=== FILE: patterns.dfy ===
// Building blocks for the handful of regular expressions the response parser and the redaction
// rules use. Each expression is written as a matcher: a function from a start index to the end of
// the match there, if any, following the backtracking order of Python's `re` module. `FindAll`
// is `re.findall`'s left-to-right, non-overlapping scan and `Search` is `re.search`.
//
// Character classes follow Python on ASCII text: `\d` is 0-9, `\w` is letters, digits and `_`,
// `\s` is Python's whitespace set, and IGNORECASE folds ASCII letters.

module Patterns {
  import opened Outcomes
  import opened Text

  /** A matcher's answer at every index of `s`: if it matches at `i`, the match is non-empty and
      ends inside `s`. */
  ghost predicate WellFormed(s: string, m: nat -> Option<nat>) {
    forall i: nat :: m(i).Some? ==> i < m(i).value <= |s|
  }

  /** No match starts strictly inside another. For such matchers the left-to-right scan finds a
      match at every index where one exists. */
  ghost predicate NoStraddle(m: nat -> Option<nat>) {
    forall i: nat, j: nat :: i < j && m(i).Some? && j < m(i).value ==> m(j).None?
  }

  datatype Span = Span(start: nat, end: nat)

  /** `re.finditer` from index `from`: try each index in turn; after a match, resume at its end. */
  function FindAll(s: string, m: nat -> Option<nat>, from: nat): (spans: seq<Span>)
    requires WellFormed(s, m)
    ensures forall k :: 0 <= k < |spans| ==>
      from <= spans[k].start && m(spans[k].start) == Some(spans[k].end)
    ensures forall k :: 0 <= k < |spans| - 1 ==> spans[k].end <= spans[k + 1].start
    ensures spans == [] <==> forall i: nat :: from <= i ==> m(i).None?
    decreases |s| - from
  {
    if from >= |s| then
      assert forall i: nat :: from <= i ==> m(i).None?;
      []
    else
      match m(from)
      case Some(end) =>
        var rest := FindAll(s, m, end);
        [Span(from, end)] + rest
      case None =>
        FindAll(s, m, from + 1)
  }

  /** A matcher without straddling matches: the scan reports a match at every index that has one. */
  lemma {:induction false} FindAllComplete(s: string, m: nat -> Option<nat>, from: nat, j: nat)
    requires WellFormed(s, m) && NoStraddle(m)
    requires from <= j && m(j).Some?
    ensures Span(j, m(j).value) in FindAll(s, m, from)
    decreases |s| - from
  {
    if from < |s| {
      match m(from)
      case Some(end) =>
        if j != from {
          FindAllComplete(s, m, end, j);
        }
      case None =>
        FindAllComplete(s, m, from + 1, j);
    }
  }

  /** `re.search` from index `from`: the leftmost index where the matcher succeeds. */
  function Search(s: string, m: nat -> Option<nat>, from: nat): (r: Option<Span>)
    requires WellFormed(s, m)
    ensures r.Some? ==> from <= r.value.start && m(r.value.start) == Some(r.value.end)
    ensures forall i: nat :: from <= i && (r.None? || i < r.value.start) ==> m(i).None?
    decreases |s| - from
  {
    if from >= |s| then None
    else if m(from).Some? then Some(Span(from, m(from).value))
    else Search(s, m, from + 1)
  }

  /** The matched text of each span. */
  function Texts(s: string, spans: seq<Span>): (ts: seq<string>)
    requires forall k :: 0 <= k < |spans| ==> spans[k].start <= spans[k].end <= |s|
    ensures |ts| == |spans|
    ensures forall k :: 0 <= k < |ts| ==> ts[k] == s[spans[k].start..spans[k].end]
  {
    if spans == [] then [] else [s[spans[0].start..spans[0].end]] + Texts(s, spans[1..])
  }

  /** Where a pattern's capture group sits in the match at each index where it matches. */
  ghost predicate CapturesWithin(s: string, m: nat -> Option<nat>, cap: nat -> Span) {
    forall i: nat :: m(i).Some? ==> cap(i).start <= cap(i).end <= |s|
  }

  /** The entries `ts` hold the text of every match, when matches cannot straddle. */
  ghost predicate TextsComplete(s: string, m: nat -> Option<nat>, ts: seq<string>) {
    WellFormed(s, m)
    && (NoStraddle(m) ==> forall i: nat :: m(i).Some? ==> s[i..m(i).value] in ts)
  }

  /** `re.findall` of a pattern without groups: the text of each match of the scan, in order. For a
      matcher without straddling matches, every match is an entry; `FindAllTextsSound` gives the
      converse. The two directions are kept apart so that no proof sees both at once. */
  function FindAllTexts(s: string, m: nat -> Option<nat>): (ts: seq<string>)
    requires WellFormed(s, m)
    ensures TextsComplete(s, m, ts)
  {
    var spans := FindAll(s, m, 0);
    var ts := Texts(s, spans);
    FindAllTextsComplete(s, m, spans, ts);
    ts
  }

  lemma FindAllTextsComplete(s: string, m: nat -> Option<nat>, spans: seq<Span>, ts: seq<string>)
    requires WellFormed(s, m) && spans == FindAll(s, m, 0) && ts == Texts(s, spans)
    ensures TextsComplete(s, m, ts)
  {
    if NoStraddle(m) {
      forall i: nat | m(i).Some?
        ensures s[i..m(i).value] in ts
      {
        FindAllComplete(s, m, 0, i);
        var k :| 0 <= k < |spans| && spans[k] == Span(i, m(i).value);
        assert ts[k] == s[i..m(i).value];
      }
    }
  }

  /** Every entry of `re.findall` is the text of a match. */
  lemma FindAllTextsSound(s: string, m: nat -> Option<nat>, k: nat)
    requires WellFormed(s, m) && k < |FindAllTexts(s, m)|
    ensures exists i: nat :: m(i).Some? && FindAllTexts(s, m)[k] == s[i..m(i).value]
  {
    var spans := FindAll(s, m, 0);
    assert FindAllTexts(s, m) == Texts(s, spans);
    var i := spans[k].start;
    assert m(i).Some? && FindAllTexts(s, m)[k] == s[i..m(i).value];
  }

  /** The captured text of each span's match. */
  function Groups(s: string, spans: seq<Span>, cap: nat -> Span): (gs: seq<string>)
    requires forall k :: 0 <= k < |spans| ==> cap(spans[k].start).start <= cap(spans[k].start).end <= |s|
    ensures |gs| == |spans|
    ensures forall k :: 0 <= k < |gs| ==> gs[k] == s[cap(spans[k].start).start..cap(spans[k].start).end]
  {
    if spans == [] then []
    else [s[cap(spans[0].start).start..cap(spans[0].start).end]] + Groups(s, spans[1..], cap)
  }

  /** The entries `gs` hold the group of every match, when matches cannot straddle. */
  ghost predicate GroupsComplete(s: string, m: nat -> Option<nat>, cap: nat -> Span, gs: seq<string>) {
    CapturesWithin(s, m, cap)
    && (NoStraddle(m) ==> forall i: nat :: m(i).Some? ==> s[cap(i).start..cap(i).end] in gs)
  }

  /** `re.findall` of a pattern with one group: the group's text in each match of the scan, in
      order. For a matcher without straddling matches, every match contributes its group;
      `FindAllGroupsSound` gives the converse. */
  function FindAllGroups(s: string, m: nat -> Option<nat>, cap: nat -> Span): (gs: seq<string>)
    requires WellFormed(s, m) && CapturesWithin(s, m, cap)
    ensures GroupsComplete(s, m, cap, gs)
  {
    var spans := FindAll(s, m, 0);
    var gs := Groups(s, spans, cap);
    FindAllGroupsComplete(s, m, cap, spans, gs);
    gs
  }

  lemma FindAllGroupsComplete(s: string, m: nat -> Option<nat>, cap: nat -> Span, spans: seq<Span>, gs: seq<string>)
    requires WellFormed(s, m) && CapturesWithin(s, m, cap)
    requires spans == FindAll(s, m, 0) && gs == Groups(s, spans, cap)
    ensures GroupsComplete(s, m, cap, gs)
  {
    if NoStraddle(m) {
      forall i: nat | m(i).Some?
        ensures s[cap(i).start..cap(i).end] in gs
      {
        FindAllComplete(s, m, 0, i);
        var k :| 0 <= k < |spans| && spans[k] == Span(i, m(i).value);
        assert gs[k] == s[cap(i).start..cap(i).end];
      }
    }
  }

  /** Every entry of `re.findall` is the group of a match. */
  lemma FindAllGroupsSound(s: string, m: nat -> Option<nat>, cap: nat -> Span, k: nat)
    requires WellFormed(s, m) && CapturesWithin(s, m, cap) && k < |FindAllGroups(s, m, cap)|
    ensures exists i: nat :: m(i).Some? && FindAllGroups(s, m, cap)[k] == s[cap(i).start..cap(i).end]
  {
    var spans := FindAll(s, m, 0);
    assert FindAllGroups(s, m, cap) == Groups(s, spans, cap);
    var i := spans[k].start;
    assert m(i).Some? && FindAllGroups(s, m, cap)[k] == s[cap(i).start..cap(i).end];
  }

  /** `re.findall` finds nothing exactly when the pattern matches nowhere. */
  lemma FindAllGroupsEmpty(s: string, m: nat -> Option<nat>, cap: nat -> Span)
    requires WellFormed(s, m) && CapturesWithin(s, m, cap)
    ensures FindAllGroups(s, m, cap) == [] <==> forall i: nat :: m(i).None?
  {
    assert |FindAllGroups(s, m, cap)| == |FindAll(s, m, 0)|;
  }

  /** The characters of a literal match. */
  lemma LitChars(s: string, i: nat, w: string)
    requires LitAt(s, i, w)
    ensures forall k :: 0 <= k < |w| ==> s[i + k] == w[k]
  {
    forall k | 0 <= k < |w|
      ensures s[i + k] == w[k]
    {
      assert s[i..i + |w|][k] == s[i + k];
    }
  }

  // ---------------------------------------------------------------- character runs

  /** The end of the run of characters satisfying `p` that starts at `i` (`i` itself if none). */
  function RunEnd(s: string, i: nat, p: char -> bool): (j: nat)
    ensures i <= |s| ==> i <= j <= |s|
    ensures i > |s| ==> j == i
    ensures forall k :: i <= k < j ==> p(s[k])
    ensures j < |s| ==> !p(s[j])
    decreases |s| - i
  {
    if i < |s| && p(s[i]) then RunEnd(s, i + 1, p) else i
  }

  function SpaceEnd(s: string, i: nat): (j: nat)
    ensures i <= |s| ==> i <= j <= |s|
    ensures i > |s| ==> j == i
    ensures forall k :: i <= k < j ==> IsSpace(s[k])
    ensures j < |s| ==> !IsSpace(s[j])
  {
    RunEnd(s, i, IsSpace)
  }

  function DigitEnd(s: string, i: nat): (j: nat)
    ensures i <= |s| ==> i <= j <= |s|
    ensures i > |s| ==> j == i
    ensures forall k :: i <= k < j ==> IsDigit(s[k])
    ensures j < |s| ==> !IsDigit(s[j])
  {
    RunEnd(s, i, IsDigit)
  }

  function WordEnd(s: string, i: nat): (j: nat)
    ensures i <= |s| ==> i <= j <= |s|
    ensures i > |s| ==> j == i
    ensures forall k :: i <= k < j ==> IsWordChar(s[k])
    ensures j < |s| ==> !IsWordChar(s[j])
  {
    RunEnd(s, i, IsWordChar)
  }

  /** The literal `w` occurs at `i`, compared exactly. */
  predicate LitAt(s: string, i: nat, w: string) {
    i + |w| <= |s| && s[i..i + |w|] == w
  }

  /** The lower-case literal `w` occurs at `i` under IGNORECASE. */
  predicate FoldAt(s: string, i: nat, w: string) {
    i + |w| <= |s| && forall k :: 0 <= k < |w| ==> LowerChar(s[i + k]) == w[k]
  }

  /** The character at `i` satisfies `p`. */
  predicate CharAt(s: string, i: nat, p: char -> bool) {
    i < |s| && p(s[i])
  }

  /** One character of a literal match. */
  lemma LitChar(s: string, i: nat, w: string, k: nat)
    requires LitAt(s, i, w) && k < |w|
    ensures s[i + k] == w[k]
  {
    assert s[i..i + |w|][k] == s[i + k];
  }

  /** One character of a case-folded literal match. */
  lemma FoldChar(s: string, i: nat, w: string, k: nat)
    requires FoldAt(s, i, w) && k < |w|
    ensures LowerChar(s[i + k]) == w[k]
  {
  }

  /** A character that folds to a lower-case letter is a letter. */
  lemma FoldLetter(s: string, i: nat, w: string, k: nat)
    requires FoldAt(s, i, w) && k < |w| && IsLowerAscii(w[k])
    ensures IsUpperAscii(s[i + k]) || IsLowerAscii(s[i + k])
  {
  }

  /** The first of `words` that occurs at `i` under IGNORECASE, as an alternation tries them. */
  function FirstFoldAt(s: string, i: nat, words: seq<string>): (r: Option<nat>)
    ensures r.Some? ==> r.value < |words| && FoldAt(s, i, words[r.value])
    ensures r.Some? ==> forall k :: 0 <= k < r.value ==> !FoldAt(s, i, words[k])
    ensures r.None? ==> forall k :: 0 <= k < |words| ==> !FoldAt(s, i, words[k])
  {
    if words == [] then None
    else if FoldAt(s, i, words[0]) then Some(0)
    else match FirstFoldAt(s, i, words[1..])
      case None => None
      case Some(k) => Some(k + 1)
  }

  /** `\d{lo,hi}` at `i` followed by something that is not a digit: greedy repetition takes
      `min(hi, run)` digits, and a shorter take would leave a digit where the rest of the pattern
      needs a non-digit, so the match exists only when the whole run fits. */
  function DigitsBounded(s: string, i: nat, lo: nat, hi: nat): (r: Option<nat>)
    ensures r.Some? ==> i + lo <= r.value <= i + hi && r.value == DigitEnd(s, i) && i <= |s|
  {
    if i > |s| then None
    else
      var j := DigitEnd(s, i);
      if lo <= j - i <= hi then Some(j) else None
  }

  /** An alternation `(?:w0|w1|...)` under IGNORECASE followed by the rest of a pattern: the index
      of the first word that occurs at `i` and after which the rest matches. A later word is tried
      only when an earlier one fails, here or further on, as backtracking does. */
  function AltThen(s: string, i: nat, words: seq<string>, rest: nat -> Option<nat>): (r: Option<nat>)
    ensures r.Some? ==> r.value < |words| && FoldAt(s, i, words[r.value]) && rest(i + |words[r.value]|).Some?
    ensures forall k :: 0 <= k < |words| && (r.None? || k < r.value) ==>
      !(FoldAt(s, i, words[k]) && rest(i + |words[k]|).Some?)
  {
    if words == [] then None
    else if FoldAt(s, i, words[0]) && rest(i + |words[0]|).Some? then Some(0)
    else match AltThen(s, i, words[1..], rest)
      case None => None
      case Some(k) => Some(k + 1)
  }

  /** `\d{lo,hi}` at `i` with nothing after it in the pattern: greedy repetition takes the first
      `hi` digits of the run, and fails when the run is shorter than `lo`. */
  function DigitsGreedy(s: string, i: nat, lo: nat, hi: nat): (r: Option<nat>)
    requires lo <= hi
    ensures r.Some? <==> i <= |s| && DigitEnd(s, i) - i >= lo
    ensures r.Some? ==> i + lo <= r.value <= i + hi && r.value <= DigitEnd(s, i)
    ensures r.Some? && r.value < i + hi ==> r.value == DigitEnd(s, i)
  {
    if i > |s| then None
    else
      var j := DigitEnd(s, i);
      if j - i < lo then None else if j - i <= hi then Some(j) else Some(i + hi)
  }
}

=== FILE: redaction_detector.dfy ===
/** The redaction and exemption-abuse detector: rule-based flags over a parsed agency response, a capped
    additive risk score and the appeal recommendation derived from it.

    The score is kept in integer tenths (the source's 0.4 / 0.2 / 0.1 weights become 4 / 2 / 1 and the cap
    1.0 becomes 10), and the withholding ratios are compared by cross-multiplication. That agrees with the
    source's floating-point `withheld / total` against 0.8 and 0.5 for every total below 2 * 10^15 pages;
    beyond that a ratio just above 4/5 can round down to 0.8, where the source raises the medium flag.
 */
module RedactionDetector {
  import opened Outcomes
  import opened Text
  import opened ResponseParser

  datatype Severity = High | Medium | Low | OtherSeverity(name: string)

  /** A flag as the rules raise it; the free-text description and recommendation are not modelled. */
  datatype Flag = Flag(severity: Severity, category: string, exemption: Option<string>)

  /** A report: its flags in the order they were added, the score in tenths, the summary line and
      whether an appeal is recommended. */
  datatype Report = Report(flags: seq<Flag>, score: nat, summary: string, appealRecommended: bool)

  const EmptyReport := Report([], 0, "", false)

  /** Score weight in tenths; a severity outside high/medium/low weighs as much as a low one. */
  function Weight(s: Severity): (w: nat)
    ensures 1 <= w <= 4
    ensures w == 1 <==> !s.High? && !s.Medium?
  {
    match s
    case High => 4
    case Medium => 2
    case Low => 1
    case OtherSeverity(_) => 1
  }

  /** The uncapped sum of the weights. */
  function Total(flags: seq<Flag>): nat {
    if flags == [] then 0 else Total(flags[..|flags| - 1]) + Weight(flags[|flags| - 1].severity)
  }

  function Min(a: nat, b: nat): nat { if a <= b then a else b }

  /** The score recomputed from scratch. With no flags it is 0 and the recommendation is left as it was. */
  function Recalculate(report: Report): (r: Report)
    ensures r.flags == report.flags && r.summary == report.summary
    ensures r.score <= 10
    ensures r.flags != [] ==> r.score >= 1 && (r.appealRecommended <==> r.score >= 3)
    ensures r.flags == [] ==> r.score == 0 && r.appealRecommended == report.appealRecommended
  {
    if report.flags == [] then report.(score := 0)
    else
      var score := Min(10, Total(report.flags));
      report.(score := score, appealRecommended := score >= 3)
  }

  /** Append a flag and recompute the score and the recommendation. */
  function AddFlag(report: Report, flag: Flag): (r: Report)
    ensures r.flags == report.flags + [flag] && r.summary == report.summary
    ensures 1 <= r.score <= 10
    ensures r.appealRecommended <==> r.score >= 3
  {
    Recalculate(report.(flags := report.flags + [flag]))
  }

  /** The report invariant: the score is the capped total of the flags, and an appeal is recommended
      exactly when the score reaches 0.3. */
  predicate Consistent(report: Report) {
    report.score == Min(10, Total(report.flags))
    && (report.appealRecommended <==> report.score >= 3)
  }

  /** Adding to a consistent report equals adding the flag's weight to the old score and capping again:
      the from-scratch recomputation and the incremental update agree. */
  lemma AddFlagIncremental(report: Report, flag: Flag)
    requires Consistent(report)
    ensures Consistent(AddFlag(report, flag))
    ensures AddFlag(report, flag).score == Min(10, report.score + Weight(flag.severity))
  {
    var flags := report.flags + [flag];
    assert flags[..|flags| - 1] == report.flags;
  }

  /** The score never decreases as flags are added, and once recommended an appeal stays recommended. */
  lemma AddFlagMonotone(report: Report, flag: Flag)
    requires Consistent(report)
    ensures AddFlag(report, flag).score >= report.score
    ensures report.appealRecommended ==> AddFlag(report, flag).appealRecommended
  {
    AddFlagIncremental(report, flag);
  }

  /** `add_flag` applied to each flag in turn. */
  function AddAll(report: Report, flags: seq<Flag>): (r: Report)
    ensures r.flags == report.flags + flags && r.summary == report.summary
    decreases |flags|
  {
    if flags == [] then report
    else
      var r := AddAll(AddFlag(report, flags[0]), flags[1..]);
      assert report.flags + [flags[0]] + flags[1..] == report.flags + flags;
      r
  }

  /** Adding flags one by one to a consistent report keeps it consistent, and the score never drops. */
  lemma {:induction false} AddAllConsistent(report: Report, flags: seq<Flag>)
    requires Consistent(report)
    ensures Consistent(AddAll(report, flags))
    ensures AddAll(report, flags).score >= report.score
    decreases |flags|
  {
    if flags != [] {
      AddFlagIncremental(report, flags[0]);
      AddAllConsistent(AddFlag(report, flags[0]), flags[1..]);
    }
  }

  /** Starting from an empty report, the flags yield a score within [0, 1] that is the capped sum of their
      weights, and an appeal is recommended exactly when that score is at least 0.3; no flags means a zero
      score and no recommendation. */
  lemma FromEmpty(flags: seq<Flag>)
    ensures var r := AddAll(EmptyReport, flags);
      r.flags == flags
      && r.score == Min(10, Total(flags)) && r.score <= 10
      && (r.appealRecommended <==> r.score >= 3)
      && (flags == [] ==> r.score == 0 && !r.appealRecommended)
  {
    AddAllConsistent(EmptyReport, flags);
  }

  // ---- Rules ----

  /** The rules of one jurisdiction, by how they look at the response. */
  function Excessive(p: ParsedResponse): (fs: seq<Flag>)
    ensures Graded(fs)
    ensures |fs| <= 1
    ensures fs == [] <==> p.pagesWithheldFull <= p.pagesReleased
    ensures fs != [] ==> fs[0].exemption.None?
    ensures fs != [] ==> (fs[0].severity == High <==> p.pagesWithheldFull > 4 * p.pagesReleased)
    ensures fs != [] ==> (fs[0].severity == Medium <==> p.pagesWithheldFull <= 4 * p.pagesReleased)
  {
    var total := p.pagesReleased + p.pagesWithheldFull;
    if total == 0 then []
    // withheld / total > 0.8
    else if 5 * p.pagesWithheldFull > 4 * total then [Flag(High, "Excessive Withholding", None)]
    // withheld / total > 0.5
    else if 2 * p.pagesWithheldFull > total then [Flag(Medium, "High Withholding Rate", None)]
    else []
  }

  /** Withholding more pages of the same release never lowers the excessive-withholding weight. */
  lemma ExcessiveMonotone(p: ParsedResponse, more: nat)
    requires more >= p.pagesWithheldFull
    ensures Total(Excessive(p)) <= Total(Excessive(p.(pagesWithheldFull := more)))
  {
    var q := p.(pagesWithheldFull := more);
    assert Excessive(p) == [] || Excessive(q) != [];
    if Excessive(p) != [] {
      assert Total(Excessive(p)) == Weight(Excessive(p)[0].severity) by {
        assert Excessive(p)[..0] == [];
      }
      assert Total(Excessive(q)) == Weight(Excessive(q)[0].severity) by {
        assert Excessive(q)[..0] == [];
      }
    }
  }

  function MultipleExemptions(p: ParsedResponse): (fs: seq<Flag>)
    ensures Graded(fs)
    ensures fs == [] <==> |p.exemptions| < 4
    ensures fs != [] ==> fs == [Flag(Medium, "Multiple Exemptions", None)]
  {
    if |p.exemptions| >= 4 then [Flag(Medium, "Multiple Exemptions", None)] else []
  }

  function BlanketDenial(p: ParsedResponse): (fs: seq<Flag>)
    ensures Graded(fs)
    ensures fs == [] <==> !(p.determination == Denial && p.pagesReleased == 0)
    ensures fs != [] ==> fs == [Flag(High, "Blanket Denial", None)]
  {
    if p.determination == Denial && p.pagesReleased == 0 then [Flag(High, "Blanket Denial", None)] else []
  }

  function Segregability(p: ParsedResponse): (fs: seq<Flag>)
    ensures Graded(fs)
    ensures fs == [] <==> !(p.pagesWithheldFull > 0 && p.pagesWithheldPartial == 0)
    ensures fs != [] ==> fs == [Flag(Medium, "No Partial Releases", None)]
  {
    if p.pagesWithheldFull > 0 && p.pagesWithheldPartial == 0 then [Flag(Medium, "No Partial Releases", None)]
    else []
  }

  /** The exemptions a numbered US rule looks at: those containing `(b)` followed by the cited number,
      or the cited number alone. */
  function Cited(exemptions: seq<string>, cited: string): seq<string> {
    if exemptions == [] then []
    else
      var e := exemptions[0];
      (if Contains(e, "(b)" + cited) || Contains(e, cited) then [e] else []) + Cited(exemptions[1..], cited)
  }

  /** The `(b)` test is subsumed: an exemption is looked at exactly when it contains the cited number. */
  lemma {:induction false} CitedContains(exemptions: seq<string>, cited: string)
    ensures Cited(exemptions, cited) == [] <==> forall i :: 0 <= i < |exemptions| ==> !Contains(exemptions[i], cited)
    decreases |exemptions|
  {
    if exemptions != [] {
      var e := exemptions[0];
      if Contains(e, "(b)" + cited) {
        ContainsTail(e, "(b)" + cited, 3);
        assert ("(b)" + cited)[3..] == cited;
      }
      CitedContains(exemptions[1..], cited);
      assert forall i :: 1 <= i < |exemptions| ==> exemptions[i] == exemptions[1..][i - 1];
    }
  }

  /** The flag of a numbered US rule: raised once when any exemption is cited, however many are. */
  function NumberedRule(p: ParsedResponse, cited: string, severity: Severity, category: string): (fs: seq<Flag>)
    ensures |fs| <= 1
    ensures fs != [] <==> exists i :: 0 <= i < |p.exemptions| && Contains(p.exemptions[i], cited)
    ensures fs != [] ==> fs == [Flag(severity, category, Some("(b)" + cited))]
  {
    CitedContains(p.exemptions, cited);
    if Cited(p.exemptions, cited) != [] then [Flag(severity, category, Some("(b)" + cited))] else []
  }

  function B4Overuse(p: ParsedResponse): (fs: seq<Flag>)
    ensures Graded(fs)
    ensures |fs| <= 1
    ensures fs != [] <==> exists i :: 0 <= i < |p.exemptions| && Contains(p.exemptions[i], "(4)")
    ensures fs != [] ==> fs[0].severity == Low && fs[0].exemption == Some("(b)(4)")
  {
    assert "(b)" + "(4)" == "(b)(4)";
    NumberedRule(p, "(4)", Low, "Exemption 4 \U{2014} Trade Secrets")
  }

  function B5Overuse(p: ParsedResponse): (fs: seq<Flag>)
    ensures Graded(fs)
    ensures |fs| <= 1
    ensures fs != [] <==> exists i :: 0 <= i < |p.exemptions| && Contains(p.exemptions[i], "(5)")
    ensures fs != [] ==> fs[0].severity == Medium && fs[0].exemption == Some("(b)(5)")
  {
    assert "(b)" + "(5)" == "(b)(5)";
    NumberedRule(p, "(5)", Medium, "Exemption 5 \U{2014} Deliberative Process")
  }

  function B7Misapplication(p: ParsedResponse): (fs: seq<Flag>)
    ensures Graded(fs)
    ensures |fs| <= 1
    ensures fs != [] <==> exists i :: 0 <= i < |p.exemptions| && Contains(p.exemptions[i], "(7)")
    ensures fs != [] ==> fs[0].severity == Medium && fs[0].exemption == Some("(b)(7)")
  {
    assert "(b)" + "(7)" == "(b)(7)";
    NumberedRule(p, "(7)", Medium, "Exemption 7 \U{2014} Law Enforcement")
  }

  function NoVaughnIndex(p: ParsedResponse): (fs: seq<Flag>)
    ensures Graded(fs)
    ensures fs == [] <==> !(p.pagesWithheldFull > 10 && p.determination in {Denial, PartialGrant}
                            && !Contains(Lower(p.rawText), "vaughn"))
    ensures fs != [] ==> fs == [Flag(Low, "No Vaughn Index", None)]
  {
    if p.pagesWithheldFull > 10 && (p.determination == Denial || p.determination == PartialGrant)
       && !Contains(Lower(p.rawText), "vaughn")
    then [Flag(Low, "No Vaughn Index", None)]
    else []
  }

  /** The eight US rules, in the order the detector runs them. */
  function USFlags(p: ParsedResponse): (fs: seq<Flag>)
    ensures |fs| <= 8
  {
    Excessive(p) + MultipleExemptions(p) + BlanketDenial(p) + Segregability(p)
    + B4Overuse(p) + B5Overuse(p) + B7Misapplication(p) + NoVaughnIndex(p)
  }

  /** The UK rules, run per exemption: section 43 (commercial interests), then sections 35/36 (policy). */
  function UKExemptionFlags(exemptions: seq<string>): (fs: seq<Flag>)
    ensures forall i :: 0 <= i < |fs| ==> fs[i].severity == Medium
    ensures forall i :: 0 <= i < |fs| ==> fs[i].exemption.Some? && fs[i].exemption.value in exemptions
    ensures |fs| <= 2 * |exemptions|
  {
    if exemptions == [] then []
    else
      var e := exemptions[0];
      var here :=
        (if Contains(e, "43") then [Flag(Medium, "Section 43 \U{2014} Commercial Interests", Some(e))] else [])
        + (if Contains(e, "35") || Contains(e, "36") then [Flag(Medium, "Policy Formulation Exemption", Some(e))]
           else []);
      var rest := UKExemptionFlags(exemptions[1..]);
      assert forall i :: 0 <= i < |rest| ==> rest[i].exemption.value in exemptions by {
        assert forall x :: x in exemptions[1..] ==> x in exemptions;
      }
      here + rest
  }

  /** The India rules, run per exemption: section 8(1)(d) (commercial confidence), then 8(1)(j) (personal
      information). */
  function IndiaExemptionFlags(exemptions: seq<string>): (fs: seq<Flag>)
    ensures forall i :: 0 <= i < |fs| ==> fs[i].severity == Medium || fs[i].severity == Low
    ensures forall i :: 0 <= i < |fs| ==> fs[i].exemption.Some? && fs[i].exemption.value in exemptions
    ensures |fs| <= 2 * |exemptions|
  {
    if exemptions == [] then []
    else
      var e := exemptions[0];
      var here :=
        (if Contains(e, "8(1)(d)") then [Flag(Medium, "Section 8(1)(d) \U{2014} Commercial Confidence", Some(e))]
         else [])
        + (if Contains(e, "8(1)(j)") then [Flag(Low, "Section 8(1)(j) \U{2014} Personal Information", Some(e))]
           else []);
      var rest := IndiaExemptionFlags(exemptions[1..]);
      assert forall i :: 0 <= i < |rest| ==> rest[i].exemption.value in exemptions by {
        assert forall x :: x in exemptions[1..] ==> x in exemptions;
      }
      here + rest
  }

  /** How many exemptions pass a substring test. */
  function CountContaining(exemptions: seq<string>, subs: seq<string>): nat {
    if exemptions == [] then 0
    else (if exists k :: 0 <= k < |subs| && Contains(exemptions[0], subs[k]) then 1 else 0)
         + CountContaining(exemptions[1..], subs)
  }

  /** The UK rules raise one flag per exemption mentioning 43 and one per exemption mentioning 35 or 36. */
  lemma {:induction false} UKFlagCount(exemptions: seq<string>)
    ensures |UKExemptionFlags(exemptions)| == CountContaining(exemptions, ["43"]) + CountContaining(exemptions, ["35", "36"])
    decreases |exemptions|
  {
    if exemptions != [] {
      var e := exemptions[0];
      assert (exists k :: 0 <= k < |["43"]| && Contains(e, ["43"][k])) <==> Contains(e, "43") by {
        if Contains(e, "43") { assert Contains(e, ["43"][0]); }
      }
      assert (exists k :: 0 <= k < |["35", "36"]| && Contains(e, ["35", "36"][k])) <==> Contains(e, "35") || Contains(e, "36") by {
        if Contains(e, "35") { assert Contains(e, ["35", "36"][0]); }
        if Contains(e, "36") { assert Contains(e, ["35", "36"][1]); }
      }
      UKFlagCount(exemptions[1..]);
    }
  }

  /** The India rules raise one flag per exemption mentioning 8(1)(d) and one per exemption mentioning 8(1)(j). */
  lemma {:induction false} IndiaFlagCount(exemptions: seq<string>)
    ensures |IndiaExemptionFlags(exemptions)| == CountContaining(exemptions, ["8(1)(d)"]) + CountContaining(exemptions, ["8(1)(j)"])
    decreases |exemptions|
  {
    if exemptions != [] {
      var e := exemptions[0];
      assert (exists k :: 0 <= k < |["8(1)(d)"]| && Contains(e, ["8(1)(d)"][k])) <==> Contains(e, "8(1)(d)") by {
        if Contains(e, "8(1)(d)") { assert Contains(e, ["8(1)(d)"][0]); }
      }
      assert (exists k :: 0 <= k < |["8(1)(j)"]| && Contains(e, ["8(1)(j)"][k])) <==> Contains(e, "8(1)(j)") by {
        if Contains(e, "8(1)(j)") { assert Contains(e, ["8(1)(j)"][0]); }
      }
      IndiaFlagCount(exemptions[1..]);
    }
  }

  predicate IsUS(jurisdiction: string) {
    jurisdiction == "US-Federal" || StartsWith(jurisdiction, "US-State")
  }

  /** The flags of a jurisdiction, in the order the detector adds them. */
  function FlagsFor(p: ParsedResponse, jurisdiction: string): seq<Flag> {
    if IsUS(jurisdiction) then USFlags(p)
    else if jurisdiction == "UK" then Excessive(p) + UKExemptionFlags(p.exemptions)
    else if jurisdiction == "India" then Excessive(p) + IndiaExemptionFlags(p.exemptions)
    else []
  }

  predicate Graded(flags: seq<Flag>) {
    forall i :: 0 <= i < |flags| ==> flags[i].severity in {High, Medium, Low}
  }

  lemma GradedAppend(a: seq<Flag>, b: seq<Flag>)
    requires Graded(a) && Graded(b)
    ensures Graded(a + b)
  {
    assert forall i :: |a| <= i < |a + b| ==> (a + b)[i] == b[i - |a|];
  }

  lemma USGraded(p: ParsedResponse)
    ensures Graded(USFlags(p))
  {
    var fs := Excessive(p);
    GradedAppend(fs, MultipleExemptions(p));
    fs := fs + MultipleExemptions(p);
    GradedAppend(fs, BlanketDenial(p));
    fs := fs + BlanketDenial(p);
    GradedAppend(fs, Segregability(p));
    fs := fs + Segregability(p);
    GradedAppend(fs, B4Overuse(p));
    fs := fs + B4Overuse(p);
    GradedAppend(fs, B5Overuse(p));
    fs := fs + B5Overuse(p);
    GradedAppend(fs, B7Misapplication(p));
    fs := fs + B7Misapplication(p);
    GradedAppend(fs, NoVaughnIndex(p));
  }

  /** Every rule grades its flag high, medium or low. */
  lemma FlagsGraded(p: ParsedResponse, jurisdiction: string)
    ensures Graded(FlagsFor(p, jurisdiction))
  {
    if IsUS(jurisdiction) {
      USGraded(p);
    } else if jurisdiction == "UK" {
      GradedAppend(Excessive(p), UKExemptionFlags(p.exemptions));
    } else if jurisdiction == "India" {
      GradedAppend(Excessive(p), IndiaExemptionFlags(p.exemptions));
    }
  }

  // ---- Summary ----

  /** The summary of a report without flags (written in two pieces so that its first letter is visible to
      the verifier). */
  const NoPatterns := "No " + "suspicious patterns detected in the agency response."

  function CountSeverity(flags: seq<Flag>, s: Severity): (n: nat)
    ensures n <= |flags|
  {
    if flags == [] then 0
    else (if flags[|flags| - 1].severity == s then 1 else 0) + CountSeverity(flags[..|flags| - 1], s)
  }

  /** The summary's counts add up: every flag is counted once by severity, and the uncapped score is their
      weighted sum. */
  lemma {:induction false} CountsAddUp(flags: seq<Flag>)
    requires Graded(flags)
    ensures CountSeverity(flags, High) + CountSeverity(flags, Medium) + CountSeverity(flags, Low) == |flags|
    ensures 4 * CountSeverity(flags, High) + 2 * CountSeverity(flags, Medium) + CountSeverity(flags, Low) == Total(flags)
    decreases |flags|
  {
    if flags != [] {
      CountsAddUp(flags[..|flags| - 1]);
    }
  }

  /** The "N high-severity", "N medium-severity", "N low-severity" parts, in that order, for non-zero counts. */
  function SeverityParts(flags: seq<Flag>): (parts: seq<string>) {
    var high, medium, low := CountSeverity(flags, High), CountSeverity(flags, Medium), CountSeverity(flags, Low);
    (if high > 0 then [NatToString(high) + " high-severity"] else [])
    + (if medium > 0 then [NatToString(medium) + " medium-severity"] else [])
    + (if low > 0 then [NatToString(low) + " low-severity"] else [])
  }

  /** The summary line. The percentage is the score in tenths times ten, which is what formatting the
      floating-point score with no decimals prints. */
  function Summary(report: Report): (s: string)
    ensures s == NoPatterns <==> report.flags == []
    ensures report.flags != [] ==> StartsWith(s, "Detected ")
    ensures report.flags != [] ==> EndsWith(s, if report.appealRecommended then "Appeal recommended." else "Monitor closely.")
  {
    if report.flags == [] then NoPatterns
    else
      var tail := if report.appealRecommended then "Appeal recommended." else "Monitor closely.";
      var s := "Detected " + (Join(SeverityParts(report.flags), ", ") + " issue(s). "
               + "Overall risk score: " + NatToString(report.score * 10) + "%. " + tail);
      assert s[0] == 'D';
      assert NoPatterns[0] == 'N';
      assert StartsWith(s, "Detected ") by { assert s[..9] == "Detected "; }
      assert s[|s| - |tail|..] == tail;
      s
  }

  // ---- Analysis ----

  /** Run the jurisdiction's rules on an empty report, then write the summary. */
  function Analyze(p: ParsedResponse, jurisdiction: string): (r: Report)
    ensures r.flags == FlagsFor(p, jurisdiction)
    ensures r.score == Min(10, Total(r.flags)) && r.score <= 10
    ensures r.appealRecommended <==> r.score >= 3
    ensures r.summary == NoPatterns <==> r.flags == []
    ensures Graded(r.flags)
    ensures IsUS(jurisdiction) ==> |r.flags| <= 8
  {
    var flags := FlagsFor(p, jurisdiction);
    var report := AddAll(EmptyReport, flags);
    FromEmpty(flags);
    FlagsGraded(p, jurisdiction);
    report.(summary := Summary(report))
  }

  /** UK and India reports start with at most one excessive-withholding flag, followed by exactly one flag
      per exemption and matching rule. */
  lemma PerExemptionCounts(p: ParsedResponse)
    ensures |Analyze(p, "UK").flags| == |Excessive(p)| + CountContaining(p.exemptions, ["43"]) + CountContaining(p.exemptions, ["35", "36"])
    ensures |Analyze(p, "India").flags| == |Excessive(p)| + CountContaining(p.exemptions, ["8(1)(d)"]) + CountContaining(p.exemptions, ["8(1)(j)"])
  {
    assert !IsUS("UK") && !IsUS("India");
    UKFlagCount(p.exemptions);
    IndiaFlagCount(p.exemptions);
  }

  /** A jurisdiction other than US-Federal, `US-State*`, UK and India gets no flags, a zero score, no
      recommendation and the no-patterns summary. */
  lemma OtherJurisdictionClean(p: ParsedResponse, jurisdiction: string)
    requires !IsUS(jurisdiction) && jurisdiction != "UK" && jurisdiction != "India"
    ensures Analyze(p, jurisdiction) == Report([], 0, NoPatterns, false)
  {
  }
}

=== FILE: response_parser.dfy ===
// The response parser: what an agency's reply letter says, read off its text. The determination
// comes from an ordered keyword match, exemptions from jurisdiction-specific citation patterns,
// page counts from three counting patterns, and the tracking number and fee-waiver outcome from
// further patterns.

module ResponseParser {
  import opened Outcomes
  import opened Text
  import opened Patterns

  // ---------------------------------------------------------------- determination

  datatype Determination = FullGrant | PartialGrant | Denial | NoRecords | Unknown

  /** The determination strings of `ParsedResponse`. */
  function DeterminationValue(d: Determination): string {
    match d
    case FullGrant => "full_grant"
    case PartialGrant => "partial_grant"
    case Denial => "denial"
    case NoRecords => "no_records"
    case Unknown => "unknown"
  }

  const FullGrantPhrases: seq<string> :=
    ["full grant", "granted in full", "fully granted", "releasing all", "all responsive records"]
  const PartialGrantPhrases: seq<string> :=
    ["partial grant", "granted in part", "partially granted", "releasing portions", "partial release",
     "withheld in part", "redacted"]
  const DenialPhrases: seq<string> :=
    ["denied", "denial", "we are unable to", "cannot release", "refusing your request", "exempt from disclosure"]
  const NoRecordsPhrases: seq<string> :=
    ["no responsive records", "no records responsive", "no documents were located", "no records located",
     "no records found"]

  /** Some phrase of the list occurs in `s`. */
  predicate AnyIn(s: string, phrases: seq<string>) {
    exists k :: 0 <= k < |phrases| && Contains(s, phrases[k])
  }

  /** `_detect_determination`: the first category, in the order full grant, partial grant, denial,
      no records, with a phrase in the lower-cased text. */
  function DetectDetermination(text: string): (d: Determination)
    ensures var lower := Lower(text);
      (d == FullGrant <==> AnyIn(lower, FullGrantPhrases))
      && (d == PartialGrant <==> !AnyIn(lower, FullGrantPhrases) && AnyIn(lower, PartialGrantPhrases))
      && (d == Denial <==> !AnyIn(lower, FullGrantPhrases) && !AnyIn(lower, PartialGrantPhrases)
                           && AnyIn(lower, DenialPhrases))
      && (d == NoRecords <==> !AnyIn(lower, FullGrantPhrases) && !AnyIn(lower, PartialGrantPhrases)
                              && !AnyIn(lower, DenialPhrases) && AnyIn(lower, NoRecordsPhrases))
  {
    var lower := Lower(text);
    if AnyIn(lower, FullGrantPhrases) then FullGrant
    else if AnyIn(lower, PartialGrantPhrases) then PartialGrant
    else if AnyIn(lower, DenialPhrases) then Denial
    else if AnyIn(lower, NoRecordsPhrases) then NoRecords
    else Unknown
  }

  /** The determination ignores letter case: it reads the lower-cased text only. */
  lemma DeterminationIgnoresCase(text: string)
    ensures DetectDetermination(Lower(text)) == DetectDetermination(text)
  {
    LowerIdempotent(text);
  }

  /** A letter that says both "redacted" and "denied", with no full-grant phrase, is a partial grant:
      the partial-grant phrases are tried before the denial ones. */
  lemma RedactedBeatsDenied(text: string)
    requires Contains(Lower(text), "redacted") && Contains(Lower(text), "denied")
    requires !AnyIn(Lower(text), FullGrantPhrases)
    ensures DetectDetermination(text) == PartialGrant
  {
    assert PartialGrantPhrases[6] == "redacted";
  }

  // ---------------------------------------------------------------- United States citations

  predicate IsCapitalAF(c: char) { 'A' <= c <= 'F' }

  /** `[A-F]` under IGNORECASE. */
  predicate IsLetterAF(c: char) { 'A' <= c <= 'F' || 'a' <= c <= 'f' }

  predicate IsLetterAJ(c: char) { 'a' <= c <= 'j' }

  /** `\(b\)\(\d\)(?:\([A-F]\))?` at `i`: a citation such as `(b)(6)` or `(b)(7)(C)`; the optional
      suffix is taken whenever it is there. */
  function CitationAt(s: string, i: nat): (r: Option<nat>)
    ensures r.Some? ==> i < r.value <= |s|
  {
    if LitAt(s, i, "(b)(") && CharAt(s, i + 4, IsDigit) && LitAt(s, i + 5, ")") then
      if LitAt(s, i + 6, "(") && CharAt(s, i + 7, IsCapitalAF) && LitAt(s, i + 8, ")") then Some(i + 9)
      else Some(i + 6)
    else None
  }

  /** A citation starts with `(b`. */
  lemma CitationStart(s: string, j: nat)
    ensures CitationAt(s, j).Some? ==> j + 1 < |s| && s[j] == '(' && s[j + 1] == 'b'
  {
    if CitationAt(s, j).Some? {
      LitChar(s, j, "(b)(", 0);
      LitChar(s, j, "(b)(", 1);
    }
  }

  /** Inside a citation, every `(` is followed by a digit or a capital letter, never by `b`. */
  lemma CitationInside(s: string, i: nat, j: nat)
    requires CitationAt(s, i).Some? && i < j < CitationAt(s, i).value
    ensures !(j + 1 < |s| && s[j] == '(' && s[j + 1] == 'b')
  {
    var d := j - i;
    if d <= 3 {
      LitChar(s, i, "(b)(", d);
      if d == 3 {
        assert IsDigit(s[i + 4]);
      }
    } else if d == 4 {
      assert IsDigit(s[j]);
    } else if d == 5 {
      LitChar(s, i + 5, ")", 0);
    } else if d == 6 {
      assert IsCapitalAF(s[i + 7]);
    } else if d == 7 {
      assert IsCapitalAF(s[j]);
    } else {
      LitChar(s, i + 8, ")", 0);
    }
  }

  /** A citation cannot start inside another. */
  lemma CitationNoStraddle(s: string)
    ensures NoStraddle(CitationMatcher(s))
  {
    forall i: nat, j: nat | i < j && CitationMatcher(s)(i).Some? && j < CitationMatcher(s)(i).value
      ensures CitationMatcher(s)(j).None?
    {
      CitationInside(s, i, j);
      CitationStart(s, j);
      assert CitationMatcher(s)(j) == CitationAt(s, j);
    }
  }

  /** `re.findall` of the citation pattern: the citations in the text, as written, in text order. */
  function Citations(text: string): (cs: seq<string>)
  {
    CitationWellFormed(text);
    FindAllTexts(text, CitationMatcher(text))
  }

  function CitationMatcher(text: string): nat -> Option<nat> {
    (i: nat) => CitationAt(text, i)
  }

  lemma CitationWellFormed(text: string)
    ensures WellFormed(text, CitationMatcher(text))
  {
    forall i: nat ensures CitationMatcher(text)(i) == CitationAt(text, i) {}
  }

  /** Every citation in the text is listed. */
  lemma CitationFound(text: string, i: nat)
    requires CitationAt(text, i).Some?
    ensures text[i..CitationAt(text, i).value] in Citations(text)
  {
    CitationWellFormed(text);
    CitationFoundIn(text, Citations(text), i);
  }

  lemma CitationFoundIn(text: string, cs: seq<string>, i: nat)
    requires TextsComplete(text, CitationMatcher(text), cs)
    requires CitationAt(text, i).Some?
    ensures text[i..CitationAt(text, i).value] in cs
  {
    assert CitationMatcher(text)(i) == CitationAt(text, i);
    CitationNoStraddle(text);
  }

  /** Every entry is a citation in the text. */
  lemma CitationSound(text: string, k: nat)
    requires k < |Citations(text)|
    ensures exists i: nat :: CitationAt(text, i).Some? && Citations(text)[k] == text[i..CitationAt(text, i).value]
  {
    var m := CitationMatcher(text);
    CitationWellFormed(text);
    FindAllTextsSound(text, m, k);
    var i: nat :| m(i).Some? && Citations(text)[k] == text[i..m(i).value];
    assert m(i) == CitationAt(text, i);
  }

  /** `Exemption\s+(\d(?:\([A-F]\))?)` under IGNORECASE at `i`. The group starts at the digit. */
  function ExemptionWordAt(s: string, i: nat): (r: Option<nat>)
    ensures r.Some? ==> i + 9 < ExemptionGroup(s, i) < r.value <= |s|
  {
    if FoldAt(s, i, "exemption") then
      var g := ExemptionGroup(s, i);
      if g > i + 9 && CharAt(s, g, IsDigit) then
        if LitAt(s, g + 1, "(") && CharAt(s, g + 2, IsLetterAF) && LitAt(s, g + 3, ")") then Some(g + 4)
        else Some(g + 1)
      else None
    else None
  }

  function ExemptionGroup(s: string, i: nat): nat {
    SpaceEnd(s, i + 9)
  }

  function ExemptionCapture(s: string, i: nat): Span {
    Span(ExemptionGroup(s, i), match ExemptionWordAt(s, i) case Some(e) => e case None => ExemptionGroup(s, i))
  }

  /** An "Exemption" match starts with letters that fold to "ex". */
  lemma ExemptionWordStart(s: string, j: nat)
    ensures ExemptionWordAt(s, j).Some? ==> j + 1 < |s| && LowerChar(s[j]) == 'e' && LowerChar(s[j + 1]) == 'x'
  {
    if ExemptionWordAt(s, j).Some? {
      FoldChar(s, j, "exemption", 0);
      FoldChar(s, j, "exemption", 1);
    }
  }

  /** No two consecutive characters past a match's start fold to "ex". */
  lemma ExemptionWordInside(s: string, i: nat, j: nat)
    requires ExemptionWordAt(s, i).Some? && i < j < ExemptionWordAt(s, i).value
    ensures !(j + 1 < |s| && LowerChar(s[j]) == 'e' && LowerChar(s[j + 1]) == 'x')
  {
    var g := ExemptionGroup(s, i);
    var d := j - i;
    if d < 9 {
      FoldChar(s, i, "exemption", d);
      if d == 2 {
        FoldChar(s, i, "exemption", 3);
      } else {
        assert d == 1 || d == 3 || d == 4 || d == 5 || d == 6 || d == 7 || d == 8;
        assert "exemption"[d] != 'e';
      }
    } else if j < g {
      assert IsSpace(s[j]);
    } else if j == g {
      assert IsDigit(s[j]);
    } else if j == g + 1 {
      LitChar(s, g + 1, "(", 0);
    } else if j == g + 2 {
      LitChar(s, g + 3, ")", 0);
    } else {
      LitChar(s, g + 3, ")", 0);
    }
  }

  /** A match cannot start inside another. */
  lemma ExemptionWordNoStraddle(s: string)
    ensures NoStraddle(ExemptionWordMatcher(s))
  {
    var m := ExemptionWordMatcher(s);
    forall i: nat, j: nat | i < j && m(i).Some? && j < m(i).value
      ensures m(j).None?
    {
      assert m(i) == ExemptionWordAt(s, i) && m(j) == ExemptionWordAt(s, j);
      ExemptionWordInside(s, i, j);
      ExemptionWordStart(s, j);
    }
  }

  /** `re.findall` of the "Exemption N" pattern: the group of every match, in text order. */
  function ExemptionWords(text: string): (ws: seq<string>)
  {
    ExemptionWordWellFormed(text);
    FindAllGroups(text, ExemptionWordMatcher(text), ExemptionWordCaptures(text))
  }

  function ExemptionWordMatcher(text: string): nat -> Option<nat> {
    (i: nat) => ExemptionWordAt(text, i)
  }

  function ExemptionWordCaptures(text: string): nat -> Span {
    (i: nat) => ExemptionCapture(text, i)
  }

  lemma ExemptionWordWellFormed(text: string)
    ensures WellFormed(text, ExemptionWordMatcher(text)) && CapturesWithin(text, ExemptionWordMatcher(text), ExemptionWordCaptures(text))
  {
    forall i: nat ensures ExemptionWordMatcher(text)(i) == ExemptionWordAt(text, i) && ExemptionWordCaptures(text)(i) == ExemptionCapture(text, i) {}
  }

  /** Every match in the text contributes its group. */
  lemma ExemptionWordFound(text: string, i: nat)
    requires ExemptionWordAt(text, i).Some?
    ensures text[ExemptionGroup(text, i)..ExemptionWordAt(text, i).value] in ExemptionWords(text)
  {
    ExemptionWordWellFormed(text);
    ExemptionWordFoundIn(text, ExemptionWords(text), i);
  }

  lemma ExemptionWordFoundIn(text: string, gs: seq<string>, i: nat)
    requires GroupsComplete(text, ExemptionWordMatcher(text), ExemptionWordCaptures(text), gs)
    requires ExemptionWordAt(text, i).Some?
    ensures text[ExemptionGroup(text, i)..ExemptionWordAt(text, i).value] in gs
  {
    var m, cap := ExemptionWordMatcher(text), ExemptionWordCaptures(text);
    assert m(i) == ExemptionWordAt(text, i) && cap(i) == ExemptionCapture(text, i);
    ExemptionWordNoStraddle(text);
  }

  /** Every entry is the group of a match in the text. */
  lemma ExemptionWordSound(text: string, k: nat)
    requires k < |ExemptionWords(text)|
    ensures exists i: nat :: ExemptionWordAt(text, i).Some? && ExemptionWords(text)[k] == text[ExemptionGroup(text, i)..ExemptionWordAt(text, i).value]
  {
    var m, cap := ExemptionWordMatcher(text), ExemptionWordCaptures(text);
    ExemptionWordWellFormed(text);
    FindAllGroupsSound(text, m, cap, k);
    var i: nat :| m(i).Some? && ExemptionWords(text)[k] == text[cap(i).start..cap(i).end];
    assert m(i) == ExemptionWordAt(text, i) && cap(i) == ExemptionCapture(text, i);
  }


  predicate Distinct(xs: seq<string>) {
    forall i, j :: 0 <= i < j < |xs| ==> xs[i] != xs[j]
  }

  lemma StrictlySortedDistinct(xs: seq<string>)
    requires StrictlySorted(xs)
    ensures Distinct(xs)
  {
    forall i, j | 0 <= i < j < |xs|
      ensures xs[i] != xs[j]
    {
      if xs[i] == xs[j] {
        LessIrreflexive(xs[i]);
      }
    }
  }

  /** Append each of `ys` that is not yet present, in order. */
  function AppendAbsent(xs: seq<string>, ys: seq<string>): (r: seq<string>)
    ensures |r| >= |xs| && r[..|xs|] == xs
    ensures forall y :: y in r <==> y in xs || y in ys
    ensures Distinct(xs) ==> Distinct(r)
    decreases |ys|
  {
    if ys == [] then xs
    else
      var next := if ys[0] in xs then xs else xs + [ys[0]];
      var r := AppendAbsent(next, ys[1..]);
      assert r[..|xs|] == next[..|xs|] by { assert r[..|xs|] == r[..|next|][..|xs|]; }
      assert forall y :: y in ys <==> y == ys[0] || y in ys[1..];
      r
  }

  /** Where `y` is first mentioned in `ys`. */
  function FirstIndex(ys: seq<string>, y: string): (k: nat)
    requires y in ys
    ensures k < |ys| && ys[k] == y && y !in ys[..k]
  {
    if ys[0] == y then 0
    else
      var k := 1 + FirstIndex(ys[1..], y);
      assert ys[..k] == [ys[0]] + ys[1..][..k - 1];
      k
  }

  /** Past the prefix `xs`, `r` holds only entries of `ys` that are not in `xs`, in the order in
      which `ys` first mentions them. */
  predicate FirstMentionOrder(xs: seq<string>, ys: seq<string>, r: seq<string>) {
    |xs| <= |r|
    && (forall p :: |xs| <= p < |r| ==> r[p] !in xs && r[p] in ys)
    && forall p, q :: |xs| <= p < q < |r| ==> FirstIndex(ys, r[p]) < FirstIndex(ys, r[q])
  }

  /** What `AppendAbsent` appends is new, comes from `ys`, and keeps the order in which `ys` first
      mentions it. */
  lemma {:induction false} AppendAbsentOrder(xs: seq<string>, ys: seq<string>)
    requires Distinct(xs)
    ensures FirstMentionOrder(xs, ys, AppendAbsent(xs, ys))
    decreases |ys|
  {
    if ys != [] {
      var next := if ys[0] in xs then xs else xs + [ys[0]];
      var r := AppendAbsent(xs, ys);
      assert r == AppendAbsent(next, ys[1..]);
      assert Distinct(next) by { DistinctSnoc(xs, ys[0]); }
      AppendAbsentOrder(next, ys[1..]);
      assert ys[0] in next;
      assert r[..|next|] == next;
      forall p | |xs| <= p < |r|
        ensures r[p] !in xs && r[p] in ys
      {
        if p < |next| {
          assert r[p] == next[p] == ys[0];
          assert Distinct(r);
          DistinctNotEarlier(r, xs, p);
        } else {
          assert r[p] in ys[1..];
        }
      }
      forall p, q | |xs| <= p < q < |r|
        ensures FirstIndex(ys, r[p]) < FirstIndex(ys, r[q])
      {
        assert r[q] !in next && r[q] in ys[1..];
        FirstIndexTail(ys, r[q]);
        if p >= |next| {
          assert r[p] !in next && r[p] in ys[1..];
          FirstIndexTail(ys, r[p]);
        } else {
          assert r[p] == next[p] == ys[0];
        }
      }
    }
  }

  lemma FirstIndexTail(ys: seq<string>, y: string)
    requires ys != [] && y in ys[1..] && y != ys[0]
    ensures FirstIndex(ys, y) == 1 + FirstIndex(ys[1..], y)
  {
  }

  lemma DistinctSnoc(xs: seq<string>, y: string)
    requires Distinct(xs)
    ensures y !in xs ==> Distinct(xs + [y])
  {
  }

  /** In a duplicate-free list, an entry past a prefix is not in that prefix. */
  lemma DistinctNotEarlier(r: seq<string>, xs: seq<string>, p: nat)
    requires Distinct(r) && |xs| <= p < |r| && r[..|xs|] == xs
    ensures r[p] !in xs
  {
  }

  function FormatExemptionWords(ws: seq<string>): (fs: seq<string>)
    ensures |fs| == |ws|
    ensures forall k :: 0 <= k < |fs| ==> fs[k] == "(b)(" + ws[k] + ")"
  {
    if ws == [] then [] else ["(b)(" + ws[0] + ")"] + FormatExemptionWords(ws[1..])
  }

  /** The United States list: the distinct citations in sorted order, then each "Exemption N"
      group written as `(b)(N)`, unless already listed. */
  function USExemptions(text: string): (es: seq<string>)
    ensures Distinct(es)
    ensures var sorted := SortedDistinct(Citations(text)); |es| >= |sorted| && es[..|sorted|] == sorted
    ensures forall e :: e in es <==> e in Citations(text) || e in FormatExemptionWords(ExemptionWords(text))
    ensures FirstMentionOrder(SortedDistinct(Citations(text)), FormatExemptionWords(ExemptionWords(text)), es)
  {
    var sorted := SortedDistinct(Citations(text));
    var words := FormatExemptionWords(ExemptionWords(text));
    StrictlySortedDistinct(sorted);
    AppendAbsentOrder(sorted, words);
    AppendAbsent(sorted, words)
  }

  /** An "Exemption 7(C)" mention is listed as `(b)(7(C))`: the letter stays inside the group's
      parentheses, so the entry never coincides with the citation `(b)(7)(C)`. */
  lemma ExemptionLetterStaysInside(text: string, i: nat)
    requires ExemptionWordAt(text, i) == Some(ExemptionGroup(text, i) + 4)
    ensures var g := ExemptionGroup(text, i);
      "(b)(" + [text[g]] + "(" + [text[g + 2]] + "))" in USExemptions(text)
  {
    ExemptionWordListed(text, i);
    LetterGroupIn(text, i, USExemptions(text));
  }

  lemma LetterGroupIn(text: string, i: nat, es: seq<string>)
    requires ExemptionWordAt(text, i) == Some(ExemptionGroup(text, i) + 4)
    requires "(b)(" + text[ExemptionGroup(text, i)..ExemptionGroup(text, i) + 4] + ")" in es
    ensures var g := ExemptionGroup(text, i);
      "(b)(" + [text[g]] + "(" + [text[g + 2]] + "))" in es
  {
    var g := ExemptionGroup(text, i);
    ExemptionLetterShape(text, i);
    LetterGroupText(text[g..g + 4]);
  }

  lemma LetterGroupText(w: string)
    requires |w| == 4 && w[1] == '(' && w[3] == ')'
    ensures "(b)(" + w + ")" == "(b)(" + [w[0]] + "(" + [w[2]] + "))"
  {
  }

  /** A four-character group is a digit, then a letter from A to F in parentheses. */
  lemma ExemptionLetterShape(s: string, i: nat)
    requires ExemptionWordAt(s, i) == Some(ExemptionGroup(s, i) + 4)
    ensures var g := ExemptionGroup(s, i);
      g + 4 <= |s| && IsDigit(s[g]) && s[g + 1] == '(' && IsLetterAF(s[g + 2]) && s[g + 3] == ')'
  {
    var g := ExemptionGroup(s, i);
    LitChar(s, g + 1, "(", 0);
    LitChar(s, g + 3, ")", 0);
  }

  lemma FormatMember(ws: seq<string>, w: string)
    requires w in ws
    ensures "(b)(" + w + ")" in FormatExemptionWords(ws)
  {
    var k :| 0 <= k < |ws| && ws[k] == w;
    assert FormatExemptionWords(ws)[k] == "(b)(" + w + ")";
  }

  // ---------------------------------------------------------------- UK and Indian citations

  /** `[Ss]ection\s+` at `i`. Every pattern continues with a non-space, so `\s+` takes the whole
      run of whitespace, which ends at `SectionEnd`. */
  predicate SectionAt(s: string, i: nat) {
    CharAt(s, i, c => c == 'S' || c == 's') && LitAt(s, i + 1, "ection") && SectionEnd(s, i) > i + 7
  }

  function SectionEnd(s: string, i: nat): nat {
    SpaceEnd(s, i + 7)
  }

  /** `[Ss]ection\s+(\d{1,2})` at `i`: the greedy `\d{1,2}` takes two digits when there are two. */
  function UKSectionAt(s: string, i: nat): (r: Option<nat>)
    ensures r.Some? ==> SectionAt(s, i) && SectionEnd(s, i) < r.value <= SectionEnd(s, i) + 2 && r.value <= |s|
    ensures r.Some? ==> AllDigits(s[SectionEnd(s, i)..r.value])
  {
    var g := SectionEnd(s, i);
    if SectionAt(s, i) && CharAt(s, g, IsDigit) then
      if CharAt(s, g + 1, IsDigit) then Some(g + 2) else Some(g + 1)
    else None
  }

  function UKCapture(s: string, i: nat): Span {
    Span(SectionEnd(s, i), match UKSectionAt(s, i) case Some(e) => e case None => SectionEnd(s, i))
  }

  /** `[Ss]ection\s+8\(1\)\(([a-j])\)` at `i`; the group is the clause letter. */
  function IndiaSectionAt(s: string, i: nat): (r: Option<nat>)
    ensures r.Some? ==> SectionAt(s, i) && r.value == SectionEnd(s, i) + 7 <= |s|
    ensures r.Some? ==> IsLetterAJ(s[SectionEnd(s, i) + 5])
  {
    var g := SectionEnd(s, i);
    if SectionAt(s, i) && LitAt(s, g, "8(1)(") && CharAt(s, g + 5, IsLetterAJ) && LitAt(s, g + 6, ")") then
      Some(g + 7)
    else None
  }

  function IndiaCapture(s: string, i: nat): Span {
    Span(SectionEnd(s, i) + 5, SectionEnd(s, i) + 6)
  }

  /** A "Section" match starts with `S` or `s`. */
  lemma SectionStart(s: string, j: nat)
    ensures SectionAt(s, j) ==> s[j] == 'S' || s[j] == 's'
  {
  }

  /** Past its first letter, a "Section" match whose tail holds no `S` or `s` holds none at all. */
  lemma SectionInside(s: string, i: nat, j: nat, end: nat)
    requires SectionAt(s, i) && i < j < end <= |s|
    requires forall k :: SectionEnd(s, i) <= k < end ==> s[k] != 'S' && s[k] != 's'
    ensures s[j] != 'S' && s[j] != 's'
  {
    if j < i + 7 {
      var d := j - i - 1;
      LitChar(s, i + 1, "ection", d);
      assert d == 0 || d == 1 || d == 2 || d == 3 || d == 4 || d == 5;
    } else if j < SectionEnd(s, i) {
      assert IsSpace(s[j]);
    }
  }

  /** No UK match starts inside another. */
  lemma UKSectionApart(s: string, i: nat, j: nat)
    requires i < j && UKSectionAt(s, i).Some? && j < UKSectionAt(s, i).value
    ensures UKSectionAt(s, j).None?
  {
    SectionInside(s, i, j, UKSectionAt(s, i).value);
    SectionStart(s, j);
  }

  lemma UKSectionNoStraddle(s: string)
    ensures NoStraddle(UKSectionMatcher(s))
  {
    var m := UKSectionMatcher(s);
    forall i: nat, j: nat | i < j && m(i).Some? && j < m(i).value
      ensures m(j).None?
    {
      assert m(i) == UKSectionAt(s, i) && m(j) == UKSectionAt(s, j);
      UKSectionApart(s, i, j);
    }
  }

  /** The tail `8(1)(x)` of an Indian match holds no `S` or `s`. */
  lemma IndiaTailPlain(s: string, i: nat, k: nat)
    requires IndiaSectionAt(s, i).Some? && SectionEnd(s, i) <= k < IndiaSectionAt(s, i).value
    ensures s[k] != 'S' && s[k] != 's'
  {
    var g := SectionEnd(s, i);
    if k < g + 5 {
      LitChar(s, g, "8(1)(", k - g);
    } else if k == g + 6 {
      LitChar(s, g + 6, ")", 0);
    }
  }

  /** No Indian match starts inside another. */
  lemma IndiaSectionApart(s: string, i: nat, j: nat)
    requires i < j && IndiaSectionAt(s, i).Some? && j < IndiaSectionAt(s, i).value
    ensures IndiaSectionAt(s, j).None?
  {
    var end := IndiaSectionAt(s, i).value;
    forall k | SectionEnd(s, i) <= k < end
      ensures s[k] != 'S' && s[k] != 's'
    {
      IndiaTailPlain(s, i, k);
    }
    SectionInside(s, i, j, end);
    SectionStart(s, j);
  }

  lemma IndiaSectionNoStraddle(s: string)
    ensures NoStraddle(IndiaSectionMatcher(s))
  {
    var m := IndiaSectionMatcher(s);
    forall i: nat, j: nat | i < j && m(i).Some? && j < m(i).value
      ensures m(j).None?
    {
      assert m(i) == IndiaSectionAt(s, i) && m(j) == IndiaSectionAt(s, j);
      IndiaSectionApart(s, i, j);
    }
  }

  /** The section numbers cited in the text, in text order. */
  function UKSectionNumbers(text: string): (ns: seq<string>)
  {
    UKSectionWellFormed(text);
    FindAllGroups(text, UKSectionMatcher(text), UKSectionCaptures(text))
  }

  function UKSectionMatcher(text: string): nat -> Option<nat> {
    (i: nat) => UKSectionAt(text, i)
  }

  function UKSectionCaptures(text: string): nat -> Span {
    (i: nat) => UKCapture(text, i)
  }

  lemma UKSectionWellFormed(text: string)
    ensures WellFormed(text, UKSectionMatcher(text)) && CapturesWithin(text, UKSectionMatcher(text), UKSectionCaptures(text))
  {
    forall i: nat ensures UKSectionMatcher(text)(i) == UKSectionAt(text, i) && UKSectionCaptures(text)(i) == UKCapture(text, i) {}
  }

  /** Every match in the text contributes its group. */
  lemma UKSectionFound(text: string, i: nat)
    requires UKSectionAt(text, i).Some?
    ensures text[SectionEnd(text, i)..UKSectionAt(text, i).value] in UKSectionNumbers(text)
  {
    UKSectionWellFormed(text);
    UKSectionFoundIn(text, UKSectionNumbers(text), i);
  }

  lemma UKSectionFoundIn(text: string, gs: seq<string>, i: nat)
    requires GroupsComplete(text, UKSectionMatcher(text), UKSectionCaptures(text), gs)
    requires UKSectionAt(text, i).Some?
    ensures text[SectionEnd(text, i)..UKSectionAt(text, i).value] in gs
  {
    var m, cap := UKSectionMatcher(text), UKSectionCaptures(text);
    assert m(i) == UKSectionAt(text, i) && cap(i) == UKCapture(text, i);
    UKSectionNoStraddle(text);
  }

  /** Every entry is the group of a match in the text. */
  lemma UKSectionSound(text: string, k: nat)
    requires k < |UKSectionNumbers(text)|
    ensures exists i: nat :: UKSectionAt(text, i).Some? && UKSectionNumbers(text)[k] == text[SectionEnd(text, i)..UKSectionAt(text, i).value]
  {
    var m, cap := UKSectionMatcher(text), UKSectionCaptures(text);
    UKSectionWellFormed(text);
    FindAllGroupsSound(text, m, cap, k);
    var i: nat :| m(i).Some? && UKSectionNumbers(text)[k] == text[cap(i).start..cap(i).end];
    assert m(i) == UKSectionAt(text, i) && cap(i) == UKCapture(text, i);
  }

  /** The clause letters of section 8(1) cited in the text, in text order. */
  function IndiaClauses(text: string): (ls: seq<string>)
  {
    IndiaSectionWellFormed(text);
    FindAllGroups(text, IndiaSectionMatcher(text), IndiaSectionCaptures(text))
  }

  function IndiaSectionMatcher(text: string): nat -> Option<nat> {
    (i: nat) => IndiaSectionAt(text, i)
  }

  function IndiaSectionCaptures(text: string): nat -> Span {
    (i: nat) => IndiaCapture(text, i)
  }

  lemma IndiaSectionWellFormed(text: string)
    ensures WellFormed(text, IndiaSectionMatcher(text)) && CapturesWithin(text, IndiaSectionMatcher(text), IndiaSectionCaptures(text))
  {
    forall i: nat ensures IndiaSectionMatcher(text)(i) == IndiaSectionAt(text, i) && IndiaSectionCaptures(text)(i) == IndiaCapture(text, i) {}
  }

  /** Every match in the text contributes its group. */
  lemma IndiaSectionFound(text: string, i: nat)
    requires IndiaSectionAt(text, i).Some?
    ensures text[SectionEnd(text, i) + 5..SectionEnd(text, i) + 6] in IndiaClauses(text)
  {
    IndiaSectionWellFormed(text);
    IndiaSectionFoundIn(text, IndiaClauses(text), i);
  }

  lemma IndiaSectionFoundIn(text: string, gs: seq<string>, i: nat)
    requires GroupsComplete(text, IndiaSectionMatcher(text), IndiaSectionCaptures(text), gs)
    requires IndiaSectionAt(text, i).Some?
    ensures text[SectionEnd(text, i) + 5..SectionEnd(text, i) + 6] in gs
  {
    var m, cap := IndiaSectionMatcher(text), IndiaSectionCaptures(text);
    assert m(i) == IndiaSectionAt(text, i) && cap(i) == IndiaCapture(text, i);
    IndiaSectionNoStraddle(text);
  }

  /** Every entry is the group of a match in the text. */
  lemma IndiaSectionSound(text: string, k: nat)
    requires k < |IndiaClauses(text)|
    ensures exists i: nat :: IndiaSectionAt(text, i).Some? && IndiaClauses(text)[k] == text[SectionEnd(text, i) + 5..SectionEnd(text, i) + 6]
  {
    var m, cap := IndiaSectionMatcher(text), IndiaSectionCaptures(text);
    IndiaSectionWellFormed(text);
    FindAllGroupsSound(text, m, cap, k);
    var i: nat :| m(i).Some? && IndiaClauses(text)[k] == text[cap(i).start..cap(i).end];
    assert m(i) == IndiaSectionAt(text, i) && cap(i) == IndiaCapture(text, i);
  }

  /** A section number is one or two digits. */
  lemma UKSectionNumberDigits(text: string, n: string)
    requires n in UKSectionNumbers(text)
    ensures 1 <= |n| <= 2 && AllDigits(n)
  {
    var ns := UKSectionNumbers(text);
    var k :| 0 <= k < |ns| && ns[k] == n;
    UKSectionSound(text, k);
    var i: nat :| UKSectionAt(text, i).Some? && ns[k] == text[SectionEnd(text, i)..UKSectionAt(text, i).value];
    UKSectionDigitsAt(text, i, n);
  }

  lemma UKSectionDigitsAt(text: string, i: nat, n: string)
    requires UKSectionAt(text, i).Some? && n == text[SectionEnd(text, i)..UKSectionAt(text, i).value]
    ensures 1 <= |n| <= 2 && AllDigits(n)
  {
  }

  /** A clause is one letter from a to j. */
  lemma IndiaClauseLetter(text: string, l: string)
    requires l in IndiaClauses(text)
    ensures |l| == 1 && IsLetterAJ(l[0])
  {
    var ls := IndiaClauses(text);
    var k :| 0 <= k < |ls| && ls[k] == l;
    IndiaSectionSound(text, k);
    var i: nat :| IndiaSectionAt(text, i).Some? && ls[k] == text[SectionEnd(text, i) + 5..SectionEnd(text, i) + 6];
    IndiaClauseAt(text, i, l);
  }

  lemma IndiaClauseAt(text: string, i: nat, l: string)
    requires IndiaSectionAt(text, i).Some? && l == text[SectionEnd(text, i) + 5..SectionEnd(text, i) + 6]
    ensures |l| == 1 && IsLetterAJ(l[0])
  {
  }

  /** Put `p` before and `suffix` after every string. */
  function Wrapped(p: string, xs: seq<string>, suffix: string): (ys: seq<string>)
    ensures |ys| == |xs|
    ensures forall k :: 0 <= k < |ys| ==> ys[k] == p + xs[k] + suffix
  {
    seq(|xs|, k requires 0 <= k < |xs| => p + xs[k] + suffix)
  }

  /** Wrapping is one-to-one, so an entry is wrapped exactly when the string it wraps is listed. */
  lemma WrappedMembers(p: string, xs: seq<string>, suffix: string)
    ensures forall x :: p + x + suffix in Wrapped(p, xs, suffix) <==> x in xs
  {
    var ys := Wrapped(p, xs, suffix);
    forall x
      ensures p + x + suffix in ys <==> x in xs
    {
      if p + x + suffix in ys {
        var k :| 0 <= k < |ys| && ys[k] == p + x + suffix;
        assert x == (p + x + suffix)[|p|..|p| + |x|];
        assert xs[k] == (p + xs[k] + suffix)[|p|..|p| + |xs[k]|];
      }
      if x in xs {
        var k :| 0 <= k < |xs| && xs[k] == x;
        assert ys[k] == p + x + suffix;
      }
    }
  }

  /** The order is kept when there is no suffix or all the strings have one length. */
  lemma WrappedSorted(p: string, xs: seq<string>, suffix: string)
    requires StrictlySorted(xs)
    requires suffix == [] || forall k :: 0 <= k < |xs| ==> |xs[k]| == 1
    ensures StrictlySorted(Wrapped(p, xs, suffix))
  {
    var ys := Wrapped(p, xs, suffix);
    forall i, j | 0 <= i < j < |ys|
      ensures Less(ys[i], ys[j])
    {
      WrappedLess(p, xs[i], xs[j], suffix);
    }
  }

  lemma WrappedLess(p: string, a: string, b: string, suffix: string)
    requires Less(a, b) && (suffix == [] || |a| == |b|)
    ensures Less(p + a + suffix, p + b + suffix)
  {
    if suffix == [] {
      assert p + a + suffix == p + a && p + b + suffix == p + b;
      LessPrefix(p, a, b);
    } else {
      LessSameLength(a, b, suffix);
      assert p + a + suffix == p + (a + suffix) && p + b + suffix == p + (b + suffix);
      LessPrefix(p, a + suffix, b + suffix);
    }
  }

  /** The UK list: "Section N" for each distinct cited number, in string order. */
  function UKExemptions(text: string): (es: seq<string>)
    ensures StrictlySorted(es)
    ensures forall n :: "Section " + n in es <==> n in UKSectionNumbers(text)
    ensures forall k :: 0 <= k < |es| ==> 8 <= |es[k]| && es[k][..8] == "Section " && es[k][8..] in UKSectionNumbers(text)
  {
    var ns := SortedDistinct(UKSectionNumbers(text));
    var es := Wrapped("Section ", ns, "");
    WrappedSorted("Section ", ns, "");
    UKEntries(ns, es);
    es
  }

  lemma UKEntries(ns: seq<string>, es: seq<string>)
    requires es == Wrapped("Section ", ns, "")
    ensures forall n :: "Section " + n in es <==> n in ns
    ensures forall k :: 0 <= k < |es| ==> 8 <= |es[k]| && es[k][..8] == "Section " && es[k][8..] in ns
  {
    WrappedMembers("Section ", ns, "");
    forall n ensures "Section " + n + "" == "Section " + n {}
    forall k | 0 <= k < |es|
      ensures 8 <= |es[k]| && es[k][..8] == "Section " && es[k][8..] in ns
    {
      assert es[k] == "Section " + ns[k] + "";
      assert es[k][8..] == ns[k];
    }
  }

  /** The Indian list: "Section 8(1)(x)" for each distinct cited clause letter, in order. */
  function IndiaExemptions(text: string): (es: seq<string>)
    ensures StrictlySorted(es)
    ensures forall l :: "Section 8(1)(" + l + ")" in es <==> l in IndiaClauses(text)
    ensures forall k :: 0 <= k < |es| ==>
      |es[k]| == 15 && es[k][..13] == "Section 8(1)(" && es[k][13..14] in IndiaClauses(text) && es[k][14] == ')'
  {
    var ls := SortedDistinct(IndiaClauses(text));
    var es := Wrapped("Section 8(1)(", ls, ")");
    SortedClausesLetters(text, ls);
    WrappedSorted("Section 8(1)(", ls, ")");
    IndiaEntries(ls, es);
    es
  }

  lemma IndiaEntries(ls: seq<string>, es: seq<string>)
    requires es == Wrapped("Section 8(1)(", ls, ")")
    requires forall k :: 0 <= k < |ls| ==> |ls[k]| == 1
    ensures forall l :: "Section 8(1)(" + l + ")" in es <==> l in ls
    ensures forall k :: 0 <= k < |es| ==>
      |es[k]| == 15 && es[k][..13] == "Section 8(1)(" && es[k][13..14] in ls && es[k][14] == ')'
  {
    WrappedMembers("Section 8(1)(", ls, ")");
    forall k | 0 <= k < |es|
      ensures |es[k]| == 15 && es[k][..13] == "Section 8(1)(" && es[k][13..14] in ls && es[k][14] == ')'
    {
      assert es[k] == "Section 8(1)(" + ls[k] + ")";
      assert es[k][13..14] == ls[k];
    }
  }

  lemma SortedClausesLetters(text: string, ls: seq<string>)
    requires forall l :: l in ls <==> l in IndiaClauses(text)
    ensures forall k :: 0 <= k < |ls| ==> |ls[k]| == 1
  {
    forall k | 0 <= k < |ls|
      ensures |ls[k]| == 1
    {
      IndiaClauseLetter(text, ls[k]);
    }
  }

  predicate IsUSJurisdiction(jurisdiction: string) {
    jurisdiction == "US-Federal" || StartsWith(jurisdiction, "US-State")
  }

  /** `_extract_exemptions`: the list for the jurisdiction; none outside the US, UK and India. */
  function ExtractExemptions(text: string, jurisdiction: string): (es: seq<string>)
    ensures IsUSJurisdiction(jurisdiction) ==> es == USExemptions(text)
    ensures !IsUSJurisdiction(jurisdiction) && jurisdiction == "UK" ==> es == UKExemptions(text)
    ensures !IsUSJurisdiction(jurisdiction) && jurisdiction == "India" ==> es == IndiaExemptions(text)
    ensures !IsUSJurisdiction(jurisdiction) && jurisdiction != "UK" && jurisdiction != "India" ==> es == []
  {
    if IsUSJurisdiction(jurisdiction) then USExemptions(text)
    else if jurisdiction == "UK" then UKExemptions(text)
    else if jurisdiction == "India" then IndiaExemptions(text)
    else []
  }
  /** Whatever the jurisdiction, no exemption is listed twice. */
  lemma ExtractedDistinct(text: string, jurisdiction: string)
    ensures Distinct(ExtractExemptions(text, jurisdiction))
  {
    if !IsUSJurisdiction(jurisdiction) && jurisdiction == "UK" {
      StrictlySortedDistinct(UKExemptions(text));
    } else if !IsUSJurisdiction(jurisdiction) && jurisdiction == "India" {
      StrictlySortedDistinct(IndiaExemptions(text));
    }
  }


  // ---------------------------------------------------------------- from the text to the list

  /** Every citation in a United States letter is listed. */
  lemma CitationListed(text: string, i: nat)
    requires CitationAt(text, i).Some?
    ensures text[i..CitationAt(text, i).value] in USExemptions(text)
  {
    CitationFound(text, i);
  }

  /** Every "Exemption N" mention in a United States letter is listed as `(b)(N)`. */
  lemma ExemptionWordListed(text: string, i: nat)
    requires ExemptionWordAt(text, i).Some?
    ensures "(b)(" + text[ExemptionGroup(text, i)..ExemptionWordAt(text, i).value] + ")" in USExemptions(text)
  {
    ExemptionWordFound(text, i);
    FormatMember(ExemptionWords(text), text[ExemptionGroup(text, i)..ExemptionWordAt(text, i).value]);
  }

  /** Every section cited in a United Kingdom letter is listed. */
  lemma UKSectionListed(text: string, i: nat)
    requires UKSectionAt(text, i).Some?
    ensures "Section " + text[SectionEnd(text, i)..UKSectionAt(text, i).value] in UKExemptions(text)
  {
    UKSectionFound(text, i);
  }

  /** Every clause of section 8(1) cited in an Indian letter is listed. */
  lemma IndiaClauseListed(text: string, i: nat)
    requires IndiaSectionAt(text, i).Some?
    ensures "Section 8(1)(" + text[SectionEnd(text, i) + 5..SectionEnd(text, i) + 6] + ")" in IndiaExemptions(text)
  {
    IndiaSectionFound(text, i);
  }

  // ---------------------------------------------------------------- exemption details

  /** The three exemption schemes with a table of descriptions. */
  datatype Scheme = USScheme | UKScheme | IndiaScheme

  function SchemeOf(jurisdiction: string): (r: Option<Scheme>)
    ensures r == Some(USScheme) <==> IsUSJurisdiction(jurisdiction)
    ensures r == Some(UKScheme) <==> jurisdiction == "UK"
    ensures r == Some(IndiaScheme) <==> jurisdiction == "India"
  {
    if IsUSJurisdiction(jurisdiction) then Some(USScheme)
    else if jurisdiction == "UK" then Some(UKScheme)
    else if jurisdiction == "India" then Some(IndiaScheme)
    else None
  }

  /** The United States table: each key is the literal citation its pattern matches. */
  const USDetails: seq<(string, string)> := [
    ("(b)(1)", "Exemption 1 — Classified national defense/foreign policy"),
    ("(b)(2)", "Exemption 2 — Internal agency rules and practices"),
    ("(b)(3)", "Exemption 3 — Specifically exempted by other statutes"),
    ("(b)(4)", "Exemption 4 — Trade secrets and confidential commercial information"),
    ("(b)(5)", "Exemption 5 — Inter-agency or intra-agency privileged communications"),
    ("(b)(6)", "Exemption 6 — Personal privacy"),
    ("(b)(7)(A)", "Exemption 7(A) — Law enforcement: could interfere with proceedings"),
    ("(b)(7)(B)", "Exemption 7(B) — Law enforcement: deprive right to fair trial"),
    ("(b)(7)(C)", "Exemption 7(C) — Law enforcement: personal privacy"),
    ("(b)(7)(D)", "Exemption 7(D) — Law enforcement: confidential sources"),
    ("(b)(7)(E)", "Exemption 7(E) — Law enforcement: techniques and procedures"),
    ("(b)(7)(F)", "Exemption 7(F) — Law enforcement: endanger life/physical safety"),
    ("(b)(8)", "Exemption 8 — Financial institution examination reports"),
    ("(b)(9)", "Exemption 9 — Geological and geophysical well data")
  ]

  /** The United Kingdom table: each key is the section number after `[Ss]ection\s+`. */
  const UKDetails: seq<(string, string)> := [
    ("21", "Section 21 — Information accessible by other means"),
    ("22", "Section 22 — Information intended for future publication"),
    ("23", "Section 23 — Security bodies"),
    ("24", "Section 24 — National security"),
    ("26", "Section 26 — Defence"),
    ("27", "Section 27 — International relations"),
    ("30", "Section 30 — Investigations and proceedings"),
    ("31", "Section 31 — Law enforcement"),
    ("35", "Section 35 — Formulation of government policy"),
    ("36", "Section 36 — Prejudice to effective conduct of public affairs"),
    ("38", "Section 38 — Health and safety"),
    ("40", "Section 40 — Personal information"),
    ("41", "Section 41 — Information provided in confidence"),
    ("42", "Section 42 — Legal professional privilege"),
    ("43", "Section 43 — Commercial interests"),
    ("44", "Section 44 — Prohibitions on disclosure")
  ]

  /** The Indian table: each key is the clause letter in `[Ss]ection\s+8\(1\)\(x\)`. */
  const IndiaDetails: seq<(string, string)> := [
    ("a", "Section 8(1)(a) — Sovereignty, integrity, security of India"),
    ("b", "Section 8(1)(b) — Expressly forbidden by court/tribunal"),
    ("c", "Section 8(1)(c) — Breach of Parliamentary privilege"),
    ("d", "Section 8(1)(d) — Commercial confidence, trade secrets"),
    ("e", "Section 8(1)(e) — Fiduciary relationship"),
    ("f", "Section 8(1)(f) — Received in confidence from foreign govt"),
    ("g", "Section 8(1)(g) — Endanger life or physical safety"),
    ("h", "Section 8(1)(h) — Impede investigation or prosecution"),
    ("i", "Section 8(1)(i) — Cabinet papers"),
    ("j", "Section 8(1)(j) — Personal information with no public interest")
  ]

  function Table(scheme: Scheme): seq<(string, string)> {
    match scheme
    case USScheme => USDetails
    case UKScheme => UKDetails
    case IndiaScheme => IndiaDetails
  }

  /** `re.search` of the table pattern with key `key` in the exemption string `e`. */
  predicate EntryMatches(scheme: Scheme, key: string, e: string) {
    match scheme
    case USScheme => Contains(e, key)
    case UKScheme => exists i: nat | i <= |e| :: SectionAt(e, i) && LitAt(e, SectionEnd(e, i), key)
    case IndiaScheme => exists i: nat | i <= |e| :: SectionAt(e, i) && LitAt(e, SectionEnd(e, i), "8(1)(" + key + ")")
  }

  /** The first table entry, from `from` on, whose pattern occurs in `e`. */
  function FirstEntry(scheme: Scheme, e: string, from: nat): (r: Option<nat>)
    ensures r.Some? ==> from <= r.value < |Table(scheme)| && EntryMatches(scheme, Table(scheme)[r.value].0, e)
    ensures forall k :: from <= k < |Table(scheme)| && (r.None? || k < r.value) ==>
      !EntryMatches(scheme, Table(scheme)[k].0, e)
    decreases |Table(scheme)| - from
  {
    if from >= |Table(scheme)| then None
    else if EntryMatches(scheme, Table(scheme)[from].0, e) then Some(from)
    else FirstEntry(scheme, e, from + 1)
  }

  /** The details of each listed exemption whose description the table holds. */
  function DetailsOf(scheme: Scheme, exemptions: seq<string>): (d: map<string, string>)
    ensures forall e :: e in d <==> e in exemptions && FirstEntry(scheme, e, 0).Some?
    ensures forall e :: e in d ==> d[e] == Table(scheme)[FirstEntry(scheme, e, 0).value].1
  {
    if exemptions == [] then map[]
    else
      var last := exemptions[|exemptions| - 1];
      var rest := DetailsOf(scheme, exemptions[..|exemptions| - 1]);
      assert forall e :: e in exemptions <==> e in exemptions[..|exemptions| - 1] || e == last by {
        assert exemptions == exemptions[..|exemptions| - 1] + [last];
      }
      match FirstEntry(scheme, last, 0)
      case Some(k) => rest[last := Table(scheme)[k].1]
      case None => rest
  }

  /** `_map_exemption_details`: each exemption mapped to the description of the first table entry
      whose pattern occurs in it; nothing outside the three schemes. */
  function MapExemptionDetails(exemptions: seq<string>, jurisdiction: string): (d: map<string, string>)
    ensures forall e :: e in d ==> e in exemptions
    ensures SchemeOf(jurisdiction).None? ==> d == map[]
    ensures SchemeOf(jurisdiction).Some? ==> var scheme := SchemeOf(jurisdiction).value;
      (forall e :: e in d <==> e in exemptions && FirstEntry(scheme, e, 0).Some?)
      && (forall e :: e in d ==> d[e] == Table(scheme)[FirstEntry(scheme, e, 0).value].1)
  {
    match SchemeOf(jurisdiction)
    case None => map[]
    case Some(scheme) => DetailsOf(scheme, exemptions)
  }

  /** A citation of length six matches only the table key it equals. */
  lemma ShortCitationMatches(e: string, key: string)
    requires |e| == 6 && 6 <= |key|
    ensures Contains(e, key) <==> e == key
  {
    if Contains(e, key) {
      var i :| 0 <= i <= |e| - |key| && SliceAt(e, key, i);
      assert e[..] == e[0..6];
    } else {
      assert SliceAt(e, e, 0);
    }
  }

  /** There is no table entry for a bare `(b)(7)`: every seventh-exemption key names a subsection. */
  lemma BareSevenHasNoDetails()
    ensures FirstEntry(USScheme, "(b)(7)", 0).None?
  {
    USKeysMissBareSeven();
  }

  lemma USKeysMissBareSeven()
    ensures forall k :: 0 <= k < |USDetails| ==> !Contains("(b)(7)", USDetails[k].0)
  {
    forall k | 0 <= k < |USDetails|
      ensures !Contains("(b)(7)", USDetails[k].0)
    {
      ShortCitationMatches("(b)(7)", USDetails[k].0);
    }
  }

  // ---------------------------------------------------------------- page counts

  /** One of the three counting patterns, `(\d{1,6})\s+pages?\s+(?:after)` or
      `(?:before)\w+\s+(\d{1,6})\s+pages?` (without `\w+` unless `stemmed`), under IGNORECASE. */
  datatype CountRule = CountRule(after: seq<string>, before: seq<string>, stemmed: bool)

  const Released := CountRule(["released", "provided", "enclosed", "produced"], ["releas", "provid", "enclos", "produc"], true)
  const Withheld := CountRule(["withheld", "redacted", "denied"], ["withheld", "redacted", "denied"], false)
  const Referred := CountRule(["referred"], ["referred"], false)

  /** `\d{1,6}\s+` at `i`: the end of the digits, when a whitespace run follows them. */
  function CountDigits(s: string, i: nat): (r: Option<nat>)
    ensures r.Some? ==> i < r.value < |s| && r.value - i <= 6 && AllDigits(s[i..r.value])
  {
    match DigitsBounded(s, i, 1, 6)
    case Some(j) => if SpaceEnd(s, j) > j then Some(j) else None
    case None => None
  }

  /** `pages?` at `i`: "page" with an optional "s", greedy. */
  function PageWordEnd(s: string, i: nat): (r: Option<nat>)
    ensures r.Some? ==> i + 4 <= r.value <= |s|
  {
    if FoldAt(s, i, "page") then (if FoldAt(s, i + 4, "s") then Some(i + 5) else Some(i + 4)) else None
  }

  /** `pages?\s+(?:after)` at `i`. The `s` is kept only when whitespace follows it; without it the
      whitespace would have to start at the `s` itself. */
  function PagesThenWord(s: string, rule: CountRule, i: nat): (r: Option<nat>)
    ensures r.Some? ==> i < r.value <= |s|
  {
    match PageWordEnd(s, i)
    case None => None
    case Some(p) =>
      var q := SpaceEnd(s, p);
      if q > p then
        match FirstFoldAt(s, q, rule.after)
        case Some(k) => if |rule.after[k]| > 0 then Some(q + |rule.after[k]|) else None
        case None => None
      else None
  }

  /** The first alternative at `i`: digits, "pages", then one of the words. */
  function CountBefore(s: string, rule: CountRule, i: nat): (r: Option<nat>)
    ensures r.Some? ==> CountDigits(s, i).Some? && CountDigits(s, i).value < r.value <= |s|
  {
    match CountDigits(s, i)
    case None => None
    case Some(j) => PagesThenWord(s, rule, SpaceEnd(s, j))
  }

  /** Where the count starts in the second alternative, once its leading word ends at `p`: past
      the rest of the word when `stemmed`, then past a whitespace run. */
  function LeadEnd(s: string, rule: CountRule, p: nat): (r: Option<nat>)
    ensures r.Some? ==> p < r.value <= |s|
  {
    var e := if rule.stemmed then WordEnd(s, p) else p;
    if (rule.stemmed && e == p) || p > |s| then None
    else
      var q := SpaceEnd(s, e);
      if q > e then Some(q) else None
  }

  /** `\s+(\d{1,6})\s+pages?` after a leading word that ends at `p`. */
  function CountTail(s: string, rule: CountRule, p: nat): (r: Option<nat>)
    ensures r.Some? ==> p < r.value <= |s|
  {
    match LeadEnd(s, rule, p)
    case None => None
    case Some(q) =>
      match CountDigits(s, q)
      case None => None
      case Some(j) => PageWordEnd(s, SpaceEnd(s, j))
  }

  function CountTailMatcher(s: string, rule: CountRule): nat -> Option<nat> {
    (p: nat) => CountTail(s, rule, p)
  }

  /** The second alternative at `i`: a leading word, then digits and "pages". */
  function CountAfter(s: string, rule: CountRule, i: nat): (r: Option<nat>)
    ensures r.Some? ==> i < r.value <= |s|
  {
    match AltThen(s, i, rule.before, CountTailMatcher(s, rule))
    case None => None
    case Some(k) =>
      CountTail(s, rule, i + |rule.before[k]|)
  }

  /** A counting pattern at `i`: the first alternative, else the second. */
  function CountAt(s: string, rule: CountRule, i: nat): (r: Option<nat>)
    ensures r.Some? ==> i < r.value <= |s|
  {
    if CountBefore(s, rule, i).Some? then CountBefore(s, rule, i) else CountAfter(s, rule, i)
  }

  /** Where the count starts in the second alternative at `i`: past the leading word chosen by the
      alternation, the rest of that word and the whitespace after it. */
  function AfterStart(s: string, rule: CountRule, i: nat): (q: nat)
    ensures CountAfter(s, rule, i).Some? ==> CountDigits(s, q).Some?
  {
    match AltThen(s, i, rule.before, CountTailMatcher(s, rule))
    case None => i
    case Some(k) =>
      var p := i + |rule.before[k]|;
      assert CountTailMatcher(s, rule)(p) == CountTail(s, rule, p);
      match LeadEnd(s, rule, p)
      case Some(q) => q
      case None => i
  }

  /** Where the count starts in the match at `i`: the first group in the first alternative, the
      second group in the second. */
  function CountStart(s: string, rule: CountRule, i: nat): nat {
    if CountBefore(s, rule, i).Some? then i else AfterStart(s, rule, i)
  }

  /** The digits of the match at `i`. */
  function CountCapture(s: string, rule: CountRule, i: nat): Span {
    var q := CountStart(s, rule, i);
    Span(q, match CountDigits(s, q) case Some(j) => j case None => q)
  }

  /** Every match's group is one to six digits. */
  lemma CountCaptureDigits(s: string, rule: CountRule, i: nat)
    requires CountAt(s, rule, i).Some?
    ensures var c := CountCapture(s, rule, i);
      c.start < c.end <= |s| && c.end - c.start <= 6 && AllDigits(s[c.start..c.end])
  {
    assert CountDigits(s, CountStart(s, rule, i)).Some?;
  }

  function CountMatcher(text: string, rule: CountRule): nat -> Option<nat> {
    (i: nat) => CountAt(text, rule, i)
  }

  function CountCaptures(text: string, rule: CountRule): nat -> Span {
    (i: nat) => CountCapture(text, rule, i)
  }

  lemma CountWellFormed(text: string, rule: CountRule)
    ensures WellFormed(text, CountMatcher(text, rule)) && CapturesWithin(text, CountMatcher(text, rule), CountCaptures(text, rule))
  {
    forall i: nat | CountMatcher(text, rule)(i).Some?
      ensures i < CountMatcher(text, rule)(i).value <= |text|
      ensures CountCaptures(text, rule)(i).start <= CountCaptures(text, rule)(i).end <= |text|
    {
      assert CountMatcher(text, rule)(i) == CountAt(text, rule, i);
      assert CountCaptures(text, rule)(i) == CountCapture(text, rule, i);
      CountCaptureDigits(text, rule, i);
    }
  }

  /** The count of every match of the pattern, in text order. */
  function CountGroups(text: string, rule: CountRule): (gs: seq<string>)
  {
    CountWellFormed(text, rule);
    FindAllGroups(text, CountMatcher(text, rule), CountCaptures(text, rule))
  }

  /** Every group is the count of some match: one to six digits. */
  lemma CountGroupDigits(text: string, rule: CountRule, k: nat)
    requires k < |CountGroups(text, rule)|
    ensures 1 <= |CountGroups(text, rule)[k]| <= 6 && AllDigits(CountGroups(text, rule)[k])
  {
    var m, cap := CountMatcher(text, rule), CountCaptures(text, rule);
    CountWellFormed(text, rule);
    FindAllGroupsSound(text, m, cap, k);
    var i: nat :| m(i).Some? && CountGroups(text, rule)[k] == text[cap(i).start..cap(i).end];
    assert m(i) == CountAt(text, rule, i) && cap(i) == CountCapture(text, rule, i);
    CountCaptureDigits(text, rule, i);
  }

  lemma CountGroupsDigits(text: string, rule: CountRule)
    ensures forall k :: 0 <= k < |CountGroups(text, rule)| ==>
      1 <= |CountGroups(text, rule)[k]| <= 6 && AllDigits(CountGroups(text, rule)[k])
  {
    forall k | 0 <= k < |CountGroups(text, rule)| {
      CountGroupDigits(text, rule, k);
    }
  }

  /** The groups are empty exactly when the pattern matches nowhere. */
  lemma CountGroupsEmpty(text: string, rule: CountRule)
    ensures CountGroups(text, rule) == [] <==> forall i: nat :: CountAt(text, rule, i).None?
  {
    var m := CountMatcher(text, rule);
    CountWellFormed(text, rule);
    FindAllGroupsEmpty(text, m, CountCaptures(text, rule));
    forall i: nat ensures m(i) == CountAt(text, rule, i) {}
  }

  /** `sum(int(g) for g in groups)`. */
  function SumCounts(gs: seq<string>): nat
    requires forall k :: 0 <= k < |gs| ==> AllDigits(gs[k])
  {
    if gs == [] then 0 else DigitsValue(gs[0]) + SumCounts(gs[1..])
  }

  /** Each count of at most six digits adds at most 999999. */
  lemma {:induction false} SumCountsBound(gs: seq<string>)
    requires forall k :: 0 <= k < |gs| ==> |gs[k]| <= 6 && AllDigits(gs[k])
    ensures SumCounts(gs) <= 999999 * |gs|
  {
    if gs != [] {
      SumCountsBound(gs[1..]);
      DigitsBelow(gs[0]);
      Pow10Monotone(|gs[0]|, 6);
      assert Pow10(6) == 1000000;
    }
  }

  lemma {:induction false} Pow10Monotone(a: nat, b: nat)
    requires a <= b
    ensures Pow10(a) <= Pow10(b)
    decreases b
  {
    if a < b {
      Pow10Monotone(a, b - 1);
    }
  }

  /** One of the three counts of `_extract_page_counts`: the sum of every match's count. It is 0
      when the pattern matches nowhere, and each match adds at most 999999. */
  function PageCount(text: string, rule: CountRule): (n: nat)
    ensures (forall i: nat :: CountAt(text, rule, i).None?) ==> n == 0
    ensures n <= 999999 * |CountGroups(text, rule)|
  {
    CountGroupsDigits(text, rule);
    CountGroupsEmpty(text, rule);
    SumCountsBound(CountGroups(text, rule));
    SumCounts(CountGroups(text, rule))
  }

  // ---------------------------------------------------------------- tracking number

  /** `[-\s]`. */
  predicate IsSeparator(c: char) { c == '-' || IsSpace(c) }

  /** `[-\s]?` before a digit: a separator is taken when there is one; leaving it would put a
      separator where a digit is needed, so backtracking never helps. */
  function OptSeparator(s: string, j: nat): (k: nat)
    ensures k == j || (k == j + 1 && j < |s| && IsSeparator(s[j]))
  {
    if CharAt(s, j, IsSeparator) then j + 1 else j
  }

  /** `\d{4}` at `j`. */
  predicate FourDigits(s: string, j: nat) {
    j + 4 <= |s| && AllDigits(s[j..j + 4])
  }

  /** `[-\s]?\d{3,8}` at `j`, the end of every tracking-number pattern but the labelled one. */
  function SerialTail(s: string, j: nat): (r: Option<nat>)
    ensures r.Some? ==> j < r.value <= |s| && IsDigit(s[r.value - 1])
  {
    DigitsGreedy(s, OptSeparator(s, j), 3, 8)
  }

  /** `[-\s]?\d{4}[-\s]?\d{3,8}` at `j`. */
  function YearSerial(s: string, j: nat): (r: Option<nat>)
    ensures r.Some? ==> j < r.value <= |s| && IsDigit(s[r.value - 1])
  {
    var q := OptSeparator(s, j);
    if FourDigits(s, q) then SerialTail(s, q + 4) else None
  }

  function YearSerialMatcher(s: string): nat -> Option<nat> {
    (j: nat) => YearSerial(s, j)
  }

  function SerialTailMatcher(s: string): nat -> Option<nat> {
    (j: nat) => SerialTail(s, j)
  }

  const PrefixWords: seq<string> := ["foia", "foi", "rti", "ati"]
  const OfficeWords: seq<string> := ["foia", "foi"]
  const LabelWords: seq<string> := ["case", "reference", "tracking", "request"]
  /** `No\.?|Number|#|ID`: the optional dot is tried first, so "no." comes before "no". */
  const NumberWords: seq<string> := ["no.", "no", "number", "#", "id"]

  /** `(?:FOIA|FOI|RTI|ATI)[-\s]?\d{4}[-\s]?\d{3,8}` at `i`, under IGNORECASE. */
  function PrefixedAt(s: string, i: nat): (r: Option<nat>)
    ensures r.Some? ==> i < r.value <= |s| && IsDigit(s[r.value - 1])
  {
    match AltThen(s, i, PrefixWords, YearSerialMatcher(s))
    case None => None
    case Some(k) =>
      YearSerial(s, i + |PrefixWords[k]|)
  }

  /** `\d{4}[-\s](?:FOIA|FOI)[-\s]?\d{3,8}` at `i`, under IGNORECASE. */
  function YearFirstAt(s: string, i: nat): (r: Option<nat>)
    ensures r.Some? ==> i < r.value <= |s| && IsDigit(s[r.value - 1]) && IsDigit(s[i])
  {
    if FourDigits(s, i) && CharAt(s, i + 4, IsSeparator) then
      FourDigitsFirst(s, i);
      OfficeSerial(s, i + 5)
    else None
  }

  /** `(?:FOIA|FOI)[-\s]?\d{3,8}` at `j`, the part of the year-first pattern after the year. */
  function OfficeSerial(s: string, j: nat): (r: Option<nat>)
    ensures r.Some? ==> j < r.value <= |s| && IsDigit(s[r.value - 1])
  {
    match AltThen(s, j, OfficeWords, SerialTailMatcher(s))
    case None => None
    case Some(k) => SerialTail(s, j + |OfficeWords[k]|)
  }

  lemma FourDigitsFirst(s: string, j: nat)
    requires FourDigits(s, j)
    ensures IsDigit(s[j])
  {
    assert s[j..j + 4][0] == s[j];
  }

  /** `[:\s]`. */
  predicate IsLabelGap(c: char) { c == ':' || IsSpace(c) }

  /** `[A-Z0-9\-]` under IGNORECASE. */
  predicate IsRefChar(c: char) { IsUpperAscii(c) || IsLowerAscii(c) || IsDigit(c) || c == '-' }

  /** `[:\s]*([A-Z0-9\-]+)` at `j`: both runs are greedy and the two classes are disjoint. */
  function RefValue(s: string, j: nat): (r: Option<nat>)
    ensures r.Some? ==> j < r.value <= |s|
    ensures r.Some? ==> IsRefChar(s[r.value - 1])
  {
    if j > |s| then None
    else
      var t := RunEnd(s, j, IsLabelGap);
      var v := RunEnd(s, t, IsRefChar);
      if v > t then Some(v) else None
  }

  function RefValueMatcher(s: string): nat -> Option<nat> {
    (j: nat) => RefValue(s, j)
  }

  /** `\s*(?:No\.?|Number|#|ID)[:\s]*([A-Z0-9\-]+)` after a label word that ends at `j`. */
  function LabelTail(s: string, j: nat): (r: Option<nat>)
    ensures r.Some? ==> j < r.value <= |s|
    ensures r.Some? ==> IsRefChar(s[r.value - 1])
  {
    if j > |s| then None
    else
      var q := SpaceEnd(s, j);
      match AltThen(s, q, NumberWords, RefValueMatcher(s))
      case None => None
      case Some(k) =>
        RefValue(s, q + |NumberWords[k]|)
  }

  function LabelTailMatcher(s: string): nat -> Option<nat> {
    (j: nat) => LabelTail(s, j)
  }

  /** `(?:Case|Reference|Tracking|Request)\s*(?:No\.?|Number|#|ID)[:\s]*([A-Z0-9\-]+)` at `i`, under
      IGNORECASE. The match starts with one of the label words and ends with the reference. */
  function LabelledAt(s: string, i: nat): (r: Option<nat>)
    ensures r.Some? ==> i < r.value <= |s|
    ensures r.Some? ==> IsRefChar(s[r.value - 1])
  {
    match AltThen(s, i, LabelWords, LabelTailMatcher(s))
    case None => None
    case Some(k) =>
      LabelTail(s, i + |LabelWords[k]|)
  }

  /** Each label word starts with a lower-case letter. */
  predicate StartLower(words: seq<string>) {
    forall k :: 0 <= k < |words| ==> |words[k]| > 0 && IsLowerAscii(words[k][0])
  }

  lemma TrackingWordsStartLower()
    ensures StartLower(PrefixWords) && StartLower(LabelWords)
  {
  }

  /** A match of the first pattern starts with a letter. */
  lemma PrefixedStartsWithLetter(s: string, i: nat)
    requires PrefixedAt(s, i).Some?
    ensures IsUpperAscii(s[i]) || IsLowerAscii(s[i])
  {
    var k := AltThen(s, i, PrefixWords, YearSerialMatcher(s)).value;
    TrackingWordsStartLower();
    FoldLetter(s, i, PrefixWords[k], 0);
  }

  /** A match of the third pattern starts with one of the label words, so it keeps the label. */
  lemma LabelledKeepsLabel(s: string, i: nat)
    requires LabelledAt(s, i).Some?
    ensures exists k :: 0 <= k < |LabelWords| && FoldAt(s, i, LabelWords[k])
    ensures IsUpperAscii(s[i]) || IsLowerAscii(s[i])
  {
    var k := AltThen(s, i, LabelWords, LabelTailMatcher(s)).value;
    TrackingWordsStartLower();
    FoldLetter(s, i, LabelWords[k], 0);
  }

  function PrefixedMatcher(s: string): nat -> Option<nat> {
    (i: nat) => PrefixedAt(s, i)
  }

  function YearFirstMatcher(s: string): nat -> Option<nat> {
    (i: nat) => YearFirstAt(s, i)
  }

  function LabelledMatcher(s: string): nat -> Option<nat> {
    (i: nat) => LabelledAt(s, i)
  }

  /** `re.search` of the first pattern: its leftmost match. */
  function PrefixedSearch(s: string): (r: Option<Span>)
    ensures r.Some? ==> PrefixedAt(s, r.value.start) == Some(r.value.end)
    ensures forall i: nat :: (r.None? || i < r.value.start) ==> PrefixedAt(s, i).None?
  {
    var m := PrefixedMatcher(s);
    assert forall i: nat :: m(i) == PrefixedAt(s, i);
    Search(s, m, 0)
  }

  /** `re.search` of the second pattern. */
  function YearFirstSearch(s: string): (r: Option<Span>)
    ensures r.Some? ==> YearFirstAt(s, r.value.start) == Some(r.value.end)
    ensures forall i: nat :: (r.None? || i < r.value.start) ==> YearFirstAt(s, i).None?
  {
    var m := YearFirstMatcher(s);
    assert forall i: nat :: m(i) == YearFirstAt(s, i);
    Search(s, m, 0)
  }

  /** `re.search` of the third pattern. */
  function LabelledSearch(s: string): (r: Option<Span>)
    ensures r.Some? ==> LabelledAt(s, r.value.start) == Some(r.value.end)
    ensures forall i: nat :: (r.None? || i < r.value.start) ==> LabelledAt(s, i).None?
  {
    var m := LabelledMatcher(s);
    assert forall i: nat :: m(i) == LabelledAt(s, i);
    Search(s, m, 0)
  }

  /** A match that starts with a letter or digit and ends with one of `[A-Z0-9\-]`. */
  predicate Trimmed(s: string, m: Option<Span>) {
    m.Some? ==>
      m.value.start < m.value.end <= |s|
      && (IsDigit(s[m.value.start]) || IsUpperAscii(s[m.value.start]) || IsLowerAscii(s[m.value.start]))
      && IsRefChar(s[m.value.end - 1])
  }

  /** The stripped text of a span that starts with a letter or digit and ends with one of
      `[A-Z0-9\-]`: the span's own text. */
  function SpanText(s: string, span: Span): (r: string)
    requires span.start < span.end <= |s|
    requires IsDigit(s[span.start]) || IsUpperAscii(s[span.start]) || IsLowerAscii(s[span.start])
    requires IsRefChar(s[span.end - 1])
    ensures r == s[span.start..span.end]
  {
    var t := s[span.start..span.end];
    assert t[0] == s[span.start] && t[|t| - 1] == s[span.end - 1];
    StripNoSpace(t);
    Strip(t)
  }

  /** The stripped text of a match, if any. */
  function MatchText(s: string, m: Option<Span>): (r: Option<string>)
    requires Trimmed(s, m)
    ensures r.Some? <==> m.Some?
    ensures r.Some? ==> r.value != "" && r.value == s[m.value.start..m.value.end]
  {
    if m.None? then None
    else
      var t := SpanText(s, m.value);
      assert |t| == m.value.end - m.value.start;
      Some(t)
  }

  lemma PrefixedTrimmed(s: string)
    ensures Trimmed(s, PrefixedSearch(s))
  {
    if PrefixedSearch(s).Some? {
      PrefixedStartsWithLetter(s, PrefixedSearch(s).value.start);
    }
  }

  lemma YearFirstTrimmed(s: string)
    ensures Trimmed(s, YearFirstSearch(s))
  {
  }

  lemma LabelledTrimmed(s: string)
    ensures Trimmed(s, LabelledSearch(s))
  {
    if LabelledSearch(s).Some? {
      LabelledKeepsLabel(s, LabelledSearch(s).value.start);
    }
  }

  /** The text of the leftmost match of the first pattern. */
  function PrefixedText(s: string): (r: Option<string>)
    ensures r.None? <==> forall i: nat :: PrefixedAt(s, i).None?
    ensures r.Some? ==> r.value != ""
    ensures r.Some? ==> var span := PrefixedSearch(s).value; r.value == s[span.start..span.end]
  {
    PrefixedTrimmed(s);
    MatchText(s, PrefixedSearch(s))
  }

  /** The text of the leftmost match of the second pattern. */
  function YearFirstText(s: string): (r: Option<string>)
    ensures r.None? <==> forall i: nat :: YearFirstAt(s, i).None?
    ensures r.Some? ==> r.value != ""
    ensures r.Some? ==> var span := YearFirstSearch(s).value; r.value == s[span.start..span.end]
  {
    YearFirstTrimmed(s);
    MatchText(s, YearFirstSearch(s))
  }

  /** The text of the leftmost match of the third pattern. */
  function LabelledText(s: string): (r: Option<string>)
    ensures r.None? <==> forall i: nat :: LabelledAt(s, i).None?
    ensures r.Some? ==> r.value != ""
    ensures r.Some? ==> var span := LabelledSearch(s).value; r.value == s[span.start..span.end]
  {
    LabelledTrimmed(s);
    MatchText(s, LabelledSearch(s))
  }

  /** `_extract_tracking_number`: the text of the first pattern, in priority order, that matches
      anywhere; "" when none does. */
  function TrackingNumber(text: string): (r: string)
    ensures PrefixedText(text).Some? ==> r == PrefixedText(text).value
    ensures PrefixedText(text).None? && YearFirstText(text).Some? ==> r == YearFirstText(text).value
    ensures PrefixedText(text).None? && YearFirstText(text).None? && LabelledText(text).Some? ==>
      r == LabelledText(text).value
  {
    match PrefixedText(text)
    case Some(t) => t
    case None =>
      match YearFirstText(text)
      case Some(t) => t
      case None =>
        match LabelledText(text)
        case Some(t) => t
        case None => ""
  }

  /** No tracking number is reported exactly when none of the three patterns matches anywhere. */
  lemma TrackingNumberEmpty(text: string)
    ensures TrackingNumber(text) == "" <==>
      (forall i: nat :: PrefixedAt(text, i).None?)
      && (forall i: nat :: YearFirstAt(text, i).None?)
      && (forall i: nat :: LabelledAt(text, i).None?)
  {
    var p, y, l := PrefixedText(text), YearFirstText(text), LabelledText(text);
    if p.None? && y.None? && l.None? {
      assert TrackingNumber(text) == "";
    }
  }

  // ---------------------------------------------------------------- fee waiver

  const GrantedWords: seq<string> := ["granted", "approved", "waived"]
  const RefusedWords: seq<string> := ["denied", "rejected", "not granted"]

  /** `_detect_fee_waiver`: only a letter that mentions a fee waiver says anything about one; a
      granting word is looked for first, then a refusing one. */
  function FeeWaiver(text: string): (r: Option<bool>)
    ensures var lower := Lower(text);
      (r == Some(true) <==> Contains(lower, "fee waiver") && AnyIn(lower, GrantedWords))
      && (r == Some(false) <==> Contains(lower, "fee waiver") && !AnyIn(lower, GrantedWords)
                                && AnyIn(lower, RefusedWords))
  {
    var lower := Lower(text);
    if Contains(lower, "fee waiver") && AnyIn(lower, GrantedWords) then Some(true)
    else if Contains(lower, "fee waiver") && AnyIn(lower, RefusedWords) then Some(false)
    else None
  }

  /** A letter saying the waiver was "not granted" reads as granted: "granted" occurs inside it, and
      the granting words are looked for first. */
  lemma NotGrantedReadsAsGranted(text: string)
    requires Contains(Lower(text), "fee waiver") && Contains(Lower(text), "not granted")
    ensures FeeWaiver(text) == Some(true)
  {
    ContainsTail(Lower(text), "not granted", 4);
    assert "not granted"[4..] == GrantedWords[0];
  }

  // ---------------------------------------------------------------- parse

  /** The fields of `ParsedResponse` that `parse` fills in. */
  datatype ParsedResponse = ParsedResponse(
    determination: Determination,
    exemptions: seq<string>,
    details: map<string, string>,
    pagesReleased: nat,
    pagesWithheldFull: nat,
    pagesWithheldPartial: nat,
    pagesReferred: nat,
    trackingNumber: string,
    feeWaiverGranted: Option<bool>,
    rawText: string)

  /** `ResponseParser.parse`: every extractor reads the text; only the exemptions and their details
      depend on the jurisdiction. No extractor reports partially withheld pages. */
  function Parse(text: string, jurisdiction: string): (p: ParsedResponse)
    ensures p.rawText == text
    ensures p.pagesWithheldPartial == 0
    ensures forall e :: e in p.details ==> e in p.exemptions
    ensures Distinct(p.exemptions)
    ensures !Contains(Lower(text), "fee waiver") ==> p.feeWaiverGranted.None?
  {
    var exemptions := ExtractExemptions(text, jurisdiction);
    ExtractedDistinct(text, jurisdiction);
    ParsedResponse(
      DetectDetermination(text),
      exemptions,
      MapExemptionDetails(exemptions, jurisdiction),
      PageCount(text, Released),
      PageCount(text, Withheld),
      0,
      PageCount(text, Referred),
      TrackingNumber(text),
      FeeWaiver(text),
      text)
  }

  /** Parsing the same letter under two jurisdictions differs at most in the exemptions and their
      details. */
  lemma ParseJurisdictionOnlyExemptions(text: string, j1: string, j2: string)
    ensures var p1, p2 := Parse(text, j1), Parse(text, j2);
      p1.(exemptions := [], details := map[]) == p2.(exemptions := [], details := map[])
  {
  }
}

=== FILE: sorting.dfy ===
// Python's `list.sort(key=...)` and order-keeping list comprehensions. The sort is stable: elements
// with equal keys keep their relative order. Keys are pairs compared lexicographically, as Python
// compares tuples; a single integer key is the pair (k, 0).

module Sorting {

  type Key = (int, int)

  /** Tuple comparison: first components, then second. */
  predicate KeyLe(a: Key, b: Key) {
    a.0 < b.0 || (a.0 == b.0 && a.1 <= b.1)
  }

  ghost predicate SortedBy<T>(xs: seq<T>, key: T -> Key) {
    forall i, j :: 0 <= i < j < |xs| ==> KeyLe(key(xs[i]), key(xs[j]))
  }

  /** The elements of `xs` whose key is `k`, in their order in `xs`. */
  function WithKey<T>(xs: seq<T>, key: T -> Key, k: Key): (ys: seq<T>)
    ensures |ys| <= |xs|
  {
    if xs == [] then []
    else (if key(xs[0]) == k then [xs[0]] else []) + WithKey(xs[1..], key, k)
  }

  lemma {:induction false} WithKeyAppend<T>(a: seq<T>, b: seq<T>, key: T -> Key, k: Key)
    ensures WithKey(a + b, key, k) == WithKey(a, key, k) + WithKey(b, key, k)
    decreases |a|
  {
    if a == [] {
      assert a + b == b;
    } else {
      assert (a + b)[0] == a[0];
      assert (a + b)[1..] == a[1..] + b;
      WithKeyAppend(a[1..], b, key, k);
    }
  }

  lemma {:induction false} WithKeyNone<T>(xs: seq<T>, key: T -> Key, k: Key)
    requires forall i :: 0 <= i < |xs| ==> key(xs[i]) != k
    ensures WithKey(xs, key, k) == []
    decreases |xs|
  {
    if xs != [] {
      WithKeyNone(xs[1..], key, k);
    }
  }

  /** Where a stable insertion puts `x`: before the first element whose key is not below its own. */
  function InsertionPoint<T>(x: T, ys: seq<T>, key: T -> Key): (p: nat)
    ensures p <= |ys|
    ensures forall j :: 0 <= j < p ==> !KeyLe(key(x), key(ys[j]))
    ensures p < |ys| ==> KeyLe(key(x), key(ys[p]))
  {
    if ys == [] || KeyLe(key(x), key(ys[0])) then 0
    else 1 + InsertionPoint(x, ys[1..], key)
  }

  function Insert<T>(x: T, ys: seq<T>, key: T -> Key): (zs: seq<T>)
    ensures |zs| == |ys| + 1
    ensures multiset(zs) == multiset(ys) + multiset{x}
  {
    var p := InsertionPoint(x, ys, key);
    assert ys == ys[..p] + ys[p..];
    ys[..p] + [x] + ys[p..]
  }

  /** Insertion places `x` at the insertion point and shifts the rest up by one. */
  lemma InsertAt<T>(x: T, ys: seq<T>, key: T -> Key)
    ensures var zs, p := Insert(x, ys, key), InsertionPoint(x, ys, key);
      zs[p] == x
      && (forall i :: 0 <= i < p ==> zs[i] == ys[i])
      && (forall i :: p < i < |zs| ==> zs[i] == ys[i - 1])
  {
  }

  /** Inserting into a sorted list keeps it sorted. */
  lemma InsertSorted<T>(x: T, ys: seq<T>, key: T -> Key)
    requires SortedBy(ys, key)
    ensures SortedBy(Insert(x, ys, key), key)
  {
    var zs, p := Insert(x, ys, key), InsertionPoint(x, ys, key);
    InsertAt(x, ys, key);
    forall i, j | 0 <= i < j < |zs|
      ensures KeyLe(key(zs[i]), key(zs[j]))
    {
      if j < p {
        assert zs[i] == ys[i] && zs[j] == ys[j];
      } else if j == p {
        assert zs[j] == x && zs[i] == ys[i];
      } else if i == p {
        assert zs[i] == x && zs[j] == ys[j - 1];
        assert KeyLe(key(x), key(ys[p]));
      } else if i < p {
        assert zs[i] == ys[i] && zs[j] == ys[j - 1];
      } else {
        assert zs[i] == ys[i - 1] && zs[j] == ys[j - 1];
      }
    }
  }

  /** Putting `x` between `front` and `back` adds it to the front of its key's run, when no element
      of `front` shares its key. */
  lemma WithKeyAround<T>(front: seq<T>, x: T, back: seq<T>, key: T -> Key, k: Key)
    requires key(x) == k ==> forall i :: 0 <= i < |front| ==> key(front[i]) != k
    ensures WithKey(front + [x] + back, key, k)
            == (if key(x) == k then [x] else []) + WithKey(front + back, key, k)
  {
    var l, m, r := WithKey(front, key, k), WithKey([x], key, k), WithKey(back, key, k);
    WithKeyAppend(front, back, key, k);
    WithKeyAppend(front + [x], back, key, k);
    WithKeyAppend(front, [x], key, k);
    assert m == if key(x) == k then [x] else [] by {
      assert [x][1..] == [];
    }
    if key(x) == k {
      WithKeyNone(front, key, k);
      assert (l + m) + r == [x] + r;
    } else {
      assert (l + m) + r == l + r;
    }
  }

  /** Inserting adds `x` to the front of its own key's run: nothing before it shares its key. */
  lemma InsertWithKey<T>(x: T, ys: seq<T>, key: T -> Key, k: Key)
    ensures WithKey(Insert(x, ys, key), key, k)
            == (if key(x) == k then [x] else []) + WithKey(ys, key, k)
  {
    var p := InsertionPoint(x, ys, key);
    assert ys == ys[..p] + ys[p..];
    WithKeyAround(ys[..p], x, ys[p..], key, k);
  }

  /** `sorted(xs, key=key)`. */
  function SortBy<T>(xs: seq<T>, key: T -> Key): (ys: seq<T>)
    ensures multiset(ys) == multiset(xs)
    ensures SortedBy(ys, key)
  {
    if xs == [] then []
    else
      assert xs == [xs[0]] + xs[1..];
      InsertSorted(xs[0], SortBy(xs[1..], key), key);
      Insert(xs[0], SortBy(xs[1..], key), key)
  }

  /** Sorting adds nothing. */
  lemma SortByMember<T>(xs: seq<T>, key: T -> Key, x: T)
    requires x in SortBy(xs, key)
    ensures x in xs
  {
    assert x in multiset(SortBy(xs, key));
  }

  /** Stability: for every key, the elements carrying it come out in their input order. */
  lemma {:induction false} SortByStable<T>(xs: seq<T>, key: T -> Key, k: Key)
    ensures WithKey(SortBy(xs, key), key, k) == WithKey(xs, key, k)
    decreases |xs|
  {
    if xs != [] {
      SortByStable(xs[1..], key, k);
      InsertWithKey(xs[0], SortBy(xs[1..], key), key, k);
    }
  }

  /** A list comprehension `[x for x in xs if keep(x)]`. */
  function Keep<T>(xs: seq<T>, keep: T -> bool): (ys: seq<T>)
    ensures |ys| <= |xs|
    ensures forall i :: 0 <= i < |ys| ==> ys[i] in xs && keep(ys[i])
    ensures forall i :: 0 <= i < |xs| && keep(xs[i]) ==> xs[i] in ys
  {
    if xs == [] then []
    else
      var rest := Keep(xs[1..], keep);
      assert forall i :: 1 <= i < |xs| ==> xs[i] == xs[1..][i - 1];
      (if keep(xs[0]) then [xs[0]] else []) + rest
  }

  /** Dropping elements keeps a sorted list sorted. */
  lemma {:induction false} KeepSorted<T>(xs: seq<T>, keep: T -> bool, key: T -> Key)
    requires SortedBy(xs, key)
    ensures SortedBy(Keep(xs, keep), key)
    decreases |xs|
  {
    if xs != [] {
      KeepSorted(xs[1..], keep, key);
      var rest := Keep(xs[1..], keep);
      forall j | 0 <= j < |rest|
        ensures KeyLe(key(xs[0]), key(rest[j]))
      {
        assert rest[j] in xs[1..];
        var i :| 0 <= i < |xs[1..]| && xs[1..][i] == rest[j];
        assert xs[i + 1] == rest[j];
      }
    }
  }
}

=== FILE: text.dfy ===
/** String operations with the meaning Python gives them on `str` values.

    Characters are Unicode scalar values, as Python's `str` elements are.
    Whitespace is exactly the set for which Python's `str.isspace()` holds.
    Case mapping and `\d`/`\w` cover ASCII only; README lists what that leaves out.
 */
module Text {

  import opened Outcomes

  /** `c.isspace()` in Python: the characters `str.strip()` removes and `\s` matches. */
  predicate IsSpace(c: char) {
    ('\t' <= c <= '\r') || ('\U{1C}' <= c <= ' ') || c == '\U{85}' || c == '\U{A0}'
    || c == '\U{1680}' || ('\U{2000}' <= c <= '\U{200A}') || c == '\U{2028}' || c == '\U{2029}'
    || c == '\U{202F}' || c == '\U{205F}' || c == '\U{3000}'
  }

  predicate IsDigit(c: char) { '0' <= c <= '9' }

  predicate IsUpperAscii(c: char) { 'A' <= c <= 'Z' }

  predicate IsLowerAscii(c: char) { 'a' <= c <= 'z' }

  /** `\w` restricted to ASCII: letters, digits and underscore. */
  predicate IsWordChar(c: char) { IsDigit(c) || IsUpperAscii(c) || IsLowerAscii(c) || c == '_' }

  predicate AllDigits(s: string) { forall k :: 0 <= k < |s| ==> IsDigit(s[k]) }

  predicate AllSpace(s: string) { forall k :: 0 <= k < |s| ==> IsSpace(s[k]) }

  function UpperChar(c: char): (u: char)
    ensures !IsLowerAscii(u)
    ensures IsLowerAscii(c) ==> IsUpperAscii(u) && u as int == c as int - 32
    ensures !IsLowerAscii(c) ==> u == c
  {
    if IsLowerAscii(c) then (c as int - 32) as char else c
  }

  function LowerChar(c: char): (l: char)
    ensures !IsUpperAscii(l)
    ensures IsUpperAscii(c) ==> IsLowerAscii(l) && l as int == c as int + 32
    ensures !IsUpperAscii(c) ==> l == c
  {
    if IsUpperAscii(c) then (c as int + 32) as char else c
  }

  /** `s.upper()` for ASCII letters; every other character is kept. */
  function Upper(s: string): (r: string)
    ensures |r| == |s|
    ensures forall k :: 0 <= k < |s| ==> r[k] == UpperChar(s[k])
  {
    seq(|s|, k requires 0 <= k < |s| => UpperChar(s[k]))
  }

  /** `s.lower()` for ASCII letters; every other character is kept. */
  function Lower(s: string): (r: string)
    ensures |r| == |s|
    ensures forall k :: 0 <= k < |s| ==> r[k] == LowerChar(s[k])
  {
    seq(|s|, k requires 0 <= k < |s| => LowerChar(s[k]))
  }

  /** Upper-casing twice changes nothing more; the result has no lower-case ASCII letter. */
  lemma UpperIdempotent(s: string)
    ensures Upper(Upper(s)) == Upper(s)
    ensures forall k :: 0 <= k < |s| ==> !IsLowerAscii(Upper(s)[k])
  {
  }

  /** Lower-casing twice changes nothing more. */
  lemma LowerIdempotent(s: string)
    ensures Lower(Lower(s)) == Lower(s)
  {
  }

  lemma SpaceCons(c: char, u: string)
    requires IsSpace(c) && AllSpace(u)
    ensures AllSpace([c] + u)
  {
    assert forall k :: 1 <= k < |u| + 1 ==> ([c] + u)[k] == u[k - 1];
  }

  lemma SpaceSnoc(u: string, c: char)
    requires AllSpace(u) && IsSpace(c)
    ensures AllSpace(u + [c])
  {
    assert forall k :: 0 <= k < |u| ==> (u + [c])[k] == u[k];
  }

  /** `s.lstrip()`: the longest suffix of `s` that does not start with whitespace. */
  function StripStart(s: string): (r: string)
    ensures |r| <= |s| && r == s[|s| - |r|..]
    ensures AllSpace(s[..|s| - |r|])
    ensures r == [] || !IsSpace(r[0])
  {
    if s != [] && IsSpace(s[0]) then
      var t := s[1..];
      var r := StripStart(t);
      assert t[|t| - |r|..] == s[|s| - |r|..];
      assert s[..|s| - |r|] == [s[0]] + t[..|t| - |r|];
      SpaceCons(s[0], t[..|t| - |r|]);
      r
    else s
  }

  /** `s.rstrip()`: the longest prefix of `s` that does not end with whitespace. */
  function StripEnd(s: string): (r: string)
    ensures |r| <= |s| && r == s[..|r|]
    ensures AllSpace(s[|r|..])
    ensures r == [] || !IsSpace(r[|r| - 1])
  {
    if s != [] && IsSpace(s[|s| - 1]) then
      var t := s[..|s| - 1];
      var r := StripEnd(t);
      assert t[..|r|] == s[..|r|];
      assert s[|r|..] == t[|r|..] + [s[|s| - 1]];
      SpaceSnoc(t[|r|..], s[|s| - 1]);
      r
    else s
  }

  /** `r` occurs in `s` with only whitespace before and after it. */
  predicate SpaceFramed(s: string, r: string) {
    exists i | 0 <= i <= |s| - |r| :: SliceAt(s, r, i) && AllSpace(s[..i]) && AllSpace(s[i + |r|..])
  }

  /** `s.strip()`: `s` with its leading and trailing whitespace removed. */
  function Strip(s: string): (r: string)
    ensures |r| <= |s|
    ensures r == [] || (!IsSpace(r[0]) && !IsSpace(r[|r| - 1]))
    ensures SpaceFramed(s, r)
  {
    StripMiddle(s);
    StripEnd(StripStart(s))
  }

  /** Cutting a space-only prefix and then a space-only suffix leaves an infix framed by spaces,
      with no space at either end. */
  lemma StripMiddle(s: string)
    ensures var r := StripEnd(StripStart(s));
      |r| <= |s| && (r == [] || (!IsSpace(r[0]) && !IsSpace(r[|r| - 1]))) && SpaceFramed(s, r)
  {
    var a := StripStart(s);
    var r := StripEnd(a);
    Framing(s, a, r);
  }

  /** `StripMiddle` for any space-only prefix cut and space-only suffix cut. */
  lemma Framing(s: string, a: string, r: string)
    requires |a| <= |s| && a == s[|s| - |a|..] && AllSpace(s[..|s| - |a|]) && (a == [] || !IsSpace(a[0]))
    requires |r| <= |a| && r == a[..|r|] && AllSpace(a[|r|..]) && (r == [] || !IsSpace(r[|r| - 1]))
    ensures r == [] || !IsSpace(r[0])
    ensures SpaceFramed(s, r)
  {
    var i := |s| - |a|;
    if r != [] {
      assert r[0] == a[0];
    }
    assert s[i..i + |r|] == a[..|r|];
    var tail := s[i + |r|..];
    assert tail == a[|r|..];
    assert SliceAt(s, r, i) && AllSpace(s[..i]) && AllSpace(tail);
  }

  /** `sub` occurs in `s` starting at index `i`. */
  predicate SliceAt(s: string, sub: string, i: int) {
    0 <= i && i + |sub| <= |s| && s[i..i + |sub|] == sub
  }

  /** `s.startswith(prefix)`. */
  predicate StartsWith(s: string, prefix: string) {
    SliceAt(s, prefix, 0)
  }

  /** `s.endswith(suffix)`. */
  predicate EndsWith(s: string, suffix: string) {
    |suffix| <= |s| && s[|s| - |suffix|..] == suffix
  }

  /** Python's `sub in s`; the empty string occurs in every string. */
  predicate Contains(s: string, sub: string) {
    exists i | 0 <= i <= |s| - |sub| :: SliceAt(s, sub, i)
  }

  /** Whatever contains `sub` contains every tail of `sub`. */
  lemma ContainsTail(s: string, sub: string, k: nat)
    requires Contains(s, sub) && k <= |sub|
    ensures Contains(s, sub[k..])
  {
    var i :| 0 <= i <= |s| - |sub| && SliceAt(s, sub, i);
    assert s[i + k..i + k + |sub[k..]|] == s[i..i + |sub|][k..];
    assert SliceAt(s, sub[k..], i + k);
  }

  /** A string with no whitespace is its own strip. */
  lemma StripNoSpace(s: string)
    requires s == [] || (!IsSpace(s[0]) && !IsSpace(s[|s| - 1]))
    ensures Strip(s) == s
  {
  }

  /** The first index at or after `from` where `sub` occurs, scanning left to right. */
  function FindFrom(s: string, sub: string, from: nat): (r: Option<nat>)
    requires from <= |s|
    ensures r.Some? ==> from <= r.value && SliceAt(s, sub, r.value)
    ensures forall j :: from <= j < (if r.Some? then r.value else |s| + 1) ==> !SliceAt(s, sub, j)
    decreases |s| - from
  {
    if SliceAt(s, sub, from) then Some(from)
    else if from == |s| then None
    else FindFrom(s, sub, from + 1)
  }

  /** An occurrence that ends within the first `n` characters is an occurrence in that prefix. */
  lemma SliceInPrefix(s: string, n: nat, sub: string, j: nat)
    requires j + |sub| <= n <= |s|
    ensures SliceAt(s[..n], sub, j) == SliceAt(s, sub, j)
  {
    assert s[..n][j..j + |sub|] == s[j..j + |sub|];
  }

  /** `sep.join(parts)`. */
  function Join(parts: seq<string>, sep: string): string {
    if parts == [] then []
    else if |parts| == 1 then parts[0]
    else parts[0] + sep + Join(parts[1..], sep)
  }

  /** `s.split(sep)` for a non-empty separator: cut at each leftmost, non-overlapping occurrence. */
  function Split(s: string, sep: string): (parts: seq<string>)
    requires sep != []
    ensures |parts| >= 1
    ensures Join(parts, sep) == s
    ensures forall k :: 0 <= k < |parts| ==> !Contains(parts[k], sep)
    decreases |s|
  {
    match FindFrom(s, sep, 0)
    case None => [s]
    case Some(i) =>
      var head := s[..i];
      assert !Contains(head, sep) by {
        forall j | 0 <= j <= |head| - |sep|
          ensures !SliceAt(head, sep, j)
        {
          SliceInPrefix(s, i, sep, j);
        }
      }
      var rest := Split(s[i + |sep|..], sep);
      assert s == head + sep + s[i + |sep|..];
      [head] + rest
  }

  /** `s.replace(target, replacement)` for a non-empty `target`; Python defines it as `replacement.join(s.split(target))`. */
  function ReplaceAll(s: string, target: string, replacement: string): string
    requires target != []
  {
    Join(Split(s, target), replacement)
  }

  /** Replacing a target that does not occur leaves the string alone. */
  lemma ReplaceAbsent(s: string, target: string, replacement: string)
    requires target != [] && !Contains(s, target)
    ensures ReplaceAll(s, target, replacement) == s
  {
    assert FindFrom(s, target, 0).None?;
  }

  /** A leading occurrence of the target is replaced and a tail without one is kept. */
  lemma ReplaceLeading(target: string, tail: string, replacement: string)
    requires target != [] && !Contains(tail, target)
    ensures ReplaceAll(target + tail, target, replacement) == replacement + tail
  {
    var s := target + tail;
    assert SliceAt(s, target, 0);
    assert s[|target|..] == tail;
    assert FindFrom(tail, target, 0).None?;
    assert Split(tail, target) == [tail];
    assert Split(s, target) == [[], tail];
    assert Join([[], tail], replacement) == [] + replacement + Join([tail], replacement);
  }

  /** Upper-casing works character by character, so it distributes over concatenation. */
  lemma UpperConcat(a: string, b: string)
    ensures Upper(a + b) == Upper(a) + Upper(b)
  {
    assert forall k :: 0 <= k < |a + b| ==> Upper(a + b)[k] == (Upper(a) + Upper(b))[k];
  }

  /** `s[:n]`. */
  function Take(s: string, n: nat): (r: string)
    ensures |r| == if |s| <= n then |s| else n
    ensures r == s[..|r|]
  {
    if |s| <= n then s else s[..n]
  }

  function DigitChar(d: nat): (c: char)
    requires d < 10
    ensures IsDigit(c) && c as int - '0' as int == d
  {
    ('0' as int + d) as char
  }

  /** The number a string of decimal digits denotes (Python's `int(s)` on such a string). */
  function DigitsValue(s: string): nat
    requires AllDigits(s)
  {
    if s == [] then 0 else DigitsValue(s[..|s| - 1]) * 10 + (s[|s| - 1] as int - '0' as int)
  }

  function Pow10(n: nat): (p: nat)
    ensures p >= 1
  {
    if n == 0 then 1 else 10 * Pow10(n - 1)
  }

  /** `n` digits denote a number below `10^n`. */
  lemma {:induction false} DigitsBelow(s: string)
    requires AllDigits(s)
    ensures DigitsValue(s) < Pow10(|s|)
    decreases |s|
  {
    if s != [] {
      DigitsBelow(s[..|s| - 1]);
    }
  }

  /** `str(n)` for a natural number. */
  function NatToString(n: nat): (r: string)
    ensures 1 <= |r| && AllDigits(r)
    ensures |r| > 1 ==> r[0] != '0'
    ensures DigitsValue(r) == n
  {
    if n < 10 then [DigitChar(n)]
    else
      var r := NatToString(n / 10) + [DigitChar(n % 10)];
      assert r[..|r| - 1] == NatToString(n / 10);
      r
  }

  /** `str(i)` for any integer. */
  function IntToString(i: int): (r: string)
    ensures i >= 0 ==> r == NatToString(i)
    ensures i < 0 ==> r == "-" + NatToString(-i)
  {
    if i >= 0 then NatToString(i) else "-" + NatToString(-i)
  }

  /** `"%0*d" % (width, n)`: `str(n)` padded on the left with zeros to `width` characters. */
  function ZeroPad(n: nat, width: nat): (r: string)
    ensures AllDigits(r) && DigitsValue(r) == n
    ensures |r| == if |NatToString(n)| >= width then |NatToString(n)| else width
  {
    var digits := NatToString(n);
    if |digits| >= width then digits else ZerosThen(width - |digits|, digits)
  }

  function ZerosThen(k: nat, digits: string): (r: string)
    requires AllDigits(digits)
    ensures |r| == k + |digits| && AllDigits(r)
    ensures DigitsValue(r) == DigitsValue(digits)
    ensures r[k..] == digits
  {
    if k == 0 then digits
    else
      var r := ['0'] + ZerosThen(k - 1, digits);
      LeadingZero(ZerosThen(k - 1, digits));
      r
  }

  /** A leading zero does not change a decimal value. */
  lemma {:induction false} LeadingZero(s: string)
    requires AllDigits(s)
    ensures AllDigits(['0'] + s) && DigitsValue(['0'] + s) == DigitsValue(s)
    decreases |s|
  {
    if s != [] {
      var t := ['0'] + s;
      assert t[..|t| - 1] == ['0'] + s[..|s| - 1];
      LeadingZero(s[..|s| - 1]);
    }
  }

  /** Python's `<` on strings: lexicographic by code point, a proper prefix first. */
  predicate Less(a: string, b: string) {
    if a == [] then b != []
    else if b == [] then false
    else if a[0] != b[0] then a[0] < b[0]
    else Less(a[1..], b[1..])
  }

  lemma {:induction false} LessIrreflexive(a: string)
    ensures !Less(a, a)
    decreases |a|
  {
    if a != [] {
      LessIrreflexive(a[1..]);
    }
  }

  lemma {:induction false} LessTransitive(a: string, b: string, c: string)
    requires Less(a, b) && Less(b, c)
    ensures Less(a, c)
    decreases |a|
  {
    if a != [] && b != [] && c != [] && a[0] == b[0] && b[0] == c[0] {
      LessTransitive(a[1..], b[1..], c[1..]);
    }
  }

  lemma {:induction false} LessTotal(a: string, b: string)
    ensures a == b || Less(a, b) || Less(b, a)
    decreases |a|
  {
    if a != [] && b != [] && a[0] == b[0] {
      LessTotal(a[1..], b[1..]);
      if a[1..] == b[1..] {
        assert a == [a[0]] + a[1..] && b == [b[0]] + b[1..];
      }
    }
  }

  lemma LessAsymmetric(a: string, b: string)
    requires Less(a, b)
    ensures !Less(b, a)
  {
    if Less(b, a) {
      LessTransitive(a, b, a);
      LessIrreflexive(a);
    }
  }

  /** A common prefix does not change the order. */
  lemma {:induction false} LessPrefix(p: string, a: string, b: string)
    requires Less(a, b)
    ensures Less(p + a, p + b)
    decreases |p|
  {
    if p != [] {
      assert (p + a)[0] == p[0] == (p + b)[0];
      assert (p + a)[1..] == p[1..] + a && (p + b)[1..] == p[1..] + b;
      LessPrefix(p[1..], a, b);
    } else {
      assert p + a == a && p + b == b;
    }
  }

  /** Nor does a common suffix after strings of one length. */
  lemma {:induction false} LessSameLength(a: string, b: string, t: string)
    requires |a| == |b| && Less(a, b)
    ensures Less(a + t, b + t)
    decreases |a|
  {
    assert (a + t)[0] == a[0] && (b + t)[0] == b[0];
    if a[0] == b[0] {
      assert (a + t)[1..] == a[1..] + t && (b + t)[1..] == b[1..] + t;
      LessSameLength(a[1..], b[1..], t);
    }
  }

  predicate StrictlySorted(xs: seq<string>) {
    forall i, j :: 0 <= i < j < |xs| ==> Less(xs[i], xs[j])
  }

  /** Put `x` into its place in a strictly sorted list, unless it is there already. */
  function InsertSorted(x: string, xs: seq<string>): (r: seq<string>)
    requires StrictlySorted(xs)
    ensures StrictlySorted(r)
    ensures forall y :: y in r <==> y == x || y in xs
  {
    if xs == [] then [x]
    else if x == xs[0] then xs
    else if Less(x, xs[0]) then
      assert forall j :: 0 <= j < |xs| ==> Less(x, xs[j]) by {
        forall j | 0 <= j < |xs| ensures Less(x, xs[j]) {
          if j > 0 { LessTransitive(x, xs[0], xs[j]); }
        }
      }
      [x] + xs
    else
      LessTotal(x, xs[0]);
      var rest := InsertSorted(x, xs[1..]);
      assert forall y :: y in rest ==> Less(xs[0], y);
      [xs[0]] + rest
  }

  /** `sorted(set(xs))`: the distinct elements of `xs` in increasing order. */
  function SortedDistinct(xs: seq<string>): (r: seq<string>)
    ensures StrictlySorted(r)
    ensures forall y :: y in r <==> y in xs
  {
    if xs == [] then [] else InsertSorted(xs[|xs| - 1], SortedDistinct(xs[..|xs| - 1]))
  }
}

=== FILE: tracker.dfy ===
/** The request tracker: lifecycle states, the request record, the overdue and
    days-remaining rules, and the store of requests keyed by id.

    The database is an in-memory map from id to record together with the ids in
    creation order. The record's creation time is a counter drawn from the store,
    so "newest first" is "latest in creation order first". The id of a new row
    is chosen by the storage engine and enters as a parameter. "Today" and "now"
    are parameters too.
 */
module Tracker {
  import opened Outcomes
  import opened Text
  import opened Dates

  // ---------------------------------------------------------------- statuses

  datatype RequestStatus =
    | Draft | Filed | Acknowledged | Processing | Extended | PartialResponse | Complete
    | Denied | Appealed | AppealWon | AppealDenied | Litigation | Withdrawn | NoResponsiveRecords

  /** The enum's stored value. */
  function StatusValue(s: RequestStatus): string {
    match s
    case Draft => "draft"
    case Filed => "filed"
    case Acknowledged => "acknowledged"
    case Processing => "processing"
    case Extended => "extended"
    case PartialResponse => "partial_response"
    case Complete => "complete"
    case Denied => "denied"
    case Appealed => "appealed"
    case AppealWon => "appeal_won"
    case AppealDenied => "appeal_denied"
    case Litigation => "litigation"
    case Withdrawn => "withdrawn"
    case NoResponsiveRecords => "no_responsive_records"
  }

  /** The statuses in declaration order, which is the order `for st in RequestStatus` visits them. */
  const AllStatuses: seq<RequestStatus> :=
    [Draft, Filed, Acknowledged, Processing, Extended, PartialResponse, Complete,
     Denied, Appealed, AppealWon, AppealDenied, Litigation, Withdrawn, NoResponsiveRecords]

  lemma AllStatusesListed(s: RequestStatus)
    ensures s in AllStatuses
  {
  }

  /** Statuses after which a request can no longer be overdue. */
  predicate IsTerminal(s: RequestStatus) {
    s == Complete || s == Denied || s == Withdrawn || s == NoResponsiveRecords
  }

  // ---------------------------------------------------------------- records

  /** One row of the requests table. Nullable columns are `Option`s; `created`
      is the creation counter standing for `date_created`. */
  datatype Request = Request(
    id: int,
    referenceId: Option<string>,
    agency: string,
    agencyKey: Option<string>,
    jurisdiction: string,
    topic: string,
    created: nat,
    dateFiled: Option<Day>,
    deadline: Option<Day>,
    dateAcknowledged: Option<Day>,
    dateExtended: Option<Day>,
    extendedDeadline: Option<Day>,
    dateResponse: Option<Day>,
    status: RequestStatus,
    docsReceived: int,
    pagesReceived: int,
    pagesWithheld: int,
    exemptionsCited: Option<string>,
    filingMethod: Option<string>,
    confirmationNumber: Option<string>,
    assignedAnalyst: Option<string>,
    feePaid: Option<string>,
    feeWaiverRequested: bool,
    feeWaiverGranted: Option<bool>,
    requestText: Option<string>,
    responseSummary: Option<string>,
    notes: Option<string>,
    appealFiled: bool,
    appealDate: Option<Day>,
    appealBody: Option<string>,
    appealOutcome: Option<string>)

  /** `extended_deadline or deadline`: a set extended deadline takes precedence. */
  function EffectiveDeadline(r: Request): (d: Option<Day>)
    ensures r.extendedDeadline.Some? ==> d == r.extendedDeadline
    ensures r.extendedDeadline.None? ==> d == r.deadline
  {
    if r.extendedDeadline.Some? then r.extendedDeadline else r.deadline
  }

  /** `FOIARequest.is_overdue()` on the given day. */
  predicate IsOverdue(r: Request, today: Day) {
    if IsTerminal(r.status) then false
    else
      match EffectiveDeadline(r)
      case None => false
      case Some(d) => today > d
  }

  /** `FOIARequest.days_until_deadline()` on the given day; it does not look at the status. */
  function DaysUntilDeadline(r: Request, today: Day): (n: Option<int>)
    ensures n.None? <==> EffectiveDeadline(r).None?
    ensures n.Some? ==> today + n.value == EffectiveDeadline(r).value
  {
    match EffectiveDeadline(r)
    case None => None
    case Some(d) => Some(d - today)
  }

  /** Terminal requests are never overdue, whatever their dates. */
  lemma TerminalNeverOverdue(r: Request, today: Day)
    requires IsTerminal(r.status)
    ensures !IsOverdue(r, today)
  {
  }

  /** For a live request, overdue means a negative number of days remaining; without any
      deadline it is neither overdue nor given a day count. */
  lemma OverdueIffPastDeadline(r: Request, today: Day)
    requires !IsTerminal(r.status)
    ensures IsOverdue(r, today) <==> (DaysUntilDeadline(r, today).Some? && DaysUntilDeadline(r, today).value < 0)
    ensures EffectiveDeadline(r).None? ==> !IsOverdue(r, today) && DaysUntilDeadline(r, today).None?
  {
  }

  // ---------------------------------------------------------------- column assignment

  /** The columns of the requests table, in table order. */
  datatype Field =
    | Id | ReferenceId | Agency | AgencyKey | Jurisdiction | Topic | DateCreated
    | DateFiled | Deadline | DateAcknowledged | DateExtended | ExtendedDeadline | DateResponse
    | Status | DocsReceived | PagesReceived | PagesWithheld | ExemptionsCited
    | FilingMethod | ConfirmationNumber | AssignedAnalyst | FeePaid | FeeWaiverRequested | FeeWaiverGranted
    | RequestText | ResponseSummary | Notes | AppealFiled | AppealDate | AppealBody | AppealOutcome

  /** A column's value, whatever its type. */
  datatype Value =
    | TextValue(text: Option<string>)
    | DayValue(day: Option<Day>)
    | IntValue(number: int)
    | BoolValue(flag: bool)
    | MaybeBoolValue(maybe: Option<bool>)
    | StatusValueOf(state: RequestStatus)

  /** `getattr(r, column)`. */
  function Column(r: Request, f: Field): Value {
    match f
    case Id => IntValue(r.id)
    case ReferenceId => TextValue(r.referenceId)
    case Agency => TextValue(Some(r.agency))
    case AgencyKey => TextValue(r.agencyKey)
    case Jurisdiction => TextValue(Some(r.jurisdiction))
    case Topic => TextValue(Some(r.topic))
    case DateCreated => IntValue(r.created)
    case DateFiled => DayValue(r.dateFiled)
    case Deadline => DayValue(r.deadline)
    case DateAcknowledged => DayValue(r.dateAcknowledged)
    case DateExtended => DayValue(r.dateExtended)
    case ExtendedDeadline => DayValue(r.extendedDeadline)
    case DateResponse => DayValue(r.dateResponse)
    case Status => StatusValueOf(r.status)
    case DocsReceived => IntValue(r.docsReceived)
    case PagesReceived => IntValue(r.pagesReceived)
    case PagesWithheld => IntValue(r.pagesWithheld)
    case ExemptionsCited => TextValue(r.exemptionsCited)
    case FilingMethod => TextValue(r.filingMethod)
    case ConfirmationNumber => TextValue(r.confirmationNumber)
    case AssignedAnalyst => TextValue(r.assignedAnalyst)
    case FeePaid => TextValue(r.feePaid)
    case FeeWaiverRequested => BoolValue(r.feeWaiverRequested)
    case FeeWaiverGranted => MaybeBoolValue(r.feeWaiverGranted)
    case RequestText => TextValue(r.requestText)
    case ResponseSummary => TextValue(r.responseSummary)
    case Notes => TextValue(r.notes)
    case AppealFiled => BoolValue(r.appealFiled)
    case AppealDate => DayValue(r.appealDate)
    case AppealBody => TextValue(r.appealBody)
    case AppealOutcome => TextValue(r.appealOutcome)
  }

  /** A keyword argument naming a column and the value to store there, or a keyword naming
      no attribute of the record at all. The keywords `id` and `date_created` are left out, so
      the engine's id and the store's clock always stand. */
  datatype Assign =
    | SetReferenceId(referenceId: Option<string>)
    | SetAgency(agency: string)
    | SetAgencyKey(agencyKey: Option<string>)
    | SetJurisdiction(jurisdiction: string)
    | SetTopic(topic: string)
    | SetDateFiled(dateFiled: Option<Day>)
    | SetDeadline(deadline: Option<Day>)
    | SetDateAcknowledged(dateAcknowledged: Option<Day>)
    | SetDateExtended(dateExtended: Option<Day>)
    | SetExtendedDeadline(extendedDeadline: Option<Day>)
    | SetDateResponse(dateResponse: Option<Day>)
    | SetStatus(status: RequestStatus)
    | SetDocsReceived(docsReceived: int)
    | SetPagesReceived(pagesReceived: int)
    | SetPagesWithheld(pagesWithheld: int)
    | SetExemptionsCited(exemptionsCited: Option<string>)
    | SetFilingMethod(filingMethod: Option<string>)
    | SetConfirmationNumber(confirmationNumber: Option<string>)
    | SetAssignedAnalyst(assignedAnalyst: Option<string>)
    | SetFeePaid(feePaid: Option<string>)
    | SetFeeWaiverRequested(feeWaiverRequested: bool)
    | SetFeeWaiverGranted(feeWaiverGranted: Option<bool>)
    | SetRequestText(requestText: Option<string>)
    | SetResponseSummary(responseSummary: Option<string>)
    | SetNotes(notes: Option<string>)
    | SetAppealFiled(appealFiled: bool)
    | SetAppealDate(appealDate: Option<Day>)
    | SetAppealBody(appealBody: Option<string>)
    | SetAppealOutcome(appealOutcome: Option<string>)
    | Unknown(name: string)

  /** The column an assignment writes. */
  function Target(a: Assign): Field
    requires !a.Unknown?
  {
    match a
    case SetReferenceId(_) => ReferenceId
    case SetAgency(_) => Agency
    case SetAgencyKey(_) => AgencyKey
    case SetJurisdiction(_) => Jurisdiction
    case SetTopic(_) => Topic
    case SetDateFiled(_) => DateFiled
    case SetDeadline(_) => Deadline
    case SetDateAcknowledged(_) => DateAcknowledged
    case SetDateExtended(_) => DateExtended
    case SetExtendedDeadline(_) => ExtendedDeadline
    case SetDateResponse(_) => DateResponse
    case SetStatus(_) => Status
    case SetDocsReceived(_) => DocsReceived
    case SetPagesReceived(_) => PagesReceived
    case SetPagesWithheld(_) => PagesWithheld
    case SetExemptionsCited(_) => ExemptionsCited
    case SetFilingMethod(_) => FilingMethod
    case SetConfirmationNumber(_) => ConfirmationNumber
    case SetAssignedAnalyst(_) => AssignedAnalyst
    case SetFeePaid(_) => FeePaid
    case SetFeeWaiverRequested(_) => FeeWaiverRequested
    case SetFeeWaiverGranted(_) => FeeWaiverGranted
    case SetRequestText(_) => RequestText
    case SetResponseSummary(_) => ResponseSummary
    case SetNotes(_) => Notes
    case SetAppealFiled(_) => AppealFiled
    case SetAppealDate(_) => AppealDate
    case SetAppealBody(_) => AppealBody
    case SetAppealOutcome(_) => AppealOutcome
  }

  /** The value an assignment stores, as `Column` reads it back. */
  function AssignedValue(a: Assign): Value
    requires !a.Unknown?
  {
    match a
    case SetReferenceId(v) => TextValue(v)
    case SetAgency(v) => TextValue(Some(v))
    case SetAgencyKey(v) => TextValue(v)
    case SetJurisdiction(v) => TextValue(Some(v))
    case SetTopic(v) => TextValue(Some(v))
    case SetDateFiled(v) => DayValue(v)
    case SetDeadline(v) => DayValue(v)
    case SetDateAcknowledged(v) => DayValue(v)
    case SetDateExtended(v) => DayValue(v)
    case SetExtendedDeadline(v) => DayValue(v)
    case SetDateResponse(v) => DayValue(v)
    case SetStatus(v) => StatusValueOf(v)
    case SetDocsReceived(v) => IntValue(v)
    case SetPagesReceived(v) => IntValue(v)
    case SetPagesWithheld(v) => IntValue(v)
    case SetExemptionsCited(v) => TextValue(v)
    case SetFilingMethod(v) => TextValue(v)
    case SetConfirmationNumber(v) => TextValue(v)
    case SetAssignedAnalyst(v) => TextValue(v)
    case SetFeePaid(v) => TextValue(v)
    case SetFeeWaiverRequested(v) => BoolValue(v)
    case SetFeeWaiverGranted(v) => MaybeBoolValue(v)
    case SetRequestText(v) => TextValue(v)
    case SetResponseSummary(v) => TextValue(v)
    case SetNotes(v) => TextValue(v)
    case SetAppealFiled(v) => BoolValue(v)
    case SetAppealDate(v) => DayValue(v)
    case SetAppealBody(v) => TextValue(v)
    case SetAppealOutcome(v) => TextValue(v)
  }

  /** `setattr(r, name, value)`; a keyword naming no attribute leaves the record alone. */
  function Apply(r: Request, a: Assign): Request {
    match a
    case SetReferenceId(v) => r.(referenceId := v)
    case SetAgency(v) => r.(agency := v)
    case SetAgencyKey(v) => r.(agencyKey := v)
    case SetJurisdiction(v) => r.(jurisdiction := v)
    case SetTopic(v) => r.(topic := v)
    case SetDateFiled(v) => r.(dateFiled := v)
    case SetDeadline(v) => r.(deadline := v)
    case SetDateAcknowledged(v) => r.(dateAcknowledged := v)
    case SetDateExtended(v) => r.(dateExtended := v)
    case SetExtendedDeadline(v) => r.(extendedDeadline := v)
    case SetDateResponse(v) => r.(dateResponse := v)
    case SetStatus(v) => r.(status := v)
    case SetDocsReceived(v) => r.(docsReceived := v)
    case SetPagesReceived(v) => r.(pagesReceived := v)
    case SetPagesWithheld(v) => r.(pagesWithheld := v)
    case SetExemptionsCited(v) => r.(exemptionsCited := v)
    case SetFilingMethod(v) => r.(filingMethod := v)
    case SetConfirmationNumber(v) => r.(confirmationNumber := v)
    case SetAssignedAnalyst(v) => r.(assignedAnalyst := v)
    case SetFeePaid(v) => r.(feePaid := v)
    case SetFeeWaiverRequested(v) => r.(feeWaiverRequested := v)
    case SetFeeWaiverGranted(v) => r.(feeWaiverGranted := v)
    case SetRequestText(v) => r.(requestText := v)
    case SetResponseSummary(v) => r.(responseSummary := v)
    case SetNotes(v) => r.(notes := v)
    case SetAppealFiled(v) => r.(appealFiled := v)
    case SetAppealDate(v) => r.(appealDate := v)
    case SetAppealBody(v) => r.(appealBody := v)
    case SetAppealOutcome(v) => r.(appealOutcome := v)
    case Unknown(_) => r
  }

  /** The keyword arguments applied in order, as the `setattr` loop does. */
  function ApplyAll(r: Request, assigns: seq<Assign>): Request
    decreases |assigns|
  {
    if assigns == [] then r else Apply(ApplyAll(r, assigns[..|assigns| - 1]), assigns[|assigns| - 1])
  }

  /** Reference definition: a column holds the value of the last assignment to it, or `initial`
      when none assigns it. */
  function LastAssigned(assigns: seq<Assign>, f: Field, initial: Value): Value
    decreases |assigns|
  {
    if assigns == [] then initial
    else
      var a := assigns[|assigns| - 1];
      if !a.Unknown? && Target(a) == f then AssignedValue(a)
      else LastAssigned(assigns[..|assigns| - 1], f, initial)
  }

  /** An assignment stores its value in its own column. The constructors are taken in
      groups to keep each proof small. */
  lemma ApplyStores(r: Request, a: Assign)
    requires !a.Unknown?
    ensures Column(Apply(r, a), Target(a)) == AssignedValue(a)
  {
    if a.SetReferenceId? || a.SetAgency? || a.SetAgencyKey? || a.SetJurisdiction? || a.SetTopic? {
      ApplyStores1(r, a);
    } else if a.SetDateFiled? || a.SetDeadline? || a.SetDateAcknowledged? || a.SetDateExtended? || a.SetExtendedDeadline? {
      ApplyStores2(r, a);
    } else if a.SetDateResponse? || a.SetStatus? || a.SetDocsReceived? || a.SetPagesReceived? {
      ApplyStores3(r, a);
    } else if a.SetPagesWithheld? || a.SetExemptionsCited? || a.SetFilingMethod? || a.SetConfirmationNumber? {
      ApplyStores4(r, a);
    } else if a.SetAssignedAnalyst? || a.SetFeePaid? || a.SetFeeWaiverRequested? {
      ApplyStores5(r, a);
    } else if a.SetFeeWaiverGranted? || a.SetRequestText? || a.SetResponseSummary? {
      ApplyStores6(r, a);
    } else if a.SetNotes? || a.SetAppealFiled? || a.SetAppealDate? {
      ApplyStores7(r, a);
    } else {
      ApplyStores8(r, a);
    }
  }

  /** An assignment leaves every other column alone. */
  lemma ApplyKeeps(r: Request, a: Assign, f: Field)
    requires a.Unknown? || Target(a) != f
    ensures Column(Apply(r, a), f) == Column(r, f)
  {
    if a.Unknown? {
    } else if a.SetReferenceId? || a.SetAgency? {
      ApplyKeeps1(r, a, f);
    } else if a.SetAgencyKey? || a.SetJurisdiction? {
      ApplyKeeps2(r, a, f);
    } else if a.SetTopic? || a.SetDateFiled? {
      ApplyKeeps3(r, a, f);
    } else if a.SetDeadline? || a.SetDateAcknowledged? {
      ApplyKeeps4(r, a, f);
    } else if a.SetDateExtended? || a.SetExtendedDeadline? {
      ApplyKeeps5(r, a, f);
    } else if a.SetDateResponse? || a.SetStatus? {
      ApplyKeeps6(r, a, f);
    } else if a.SetDocsReceived? || a.SetPagesReceived? {
      ApplyKeeps7(r, a, f);
    } else if a.SetPagesWithheld? || a.SetExemptionsCited? {
      ApplyKeeps8(r, a, f);
    } else if a.SetFilingMethod? || a.SetConfirmationNumber? {
      ApplyKeeps9(r, a, f);
    } else if a.SetAssignedAnalyst? || a.SetFeePaid? {
      ApplyKeeps10(r, a, f);
    } else if a.SetFeeWaiverRequested? || a.SetFeeWaiverGranted? {
      ApplyKeeps11(r, a, f);
    } else if a.SetRequestText? || a.SetResponseSummary? {
      ApplyKeeps12(r, a, f);
    } else if a.SetNotes? || a.SetAppealFiled? {
      ApplyKeeps13(r, a, f);
    } else if a.SetAppealDate? || a.SetAppealBody? {
      ApplyKeeps14(r, a, f);
    } else if a.SetAppealOutcome? {
      ApplyKeeps15(r, a, f);
    }
  }

  lemma ApplyStores1(r: Request, a: Assign)
    requires a.SetReferenceId?
      || a.SetAgency?
      || a.SetAgencyKey?
      || a.SetJurisdiction?
      || a.SetTopic?
    ensures Column(Apply(r, a), Target(a)) == AssignedValue(a)
  {
  }

  lemma ApplyStores2(r: Request, a: Assign)
    requires a.SetDateFiled?
      || a.SetDeadline?
      || a.SetDateAcknowledged?
      || a.SetDateExtended?
      || a.SetExtendedDeadline?
    ensures Column(Apply(r, a), Target(a)) == AssignedValue(a)
  {
  }

  lemma ApplyStores3(r: Request, a: Assign)
    requires a.SetDateResponse?
      || a.SetStatus?
      || a.SetDocsReceived?
      || a.SetPagesReceived?
    ensures Column(Apply(r, a), Target(a)) == AssignedValue(a)
  {
  }

  lemma ApplyStores4(r: Request, a: Assign)
    requires a.SetPagesWithheld?
      || a.SetExemptionsCited?
      || a.SetFilingMethod?
      || a.SetConfirmationNumber?
    ensures Column(Apply(r, a), Target(a)) == AssignedValue(a)
  {
  }

  lemma ApplyStores5(r: Request, a: Assign)
    requires a.SetAssignedAnalyst?
      || a.SetFeePaid?
      || a.SetFeeWaiverRequested?
    ensures Column(Apply(r, a), Target(a)) == AssignedValue(a)
  {
  }

  lemma ApplyStores6(r: Request, a: Assign)
    requires a.SetFeeWaiverGranted?
      || a.SetRequestText?
      || a.SetResponseSummary?
    ensures Column(Apply(r, a), Target(a)) == AssignedValue(a)
  {
  }

  lemma ApplyStores7(r: Request, a: Assign)
    requires a.SetNotes?
      || a.SetAppealFiled?
      || a.SetAppealDate?
    ensures Column(Apply(r, a), Target(a)) == AssignedValue(a)
  {
  }

  lemma ApplyStores8(r: Request, a: Assign)
    requires a.SetAppealBody?
      || a.SetAppealOutcome?
    ensures Column(Apply(r, a), Target(a)) == AssignedValue(a)
  {
  }

  lemma ApplyKeeps1(r: Request, a: Assign, f: Field)
    requires a.SetReferenceId?
      || a.SetAgency?
    requires Target(a) != f
    ensures Column(Apply(r, a), f) == Column(r, f)
  {
  }

  lemma ApplyKeeps2(r: Request, a: Assign, f: Field)
    requires a.SetAgencyKey?
      || a.SetJurisdiction?
    requires Target(a) != f
    ensures Column(Apply(r, a), f) == Column(r, f)
  {
  }

  lemma ApplyKeeps3(r: Request, a: Assign, f: Field)
    requires a.SetTopic?
      || a.SetDateFiled?
    requires Target(a) != f
    ensures Column(Apply(r, a), f) == Column(r, f)
  {
  }

  lemma ApplyKeeps4(r: Request, a: Assign, f: Field)
    requires a.SetDeadline?
      || a.SetDateAcknowledged?
    requires Target(a) != f
    ensures Column(Apply(r, a), f) == Column(r, f)
  {
  }

  lemma ApplyKeeps5(r: Request, a: Assign, f: Field)
    requires a.SetDateExtended?
      || a.SetExtendedDeadline?
    requires Target(a) != f
    ensures Column(Apply(r, a), f) == Column(r, f)
  {
  }

  lemma ApplyKeeps6(r: Request, a: Assign, f: Field)
    requires a.SetDateResponse?
      || a.SetStatus?
    requires Target(a) != f
    ensures Column(Apply(r, a), f) == Column(r, f)
  {
  }

  lemma ApplyKeeps7(r: Request, a: Assign, f: Field)
    requires a.SetDocsReceived?
      || a.SetPagesReceived?
    requires Target(a) != f
    ensures Column(Apply(r, a), f) == Column(r, f)
  {
  }

  lemma ApplyKeeps8(r: Request, a: Assign, f: Field)
    requires a.SetPagesWithheld?
      || a.SetExemptionsCited?
    requires Target(a) != f
    ensures Column(Apply(r, a), f) == Column(r, f)
  {
  }

  lemma ApplyKeeps9(r: Request, a: Assign, f: Field)
    requires a.SetFilingMethod?
      || a.SetConfirmationNumber?
    requires Target(a) != f
    ensures Column(Apply(r, a), f) == Column(r, f)
  {
  }

  lemma ApplyKeeps10(r: Request, a: Assign, f: Field)
    requires a.SetAssignedAnalyst?
      || a.SetFeePaid?
    requires Target(a) != f
    ensures Column(Apply(r, a), f) == Column(r, f)
  {
  }

  lemma ApplyKeeps11(r: Request, a: Assign, f: Field)
    requires a.SetFeeWaiverRequested?
      || a.SetFeeWaiverGranted?
    requires Target(a) != f
    ensures Column(Apply(r, a), f) == Column(r, f)
  {
  }

  lemma ApplyKeeps12(r: Request, a: Assign, f: Field)
    requires a.SetRequestText?
      || a.SetResponseSummary?
    requires Target(a) != f
    ensures Column(Apply(r, a), f) == Column(r, f)
  {
  }

  lemma ApplyKeeps13(r: Request, a: Assign, f: Field)
    requires a.SetNotes?
      || a.SetAppealFiled?
    requires Target(a) != f
    ensures Column(Apply(r, a), f) == Column(r, f)
  {
  }

  lemma ApplyKeeps14(r: Request, a: Assign, f: Field)
    requires a.SetAppealDate?
      || a.SetAppealBody?
    requires Target(a) != f
    ensures Column(Apply(r, a), f) == Column(r, f)
  {
  }

  lemma ApplyKeeps15(r: Request, a: Assign, f: Field)
    requires a.SetAppealOutcome?
    requires Target(a) != f
    ensures Column(Apply(r, a), f) == Column(r, f)
  {
  }

  lemma ApplyColumn(r: Request, a: Assign, f: Field)
    ensures !a.Unknown? && Target(a) == f ==> Column(Apply(r, a), f) == AssignedValue(a)
    ensures a.Unknown? || Target(a) != f ==> Column(Apply(r, a), f) == Column(r, f)
  {
    if !a.Unknown? && Target(a) == f {
      ApplyStores(r, a);
    } else {
      ApplyKeeps(r, a, f);
    }
  }

  /** Applying keyword arguments leaves each column holding its last assigned value, and
      every column no argument names as it was. */
  lemma {:induction false} ApplyAllColumn(r: Request, assigns: seq<Assign>, f: Field)
    ensures Column(ApplyAll(r, assigns), f) == LastAssigned(assigns, f, Column(r, f))
    decreases |assigns|
  {
    if assigns != [] {
      var init := assigns[..|assigns| - 1];
      ApplyAllColumn(r, init, f);
      ApplyColumn(ApplyAll(r, init), assigns[|assigns| - 1], f);
    }
  }

  lemma ApplyAllColumns(r: Request, assigns: seq<Assign>)
    ensures forall f :: Column(ApplyAll(r, assigns), f) == LastAssigned(assigns, f, Column(r, f))
  {
    forall f
      ensures Column(ApplyAll(r, assigns), f) == LastAssigned(assigns, f, Column(r, f))
    {
      ApplyAllColumn(r, assigns, f);
    }
  }

  /** No assignment of the model touches the id or the creation time. */
  lemma {:induction false} IdAndCreatedUnassigned(assigns: seq<Assign>, initial: Value)
    ensures LastAssigned(assigns, Id, initial) == initial
    ensures LastAssigned(assigns, DateCreated, initial) == initial
    decreases |assigns|
  {
    if assigns != [] {
      IdAndCreatedUnassigned(assigns[..|assigns| - 1], initial);
    }
  }

  /** Without a `status=` keyword, the status column keeps its value. */
  lemma {:induction false} StatusUnassigned(assigns: seq<Assign>, initial: Value)
    requires forall k :: 0 <= k < |assigns| ==> !assigns[k].SetStatus?
    ensures LastAssigned(assigns, Status, initial) == initial
    decreases |assigns|
  {
    if assigns != [] {
      var init := assigns[..|assigns| - 1];
      assert forall k :: 0 <= k < |init| ==> init[k] == assigns[k];
      StatusUnassigned(init, initial);
    }
  }

  /** Without keywords repeating the named parameters, the columns they set keep their values. */
  lemma {:induction false} NamedUnassigned(assigns: seq<Assign>, f: Field, initial: Value)
    requires f == Agency || f == Jurisdiction || f == Topic || f == RequestText
    requires forall k :: 0 <= k < |assigns| ==> !IsNamedParameter(assigns[k])
    ensures LastAssigned(assigns, f, initial) == initial
    decreases |assigns|
  {
    if assigns != [] {
      var init := assigns[..|assigns| - 1];
      assert forall k :: 0 <= k < |init| ==> init[k] == assigns[k];
      NamedUnassigned(init, f, initial);
    }
  }

  // ---------------------------------------------------------------- the store

  /** The requests table: rows by id, ids in creation order, and the creation counter. */
  datatype Store = Store(records: map<int, Request>, order: seq<int>, clock: nat)

  const EmptyStore := Store(map[], [], 0)

  /** Every id in the order is stored, and every stored id is in the order. */
  ghost predicate OrderCoversRecords(s: Store) {
    (forall i :: 0 <= i < |s.order| ==> s.order[i] in s.records)
    && (forall id :: id in s.records ==> id in s.order)
  }

  /** The table invariant: the order lists exactly the stored ids; creation stamps rise along
      the order and lie below the counter; each row knows its own id; no two rows share a
      non-null reference id (the column's unique constraint). */
  ghost predicate Valid(s: Store) {
    OrderCoversRecords(s)
    && (forall id :: id in s.records ==> s.records[id].id == id && s.records[id].created < s.clock)
    && (forall i, j :: 0 <= i < j < |s.order| ==> s.records[s.order[i]].created < s.records[s.order[j]].created)
    && (forall a, b ::
          (a in s.records && b in s.records && s.records[a].referenceId.Some?
           && s.records[a].referenceId == s.records[b].referenceId) ==> a == b)
  }

  /** The empty table satisfies the invariant. */
  lemma EmptyStoreValid()
    ensures Valid(EmptyStore) && EmptyStore.records == map[]
  {
  }

  /** Some other row already holds this non-null reference id. */
  predicate ReferenceTaken(s: Store, id: int, ref: Option<string>) {
    ref.Some? && exists other :: other in s.records && other != id && s.records[other].referenceId == ref
  }

  /** A fresh row with the column defaults: status DRAFT, zero counts, fee waiver requested,
      no appeal, and every nullable column null. */
  function NewRecord(id: int, created: nat, agency: string, jurisdiction: string, topic: string, requestText: string): Request {
    Request(id, None, agency, None, jurisdiction, topic, created,
            None, None, None, None, None, None,
            Draft, 0, 0, 0, None,
            None, None, None, None, true, None,
            Some(requestText), None, None,
            false, None, None, None)
  }

  predicate IsNamedParameter(a: Assign) {
    a.SetAgency? || a.SetJurisdiction? || a.SetTopic? || a.SetRequestText?
  }

  /** The first keyword argument that names no attribute, if any. */
  function FirstUnknown(assigns: seq<Assign>): (r: Option<string>)
    ensures r.None? <==> forall k :: 0 <= k < |assigns| ==> !assigns[k].Unknown?
    ensures r.Some? ==> exists k :: 0 <= k < |assigns| && assigns[k] == Unknown(r.value)
    decreases |assigns|
  {
    if assigns == [] then None
    else if assigns[0].Unknown? then Some(assigns[0].name)
    else
      var rest := FirstUnknown(assigns[1..]);
      assert forall k :: 1 <= k < |assigns| ==> assigns[k] == assigns[1..][k - 1];
      rest
  }

  /** The first keyword argument that repeats one of `create_request`'s named parameters. */
  function FirstRepeated(assigns: seq<Assign>): (r: Option<string>)
    ensures r.None? <==> forall k :: 0 <= k < |assigns| ==> !IsNamedParameter(assigns[k])
    decreases |assigns|
  {
    if assigns == [] then None
    else if IsNamedParameter(assigns[0]) then Some(FieldName(Target(assigns[0])))
    else
      var rest := FirstRepeated(assigns[1..]);
      assert forall k :: 1 <= k < |assigns| ==> assigns[k] == assigns[1..][k - 1];
      rest
  }

  /** The Python name of a column. */
  function FieldName(f: Field): string {
    match f
    case Id => "id" case ReferenceId => "reference_id" case Agency => "agency"
    case AgencyKey => "agency_key" case Jurisdiction => "jurisdiction" case Topic => "topic"
    case DateCreated => "date_created" case DateFiled => "date_filed" case Deadline => "deadline"
    case DateAcknowledged => "date_acknowledged" case DateExtended => "date_extended"
    case ExtendedDeadline => "extended_deadline" case DateResponse => "date_response"
    case Status => "status" case DocsReceived => "docs_received" case PagesReceived => "pages_received"
    case PagesWithheld => "pages_withheld" case ExemptionsCited => "exemptions_cited"
    case FilingMethod => "filing_method" case ConfirmationNumber => "confirmation_number"
    case AssignedAnalyst => "assigned_analyst" case FeePaid => "fee_paid"
    case FeeWaiverRequested => "fee_waiver_requested" case FeeWaiverGranted => "fee_waiver_granted"
    case RequestText => "request_text" case ResponseSummary => "response_summary" case Notes => "notes"
    case AppealFiled => "appeal_filed" case AppealDate => "appeal_date" case AppealBody => "appeal_body"
    case AppealOutcome => "appeal_outcome"
  }

  const UniqueViolation := "UNIQUE constraint failed: foia_requests.reference_id"

  /** `create_request(agency, jurisdiction, topic, request_text, **kwargs)`. The new row takes the
      engine-chosen `id` and the next creation stamp, starts from the column defaults, and takes
      every keyword argument, the last one per column winning. Repeating a named parameter is a
      `TypeError` at the call, a keyword naming no column is a `TypeError` in the constructor,
      and a reference id already in use violates the unique constraint at commit. */
  function Create(s: Store, id: int, agency: string, jurisdiction: string, topic: string,
                  requestText: string, extra: seq<Assign>): (res: Result<(Store, Request)>)
    requires Valid(s)
    requires id !in s.records
    ensures res.Ok? <==>
      (forall k :: 0 <= k < |extra| ==> !IsNamedParameter(extra[k]) && !extra[k].Unknown?)
      && !ReferenceTaken(s, id, ApplyAll(NewRecord(id, s.clock, agency, jurisdiction, topic, requestText), extra).referenceId)
    ensures res.Ok? ==>
      var (s', r) := res.value;
      Valid(s') && s'.records == s.records[id := r] && s'.order == s.order + [id]
      && r.id == id && r.agency == agency && r.jurisdiction == jurisdiction && r.topic == topic
      && r.requestText == Some(requestText)
      && (forall f :: Column(r, f) == LastAssigned(extra, f, Column(NewRecord(id, s.clock, agency, jurisdiction, topic, requestText), f)))
  {
    match FirstRepeated(extra)
    case Some(name) => Err("create_request() got multiple values for argument '" + name + "'")
    case None =>
      match FirstUnknown(extra)
      case Some(name) => Err("'" + name + "' is an invalid keyword argument for FOIARequest")
      case None =>
        var r0 := NewRecord(id, s.clock, agency, jurisdiction, topic, requestText);
        var r := ApplyAll(r0, extra);
        if ReferenceTaken(s, id, r.referenceId) then Err(UniqueViolation)
        else
          CreatedRecord(r0, extra);
          AppendValid(s, r);
          Ok((Store(s.records[id := r], s.order + [id], s.clock + 1), r))
  }

  /** What the keyword arguments leave of a fresh row: its id, creation stamp and named parameters. */
  lemma CreatedRecord(r0: Request, extra: seq<Assign>)
    requires forall k :: 0 <= k < |extra| ==> !IsNamedParameter(extra[k])
    ensures var r := ApplyAll(r0, extra);
      r.id == r0.id && r.created == r0.created && r.agency == r0.agency && r.jurisdiction == r0.jurisdiction
      && r.topic == r0.topic && r.requestText == r0.requestText
    ensures forall f :: Column(ApplyAll(r0, extra), f) == LastAssigned(extra, f, Column(r0, f))
  {
    ApplyAllColumns(r0, extra);
    KeptIdentity(r0, extra);
    KeptNamed(r0, extra);
  }

  lemma KeptIdentity(r0: Request, extra: seq<Assign>)
    ensures ApplyAll(r0, extra).id == r0.id && ApplyAll(r0, extra).created == r0.created
  {
    ApplyAllColumn(r0, extra, Id);
    ApplyAllColumn(r0, extra, DateCreated);
    IdAndCreatedUnassigned(extra, Column(r0, Id));
    IdAndCreatedUnassigned(extra, Column(r0, DateCreated));
  }

  lemma KeptNamed(r0: Request, extra: seq<Assign>)
    requires forall k :: 0 <= k < |extra| ==> !IsNamedParameter(extra[k])
    ensures var r := ApplyAll(r0, extra);
      r.agency == r0.agency && r.jurisdiction == r0.jurisdiction
      && r.topic == r0.topic && r.requestText == r0.requestText
  {
    ApplyAllColumn(r0, extra, Agency);
    ApplyAllColumn(r0, extra, Jurisdiction);
    ApplyAllColumn(r0, extra, Topic);
    ApplyAllColumn(r0, extra, RequestText);
    NamedUnassigned(extra, Agency, Column(r0, Agency));
    NamedUnassigned(extra, Jurisdiction, Column(r0, Jurisdiction));
    NamedUnassigned(extra, Topic, Column(r0, Topic));
    NamedUnassigned(extra, RequestText, Column(r0, RequestText));
  }

  /** Appending a row with a fresh id, the current stamp and an unused reference keeps the invariant. */
  lemma AppendValid(s: Store, r: Request)
    requires Valid(s) && r.id !in s.records && r.created == s.clock
    requires !ReferenceTaken(s, r.id, r.referenceId)
    ensures Valid(Store(s.records[r.id := r], s.order + [r.id], s.clock + 1))
  {
    var s' := Store(s.records[r.id := r], s.order + [r.id], s.clock + 1);
    assert forall i :: 0 <= i < |s.order| ==> s'.order[i] == s.order[i];
    assert OrderCoversRecords(s');
    AppendOrdered(s, r);
  }

  lemma AppendOrdered(s: Store, r: Request)
    requires Valid(s) && r.id !in s.records && r.created == s.clock
    ensures var s' := Store(s.records[r.id := r], s.order + [r.id], s.clock + 1);
      forall i, j :: 0 <= i < j < |s'.order| ==> s'.records[s'.order[i]].created < s'.records[s'.order[j]].created
  {
    var s' := Store(s.records[r.id := r], s.order + [r.id], s.clock + 1);
    forall i, j | 0 <= i < j < |s'.order|
      ensures s'.records[s'.order[i]].created < s'.records[s'.order[j]].created
    {
      assert s.order[i] in s.records;
      assert s'.order[i] == s.order[i] && s'.records[s'.order[i]] == s.records[s.order[i]];
      if j < |s.order| {
        assert s'.order[j] == s.order[j] && s'.records[s'.order[j]] == s.records[s.order[j]];
      } else {
        assert s'.order[j] == r.id && s'.records[s'.order[j]] == r;
      }
    }
  }

  /** `get_request(id)`. */
  function Get(s: Store, id: int): (r: Option<Request>)
    requires Valid(s)
    ensures r.Some? <==> id in s.records
    ensures r.Some? ==> r.value == s.records[id] && r.value.id == id
  {
    if id in s.records then Some(s.records[id]) else None
  }

  /** `get_by_reference(ref)`: the first row in creation order with that reference id. */
  function GetByReference(s: Store, ref: string): (r: Option<Request>)
    requires Valid(s)
    ensures r.None? <==> forall id :: id in s.records ==> s.records[id].referenceId != Some(ref)
    ensures r.Some? ==> r.value.id in s.records && s.records[r.value.id] == r.value && r.value.referenceId == Some(ref)
  {
    var r := FirstWithReference(s, s.order, ref);
    assert r.None? ==> forall id :: id in s.records ==> s.records[id].referenceId != Some(ref) by {
      forall id | id in s.records
        ensures s.order[IndexOf(s.order, id)] == id
      {
      }
    }
    r
  }

  function FirstWithReference(s: Store, ids: seq<int>, ref: string): (r: Option<Request>)
    requires Valid(s)
    requires forall k :: 0 <= k < |ids| ==> ids[k] in s.records
    ensures r.None? <==> forall k :: 0 <= k < |ids| ==> s.records[ids[k]].referenceId != Some(ref)
    ensures r.Some? ==> r.value.id in s.records && s.records[r.value.id] == r.value && r.value.referenceId == Some(ref)
    decreases |ids|
  {
    if ids == [] then None
    else if s.records[ids[0]].referenceId == Some(ref) then
      assert s.records[ids[0]].id == ids[0];
      Some(s.records[ids[0]])
    else
      assert forall k :: 1 <= k < |ids| ==> ids[k] == ids[1..][k - 1];
      FirstWithReference(s, ids[1..], ref)
  }

  /** With unique reference ids, the lookup by reference finds exactly the row holding it. */
  lemma GetByReferenceExact(s: Store, id: int, ref: string)
    requires Valid(s) && id in s.records && s.records[id].referenceId == Some(ref)
    ensures GetByReference(s, ref) == Some(s.records[id])
  {
  }

  function IndexOf(ids: seq<int>, id: int): (k: nat)
    requires id in ids
    ensures k < |ids| && ids[k] == id
    ensures forall j :: 0 <= j < k ==> ids[j] != id
  {
    if ids[0] == id then 0 else 1 + IndexOf(ids[1..], id)
  }

  // ---------------------------------------------------------------- listing

  /** SQL `LIKE` as SQLite evaluates it without an `ESCAPE` clause: `%` matches any run of
      characters, `_` any single character, and every other character itself. */
  predicate Like(t: string, p: string)
    decreases |t| + |p|
  {
    if p == [] then t == []
    else if p[0] == '%' then Like(t, p[1..]) || (t != [] && Like(t[1..], p))
    else t != [] && (p[0] == '_' || p[0] == t[0]) && Like(t[1..], p[1..])
  }

  /** `ILIKE`, which SQLAlchemy renders on SQLite as `lower(t) LIKE lower(p)`. */
  predicate ILike(t: string, p: string) {
    Like(Lower(t), Lower(p))
  }

  /** A text in which neither wildcard occurs. */
  predicate Literal(q: string) {
    forall k :: 0 <= k < |q| ==> q[k] != '%' && q[k] != '_'
  }

  /** The filters of `list_requests`: each applies only when given (an empty text is not given).
      The agency filter is `ILIKE '%agency%'`, with the agency text itself taken as a pattern. */
  datatype Filter = Filter(jurisdiction: string, status: Option<RequestStatus>, agency: string)

  predicate Matches(r: Request, f: Filter) {
    (f.jurisdiction == "" || r.jurisdiction == f.jurisdiction)
    && (f.status.None? || r.status == f.status.value)
    && (f.agency == "" || ILike(r.agency, "%" + f.agency + "%"))
  }

  /** A lone `%` matches anything. */
  lemma {:induction false} LikeAnyRun(t: string)
    ensures Like(t, "%")
    decreases |t|
  {
    assert "%"[1..] == "";
    if t != [] {
      LikeAnyRun(t[1..]);
    }
  }

  /** A literal followed by `%` matches exactly the texts it starts. */
  lemma {:induction false} LikePrefix(t: string, q: string)
    requires Literal(q)
    ensures Like(t, q + "%") <==> StartsWith(t, q)
    decreases |q|
  {
    if q == [] {
      assert q + "%" == "%";
      LikeAnyRun(t);
    } else {
      var p := q + "%";
      assert p[0] == q[0] && p[1..] == q[1..] + "%";
      assert Literal(q[1..]) by {
        forall k | 0 <= k < |q[1..]|
          ensures q[1..][k] != '%' && q[1..][k] != '_'
        {
          assert q[1..][k] == q[k + 1];
        }
      }
      if t != [] {
        LikePrefix(t[1..], q[1..]);
        assert StartsWith(t, q) <==> t[0] == q[0] && StartsWith(t[1..], q[1..]) by {
          if StartsWith(t, q) {
            assert t[1..][..|q| - 1] == t[1..|q|] == q[1..];
          }
          if t[0] == q[0] && StartsWith(t[1..], q[1..]) {
            assert t[..|q|] == [t[0]] + t[1..][..|q| - 1];
          }
        }
      }
    }
  }

  /** A text contains `sub` exactly when it starts with it or its tail contains it. */
  lemma ContainsUnfold(t: string, sub: string)
    ensures Contains(t, sub) <==> StartsWith(t, sub) || (t != [] && Contains(t[1..], sub))
  {
    if Contains(t, sub) {
      var i :| 0 <= i <= |t| - |sub| && SliceAt(t, sub, i);
      if i > 0 {
        assert t[1..][i - 1..i - 1 + |sub|] == t[i..i + |sub|];
        assert SliceAt(t[1..], sub, i - 1);
      }
    }
    if t != [] && Contains(t[1..], sub) {
      var i :| 0 <= i <= |t[1..]| - |sub| && SliceAt(t[1..], sub, i);
      assert t[i + 1..i + 1 + |sub|] == t[1..][i..i + |sub|];
      assert SliceAt(t, sub, i + 1);
    }
  }

  /** `'%' + q + '%'` with a literal `q` is the substring test. */
  lemma {:induction false} LikeSubstring(t: string, q: string)
    requires Literal(q)
    ensures Like(t, "%" + q + "%") <==> Contains(t, q)
    decreases |t|
  {
    var p := "%" + q + "%";
    assert p[0] == '%' && p[1..] == q + "%";
    LikePrefix(t, q);
    ContainsUnfold(t, q);
    if t != [] {
      LikeSubstring(t[1..], q);
    }
  }

  /** Lower-casing leaves the wildcards where they are and adds none. */
  lemma LowerPattern(q: string)
    ensures Lower("%" + q + "%") == "%" + Lower(q) + "%"
    ensures Literal(q) ==> Literal(Lower(q))
  {
  }

  /** An agency filter without wildcards is the case-insensitive substring test. */
  lemma AgencyFilterLiteral(agency: string, q: string)
    requires Literal(q)
    ensures ILike(agency, "%" + q + "%") <==> Contains(Lower(agency), Lower(q))
  {
    LowerPattern(q);
    LikeSubstring(Lower(agency), Lower(q));
  }

  /** The agency text is not escaped: a filter of `_` lists every row with a non-empty agency,
      whether or not its name holds an underscore. */
  lemma UnderscoreMatchesAnyAgency(agency: string)
    requires agency != ""
    ensures ILike(agency, "%" + "_" + "%")
  {
    var t := Lower(agency);
    var p := "%" + "_" + "%";
    assert Lower(p) == p;
    assert p[1..] == "_%" && "_%"[1..] == "%";
    LikeAnyRun(t[1..]);
    assert Like(t, "_%");
  }

  /** Ids that are stored under themselves. */
  ghost predicate StoredIds(s: Store, ids: seq<int>) {
    forall k :: 0 <= k < |ids| ==> ids[k] in s.records && s.records[ids[k]].id == ids[k]
  }

  /** Ids whose rows were created in increasing order. */
  ghost predicate CreatedInOrder(s: Store, ids: seq<int>)
    requires forall k :: 0 <= k < |ids| ==> ids[k] in s.records
  {
    forall i, j :: 0 <= i < j < |ids| ==> s.records[ids[i]].created < s.records[ids[j]].created
  }

  lemma StoreOrderFacts(s: Store)
    requires Valid(s)
    ensures StoredIds(s, s.order) && CreatedInOrder(s, s.order)
  {
  }

  /** The stored rows whose ids are in `ids` and that `keep` accepts, latest id first. */
  function NewestMatching(s: Store, ids: seq<int>, keep: Request -> bool): (rs: seq<Request>)
    requires StoredIds(s, ids)
    ensures |rs| <= |ids|
    ensures forall k :: 0 <= k < |rs| ==>
      keep(rs[k]) && rs[k].id in s.records && s.records[rs[k].id] == rs[k]
    ensures forall i :: 0 <= i < |ids| && keep(s.records[ids[i]]) ==> s.records[ids[i]] in rs
    decreases |ids|
  {
    if ids == [] then []
    else
      var init := ids[..|ids| - 1];
      var last := s.records[ids[|ids| - 1]];
      assert forall k :: 0 <= k < |init| ==> init[k] == ids[k];
      var rest := NewestMatching(s, init, keep);
      if keep(last) then [last] + rest else rest
  }

  /** Newest-first listings are ordered by strictly decreasing creation stamp. */
  ghost predicate NewestFirst(rs: seq<Request>) {
    forall i, j :: 0 <= i < j < |rs| ==> rs[i].created > rs[j].created
  }

  /** Ids in creation order give rows in newest-first order, none newer than the last id. */
  lemma {:induction false} NewestMatchingOrdered(s: Store, ids: seq<int>, keep: Request -> bool)
    requires StoredIds(s, ids) && CreatedInOrder(s, ids)
    ensures NewestFirst(NewestMatching(s, ids, keep))
    ensures ids != [] ==>
      forall k :: 0 <= k < |NewestMatching(s, ids, keep)| ==>
        NewestMatching(s, ids, keep)[k].created <= s.records[ids[|ids| - 1]].created
    decreases |ids|
  {
    if ids != [] {
      var init := ids[..|ids| - 1];
      assert forall k :: 0 <= k < |init| ==> init[k] == ids[k];
      NewestMatchingOrdered(s, init, keep);
      var rest := NewestMatching(s, init, keep);
      var last := s.records[ids[|ids| - 1]];
      if init != [] {
        assert s.records[init[|init| - 1]].created < last.created;
      }
      assert forall k :: 0 <= k < |rest| ==> rest[k].created < last.created;
      if keep(last) {
        NewestFirstCons(last, rest);
      }
    }
  }

  /** A row newer than every row of a newest-first listing can go in front of it. */
  lemma NewestFirstCons(r: Request, rest: seq<Request>)
    requires NewestFirst(rest)
    requires forall k :: 0 <= k < |rest| ==> rest[k].created < r.created
    ensures NewestFirst([r] + rest)
  {
    var rs := [r] + rest;
    forall i, j | 0 <= i < j < |rs|
      ensures rs[i].created > rs[j].created
    {
      assert rs[j] == rest[j - 1];
      if i > 0 {
        assert rs[i] == rest[i - 1];
      }
    }
  }

  /** `rs[offset:offset + limit]`. */
  function Window(rs: seq<Request>, offset: nat, limit: nat): (w: seq<Request>)
    ensures |w| == if offset >= |rs| then 0 else if |rs| - offset < limit then |rs| - offset else limit
    ensures forall k :: 0 <= k < |w| ==> w[k] == rs[offset + k]
  {
    if offset >= |rs| then []
    else if |rs| - offset < limit then rs[offset..]
    else rs[offset..offset + limit]
  }

  /** `all` lists every stored row matching `f`, and nothing else, newest first. */
  ghost predicate ListingOf(s: Store, f: Filter, all: seq<Request>) {
    NewestFirst(all)
    && (forall k :: 0 <= k < |all| ==> Matches(all[k], f) && all[k].id in s.records && s.records[all[k].id] == all[k])
    && (forall id :: id in s.records && Matches(s.records[id], f) ==> s.records[id] in all)
  }

  /** Two newest-first sequences holding the same rows are the same sequence. */
  lemma {:induction false} NewestFirstUnique(a: seq<Request>, b: seq<Request>)
    requires NewestFirst(a) && NewestFirst(b)
    requires forall x :: x in a <==> x in b
    ensures a == b
    decreases |a|
  {
    if a != [] {
      assert a[0] in b;
    }
    if b != [] {
      assert b[0] in a;
    }
    if a != [] && b != [] {
      SameHead(a, b);
      forall x
        ensures x in a[1..] <==> x in b[1..]
      {
        if x in a[1..] {
          TailMember(a, b, x);
        }
        if x in b[1..] {
          TailMember(b, a, x);
        }
      }
      NewestFirstUnique(a[1..], b[1..]);
      assert a == [a[0]] + a[1..] && b == [b[0]] + b[1..];
    }
  }

  /** Two newest-first listings of the same rows start with the same, newest, row. */
  lemma SameHead(a: seq<Request>, b: seq<Request>)
    requires NewestFirst(a) && NewestFirst(b) && a != [] && b != []
    requires a[0] in b && b[0] in a
    ensures a[0] == b[0]
  {
    var j :| 0 <= j < |b| && b[j] == a[0];
    var i :| 0 <= i < |a| && a[i] == b[0];
    assert j == 0;
  }

  /** A row past the head of one newest-first listing is past the head of another holding the
      same rows and the same head. */
  lemma TailMember(a: seq<Request>, b: seq<Request>, x: Request)
    requires NewestFirst(a) && NewestFirst(b) && a != [] && b != [] && a[0] == b[0]
    requires forall y :: y in a <==> y in b
    requires x in a[1..]
    ensures x in b[1..]
  {
    var k :| 0 <= k < |a[1..]| && a[1..][k] == x;
    assert a[k + 1] == x && x.created < a[0].created;
    assert x in a;
    var m :| 0 <= m < |b| && b[m] == x;
    assert m != 0;
    assert b[1..][m - 1] == x;
  }

  /** At most one sequence lists the matching rows newest first. */
  lemma ListingUnique(s: Store, f: Filter, a: seq<Request>, b: seq<Request>)
    requires ListingOf(s, f, a) && ListingOf(s, f, b)
    ensures a == b
  {
    forall x
      ensures x in a <==> x in b
    {
      if x in a {
        var k :| 0 <= k < |a| && a[k] == x;
        assert s.records[x.id] == x && Matches(s.records[x.id], f);
      }
      if x in b {
        var k :| 0 <= k < |b| && b[k] == x;
        assert s.records[x.id] == x && Matches(s.records[x.id], f);
      }
    }
    NewestFirstUnique(a, b);
  }

  /** The matching rows read from the creation order, newest first. */
  function AllMatching(s: Store, f: Filter): (all: seq<Request>)
    requires Valid(s)
    ensures ListingOf(s, f, all)
  {
    StoreOrderFacts(s);
    NewestMatchingOrdered(s, s.order, r => Matches(r, f));
    var all := NewestMatching(s, s.order, r => Matches(r, f));
    forall id | id in s.records && Matches(s.records[id], f)
      ensures s.records[id] in all
    {
      var i := IndexOf(s.order, id);
    }
    all
  }

  /** `list_requests(jurisdiction, status, agency, limit, offset)`: the `offset`/`limit` window of
      the matching rows, newest first. */
  function ListRequests(s: Store, f: Filter, limit: nat, offset: nat): (rs: seq<Request>)
    requires Valid(s)
    ensures forall all :: ListingOf(s, f, all) ==> rs == Window(all, offset, limit)
    ensures |rs| <= limit
    ensures forall k :: 0 <= k < |rs| ==> Matches(rs[k], f) && rs[k].id in s.records && s.records[rs[k].id] == rs[k]
    ensures NewestFirst(rs)
  {
    var all := AllMatching(s, f);
    forall other | ListingOf(s, f, other)
      ensures other == all
    {
      ListingUnique(s, f, other, all);
    }
    Window(all, offset, limit)
  }

  /** With no offset and a limit covering the whole table, the listing holds exactly the
      matching rows. */
  lemma ListRequestsComplete(s: Store, f: Filter, limit: nat)
    requires Valid(s) && limit >= |s.records|
    ensures forall id :: id in s.records ==> (s.records[id] in ListRequests(s, f, limit, 0) <==> Matches(s.records[id], f))
  {
    OrderLength(s);
    var all := AllMatching(s, f);
    assert |all| <= |s.order| by {
      StoreOrderFacts(s);
    }
    assert ListRequests(s, f, limit, 0) == all;
  }

  /** The order lists each stored id once. */
  lemma OrderLength(s: Store)
    requires Valid(s)
    ensures |s.order| == |s.records|
  {
    forall i, j | 0 <= i < j < |s.order|
      ensures s.order[i] != s.order[j]
    {
      assert s.records[s.order[i]].created < s.records[s.order[j]].created;
    }
    DistinctCard(s.order, s.records.Keys);
  }

  /** A repetition-free sequence listing exactly the elements of a set is as long as the set is large. */
  lemma {:induction false} DistinctCard(xs: seq<int>, elems: set<int>)
    requires forall i, j :: 0 <= i < j < |xs| ==> xs[i] != xs[j]
    requires forall x :: x in elems <==> x in xs
    ensures |elems| == |xs|
    decreases |xs|
  {
    if xs == [] {
      assert forall x :: x !in elems;
      assert elems == {};
    } else {
      var init := xs[..|xs| - 1];
      var last := xs[|xs| - 1];
      forall x
        ensures x in elems - {last} <==> x in init
      {
        if x in init {
          var i :| 0 <= i < |init| && init[i] == x;
          assert xs[i] == x;
        }
        if x in xs && x != last {
          var i :| 0 <= i < |xs| && xs[i] == x;
          assert init[i] == x;
        }
      }
      DistinctCard(init, elems - {last});
    }
  }

  // ---------------------------------------------------------------- overdue and statistics

  /** The row filter of `get_overdue`: not terminal, and either a past extended deadline, or no
      extended deadline and a past deadline. */
  predicate OverdueRow(r: Request, today: Day) {
    !IsTerminal(r.status)
    && ((r.extendedDeadline.Some? && r.extendedDeadline.value < today)
        || (r.extendedDeadline.None? && r.deadline.Some? && r.deadline.value < today))
  }

  /** The query and the per-request rule agree on every row and every day. */
  lemma OverdueRowIsOverdue(r: Request, today: Day)
    ensures OverdueRow(r, today) <==> IsOverdue(r, today)
  {
  }

  /** The rows of `ids` the overdue query selects, in id order. */
  function OverdueRows(s: Store, ids: seq<int>, today: Day): (rs: seq<Request>)
    requires StoredIds(s, ids)
    ensures |rs| <= |ids|
    ensures forall k :: 0 <= k < |rs| ==>
      OverdueRow(rs[k], today) && rs[k].id in s.records && s.records[rs[k].id] == rs[k]
    ensures forall i :: 0 <= i < |ids| && OverdueRow(s.records[ids[i]], today) ==> s.records[ids[i]] in rs
    decreases |ids|
  {
    if ids == [] then []
    else
      var first := s.records[ids[0]];
      assert forall k :: 1 <= k < |ids| ==> ids[k] == ids[1..][k - 1];
      var rest := OverdueRows(s, ids[1..], today);
      if OverdueRow(first, today) then [first] + rest else rest
  }

  /** Rows listed oldest first, by strictly increasing creation stamp. */
  ghost predicate OldestFirst(rs: seq<Request>) {
    forall i, j :: 0 <= i < j < |rs| ==> rs[i].created < rs[j].created
  }

  /** A row older than every row of an oldest-first listing can go in front of it. */
  lemma OldestFirstCons(r: Request, rest: seq<Request>)
    requires OldestFirst(rest)
    requires forall k :: 0 <= k < |rest| ==> r.created < rest[k].created
    ensures OldestFirst([r] + rest)
  {
    var rs := [r] + rest;
    forall i, j | 0 <= i < j < |rs|
      ensures rs[i].created < rs[j].created
    {
      assert rs[j] == rest[j - 1];
      if i > 0 {
        assert rs[i] == rest[i - 1];
      }
    }
  }

  /** The overdue query keeps the creation order of the ids it reads, none older than the first. */
  lemma {:induction false} OverdueRowsOrdered(s: Store, ids: seq<int>, today: Day)
    requires StoredIds(s, ids) && CreatedInOrder(s, ids)
    ensures OldestFirst(OverdueRows(s, ids, today))
    ensures ids != [] ==>
      forall k :: 0 <= k < |OverdueRows(s, ids, today)| ==>
        s.records[ids[0]].created <= OverdueRows(s, ids, today)[k].created
    decreases |ids|
  {
    if ids != [] {
      var tail := ids[1..];
      assert forall k :: 0 <= k < |tail| ==> tail[k] == ids[k + 1];
      OverdueRowsOrdered(s, tail, today);
      var rest := OverdueRows(s, tail, today);
      var first := s.records[ids[0]];
      if tail != [] {
        assert first.created < s.records[tail[0]].created;
      }
      assert forall k :: 0 <= k < |rest| ==> first.created < rest[k].created;
      if OverdueRow(first, today) {
        OldestFirstCons(first, rest);
      }
    }
  }

  /** Stored rows listed oldest first have distinct ids. */
  lemma OldestFirstDistinct(s: Store, rs: seq<Request>)
    requires forall k :: 0 <= k < |rs| ==> rs[k].id in s.records && s.records[rs[k].id] == rs[k]
    requires OldestFirst(rs)
    ensures forall i, j :: 0 <= i < j < |rs| ==> rs[i].id != rs[j].id
  {
  }

  /** `get_overdue()` on the given day, in creation order: every stored request that is overdue
      on that day, each once. */
  function GetOverdue(s: Store, today: Day): (rs: seq<Request>)
    requires Valid(s)
    ensures forall k :: 0 <= k < |rs| ==> IsOverdue(rs[k], today) && rs[k].id in s.records && s.records[rs[k].id] == rs[k]
    ensures forall id :: id in s.records && IsOverdue(s.records[id], today) ==> s.records[id] in rs
    ensures forall i, j :: 0 <= i < j < |rs| ==> rs[i].id != rs[j].id
  {
    StoreOrderFacts(s);
    OverdueRowsOrdered(s, s.order, today);
    var rs := OverdueRows(s, s.order, today);
    OldestFirstDistinct(s, rs);
    assert forall k :: 0 <= k < |rs| ==> IsOverdue(rs[k], today) by {
      forall k | 0 <= k < |rs|
        ensures IsOverdue(rs[k], today)
      {
        OverdueRowIsOverdue(rs[k], today);
      }
    }
    assert forall id :: id in s.records && IsOverdue(s.records[id], today) ==> s.records[id] in rs by {
      forall id | id in s.records && IsOverdue(s.records[id], today)
        ensures s.records[id] in rs
      {
        OverdueRowIsOverdue(s.records[id], today);
        var i := IndexOf(s.order, id);
      }
    }
    rs
  }

  /** The ids of the stored requests that are overdue on the given day. */
  ghost function OverdueIds(s: Store, today: Day): set<int> {
    set id | id in s.records && IsOverdue(s.records[id], today)
  }

  /** The overdue query returns as many rows as there are overdue requests. */
  lemma OverdueCount(s: Store, today: Day)
    requires Valid(s)
    ensures |GetOverdue(s, today)| == |OverdueIds(s, today)|
  {
    var rs := GetOverdue(s, today);
    var ids := seq(|rs|, k requires 0 <= k < |rs| => rs[k].id);
    forall x
      ensures x in OverdueIds(s, today) <==> x in ids
    {
      if x in OverdueIds(s, today) {
        var k :| 0 <= k < |rs| && rs[k] == s.records[x];
        assert ids[k] == x;
      }
    }
    DistinctCard(ids, OverdueIds(s, today));
  }

  /** How many of the rows have this status. */
  function CountStatus(rs: seq<Request>, st: RequestStatus): (n: nat)
    ensures n <= |rs|
    decreases |rs|
  {
    if rs == [] then 0 else (if rs[0].status == st then 1 else 0) + CountStatus(rs[1..], st)
  }

  /** The rows of the given ids. */
  function Rows(s: Store, ids: seq<int>): (rs: seq<Request>)
    requires forall k :: 0 <= k < |ids| ==> ids[k] in s.records
    ensures |rs| == |ids| && forall k :: 0 <= k < |ids| ==> rs[k] == s.records[ids[k]]
  {
    seq(|ids|, k requires 0 <= k < |ids| => s.records[ids[k]])
  }

  /** `get_stats()`: the row count, the overdue count, and per-status counts for the statuses
      that occur, in declaration order. */
  datatype Stats = Stats(total: nat, overdue: nat, byStatus: seq<(string, nat)>)

  /** The `(value, count)` entries for the statuses of `sts` that occur among the rows. */
  function StatusCounts(rs: seq<Request>, sts: seq<RequestStatus>): (entries: seq<(string, nat)>)
    ensures forall k :: 0 <= k < |entries| ==> entries[k].1 > 0
    ensures forall st :: st in sts && CountStatus(rs, st) > 0 ==> (StatusValue(st), CountStatus(rs, st)) in entries
    ensures forall e :: e in entries ==> exists st :: st in sts && e == (StatusValue(st), CountStatus(rs, st))
    decreases |sts|
  {
    if sts == [] then []
    else
      var n := CountStatus(rs, sts[0]);
      (if n > 0 then [(StatusValue(sts[0]), n)] else []) + StatusCounts(rs, sts[1..])
  }

  function GetStats(s: Store, today: Day): (st: Stats)
    requires Valid(s)
    ensures st.total == |s.records|
    ensures st.overdue == |GetOverdue(s, today)| == |OverdueIds(s, today)|
    ensures forall k :: 0 <= k < |st.byStatus| ==> st.byStatus[k].1 > 0
    ensures forall x :: x in AllStatuses ==>
      (CountStatus(Rows(s, s.order), x) > 0 <==> (StatusValue(x), CountStatus(Rows(s, s.order), x)) in st.byStatus)
  {
    OrderLength(s);
    OverdueCount(s, today);
    Stats(|s.order|, |GetOverdue(s, today)|, StatusCounts(Rows(s, s.order), AllStatuses))
  }

  function SumCounts(entries: seq<(string, nat)>): nat
    decreases |entries|
  {
    if entries == [] then 0 else entries[0].1 + SumCounts(entries[1..])
  }

  /** The per-status counts add up to the total: every row has exactly one status. */
  lemma StatsAddUp(s: Store, today: Day)
    requires Valid(s)
    ensures SumCounts(GetStats(s, today).byStatus) == GetStats(s, today).total
  {
    var rs := Rows(s, s.order);
    OrderLength(s);
    AllStatusesDistinct();
    SumStatusCounts(rs, AllStatuses);
    CountInAll(rs);
    assert GetStats(s, today).byStatus == StatusCounts(rs, AllStatuses);
  }

  lemma {:induction false} SumCountsAppend(a: seq<(string, nat)>, b: seq<(string, nat)>)
    ensures SumCounts(a + b) == SumCounts(a) + SumCounts(b)
    decreases |a|
  {
    if a == [] {
      assert a + b == b;
    } else {
      assert (a + b)[0] == a[0];
      assert (a + b)[1..] == a[1..] + b;
      SumCountsAppend(a[1..], b);
    }
  }

  /** The position of a status in declaration order. */
  function StatusIndex(st: RequestStatus): (k: nat)
    ensures k < |AllStatuses| && AllStatuses[k] == st
  {
    match st
    case Draft => 0 case Filed => 1 case Acknowledged => 2 case Processing => 3 case Extended => 4
    case PartialResponse => 5 case Complete => 6 case Denied => 7 case Appealed => 8 case AppealWon => 9
    case AppealDenied => 10 case Litigation => 11 case Withdrawn => 12 case NoResponsiveRecords => 13
  }

  lemma AllStatusesDistinct()
    ensures forall i, j :: 0 <= i < j < |AllStatuses| ==> AllStatuses[i] != AllStatuses[j]
  {
    assert forall i :: 0 <= i < |AllStatuses| ==> StatusIndex(AllStatuses[i]) == i;
  }

  /** The number of rows whose status is among `sts`. */
  function CountIn(rs: seq<Request>, sts: seq<RequestStatus>): nat
    decreases |rs|
  {
    if rs == [] then 0 else (if rs[0].status in sts then 1 else 0) + CountIn(rs[1..], sts)
  }

  lemma {:induction false} CountInSplit(rs: seq<Request>, sts: seq<RequestStatus>)
    requires sts != []
    requires sts[0] !in sts[1..]
    ensures CountIn(rs, sts) == CountStatus(rs, sts[0]) + CountIn(rs, sts[1..])
    decreases |rs|
  {
    if rs != [] {
      CountInSplit(rs[1..], sts);
      assert rs[0].status in sts <==> rs[0].status == sts[0] || rs[0].status in sts[1..];
    }
  }

  lemma {:induction false} CountInNone(rs: seq<Request>, sts: seq<RequestStatus>)
    requires sts == []
    ensures CountIn(rs, sts) == 0
    decreases |rs|
  {
    if rs != [] {
      CountInNone(rs[1..], sts);
    }
  }

  /** Summing the per-status counts over distinct statuses counts the rows whose status is among them. */
  lemma {:induction false} SumStatusCounts(rs: seq<Request>, sts: seq<RequestStatus>)
    requires forall i, j :: 0 <= i < j < |sts| ==> sts[i] != sts[j]
    ensures SumCounts(StatusCounts(rs, sts)) == CountIn(rs, sts)
    decreases |sts|
  {
    if sts == [] {
      CountInNone(rs, sts);
    } else {
      var n := CountStatus(rs, sts[0]);
      var head: seq<(string, nat)> := if n > 0 then [(StatusValue(sts[0]), n)] else [];
      SumCountsAppend(head, StatusCounts(rs, sts[1..]));
      assert forall j :: 0 <= j < |sts[1..]| ==> sts[1..][j] == sts[j + 1];
      SumStatusCounts(rs, sts[1..]);
      CountInSplit(rs, sts);
      assert SumCounts(head) == n by {
        if n > 0 {
          assert head[1..] == [];
        }
      }
    }
  }

  lemma {:induction false} CountInAll(rs: seq<Request>)
    ensures CountIn(rs, AllStatuses) == |rs|
    decreases |rs|
  {
    if rs != [] {
      CountInAll(rs[1..]);
      var k := StatusIndex(rs[0].status);
      assert rs[0].status in AllStatuses;
    }
  }

  // ---------------------------------------------------------------- updates

  /** The store with one existing row replaced. */
  function Replace(s: Store, r: Request): Store
    requires r.id in s.records
  {
    Store(s.records[r.id := r], s.order, s.clock)
  }

  /** Replacing a row by one with the same id and stamp and an unused reference keeps the invariant. */
  lemma ReplaceValid(s: Store, r: Request)
    requires Valid(s) && r.id in s.records && r.created == s.records[r.id].created
    requires !ReferenceTaken(s, r.id, r.referenceId)
    ensures Valid(Replace(s, r))
  {
    var s' := Replace(s, r);
    assert OrderCoversRecords(s');
    forall i, j | 0 <= i < j < |s.order|
      ensures s'.records[s.order[i]].created < s'.records[s.order[j]].created
    {
      assert s.records[s.order[i]].created < s.records[s.order[j]].created;
    }
  }

  /** `update_status(id, status, **kwargs)`. A missing id gives `None` and changes nothing.
      Otherwise the status is set and then each keyword naming a column is assigned in turn;
      keywords naming nothing are skipped. A `status=` keyword repeats the named parameter
      (a `TypeError`), and a reference id already in use fails the unique constraint. */
  function UpdateStatus(s: Store, id: int, status: RequestStatus, assigns: seq<Assign>): (res: Result<(Store, Option<Request>)>)
    requires Valid(s)
    ensures id !in s.records ==> res == Ok((s, None))
    ensures res.Ok? ==> Valid(res.value.0)
    ensures id in s.records ==>
      (res.Err? <==> (exists k :: 0 <= k < |assigns| && assigns[k].SetStatus?)
                     || ReferenceTaken(s, id, ApplyAll(s.records[id].(status := status), assigns).referenceId))
    ensures res.Ok? && id in s.records ==>
      var (s', updated) := res.value;
      updated.Some? && updated.value.id == id && updated.value.status == status
      && s'.records == s.records[id := updated.value] && s'.order == s.order
      && (forall f :: f != Status ==>
            Column(updated.value, f) == LastAssigned(assigns, f, Column(s.records[id], f)))
  {
    if id !in s.records then Ok((s, None))
    else if exists k :: 0 <= k < |assigns| && assigns[k].SetStatus? then
      Err("update_status() got multiple values for argument 'status'")
    else
      var r := ApplyAll(s.records[id].(status := status), assigns);
      if ReferenceTaken(s, id, r.referenceId) then Err(UniqueViolation)
      else
        UpdatedRecord(s.records[id], status, assigns);
        ReplaceValid(s, r);
        Ok((Replace(s, r), Some(r)))
  }

  /** What `update_status` makes of a row: the new status, its id and stamp kept, and every
      other column holding its last assigned value or, unassigned, its old one. */
  lemma UpdatedRecord(before: Request, status: RequestStatus, assigns: seq<Assign>)
    requires forall k :: 0 <= k < |assigns| ==> !assigns[k].SetStatus?
    ensures var r := ApplyAll(before.(status := status), assigns);
      r.id == before.id && r.created == before.created && r.status == status
      && forall f :: f != Status ==> Column(r, f) == LastAssigned(assigns, f, Column(before, f))
  {
    var r0 := before.(status := status);
    var r := ApplyAll(r0, assigns);
    ApplyAllColumns(r0, assigns);
    StatusOnly(before, status);
    KeptColumns(r, r0, before, assigns);
    IdAndCreatedUnassigned(assigns, Column(r0, Id));
    IdAndCreatedUnassigned(assigns, Column(r0, DateCreated));
    StatusUnassigned(assigns, Column(r0, Status));
    assert Column(r, Status) == StatusValueOf(status);
  }

  /** Setting the status changes no other column. */
  lemma StatusOnly(before: Request, status: RequestStatus)
    ensures forall f :: f != Status ==> Column(before.(status := status), f) == Column(before, f)
  {
    forall f | f != Status
      ensures Column(before.(status := status), f) == Column(before, f)
    {
      ApplyColumn(before, SetStatus(status), f);
    }
  }

  lemma KeptColumns(r: Request, r0: Request, before: Request, assigns: seq<Assign>)
    requires forall f :: Column(r, f) == LastAssigned(assigns, f, Column(r0, f))
    requires forall f :: f != Status ==> Column(r0, f) == Column(before, f)
    ensures forall f :: f != Status ==> Column(r, f) == LastAssigned(assigns, f, Column(before, f))
  {
  }

  /** A note timestamp: `datetime.utcnow()` to the minute. */
  datatype Moment = Moment(day: Day, hour: nat, minute: nat)

  /** `strftime("%Y-%m-%d %H:%M")`. */
  function StampText(m: Moment): string {
    IsoFormat(m.day) + " " + ZeroPad(m.hour, 2) + ":" + ZeroPad(m.minute, 2)
  }

  /** `f"[{timestamp}] {note}"`. */
  function NoteEntry(m: Moment, note: string): string {
    "[" + StampText(m) + "] " + note
  }

  /** The notes after appending an entry: the entry alone when there were none (null or empty),
      else the old notes, a newline, and the entry. */
  function AppendedNotes(notes: Option<string>, entry: string): (r: string)
    ensures notes.None? || notes.value == "" ==> r == entry
    ensures notes.Some? && notes.value != "" ==>
      |r| == |notes.value| + 1 + |entry| && r[..|notes.value|] == notes.value && r[|notes.value|..] == "\n" + entry
  {
    if notes.Some? && notes.value != "" then notes.value + "\n" + entry else entry
  }

  /** `add_note(id, note)` at moment `now`. Only the notes column changes. */
  function AddNote(s: Store, id: int, note: string, now: Moment): (res: (Store, Option<Request>))
    requires Valid(s)
    ensures id !in s.records ==> res == (s, None)
    ensures id in s.records ==>
      res.1.Some? && res.1.value == s.records[id].(notes := Some(AppendedNotes(s.records[id].notes, NoteEntry(now, note))))
      && res.0 == Replace(s, res.1.value) && Valid(res.0)
  {
    if id !in s.records then (s, None)
    else
      var before := s.records[id];
      var r := before.(notes := Some(AppendedNotes(before.notes, NoteEntry(now, note))));
      ReplaceValid(s, r);
      (Replace(s, r), Some(r))
  }

  /** Appending keeps the old notes as a prefix and ends with the new entry. */
  lemma AppendedNotesGrow(notes: Option<string>, entry: string)
    ensures EndsWith(AppendedNotes(notes, entry), entry)
    ensures notes.Some? ==> StartsWith(AppendedNotes(notes, entry), notes.value)
  {
    var text := AppendedNotes(notes, entry);
    if notes.Some? && notes.value != "" {
      assert text[|text| - |entry|..] == (text[|notes.value|..])[1..];
    }
  }

  /** Setting the notes changes no other column. */
  lemma NotesOnly(before: Request, notes: Option<string>)
    ensures forall f :: f != Notes ==> Column(before.(notes := notes), f) == Column(before, f)
  {
    forall f | f != Notes
      ensures Column(before.(notes := notes), f) == Column(before, f)
    {
      ApplyColumn(before, SetNotes(notes), f);
    }
  }

  /** The note log only grows: the old notes are a prefix of the new ones, the new entry is
      their suffix, and nothing else about the request changes. */
  lemma AddNoteKeepsLog(s: Store, id: int, note: string, now: Moment)
    requires Valid(s) && id in s.records
    ensures var after := AddNote(s, id, note, now).1.value;
      var before := s.records[id];
      after.notes.Some? && EndsWith(after.notes.value, NoteEntry(now, note))
      && (before.notes.Some? ==> StartsWith(after.notes.value, before.notes.value))
      && forall f :: f != Notes ==> Column(after, f) == Column(before, f)
  {
    var before := s.records[id];
    AppendedNotesGrow(before.notes, NoteEntry(now, note));
    NotesOnly(before, AddNote(s, id, note, now).1.value.notes);
  }

  /** `record_response(id, docs, pages, withheld, exemptions, summary, date_response)` on day
      `today`. A missing id gives `None`. */
  function RecordResponse(s: Store, id: int, docs: int, pages: int, withheld: int, exemptions: string,
                          summary: string, dateResponse: Option<Day>, today: Day): (res: (Store, Option<Request>))
    requires Valid(s)
    ensures id !in s.records ==> res == (s, None)
    ensures id in s.records ==>
      var (s', updated) := res;
      updated.Some? && Valid(s') && s'.records == s.records[id := updated.value] && s'.order == s.order
      && (updated.value.status == PartialResponse <==> withheld > 0)
      && (updated.value.status == Complete <==> withheld <= 0)
      && updated.value.dateResponse == Some(if dateResponse.Some? then dateResponse.value else today)
      && updated.value.docsReceived == docs && updated.value.pagesReceived == pages
      && updated.value.pagesWithheld == withheld && updated.value.exemptionsCited == Some(exemptions)
      && updated.value.responseSummary == Some(summary)
  {
    if id !in s.records then (s, None)
    else
      var r := s.records[id].(docsReceived := docs, pagesReceived := pages, pagesWithheld := withheld,
                              exemptionsCited := Some(exemptions), responseSummary := Some(summary),
                              dateResponse := Some(dateResponse.GetOr(today)),
                              status := if withheld > 0 then PartialResponse else Complete);
      ReplaceValid(s, r);
      (Replace(s, r), Some(r))
  }

  /** The columns `record_response` writes. */
  const ResponseColumns: set<Field> :=
    {DocsReceived, PagesReceived, PagesWithheld, ExemptionsCited, ResponseSummary, DateResponse, Status}

  /** Recording a response leaves every column it does not write as it was. */
  lemma RecordResponseKeepsOthers(s: Store, id: int, docs: int, pages: int, withheld: int, exemptions: string,
                                  summary: string, dateResponse: Option<Day>, today: Day, f: Field)
    requires Valid(s) && id in s.records && f !in ResponseColumns
    ensures Column(RecordResponse(s, id, docs, pages, withheld, exemptions, summary, dateResponse, today).1.value, f)
            == Column(s.records[id], f)
  {
  }

  /** A request whose response was recorded with nothing withheld is complete, so never overdue. */
  lemma RecordedResponseNotOverdue(s: Store, id: int, docs: int, pages: int, exemptions: string,
                                  summary: string, dateResponse: Option<Day>, today: Day, later: Day)
    requires Valid(s) && id in s.records
    ensures !IsOverdue(RecordResponse(s, id, docs, pages, 0, exemptions, summary, dateResponse, today).1.value, later)
  {
  }

  /** `delete_request(id)`: true iff the row existed; afterwards it is gone and the other rows
      are untouched. */
  function Delete(s: Store, id: int): (res: (Store, bool))
    requires Valid(s)
    ensures res.1 <==> id in s.records
    ensures Valid(res.0)
    ensures res.0.records == s.records - {id}
    ensures Get(res.0, id).None?
    ensures forall other :: other != id ==> Get(res.0, other) == Get(s, other)
  {
    if id !in s.records then (s, false)
    else
      var k := IndexOf(s.order, id);
      var s' := Store(s.records - {id}, s.order[..k] + s.order[k + 1..], s.clock);
      DeleteCovers(s, k);
      DeleteOrdered(s, k);
      (s', true)
  }

  /** Cutting a row out of the order keeps the order and the table in step. */
  lemma DeleteCovers(s: Store, k: nat)
    requires Valid(s) && k < |s.order|
    ensures OrderCoversRecords(Store(s.records - {s.order[k]}, s.order[..k] + s.order[k + 1..], s.clock))
  {
    var id := s.order[k];
    var order' := s.order[..k] + s.order[k + 1..];
    var records' := s.records - {id};
    assert forall i :: 0 <= i < |order'| ==> order'[i] == s.order[if i < k then i else i + 1];
    forall i | 0 <= i < |order'|
      ensures order'[i] in records'
    {
      var ii := if i < k then i else i + 1;
      assert s.records[s.order[ii]].created != s.records[s.order[k]].created;
    }
    forall x | x in records'
      ensures x in order'
    {
      var i := IndexOf(s.order, x);
      if i < k {
        assert order'[i] == x;
      } else {
        assert order'[i - 1] == x;
      }
    }
  }

  /** Cutting a row out of the order keeps the creation stamps rising. */
  lemma DeleteOrdered(s: Store, k: nat)
    requires Valid(s) && k < |s.order|
    requires OrderCoversRecords(Store(s.records - {s.order[k]}, s.order[..k] + s.order[k + 1..], s.clock))
    ensures Valid(Store(s.records - {s.order[k]}, s.order[..k] + s.order[k + 1..], s.clock))
  {
    var s' := Store(s.records - {s.order[k]}, s.order[..k] + s.order[k + 1..], s.clock);
    forall i, j | 0 <= i < j < |s'.order|
      ensures s'.records[s'.order[i]].created < s'.records[s'.order[j]].created
    {
      var ii := if i < k then i else i + 1;
      var jj := if j < k then j else j + 1;
      assert s'.order[i] == s.order[ii] && s'.order[j] == s.order[jj];
      assert s.records[s.order[ii]].created < s.records[s.order[jj]].created;
    }
  }

  /** Five keyword arguments are applied one after the other. */
  lemma ApplyFive(r0: Request, a0: Assign, a1: Assign, a2: Assign,
                  a3: Assign, a4: Assign)
    ensures ApplyAll(r0, [a0, a1, a2, a3, a4])
      == Apply(Apply(Apply(Apply(Apply(r0, a0), a1), a2), a3), a4)
  {
    assert ApplyAll(r0, [a0]) == Apply(r0, a0) by {
      assert [a0][..0] == [];
    }
    assert ApplyAll(r0, [a0, a1]) == Apply(ApplyAll(r0, [a0]), a1) by {
      assert [a0, a1][..1] == [a0];
    }
    assert ApplyAll(r0, [a0, a1, a2]) == Apply(ApplyAll(r0, [a0, a1]), a2) by {
      assert [a0, a1, a2][..2] == [a0, a1];
    }
    assert ApplyAll(r0, [a0, a1, a2, a3]) == Apply(ApplyAll(r0, [a0, a1, a2]), a3) by {
      assert [a0, a1, a2, a3][..3] == [a0, a1, a2];
    }
    assert ApplyAll(r0, [a0, a1, a2, a3, a4]) == Apply(ApplyAll(r0, [a0, a1, a2, a3]), a4) by {
      assert [a0, a1, a2, a3, a4][..4] == [a0, a1, a2, a3];
    }
  }

  // Single keyword arguments as plain field updates, one lemma per column to keep each proof small.

  lemma StepDateFiled(r: Request, v: Option<Day>)
    ensures Apply(r, SetDateFiled(v)) == r.(dateFiled := v)
  {
  }

  lemma StepDeadline(r: Request, v: Option<Day>)
    ensures Apply(r, SetDeadline(v)) == r.(deadline := v)
  {
  }

  lemma StepStatus(r: Request, v: RequestStatus)
    ensures Apply(r, SetStatus(v)) == r.(status := v)
  {
  }

  lemma StepFilingMethod(r: Request, v: Option<string>)
    ensures Apply(r, SetFilingMethod(v)) == r.(filingMethod := v)
  {
  }

  lemma StepNotes(r: Request, v: Option<string>)
    ensures Apply(r, SetNotes(v)) == r.(notes := v)
  {
  }

  lemma StepFeeWaiver(r: Request)
    ensures Apply(r, SetFeeWaiverRequested(true)) == r.(feeWaiverRequested := true)
  {
  }

  /** One more keyword argument after the others. */
  lemma ApplyAllSnoc(r: Request, assigns: seq<Assign>, a: Assign)
    ensures ApplyAll(r, assigns + [a]) == Apply(ApplyAll(r, assigns), a)
  {
    assert (assigns + [a])[..|assigns|] == assigns;
  }

  /** A created row is the fresh row with the keyword arguments applied. */
  lemma CreatedIsApplied(s: Store, id: int, agency: string, jurisdiction: string, topic: string,
                         requestText: string, extra: seq<Assign>)
    requires Valid(s) && id !in s.records
    requires Create(s, id, agency, jurisdiction, topic, requestText, extra).Ok?
    ensures var (s', r) := Create(s, id, agency, jurisdiction, topic, requestText, extra).value;
      r == ApplyAll(NewRecord(id, s.clock, agency, jurisdiction, topic, requestText), extra)
      && Valid(s') && s'.records == s.records[id := r]
  {
  }
}

=== FILE: uk_foi.dfy ===
/** The UK Freedom of Information Act 2000 request generator: authority-name resolution and the
    decisions `generate` makes around the rendered letter.
 */
module UKFOI {
  import opened Outcomes
  import opened Text
  import opened GeneratorBase

  datatype AuthorityInfo = AuthorityInfo(fullName: string, foiEmail: string)

  /** The registry keys, in registry order. */
  const Keys: seq<string> := ["DEFRA", "FSA", "EA", "APHA", "VMD", "NRW", "SEPA"]

  /** `UK_AGENCIES`, in registry order, keeping the fields the generator reads. */
  const Registry: seq<(string, AuthorityInfo)> := [
    ("DEFRA", AuthorityInfo("Department for Environment, Food and Rural Affairs", "defra.foi@defra.gov.uk")),
    ("FSA", AuthorityInfo("Food Standards Agency", "foi@food.gov.uk")),
    ("EA", AuthorityInfo("Environment Agency", "enquiries@environment-agency.gov.uk")),
    ("APHA", AuthorityInfo("Animal and Plant Health Agency", "foi@apha.gov.uk")),
    ("VMD", AuthorityInfo("Veterinary Medicines Directorate", "foi@vmd.gov.uk")),
    ("NRW", AuthorityInfo("Natural Resources Wales", "foi@naturalresourceswales.gov.uk")),
    ("SEPA", AuthorityInfo("Scottish Environment Protection Agency", "foi@sepa.org.uk"))]

  lemma KeysOfRegistry()
    ensures KeysOf(Registry) == Keys
  {
  }

  /** Every registered authority has an FOI email address. */
  lemma RegistryEmails(key: string)
    ensures Lookup(Registry, key).Some? ==> Lookup(Registry, key).value.foiEmail != ""
  {
    LookupHolds(Registry, key, (a: AuthorityInfo) => a.foiEmail != "");
  }

  const FoodStandards := "FOOD STANDARDS"

  /** The alias table of `_resolve_agency`, in the order it is scanned; each alias names its key by
      position in `Keys`. */
  const Aliases: seq<(string, nat)> := [
    ("ENVIRONMENT AGENCY", 2),         // EA
    (FoodStandards, 1),                // FSA
    (FoodStandards + " AGENCY", 1),    // FSA
    ("ANIMAL AND PLANT HEALTH", 3),    // APHA
    ("VETERINARY MEDICINES", 4),       // VMD
    ("NATURAL RESOURCES WALES", 5)]    // NRW

  /** `_resolve_agency`. */
  function ResolveAgency(raw: string): (key: string)
    ensures key in Keys || key == raw
    ensures Normalise(raw) in Keys ==> key == Normalise(raw)
  {
    ResolveByAlias(raw, Keys, Aliases)
  }

  /** The alias "FOOD STANDARDS AGENCY" is dead: any name containing it contains the earlier alias
      "FOOD STANDARDS", which wins. */
  lemma LongFoodAliasShadowed(upper: string)
    ensures FirstAlias(upper, Aliases, 0) != Some(2)
  {
    assert Aliases[2].0[..|FoodStandards|] == Aliases[1].0;
    assert SliceAt(Aliases[2].0, Aliases[2].0, 0);
    ContainsPrefix(Aliases[2].0, Aliases[2].0, |FoodStandards|);
    ShadowedAlias(upper, Aliases, 1, 2);
  }

  /** No alias leads to DEFRA or SEPA. */
  lemma UnaliasedKeys(i: nat)
    requires i < |Aliases|
    ensures Keys[Aliases[i].1] != "DEFRA" && Keys[Aliases[i].1] != "SEPA"
  {
  }

  /** `OnlyByKey` for the normalised name: DEFRA and SEPA come only from the name itself, either as
      the normalised key or as a raw name passed through. */
  lemma OnlyByKeyStage(upper: string, raw: string)
    ensures ResolveNormalised(upper, raw, Keys, Aliases) in {"DEFRA", "SEPA"} ==>
      ResolveNormalised(upper, raw, Keys, Aliases) in {upper, raw}
  {
    if upper !in Keys {
      match FirstAlias(upper, Aliases, 0)
      case Some(i) =>
        ResolvesThroughAlias(upper, raw, Keys, Aliases, i);
        UnaliasedKeys(i);
      case None =>
    }
  }

  /** DEFRA and SEPA have no alias: a name resolves to either only when it normalises to that key. */
  lemma OnlyByKey(raw: string)
    ensures ResolveAgency(raw) in {"DEFRA", "SEPA"} ==> Normalise(raw) == ResolveAgency(raw)
  {
    OnlyByKeyStage(Normalise(raw), raw);
    if raw in Keys {
      KeyNormalises(raw);
    }
  }

  /** The keys are already normalised. */
  lemma KeyNormalises(key: string)
    requires key in Keys
    ensures Normalise(key) == key
  {
    CanonicalKey(key);
  }

  /** Each key resolves to itself, so resolving a resolved key changes nothing. */
  lemma KeysResolveToThemselves(key: string)
    requires key in Keys
    ensures ResolveAgency(key) == key
  {
    KeyNormalises(key);
  }

  const LegalBasis := "Freedom of Information Act 2000, Section 1; " + "Environmental Information Regulations 2004 (if applicable)"

  /** `generate`, given the rendered letter: an unresolvable authority is an error; otherwise the
      request goes by email to the resolved authority with a 20-working-day response period, the
      context is passed through unchanged and the metadata records whether the Environmental
      Information Regulations 2004 are invoked as well. */
  function Generate(ctx: RequestContext, rendered: string, eir: bool): (res: Result<GeneratedRequest>)
    ensures res.Err? <==> Lookup(Registry, ResolveAgency(ctx.agency)).None?
    ensures res.Err? <==> ResolveAgency(ctx.agency) !in Keys
    ensures res.Ok? ==>
      var info := Lookup(Registry, ResolveAgency(ctx.agency)).value;
      var g := res.value;
      g.jurisdiction == "UK" && g.deadlineDays == 20 && g.agency == info.fullName && g.filingMethod == "email"
      && g.text == Strip(rendered) && g.context == ctx
    ensures res.Ok? ==>
      var key := ResolveAgency(ctx.agency);
      var info := Lookup(Registry, key).value;
      res.value.metadata == map["agency_key" := Str(key), "agency_email" := Str(info.foiEmail), "eir_included" := Bool(eir)]
  {
    var key := ResolveAgency(ctx.agency);
    KeysOfRegistry();
    match Lookup(Registry, key)
    case None => Err("Unknown agency '" + ctx.agency + "'. Known agencies: " + Join(Keys, ", "))
    case Some(info) =>
      Ok(GeneratedRequest(
        Strip(rendered), "UK", info.fullName, LegalBasis, 20, "email", ctx,
        map["agency_key" := Str(key), "agency_email" := Str(info.foiEmail), "eir_included" := Bool(eir)]))
  }

  /** Every UK request carries a non-empty FOI email address, so it can always be emailed; an error
      means the name came back unresolved. */
  lemma UKRequestsEmailable(ctx: RequestContext, rendered: string, eir: bool)
    ensures Generate(ctx, rendered, eir).Ok? ==>
      Generate(ctx, rendered, eir).value.metadata["agency_email"].Str?
      && Generate(ctx, rendered, eir).value.metadata["agency_email"].s != ""
    ensures Generate(ctx, rendered, eir).Err? ==> ResolveAgency(ctx.agency) == ctx.agency
  {
    EmailOfRequest(ctx, rendered, eir);
    ErrorMeansUnresolved(ctx, rendered, eir);
  }

  lemma EmailOfRequest(ctx: RequestContext, rendered: string, eir: bool)
    ensures Generate(ctx, rendered, eir).Ok? ==>
      Generate(ctx, rendered, eir).value.metadata["agency_email"].Str?
      && Generate(ctx, rendered, eir).value.metadata["agency_email"].s != ""
  {
    RegistryEmails(ResolveAgency(ctx.agency));
  }

  lemma ErrorMeansUnresolved(ctx: RequestContext, rendered: string, eir: bool)
    ensures Generate(ctx, rendered, eir).Err? ==> ResolveAgency(ctx.agency) == ctx.agency
  {
  }

}

=== FILE: us_federal.dfy ===
/** The US federal FOIA generator: agency-name resolution and the decisions `generate` makes around
    the rendered letter.
 */
module USFederal {
  import opened Outcomes
  import opened Text
  import opened GeneratorBase

  datatype AgencyInfo = AgencyInfo(fullName: string, email: string, portal: string)

  const USDA := "United States Department of Agriculture \U{2014} "
  const USDAPal := "https://efoia-pal.usda.gov/App/Home.aspx"

  /** `US_FEDERAL_AGENCIES`, in registry order, keeping the fields the generator reads. */
  const Registry: seq<(string, AgencyInfo)> := [
    ("USDA-APHIS", AgencyInfo(USDA + "Animal and Plant Health Inspection Service", "APHIS.FOIA@usda.gov", USDAPal)),
    ("USDA-FSIS", AgencyInfo(USDA + "Food Safety and Inspection Service", "fsis.foia@usda.gov", USDAPal)),
    ("USDA-AMS", AgencyInfo(USDA + "Agricultural Marketing Service", "AMS.FOIA@usda.gov", USDAPal)),
    ("USDA-FSA", AgencyInfo(USDA + "Farm Service Agency", "FSA.FOIA@usda.gov", USDAPal)),
    ("EPA", AgencyInfo("United States Environmental Protection Agency", "hq.foia@epa.gov",
                       "https://www.epa.gov/foia/how-submit-foia-request")),
    ("FDA", AgencyInfo("United States Food and Drug Administration", "FDAFOIA@fda.hhs.gov",
                       "https://www.accessdata.fda.gov/scripts/foi/FOIRequest/requestinfo.cfm")),
    ("OSHA", AgencyInfo("Occupational Safety and Health Administration", "FOIA-OSHA@dol.gov", "https://www.osha.gov/foia")),
    ("USDA-NRCS", AgencyInfo(USDA + "Natural Resources Conservation Service", "NRCS.FOIA@usda.gov", USDAPal))]

  /** The registry keys, in registry order. */
  const Keys: seq<string> := ["USDA-APHIS", "USDA-FSIS", "USDA-AMS", "USDA-FSA", "EPA", "FDA", "OSHA", "USDA-NRCS"]

  lemma KeysOfRegistry()
    ensures KeysOf(Registry) == Keys
  {
  }

  /** Every registered agency has an email address and a portal. */
  lemma RegistryComplete(key: string)
    ensures Lookup(Registry, key).Some? ==> Lookup(Registry, key).value.email != "" && Lookup(Registry, key).value.portal != ""
  {
    EntriesComplete();
    LookupHolds(Registry, key, (a: AgencyInfo) => a.email != "" && a.portal != "");
  }

  lemma EntriesComplete()
    ensures forall i :: 0 <= i < |Registry| ==> Registry[i].1.email != "" && Registry[i].1.portal != ""
  {
  }

  /** The exact aliases, tried after the keys themselves. */
  const Aliases: map<string, string> :=
    map["USDA" := "USDA-APHIS", "APHIS" := "USDA-APHIS", "FSIS" := "USDA-FSIS",
        "AMS" := "USDA-AMS", "FSA" := "USDA-FSA", "NRCS" := "USDA-NRCS"]

  /** `_resolve_agency_key`: a key, then an exact alias, then the first key in registry order that
      overlaps the input; failing all three, the raw input. */
  function ResolveAgencyKey(raw: string): (key: string)
    ensures key in Keys || key == raw
    ensures Normalise(raw) in Keys ==> key == Normalise(raw)
    ensures Normalise(raw) !in Keys && Normalise(raw) in Aliases ==> key == Aliases[Normalise(raw)]
  {
    var upper := Normalise(raw);
    if upper in Keys then upper
    else if upper in Aliases then Aliases[upper]
    else match FirstOverlap(upper, Keys, 0)
      case Some(i) => Keys[i]
      case None => raw
  }

  /** The substring stage picks the first overlapping key: none before it overlaps, and the input
      comes back raw only when it overlaps no key at all. */
  lemma SubstringStage(raw: string)
    requires Normalise(raw) !in Keys && Normalise(raw) !in Aliases
    ensures ResolveAgencyKey(raw) == raw ||
      exists i :: 0 <= i < |Keys| && Keys[i] == ResolveAgencyKey(raw) && Overlaps(Normalise(raw), Keys[i])
        && forall j :: 0 <= j < i ==> !Overlaps(Normalise(raw), Keys[j])
    ensures (forall j :: 0 <= j < |Keys| ==> !Overlaps(Normalise(raw), Keys[j])) ==> ResolveAgencyKey(raw) == raw
  {
    var upper := Normalise(raw);
    match FirstOverlap(upper, Keys, 0)
    case Some(i) =>
      assert ResolveAgencyKey(raw) == Keys[i];
    case None =>
      assert ResolveAgencyKey(raw) == raw;
  }

  /** A blank name overlaps every key, so it resolves to the first: the plant-health service. */
  lemma BlankResolvesToFirst(raw: string)
    requires Normalise(raw) == ""
    ensures ResolveAgencyKey(raw) == "USDA-APHIS"
  {
    EmptyOverlaps(Keys[0]);
    assert "" !in Keys;
    assert "" !in Aliases;
  }

  /** Each canonical key resolves to itself, so resolving a resolved key changes nothing. */
  lemma KeysResolveToThemselves(key: string)
    requires key in Keys
    ensures ResolveAgencyKey(key) == key
  {
    CanonicalKey(key);
  }

  const PortalPreferred := "online portal preferred; email accepted"

  const LegalBasis := "Freedom of Information Act, 5 U.S.C. \U{A7} 552"

  /** `generate`, given the rendered letter: an unresolvable agency is an error; otherwise the context
      is merged with the chosen template and the request is addressed to the resolved agency. */
  function Generate(ctx: RequestContext, templates: seq<Template>, rendered: string): (res: Result<GeneratedRequest>)
    ensures res.Err? <==> Lookup(Registry, ResolveAgencyKey(ctx.agency)).None?
    ensures res.Err? <==> ResolveAgencyKey(ctx.agency) !in Keys
    ensures res.Ok? ==>
      var info := Lookup(Registry, ResolveAgencyKey(ctx.agency)).value;
      var g := res.value;
      g.jurisdiction == "US-Federal" && g.deadlineDays == 20 && g.agency == info.fullName
      && g.text == Strip(rendered) && g.context == MergeTemplate(ctx, templates).0
      && (g.filingMethod == PortalPreferred <==> info.portal != "")
    ensures res.Ok? ==>
      var key := ResolveAgencyKey(ctx.agency);
      var info := Lookup(Registry, key).value;
      res.value.metadata == map["agency_key" := Str(key), "agency_email" := Str(info.email), "agency_portal" := Str(info.portal)]
  {
    var key := ResolveAgencyKey(ctx.agency);
    KeysOfRegistry();
    match Lookup(Registry, key)
    case None => Err("Unknown agency '" + ctx.agency + "'. Known agencies: " + Join(Keys, ", "))
    case Some(info) =>
      var merged := MergeTemplate(ctx, templates).0;
      Ok(GeneratedRequest(
        Strip(rendered), "US-Federal", info.fullName, LegalBasis, 20,
        if info.portal != "" then PortalPreferred else "email", merged,
        map["agency_key" := Str(key), "agency_email" := Str(info.email), "agency_portal" := Str(info.portal)]))
  }

  /** Every federal agency has a portal and an email address, so a generated request always prefers the
      portal and can always be emailed; an error means the name came back unresolved. */
  lemma GeneratedFederalRequests(ctx: RequestContext, templates: seq<Template>, rendered: string)
    ensures Generate(ctx, templates, rendered).Ok? ==>
      Generate(ctx, templates, rendered).value.filingMethod == PortalPreferred
      && Generate(ctx, templates, rendered).value.metadata["agency_email"].Str?
      && Generate(ctx, templates, rendered).value.metadata["agency_email"].s != ""
    ensures Generate(ctx, templates, rendered).Err? ==> ResolveAgencyKey(ctx.agency) == ctx.agency
  {
    var key := ResolveAgencyKey(ctx.agency);
    RegistryComplete(key);
    if Generate(ctx, templates, rendered).Ok? {
      assert Generate(ctx, templates, rendered).value.metadata["agency_email"] == Str(Lookup(Registry, key).value.email);
    }
  }
}

=== FILE: us_state.dfy ===
/** The US state public-records request generator: state and agency resolution, the decisions
    `generate` makes around the rendered letter, and the registry listings.
 */
module USState {
  import opened Outcomes
  import opened Text
  import opened GeneratorBase

  /** The fields of a `key_agencies` entry the generator reads. */
  datatype AgencyDetails = AgencyDetails(fullName: string, email: string)

  /** `StateInfo`, keeping the fields the generator reads; `agencies` keeps `key_agencies` in order. */
  datatype StateInfo = StateInfo(
    state: string, statuteName: string, statuteCitation: string, responseDays: nat, responseType: string,
    appealBody: string, agencies: seq<(string, AgencyDetails)>)

  /** The registry keys (two-letter abbreviations), in registry order. */
  const Keys: seq<string> := ["IA", "NC", "AR", "TX", "CA", "MN", "NE", "KS", "WI", "GA", "IN", "PA"]

  /** The state names, in registry order. */
  const StateNames: seq<string> := [
    "Iowa", "North Carolina", "Arkansas", "Texas", "California", "Minnesota", "Nebraska", "Kansas",
    "Wisconsin", "Georgia", "Indiana", "Pennsylvania"]

  const DistrictCourt := "District Court"
  const Calendar := "calendar"
  const Business := "business"

  /** `STATE_REGISTRY`, in registry order. */
  const Registry: seq<(string, StateInfo)> := [
    ("IA", StateInfo("Iowa", "Iowa Open Records Law", "Iowa Code Chapter 22", 20, Calendar,
       "Iowa Public Information Board (IPIB)",
       [("Iowa DNR", AgencyDetails("Iowa Department of Natural Resources", "webmaster@dnr.iowa.gov")),
        ("Iowa Dept of Agriculture", AgencyDetails("Iowa Department of Agriculture and Land Stewardship",
                                                   "iowaagriculture@iowaagriculture.gov"))])),
    ("NC", StateInfo("North Carolina", "North Carolina Public Records Law", "N.C. Gen. Stat. Chapter 132", 0, Calendar,
       "Superior Court (no administrative appeal body)",
       [("NC DEQ", AgencyDetails("North Carolina Department of Environmental Quality", "publicrecords@ncdenr.gov"))])),
    ("AR", StateInfo("Arkansas", "Arkansas Freedom of Information Act",
       "Ark. Code Ann. \U{A7} 25-19-101 et seq. (FOIA Act 541 of 1967)", 3, Business, "Circuit Court",
       [("ADEQ", AgencyDetails("Arkansas Department of Energy and Environment \U{2014} Division of Environmental Quality",
                               "FOIA@adeq.state.ar.us"))])),
    ("TX", StateInfo("Texas", "Texas Public Information Act", "Tex. Gov't Code Chapter 552", 10, Business,
       "Texas Attorney General, Open Records Division",
       [("TCEQ", AgencyDetails("Texas Commission on Environmental Quality", "piamail@tceq.texas.gov")),
        ("TAHC", AgencyDetails("Texas Animal Health Commission", "comments@tahc.texas.gov"))])),
    ("CA", StateInfo("California", "California Public Records Act",
       "Cal. Gov't Code \U{A7} 7920.000 et seq. (formerly \U{A7} 6250 et seq.)", 10, Calendar,
       "Superior Court (also may petition the State Auditor for fee disputes)",
       [("CDFA", AgencyDetails("California Department of Food and Agriculture", "PRA.Coordinator@cdfa.ca.gov")),
        ("CARB", AgencyDetails("California Air Resources Board", "helpline@arb.ca.gov"))])),
    ("MN", StateInfo("Minnesota", "Minnesota Government Data Practices Act", "Minn. Stat. Chapter 13", 0, Business,
       "Commissioner of the Department of Administration, or District Court",
       [("MPCA", AgencyDetails("Minnesota Pollution Control Agency", "data.practices@state.mn.us"))])),
    ("NE", StateInfo("Nebraska", "Nebraska Public Records Statutes", "Neb. Rev. Stat. \U{A7}\U{A7} 84-712 to 84-712.09",
       4, Business, DistrictCourt,
       [("NDEQ", AgencyDetails("Nebraska Department of Environment and Energy", "dee.publicrecords@nebraska.gov"))])),
    ("KS", StateInfo("Kansas", "Kansas Open Records Act", "K.S.A. \U{A7} 45-215 et seq.", 3, Business,
       "District Court (may also contact the Kansas Attorney General for opinion)",
       [("KDHE", AgencyDetails("Kansas Department of Health and Environment", "kdheinfo@ks.gov"))])),
    ("WI", StateInfo("Wisconsin", "Wisconsin Public Records Law", "Wis. Stat. \U{A7}\U{A7} 19.31–19.39", 0, Calendar,
       "Circuit Court; may also seek a mandamus action",
       [("WDNR", AgencyDetails("Wisconsin Department of Natural Resources", "DNROpenRecords@wisconsin.gov")),
        ("DATCP", AgencyDetails("Wisconsin Department of Agriculture, Trade and Consumer Protection",
                                "datcpweb@wisconsin.gov"))])),
    ("GA", StateInfo("Georgia", "Georgia Open Records Act", "O.C.G.A. \U{A7} 50-18-70 et seq.", 3, Business,
       "Superior Court; AG may mediate disputes",
       [("GA EPD", AgencyDetails("Georgia Environmental Protection Division", "epd.openrecords@dnr.ga.gov"))])),
    ("IN", StateInfo("Indiana", "Indiana Access to Public Records Act", "Ind. Code \U{A7} 5-14-3", 7, Calendar,
       "Public Access Counselor (informal opinion); then court",
       [("IDEM", AgencyDetails("Indiana Department of Environmental Management", "publicrecords@idem.in.gov"))])),
    ("PA", StateInfo("Pennsylvania", "Pennsylvania Right-to-Know Law", "65 P.S. \U{A7} 67.101 et seq.", 5, Business,
       "Office of Open Records (OOR) within 15 business days",
       [("PA DEP", AgencyDetails("Pennsylvania Department of Environmental Protection", "RA-EPRTK@pa.gov"))]))]

  lemma KeysOfRegistry()
    ensures KeysOf(Registry) == Keys
  {
  }

  lemma NamesOfRegistry()
    ensures |Registry| == |StateNames|
    ensures forall i :: 0 <= i < |Registry| ==> Registry[i].1.state == StateNames[i]
  {
  }

  /** Every registered state lists at least one agency, and every listed agency has an email
      address. */
  lemma RegistryAgencies(i: nat)
    requires i < |Registry|
    ensures Registry[i].1.agencies != []
    ensures forall j :: 0 <= j < |Registry[i].1.agencies| ==> Registry[i].1.agencies[j].1.email != ""
  {
  }

  /** Exactly North Carolina, Minnesota and Wisconsin give no response period. */
  lemma NoStatutoryPeriod(i: nat)
    requires i < |Registry|
    ensures Registry[i].1.responseDays == 0 <==> Keys[i] in {"NC", "MN", "WI"}
  {
  }

  const StatePrefix := "US-STATE-"

  /** The state input once upper-cased, stripped and rid of every "US-STATE-". */
  function StateInput(raw: string): string {
    ReplaceAll(Normalise(raw), StatePrefix, "")
  }

  /** The first state whose upper-cased name equals `upper`, scanning from `from`. */
  function FirstNamed(upper: string, names: seq<string>, from: nat): (r: Option<nat>)
    requires from <= |names|
    ensures r.Some? ==> from <= r.value < |names| && Upper(names[r.value]) == upper
    ensures forall j :: from <= j < (if r.Some? then r.value else |names|) ==> Upper(names[j]) != upper
    decreases |names| - from
  {
    if from == |names| then None
    else if Upper(names[from]) == upper then Some(from)
    else FirstNamed(upper, names, from + 1)
  }

  /** `_resolve_state`: a registered abbreviation, else the abbreviation of the first state whose name
      matches case-insensitively, else the normalised input, which is then not a key. */
  function ResolveState(raw: string): (abbr: string)
    ensures abbr in Keys || abbr == StateInput(raw)
    ensures StateInput(raw) in Keys ==> abbr == StateInput(raw)
    ensures StateInput(raw) !in Keys && (forall i :: 0 <= i < |StateNames| ==> Upper(StateNames[i]) != StateInput(raw)) ==>
      abbr == StateInput(raw)
  {
    var upper := StateInput(raw);
    if upper in Keys then upper
    else match FirstNamed(upper, StateNames, 0)
      case Some(i) => Keys[i]
      case None => upper
  }

  /** The keys are already normalised. */
  lemma KeyNormalises(key: string)
    requires key in Keys
    ensures Normalise(key) == key && |key| == 2
  {
    KeysShape();
    var i :| 0 <= i < |Keys| && Keys[i] == key;
    UpperPair(key);
  }

  /** Every key is two upper-case ASCII letters. */
  lemma KeysShape()
    ensures forall i :: 0 <= i < |Keys| ==> |Keys[i]| == 2 && IsUpperAscii(Keys[i][0]) && IsUpperAscii(Keys[i][1])
  {
  }

  lemma UpperPair(key: string)
    requires |key| == 2 && IsUpperAscii(key[0]) && IsUpperAscii(key[1])
    ensures Normalise(key) == key
  {
    CanonicalKey(key);
  }

  /** Each key resolves to itself. */
  lemma KeysResolveToThemselves(key: string)
    requires key in Keys
    ensures ResolveState(key) == key
  {
    KeyNormalises(key);
    ShortInputKept(key);
  }

  /** A normalised input too short to hold the prefix is its own state input. */
  lemma ShortInputKept(key: string)
    requires Normalise(key) == key && |key| == 2
    ensures StateInput(key) == key
  {
    TooLongToOccur(key, StatePrefix);
    ReplaceAbsent(key, StatePrefix, "");
  }

  /** Normalising "US-State-" followed by capital letters upper-cases the prefix only. */
  lemma PrefixNormalised(key: string)
    requires forall k :: 0 <= k < |key| ==> IsUpperAscii(key[k])
    ensures Normalise("US-State-" + key) == StatePrefix + key
  {
    UpperConcat("US-State-", key);
    assert Upper("US-State-") == StatePrefix;
    assert Upper(key) == key;
    StripNoSpace(StatePrefix + key);
  }

  /** A key of capital letters shorter than the prefix, written behind "US-State-" as generated
      jurisdictions carry it, comes out of the input clean-up bare. */
  lemma PrefixRemoved(key: string)
    requires |key| < |StatePrefix| && forall k :: 0 <= k < |key| ==> IsUpperAscii(key[k])
    ensures StateInput("US-State-" + key) == key
  {
    PrefixNormalised(key);
    TooLongToOccur(key, StatePrefix);
    ReplaceLeading(StatePrefix, key, "");
  }

  /** Each key behind the "US-State-" prefix that generated jurisdictions carry resolves to itself, so
      a generated jurisdiction names its state again. */
  lemma PrefixedKeysResolve(key: string)
    requires key in Keys
    ensures ResolveState("US-State-" + key) == key
  {
    PrefixRemoved(key);
  }

  /** The state names differ pairwise, already in their length or their capital first letter. */
  lemma NamesDistinct(i: nat, j: nat)
    requires j < i < |StateNames|
    ensures |StateNames[j]| != |StateNames[i]| || StateNames[j][0] != StateNames[i][0]
    ensures IsUpperAscii(StateNames[i][0]) && IsUpperAscii(StateNames[j][0])
  {
  }

  /** Strings that differ in length, or in their first letter once upper-cased, differ once upper-cased. */
  lemma UpperDiffers(a: string, b: string)
    requires |a| != |b| || (a != [] && b != [] && UpperChar(a[0]) != UpperChar(b[0]))
    ensures Upper(a) != Upper(b)
  {
    if |a| == |b| {
      assert Upper(a)[0] != Upper(b)[0];
    }
  }

  /** No state name contains a hyphen, and none is as short as a key. */
  lemma NoHyphenInNames(i: nat)
    requires i < |StateNames|
    ensures forall k :: 0 <= k < |StateNames[i]| ==> StateNames[i][k] != '-'
    ensures |StateNames[i]| > 2
  {
  }

  /** No earlier state name matches a later one once upper-cased. */
  lemma NamesBefore(i: nat)
    requires i < |StateNames|
    ensures forall j :: 0 <= j < i ==> Upper(StateNames[j]) != Upper(StateNames[i])
  {
    forall j | 0 <= j < i
      ensures Upper(StateNames[j]) != Upper(StateNames[i])
    {
      NamesDistinct(i, j);
      UpperDiffers(StateNames[j], StateNames[i]);
    }
  }

  /** `FullNameResolves` for the normalised name. */
  lemma FullNameStage(upper: string, i: nat)
    requires i < |StateNames| && upper == Upper(StateNames[i])
    ensures upper !in Keys
    ensures FirstNamed(upper, StateNames, 0) == Some(i)
  {
    NoHyphenInNames(i);
    NamesBefore(i);
    ShortKeys();
    FirstNamedIs(upper, StateNames, i);
  }

  lemma ShortKeys()
    ensures forall k :: 0 <= k < |Keys| ==> |Keys[k]| == 2
  {
  }

  /** A name that matches, with none before it matching, is the first match. */
  lemma FirstNamedIs(upper: string, names: seq<string>, i: nat)
    requires i < |names| && Upper(names[i]) == upper
    requires forall j :: 0 <= j < i ==> Upper(names[j]) != upper
    ensures FirstNamed(upper, names, 0) == Some(i)
  {
  }

  /** A hyphen-free string does not contain "US-STATE-". */
  lemma NoPrefixWithoutHyphen(u: string)
    requires forall k :: 0 <= k < |u| ==> u[k] != '-'
    ensures !Contains(u, StatePrefix)
  {
    assert StatePrefix[2] == '-';
    forall p | 0 <= p <= |u| - |StatePrefix|
      ensures !SliceAt(u, StatePrefix, p)
    {
      assert u[p + 2] != '-';
    }
  }

  /** A full state name, in any letter case and with surrounding whitespace, resolves to the state's
      abbreviation. */
  lemma FullNameResolves(raw: string, i: nat)
    requires i < |StateNames| && Normalise(raw) == Upper(StateNames[i])
    ensures ResolveState(raw) == Keys[i]
  {
    FullNameInput(raw, i);
    FullNameStage(Upper(StateNames[i]), i);
  }

  /** A full state name holds no "US-STATE-" to remove. */
  lemma FullNameInput(raw: string, i: nat)
    requires i < |StateNames| && Normalise(raw) == Upper(StateNames[i])
    ensures StateInput(raw) == Upper(StateNames[i])
  {
    UpperNoHyphen(i);
    NoPrefixWithoutHyphen(Normalise(raw));
    ReplaceAbsent(Normalise(raw), StatePrefix, "");
  }

  lemma UpperNoHyphen(i: nat)
    requires i < |StateNames|
    ensures forall k :: 0 <= k < |Upper(StateNames[i])| ==> Upper(StateNames[i])[k] != '-'
  {
    NoHyphenInNames(i);
  }

  /** The upper-cased agency names, in listing order. */
  function UpperNames(agencies: seq<(string, AgencyDetails)>): (names: seq<string>)
    ensures |names| == |agencies|
    ensures forall j :: 0 <= j < |agencies| ==> names[j] == Upper(agencies[j].0)
  {
    seq(|agencies|, j requires 0 <= j < |agencies| => Upper(agencies[j].0))
  }

  /** `_resolve_agency`: the first agency whose upper-cased name contains the normalised input or is
      contained in it; else the state's first agency; `{"full_name": raw}` only for a state with none. */
  function ResolveStateAgency(raw: string, agencies: seq<(string, AgencyDetails)>): (d: AgencyDetails)
    ensures agencies == [] ==> d == AgencyDetails(raw, "")
    ensures agencies != [] ==> exists j :: 0 <= j < |agencies| && d == agencies[j].1
    ensures forall j :: 0 <= j < |agencies| && Overlaps(Normalise(raw), Upper(agencies[j].0)) ==>
      exists k :: 0 <= k <= j && d == agencies[k].1 && Overlaps(Normalise(raw), Upper(agencies[k].0))
    ensures agencies != [] && (forall j :: 0 <= j < |agencies| ==> !Overlaps(Normalise(raw), Upper(agencies[j].0))) ==>
      d == agencies[0].1
  {
    var names := UpperNames(agencies);
    match FirstOverlap(Normalise(raw), names, 0)
    case Some(j) => agencies[j].1
    case None => if agencies != [] then agencies[0].1 else AgencyDetails(raw, "")
  }

  /** A blank agency name overlaps every agency name, so it selects the state's first agency. */
  lemma BlankAgencyIsFirst(raw: string, agencies: seq<(string, AgencyDetails)>)
    requires Normalise(raw) == [] && agencies != []
    ensures ResolveStateAgency(raw, agencies) == agencies[0].1
  {
    EmptyOverlaps(Upper(agencies[0].0));
  }

  const Unknown := "Unknown state '"

  /** `generate`, given the state registry and the rendered letter: an unresolvable state is an error;
      otherwise the letter goes by email to the resolved agency of the resolved state, under a
      jurisdiction naming the state, with the state's response period or 10 days when the statute
      names none. */
  function Generate(registry: seq<(string, StateInfo)>, ctx: RequestContext, rendered: string)
    : (res: Result<GeneratedRequest>)
    ensures res.Err? <==> Lookup(registry, ResolveState(ctx.jurisdiction)).None?
    ensures res.Err? <==> ResolveState(ctx.jurisdiction) !in KeysOf(registry)
    ensures res.Ok? ==>
      var abbr := ResolveState(ctx.jurisdiction);
      var info := Lookup(registry, abbr).value;
      var g := res.value;
      g.jurisdiction == "US-State-" + abbr && g.legalBasis == info.statuteName + ", " + info.statuteCitation
      && g.filingMethod == "email" && g.text == Strip(rendered) && g.context == ctx
    ensures res.Ok? ==>
      var info := Lookup(registry, ResolveState(ctx.jurisdiction)).value;
      res.value.deadlineDays > 0
      && (info.responseDays != 0 ==> res.value.deadlineDays == info.responseDays)
      && (info.responseDays == 0 ==> res.value.deadlineDays == 10)
    ensures res.Ok? ==>
      var abbr := ResolveState(ctx.jurisdiction);
      var info := Lookup(registry, abbr).value;
      var d := ResolveStateAgency(ctx.agency, info.agencies);
      res.value.agency == d.fullName
      && res.value.metadata == map["state" := Str(abbr), "appeal_body" := Str(info.appealBody), "agency_email" := Str(d.email)]
  {
    var abbr := ResolveState(ctx.jurisdiction);
    match Lookup(registry, abbr)
    case None => Err(Unknown + ctx.jurisdiction + "'. Supported states: " + Join(KeysOf(registry), ", "))
    case Some(info) =>
      var d := ResolveStateAgency(ctx.agency, info.agencies);
      Ok(GeneratedRequest(
        Strip(rendered), "US-State-" + abbr, d.fullName, info.statuteName + ", " + info.statuteCitation,
        if info.responseDays != 0 then info.responseDays else 10, "email", ctx,
        map["state" := Str(abbr), "appeal_body" := Str(info.appealBody), "agency_email" := Str(d.email)]))
  }

  /** Every state lists an agency and every listed agency has an email address. */
  predicate Emailable(registry: seq<(string, StateInfo)>) {
    forall i :: 0 <= i < |registry| ==>
      (registry[i].1.agencies != [] && forall j :: 0 <= j < |registry[i].1.agencies| ==> registry[i].1.agencies[j].1.email != "")
  }

  lemma RegistryEmailable()
    ensures Emailable(Registry)
  {
    forall i | 0 <= i < |Registry|
      ensures Registry[i].1.agencies != []
      ensures forall j :: 0 <= j < |Registry[i].1.agencies| ==> Registry[i].1.agencies[j].1.email != ""
    {
      RegistryAgencies(i);
    }
  }

  /** Over a registry where every state lists agencies with email addresses, a generated request always
      carries a non-empty email address. */
  lemma GeneratedEmailable(registry: seq<(string, StateInfo)>, ctx: RequestContext, rendered: string)
    requires Emailable(registry)
    ensures Generate(registry, ctx, rendered).Ok? ==>
      Generate(registry, ctx, rendered).value.metadata["agency_email"].Str?
      && Generate(registry, ctx, rendered).value.metadata["agency_email"].s != ""
  {
    var abbr := ResolveState(ctx.jurisdiction);
    if Lookup(registry, abbr).Some? {
      var info := Lookup(registry, abbr).value;
      var i :| 0 <= i < |registry| && registry[i] == (abbr, info);
      var d := ResolveStateAgency(ctx.agency, info.agencies);
      var j :| 0 <= j < |info.agencies| && d == info.agencies[j].1;
    }
  }

  /** A generated jurisdiction resolves back to the state it was generated for, so feeding a generated
      request's jurisdiction back in reaches the same state. */
  lemma JurisdictionRoundTrip(registry: seq<(string, StateInfo)>, ctx: RequestContext, rendered: string)
    requires KeysOf(registry) == Keys
    ensures Generate(registry, ctx, rendered).Ok? ==>
      ResolveState(Generate(registry, ctx, rendered).value.jurisdiction) == ResolveState(ctx.jurisdiction)
  {
    var abbr := ResolveState(ctx.jurisdiction);
    if abbr in Keys {
      PrefixedKeysResolve(abbr);
    }
  }

  /** `get_supported_states`: the registry keys in increasing order. */
  function SupportedStates(): (r: seq<string>)
    ensures StrictlySorted(r)
    ensures forall s :: s in r <==> s in Keys
  {
    SortedDistinct(Keys)
  }

  const Dash := " \U{2014} "

  /** `get_agencies`, as an ordered listing: every agency of every state under the label
      "<abbr> — <name>", state by state in registry order. */
  function AgencyListing(registry: seq<(string, StateInfo)>): (r: seq<(string, AgencyDetails)>)
    ensures forall i, j :: 0 <= i < |registry| && 0 <= j < |registry[i].1.agencies| ==>
      (registry[i].0 + Dash + registry[i].1.agencies[j].0, registry[i].1.agencies[j].1) in r
    ensures forall e :: e in r ==>
      (exists i, j :: 0 <= i < |registry| && 0 <= j < |registry[i].1.agencies|
        && e == (registry[i].0 + Dash + registry[i].1.agencies[j].0, registry[i].1.agencies[j].1))
    ensures Positioned(registry, r)
  {
    if registry == [] then []
    else
      var abbr := registry[0].0;
      var agencies := registry[0].1.agencies;
      var head := seq(|agencies|, j requires 0 <= j < |agencies| => (abbr + Dash + agencies[j].0, agencies[j].1));
      var rest := AgencyListing(registry[1..]);
      assert forall i, j :: 0 <= i < |registry| && 0 <= j < |registry[i].1.agencies| ==>
        (registry[i].0 + Dash + registry[i].1.agencies[j].0, registry[i].1.agencies[j].1) in head + rest
      by {
        forall i, j | 0 <= i < |registry| && 0 <= j < |registry[i].1.agencies|
          ensures (registry[i].0 + Dash + registry[i].1.agencies[j].0, registry[i].1.agencies[j].1) in head + rest
        {
          if i == 0 {
            assert head[j] == (registry[i].0 + Dash + registry[i].1.agencies[j].0, registry[i].1.agencies[j].1);
          } else {
            assert registry[i] == registry[1..][i - 1];
          }
        }
      }
      assert forall e :: e in head ==> exists j :: 0 <= j < |agencies| && e == head[j];
      PositionedCons(registry, head, rest);
      head + rest
  }

  /** How many agencies the first `i` states of the registry list. */
  function Before(registry: seq<(string, StateInfo)>, i: nat): nat
    requires i <= |registry|
  {
    if i == 0 then 0 else Before(registry, i - 1) + |registry[i - 1].1.agencies|
  }

  /** The listing in registry order: agency `j` of state `i` sits right after the agencies of the
      states before it, and nothing else is listed. */
  predicate Positioned(registry: seq<(string, StateInfo)>, r: seq<(string, AgencyDetails)>) {
    |r| == Before(registry, |registry|)
    && forall i, j :: 0 <= i < |registry| && 0 <= j < |registry[i].1.agencies| ==>
      Before(registry, i) + j < |r| && r[Before(registry, i) + j] == Label(registry, i, j)
  }

  /** The listing entry of agency `j` of state `i`: "<abbr> — <name>" and the agency's details. */
  function Label(registry: seq<(string, StateInfo)>, i: nat, j: nat): (string, AgencyDetails)
    requires i < |registry| && j < |registry[i].1.agencies|
  {
    (registry[i].0 + Dash + registry[i].1.agencies[j].0, registry[i].1.agencies[j].1)
  }

  /** Dropping the first state moves every later state's agencies back by the first state's count. */
  lemma {:induction false} BeforeShift(registry: seq<(string, StateInfo)>, i: nat)
    requires 1 <= i <= |registry|
    ensures Before(registry, i) == |registry[0].1.agencies| + Before(registry[1..], i - 1)
    decreases i
  {
    if i > 1 {
      BeforeShift(registry, i - 1);
      assert registry[i - 1] == registry[1..][i - 2];
    }
  }

  /** The first state's labels in front of a positioned listing of the other states position the
      whole registry. */
  lemma PositionedCons(registry: seq<(string, StateInfo)>, head: seq<(string, AgencyDetails)>, rest: seq<(string, AgencyDetails)>)
    requires registry != []
    requires |head| == |registry[0].1.agencies|
    requires forall j :: 0 <= j < |head| ==>
      head[j] == (registry[0].0 + Dash + registry[0].1.agencies[j].0, registry[0].1.agencies[j].1)
    requires Positioned(registry[1..], rest)
    ensures Positioned(registry, head + rest)
  {
    BeforeShift(registry, |registry|);
    forall i, j | 0 <= i < |registry| && 0 <= j < |registry[i].1.agencies|
      ensures Before(registry, i) + j < |head + rest| && (head + rest)[Before(registry, i) + j] == Label(registry, i, j)
    {
      ConsAt(registry, head, rest, i, j);
    }
  }

  /** One entry of `PositionedCons`. */
  lemma ConsAt(registry: seq<(string, StateInfo)>, head: seq<(string, AgencyDetails)>, rest: seq<(string, AgencyDetails)>,
               i: nat, j: nat)
    requires i < |registry| && j < |registry[i].1.agencies|
    requires |head| == |registry[0].1.agencies|
    requires forall j :: 0 <= j < |head| ==>
      head[j] == (registry[0].0 + Dash + registry[0].1.agencies[j].0, registry[0].1.agencies[j].1)
    requires Positioned(registry[1..], rest)
    ensures Before(registry, i) + j < |head + rest| && (head + rest)[Before(registry, i) + j] == Label(registry, i, j)
  {
    var r := head + rest;
    if i == 0 {
      assert r[j] == head[j];
    } else {
      var t := registry[1..];
      BeforeShift(registry, i);
      assert registry[i] == t[i - 1];
      assert Label(registry, i, j) == Label(t, i - 1, j);
      var k := Before(t, i - 1) + j;
      assert k < |rest| && rest[k] == Label(t, i - 1, j);
      assert r[|head| + k] == rest[k];
    }
  }

}
